=== FILE: README.md ===
# STOQS ingestion core in Dafny

A model of the sequential core of STOQS, the Spatial Temporal Oceanographic
Query System. It covers the loaders that read OPeNDAP datasets into the STOQS
database, the pure helpers and serialisers around them, and the small scripts
that prepare or analyse data. Each Python component is one Dafny module with
immutable datatypes and pure functions. Where the code loops, a method is
proved equal to a recursive reference definition. A Python exception is a
`Failure` of a `Result`, or an `Exited`/`Fatal` outcome of a loader step.

- `Store` and `Table` hold the database as a value: the tables of
  `stoqs/models.py` the loaders write. Their `unique`/`unique_together`
  constraints and foreign keys form the invariant `Store.Valid`, and every
  `get_or_create` and `save` preserves it.
- `Loader` models `STOQS_Loader` (`loaders/__init__.py`):
  - platform lookup against the tracking records;
  - the parameter cache and parameter creation;
  - measurement creation and its QC bounds;
  - coordinate checks and the valid-data precheck;
  - the post-load statistics and the simplified depth-time series.
- `Dap` models the OPeNDAP `Base_Loader` (`loaders/DAPloaders.py`): the time
  window, the strided slicing and the lock-step row generator.
- `DapLoad` models that loader's own `createMeasurement`,
  `preProcessParams`, the row and value loops of `process_data` with its
  counters and depth bounds, and its statistics pass.
- `Platforms` models the subclasses' `preProcessParams`, which normalise
  keys and derive values.
- `Rows` defines the row values all of these pass around.
- `Stats`, `Simplify`, `Spice` and `Postgresify` model the helpers of
  `utils/utils.py`: percentiles, median and histogram mode; Douglas–Peucker
  simplification; the spiciness polynomial; and the SQL rewriter.
- `Kml` models the KML serialiser (`utils/Viz/KML.py`).
- `Views` models the REST outputer (`stoqs/views/__init__.py`).
- `Query` models the query page's request handling (`stoqs/views/query.py`).
- `Router` models the per-request database router (`stoqs/db_router.py`).
- `Waveglider` models the waveglider CSV-to-NetCDF converter.
- `Monitor` models the LRAUV realtime monitor.
- `Canon` models the CANON campaign loader's naming and dispatch.
- `Drift` models the drift products of `contrib/analysis/drift_data.py`.
- `Biplots` models the plot naming and time-window stepping of
  `contrib/analysis/trajectory_biplots.py`.
- `Clock`, `Strs` and `Order` hold the parts of Python's `datetime`, `str`
  and string ordering these modules rely on; `Floats` holds what `float()`
  makes of text.
- `Findings.Variant` selects, where the code and its evident intent differ,
  the behaviour as written (`AsWritten`) or as intended (`Corrected`).

The model does not cover every case the same way:

- Floats are `real`, with no rounding.
- Square root, the seawater library, unit conversion, uuid generation, the
  UTM projection and the calendar stamp of an instant are function
  parameters. The proofs use only the properties stated of them.
- The dataset, the tracking records and the crawled file lists are
  parameters too.

## Model

| member | source | states |
|---|---|---|
| Biplots.Sanitize | contrib/analysis/trajectory_biplots.py:149-150 | `re.sub('[\s()]', '_', title)` keeps the title's length |
| Biplots.SanitizeMeans | contrib/analysis/trajectory_biplots.py:149-150 | every blank or parenthesis becomes `_` and every other character stays in place, so none is left and sanitising again changes nothing |
| Biplots.FormatPlain | contrib/analysis/trajectory_biplots.py:154-155 | `str.format` copies text without braces unchanged ahead of what the rest of the template gives |
| Biplots.FormatStem | contrib/analysis/trajectory_biplots.py:150-155 | a title without braces names the file after the sanitised title, `_` and the time |
| Biplots.FormatLoneBrace | contrib/analysis/trajectory_biplots.py:150-154 | a lone closing brace in the title makes the formatting raise |
| Biplots.FormatTime | contrib/analysis/trajectory_biplots.py:150-154 | the field `{time}` formats as the value |
| Biplots.FormatConversion | contrib/analysis/trajectory_biplots.py:150-154 | `{time!s}` gives the value and `{time!r}` its `repr()`; any other conversion makes the formatting raise |
| Biplots.FormatSpecField | contrib/analysis/trajectory_biplots.py:150-154 | `{time:spec}`, `{time!s:spec}` and `{time!r:spec}` apply the format spec to the value or its `repr()`, an empty spec leaving it unchanged and a spec the mini-language refuses raising |
| Biplots.FormatOtherName | contrib/analysis/trajectory_biplots.py:150-154 | a field named anything but `time`, the empty name included, makes the formatting raise, as only `time` is passed |
| Biplots.FormatUnclosed | contrib/analysis/trajectory_biplots.py:150-154 | a `{` that is never closed makes the formatting raise |
| Biplots.FormatFailsAlike | contrib/analysis/trajectory_biplots.py:153-154 | whether the formatting raises depends on the template alone, so the file name and the `*` pattern fail together, and the error is always the formatting's |
| Biplots.FilenameLayout | contrib/analysis/trajectory_biplots.py:144-167 | for a title without braces the file is directory, prefix and stem, `_`, the start's minute, the `_day`/`_night` suffixes and `.png`; the pattern has `*` for the minute and no `.png`, so it matches every file of the series |
| Biplots.NamesLayout | contrib/analysis/trajectory_biplots.py:154-165 | the file and pattern names laid out for a given formatted time |
| Biplots.SteppingOf | contrib/analysis/trajectory_biplots.py:214-223 | with a non-zero `--hourStep` the step is that many hours and the window `--hourWindow` hours, or the step when that is absent or zero; without one, step and window both span the whole extent |
| Biplots.StartAfterLinear | contrib/analysis/trajectory_biplots.py:224-275 | after n passes the window starts n steps after the extent's start |
| Biplots.WindowsAt | contrib/analysis/trajectory_biplots.py:224-276 | with a positive step the windows are the loop's successive starts, each ending one window later and within the extent and each named after the next start, and the next window would end past the extent |
| Biplots.NeverPasses | contrib/analysis/trajectory_biplots.py:236-276 | with a step that is not positive, a first window inside the extent keeps every later one inside it |
| Biplots.WindowsEndless | contrib/analysis/trajectory_biplots.py:222-276 | as written the loop fails to end exactly when the step is not positive and the first window fits, and then its guard holds on every pass; corrected, it always ends |
| Biplots.WholeExtent | contrib/analysis/trajectory_biplots.py:221-236 | without `--hourStep` over an extent longer than an instant there is one window, the whole extent, named after its end |
| Biplots.AsWrittenZeroExtent | contrib/analysis/trajectory_biplots.py:221-276 | as written, an extent of one instant without `--hourStep` makes the loop never end |
| Biplots.CorrectedZeroExtent | contrib/analysis/trajectory_biplots.py:221-236 | corrected, the one-instant extent gets exactly one plot |
| Biplots.WithData | contrib/analysis/trajectory_biplots.py:249-257 | the triples that have data in the window, all of them, in increasing order |
| Biplots.Placed | contrib/analysis/trajectory_biplots.py:259-262 | each triple with data drawn in its own place |
| Biplots.PanelsMeans | contrib/analysis/trajectory_biplots.py:249-267 | drawing raises exactly when five or more platforms are given and some triple has data; otherwise the panels are the triples with data, in order, one platform in the single cell and up to four in the cell of their index |
| Biplots.EachOfMeans | contrib/analysis/trajectory_biplots.py:236-285 | a pass per element, stopping at the first failure: it succeeds exactly when every pass does, with one result per element |
| Biplots.PlotsOfMeans | contrib/analysis/trajectory_biplots.py:236-285 | the figures succeed exactly when every window's figure does, one per window, in order |
| Biplots.NamesFailAlike | contrib/analysis/trajectory_biplots.py:144-167 | `getFilename` raises for one start instant exactly when it raises for any other |
| Biplots.LaterPassFails | contrib/analysis/trajectory_biplots.py:236-280 | once one window's figure has been drawn and saved, a later figure can fail only by drawing five or more platforms with data |
| Biplots.PlotForError | contrib/analysis/trajectory_biplots.py:236-280 | a window's figure fails only with the five-platform Exception or the formatting's error |
| Biplots.EndlessMeans | contrib/analysis/trajectory_biplots.py:236-280 | as written, with a step that is not positive and a first window that fits, every pass's window stays inside the extent; the run ends at the first pass that raises, with that pass's error, and is endless exactly when no pass raises; with a zero step every pass draws the first window again |
| Biplots.BadTitleFails | contrib/analysis/trajectory_biplots.py:236-280 | a title the formatting refuses stops the run at the first figure with the formatting's error, when the first window fits and at most four platforms are given, whatever the stepping |
| Biplots.LoneBraceTitleFails | contrib/analysis/trajectory_biplots.py:149-154 | a title with a lone `}` stops the run with ValueError at the first figure, even for a one-instant extent whose loop would otherwise never end |
| Biplots.MakePlotsNames | contrib/analysis/trajectory_biplots.py:169-290 | with a positive `--hourStep`, a title without braces and at most four platforms, the run succeeds exactly when the first window fits; each plot is saved under the minute of the next window's start, and the closing pattern matches every file |
| Biplots.PlotForLayout | contrib/analysis/trajectory_biplots.py:236-285 | for a title without braces and at most four platforms, a window's figure is drawn and saved under the minute of the next window's start |
| Canon.Fallback | loaders/CANON/__init__.py:86 | `stride or self.stride`: a missing or zero stride is the loader's default, any other is kept |
| Canon.FallbackStable | loaders/CANON/__init__.py:648-657 | passing on the stride a method settled on changes nothing |
| Canon.ActivityNames | loaders/CANON/__init__.py:82-92 | one activity name per file, in file order |
| Canon.ActivityNameParts | loaders/CANON/__init__.py:595-598 | an activity name is the file name (up to its first `.` in the profile-CTD methods) followed by ` (stride=N)` (the other methods, as at line 87, use the whole file name) |
| Canon.Slice | loaders/CANON/__init__.py:540 | Python's `s[i:j]` is never longer than j-i, as `aName[6:9]` here and `aName[:5]` at line 145 use it |
| Canon.PlatformOf | loaders/CANON/__init__.py:532-543 | a platform's colour key missing from the colour table is a KeyError |
| Canon.LowerUpper | loaders/CANON/__init__.py:215-216 | lower-casing forgets an earlier upper-casing |
| Canon.GliderNames | loaders/CANON/__init__.py:213-218 | a glider's platform is its first `_`-token upper-cased with `_Glider` after it, and its colour is found exactly when that token lower-cased is in the table, so name and colour agree whatever case the file used |
| Canon.StellaNames | loaders/CANON/__init__.py:540-541 | a Stella drifter's name is `Stella` and the seventh to ninth characters of its activity name (shorter when that name is short), its platform `Drifter_` and that name, found exactly when the name has a colour |
| Canon.LoadEach | loaders/CANON/__init__.py:87-90 | at most one load per file, and the only error is a missing colour |
| Canon.LoadEachMeans | loaders/CANON/__init__.py:87-90 | the files are loaded pairwise with their names, in order, exactly when every colour is found; otherwise the loop stops with KeyError at the first file whose colour is missing |
| Canon.LoadPlatformMeans | loaders/CANON/__init__.py:82-92 | a configured platform whose colours are all found loads each of its files once, in order, under `file (stride=N)` with N the stride given or else the default, from `base + file` (joined as a path for the moorings), with the loader its method names |
| Canon.BottlesMeans | loaders/CANON/__init__.py:623-634 | after the casts, a profile-CTD method names its bottle activity after the first five characters of the last cast's name, loads them as platform type 'ship', and reads the bottle files it is told to; with no casts that name does not exist (NameError) |
| Canon.AsWrittenJMpctdBottles | loaders/CANON/__init__.py:135-148 | as written, the John Martin profile-CTD method hands the Rachel Carson bottle files to the bottle loader; corrected, its own |
| Canon.LoadSeq | loaders/CANON/__init__.py:652-662 | `loadAll`'s loop never ends in AttributeError: each one is a warning and the next method runs |
| Canon.PlatformStrides | loaders/CANON/__init__.py:86-90 | a platform method loads every file with the stride it settled on |
| Canon.LoadSeqStrides | loaders/CANON/__init__.py:652-662 | every load of the loop uses the stride the methods are called with: the default as written, `loadAll`'s corrected |
| Canon.LoadAllStrides | loaders/CANON/__init__.py:646-662 | corrected, `loadAll(stride)` loads with the stride it was given (or the default when that is missing or zero); as written every load uses the default |
| Canon.LoadSeqSkips | loaders/CANON/__init__.py:654-662 | a method whose platform the script did not configure contributes nothing and does not stop the others |
| Canon.LoadSeqStops | loaders/CANON/__init__.py:656-662 | any error other than AttributeError ends `loadAll` with that method's calls |
| Canon.AsWrittenIgnoresStride | loaders/CANON/__init__.py:646-658 | with a stride of 5 given to `loadAll` and a default of 10, the first Dorado mission loads at stride 10 as written and at 5 corrected |
| Clock.EpochOrigin | loaders/CANON/toNetCDF/wgToNetcdf.py:78-80 | 1970-01-01 00:00:00 is second 0 |
| Clock.EpochTick | loaders/CANON/toNetCDF/wgToNetcdf.py:78-80 | every second of the calendar advances `diff.days * 86400 + diff.seconds` by exactly one, across minute, hour, day, month and year boundaries |
| Clock.TickValid | loaders/CANON/toNetCDF/wgToNetcdf.py:78 | every valid timestamp but the last second of year 9999 has a successor |
| Clock.EpochOrder | loaders/CANON/realtime/monitorLrauv.py:85 | seconds since the epoch order timestamps as the calendar does, and only equal timestamps share a count |
| Clock.ParseIso | loaders/CANON/toNetCDF/wgToNetcdf.py:77-78 | whatever `strptime` with `%Y-%m-%d %H:%M:%S` accepts is a valid date and time |
| Clock.PadFits | loaders/CANON/realtime/monitorLrauv.py:175 | a number below 10^w is written in exactly w digits that read back as the number |
| Clock.ParseFormatIso | loaders/CANON/toNetCDF/wgToNetcdf.py:77 | formatting a valid timestamp as `%Y-%m-%d %H:%M:%S` and parsing it back gives the same timestamp |
| Clock.CompactLayout | loaders/CANON/realtime/monitorLrauv.py:175 | `%Y%m%dT%H%M` is 13 characters with `T` at index 8, and `%Y%m%dT%H%M%S` is 15 characters extending it |
| Dap.WindowEnd | loaders/DAPloaders.py:459-465 | the window ends at the given end time, else at the last axis value; an empty axis without an end time raises IndexError |
| Dap.TimeWindow | loaders/DAPloaders.py:467-470 | the window is the first and last index whose axis value lies in [start, end]: both lie in the window and every index in it lies between them; IndexError exactly when no value is in the window |
| Dap.SliceIndices | loaders/DAPloaders.py:488-509 | `[lo:hi:stride]` reads lo, lo+stride, ... below both `hi` and the variable's length, and nothing when lo is past either |
| Dap.Slice | loaders/DAPloaders.py:488-509 | the strided read returns the values at exactly those indices, in order |
| Dap.LastIndexNeverRead | loaders/DAPloaders.py:470-509 | the last index of the time window is never read, and a window of one time step reads nothing |
| Dap.Select | loaders/DAPloaders.py:476-532 | exactly the wanted one-dimensional variables become iterators over their strided window, exactly the wanted 0-d ones become scalars holding what `float()` reads, and a scalar `float()` cannot read raises ValueError |
| Dap.ScalarOf | loaders/DAPloaders.py:529 | `float()` of a scalar leaves a number or NaN as it is and never yields text |
| Dap.Shortest | loaders/DAPloaders.py:536-542 | the length of the shortest iterator: no iterator is shorter, and some iterator has exactly that length |
| Dap.RowAt | loaders/DAPloaders.py:536-546 | row `i` holds the `i`-th value of every iterator and every scalar, and nothing else |
| Dap.Deliver | loaders/DAPloaders.py:535-552 | there are as many rows as the shortest iterator has values, row `i` being `RowAt(i)`; with scalars only the same row comes for ever; with nothing, no row |
| Dap.GenData | loaders/DAPloaders.py:423-552 | an empty time window raises IndexError before any variable is read; otherwise the rows are those of the selection over the window |
| DapLoad.CreateMeasurement | loaders/DAPloaders.py:555-585 | a depth outside [-1000, 4000] is skipped before any write; otherwise a new instant point is always saved, an activity-less one stops the load, and a new measurement is appended at the next id holding the row's depth and position |
| DapLoad.CreateMeasurementRepeats | loaders/DAPloaders.py:569-579 | unlike the base class, creating the same measurement twice stores two measurements: nothing is looked up |
| DapLoad.PreProcessParams | loaders/DAPloaders.py:587-604 | this loader passes a row exactly when its coordinates are present, numeric, not missing, not zero and not NaN, with no range check; it stops the load only on a text coordinate, with a ValueError or a TypeError |
| DapLoad.BaseCheckIsStricter | loaders/DAPloaders.py:587-604 | the base class accepts exactly this loader's rows whose coordinates also lie within range |
| DapLoad.Timestamp | loaders/DAPloaders.py:682-686 | `utcfromtimestamp` rejects text with an uncaught error, skips the row for NaN or a time outside years 1 to 9999, and otherwise keeps the number |
| DapLoad.Start | loaders/DAPloaders.py:656-663 | the counters start at zero loaded, a zero count for each included name, and depth bounds 8000 and -8000 |
| DapLoad.Count | loaders/DAPloaders.py:740-746 | after a stored value `loaded` and the name's count go up by one; as written a name without a count raises KeyError |
| DapLoad.CountKeepsAccounts | loaders/DAPloaders.py:740-746 | the counters keep accounting for exactly the stored values: `loaded` is their number, `parmCount` counts them by name, `parameterCount` holds each parameter with one less than its number of values |
| DapLoad.AsWrittenCountNeedsEmptyIncludes | loaders/DAPloaders.py:662-742 | taken on its own, the counting line raises KeyError exactly when `include_names` is empty and the name is seen for the first time; with includes both variants agree |
| DapLoad.StoreValue | loaders/DAPloaders.py:707-752 | a filtered-out name or an absent value (missing, `'null'`, NaN) changes nothing; otherwise at most one value is stored and counted, only the value table grows, and the load ends only on an ambiguous lookup or the as-written KeyError |
| DapLoad.SaveValue | loaders/DAPloaders.py:730-746 | a save that collides with an existing value for the same measurement and parameter is passed over; a saved one is counted |
| DapLoad.StoreValues | loaders/DAPloaders.py:707-752 | over a row's values, the value table only grows and the counters keep accounting for it |
| DapLoad.LoadChecked | loaders/DAPloaders.py:678-752 | a missing longitude, latitude or time ends the load with KeyError in that order; a rejected time skips the row; a row that gets a measurement has number depth and coordinates and its depth is logged |
| DapLoad.Measured | loaders/DAPloaders.py:687-705 | a depth outside the bounds changes nothing; a created measurement's depth is added to the depth bounds |
| DapLoad.LoadRow | loaders/DAPloaders.py:665-676 | a row the preprocessing skips changes nothing, a fatal one ends the load, and a passing one is loaded |
| DapLoad.LoadRows | loaders/DAPloaders.py:665-763 | through the row loop only the instant point, measurement and value tables change, each by appending, and the counters and depth bounds keep accounting for what was appended |
| DapLoad.Distinct | loaders/DAPloaders.py:743-746 | the keys of `parameterCount`: every counted parameter once |
| DapLoad.AsWrittenStatsOne | loaders/DAPloaders.py:838-896 | as written, the statistics are computed over the parameter's values in every activity; no values raises; a new row stores those statistics |
| DapLoad.AsWrittenSaveStats | loaders/DAPloaders.py:849-896 | the lookup uses every statistic, so an existing row with other statistics makes the insert collide and the parameter, histogram included, is passed over |
| DapLoad.UpdateStats | loaders/DAPloaders.py:832-899 | corrected, every parameter with values in the activity ends with current statistics |
| DapLoad.StoredOnce | stoqs/models.py:493-517 | one (activity, parameter) row holds one set of statistics |
| DapLoad.AsWrittenCountsOtherActivities | loaders/DAPloaders.py:839 | as written, one value of the parameter in another activity leaves the new row's statistics wrong for this activity |
| DapLoad.AsWrittenKeepsStaleStats | loaders/DAPloaders.py:850-879 | as written, reloading with changed values keeps the old statistics: the lookup misses and the insert collides |
| DapLoad.ValidDataNeedsIncludes | loaders/DAPloaders.py:155-165 | `initDB()` goes on only when an included variable has data, so `include_names` is not empty, the counting line cannot raise and both counters agree |
| DapLoad.CurrentIgnoresDepthRows | loaders/DAPloaders.py:809-810 | storing the simplified depth series leaves the statistics current |
| DapLoad.Conclude | loaders/DAPloaders.py:797-809 | after the row loop the activity records the number loaded and the depth bounds; corrected, every counted parameter then has current statistics |
| DapLoad.ProcessData | loaders/DAPloaders.py:638-817 | `initDB()` raises NoValidData exactly when no included variable has data, and the counting line never ends a load; a failing window or selection stops the load; rows of scalars only never end; a completed load has appended exactly `loaded` values and one measurement per logged depth, records the count and depth bounds on the activity, and (corrected) leaves every counted parameter with current statistics |
| DapLoad.LoadStream | loaders/DAPloaders.py:656-817 | once `initDB()` has passed, the load ends neither by the counting line nor by NoValidData, and otherwise keeps the outcomes `ProcessData` states |
| DapLoad.FinishLoad | loaders/DAPloaders.py:792-815 | after the loop the load ends with the activity updated, the statistics stored and the simplified depth series appended, and can fail only in the statistics pass (no values, or two rows found) |
| Drift.LoadRowAt | contrib/analysis/drift_data.py:61-71 | one CSV row changes only its own platform's lists, and those only when it lies within the start and end |
| Drift.LoadTrackingConcat | contrib/analysis/drift_data.py:58-60 | reading the feeds one after the other is reading one stream of rows |
| Drift.LoadTrackingMeans | contrib/analysis/drift_data.py:58-71 | since each fix is inserted at the front, a platform's lists are its kept rows last row first, followed by what they held before |
| Drift.LoadTrackingKeys | contrib/analysis/drift_data.py:58-71 | a platform has lists afterwards exactly when it had them before or one of its rows was kept |
| Drift.KeptOfMembers | contrib/analysis/drift_data.py:61-71 | a fix is stored for a platform exactly when a row of that platform within the time bounds carries it |
| Drift.TracksInTimeOrder | contrib/analysis/drift_data.py:59-71 | fed the tracking database's latest-first rows, every platform's fixes end up in time order |
| Drift.DeltaOf | contrib/analysis/drift_data.py:103-115 | a `timedelta` normalised to days, seconds in [0, 86400) and microseconds in [0, 10^6) that adds up to the difference |
| Drift.Dt | contrib/analysis/drift_data.py:115 | `seconds + days*86400` is the difference in whole seconds rounded down, negative exactly when the difference is |
| Drift.StepsFromMeans | contrib/analysis/drift_data.py:101-127 | from any row on, with the state the earlier rows left, the loop succeeds exactly on clean rows and appends one step per row |
| Drift.ProgressiveMeans | contrib/analysis/drift_data.py:100-127 | the loop raises exactly when the u and v times step differently, the depths differ, a lone row has no step or the first step is negative; otherwise every row moves by its velocity times its step |
| Drift.Cumsum | contrib/analysis/drift_data.py:134-135 | one position more than steps, starting at the origin |
| Drift.CumsumPartial | contrib/analysis/drift_data.py:134-135 | each position is the origin plus the sum of the steps before it |
| Drift.AtDepth | contrib/analysis/drift_data.py:123-125 | the steps of one depth, exactly those of the loop's rows at that depth |
| Drift.Vectors | contrib/analysis/drift_data.py:133-139 | a vector for exactly the depths the steps reach, each built from the steps at its depth |
| Drift.VectorAtMeans | contrib/analysis/drift_data.py:123-139 | a depth's vector starts at the mooring and after k steps is the mooring plus the first k displacements, one instant per step |
| Drift.AdcpDriftMeans | contrib/analysis/drift_data.py:73-139 | `computeADCPDrift` raises exactly on rows that are not clean; otherwise it gives a vector for exactly the depths of the rows |
| Drift.WidenBack | contrib/analysis/drift_data.py:170-172 | the returned extent narrowed back by `extend` is the computed box |
| Drift.BoundsFail | contrib/analysis/drift_data.py:159-168 | the loop raises exactly when an entry has no positions |
| Drift.GrowMeans | contrib/analysis/drift_data.py:161-168 | one entry's update covers the entry, contains the old box, and moves each bound only to a value of the entry |
| Drift.BoundsMeans | contrib/analysis/drift_data.py:155-168 | the loop's box contains the starting one, covers every position, and each side is the starting one or a coordinate of the data |
| Drift.ExtentFails | contrib/analysis/drift_data.py:149-168 | a given extent comes back as it is; otherwise the call raises exactly when an entry has no positions |
| Drift.ExtentMeans | contrib/analysis/drift_data.py:149-172 | the computed extent narrowed back by `extend` covers every position, and each side is the starting bound or a coordinate of the data |
| Floats.ParseFormatted | loaders/DAPloaders.py:1184 | `float()` reads the decimal text of a natural number back as that number |
| Floats.ParsePadded | loaders/__init__.py:658 | `float()` ignores leading white space |
| Floats.ParseNull | loaders/__init__.py:658 | `float('null')` raises ValueError |
| Floats.ParseNaN | loaders/__init__.py:658 | `float('NaN')` is NaN, the word read in any case |
| Floats.ParseFraction | loaders/__init__.py:658 | `float('1.5')` is 1.5 |
| Floats.ParseExponent | loaders/__init__.py:658 | `float('-0.25e1')` is -2.5: sign, fraction and exponent all count |
| Floats.ParseIncomplete | loaders/__init__.py:658 | a lone point and an exponent without digits raise ValueError |
| Kml.ReadCltMeans | utils/Viz/KML.py:14-25 | the colour table is read exactly when every line reads, and then holds one colour per line, in order |
| Kml.ReadLineMeans | utils/Viz/KML.py:22-23 | a line reads exactly when its fields after the first (split on two spaces) are three numbers, and gives those numbers in order |
| Kml.RoundMonotone | utils/Viz/KML.py:345 | Python 2's `round` (halves away from zero) never decreases |
| Kml.RoundBounds | utils/Viz/KML.py:307 | rounding a value between two integers stays between them |
| Kml.HexOf | utils/Viz/KML.py:307 | the hexadecimal spelling of a number has at least one digit |
| Kml.ParseHexOf | utils/Viz/KML.py:307 | the hexadecimal spelling reads back as the number |
| Kml.Hex02Byte | utils/Viz/KML.py:307 | `%02x` writes a byte as exactly two digits that read back as the byte |
| Kml.ChannelByte | utils/Viz/KML.py:307 | a colour component in [0, 1] becomes a byte written as two digits |
| Kml.GeColorLayout | utils/Viz/KML.py:307-352 | a table colour is eight characters: `ff`, then the blue, green and red bytes, each reading back as the rounded component times 255 |
| Kml.ColorIndexInRange | utils/Viz/KML.py:345-349 | the colour index exists exactly when the colour range has non-zero width and the table is not empty, and then lies inside the table |
| Kml.ClampMonotone | utils/Viz/KML.py:346-349 | clamping into the table keeps order |
| Kml.ScaledMonotone | utils/Viz/KML.py:345 | for an increasing range, the scaled value grows with the value |
| Kml.ScaledEnds | utils/Viz/KML.py:345 | the low limit scales to at most 0 and the high limit to at least the last table position |
| Kml.ColorIndexMonotone | utils/Viz/KML.py:345-349 | for an increasing range a larger value never gets an earlier colour |
| Kml.ColorIndexEnds | utils/Viz/KML.py:345-349 | values at or below the low limit get the first colour, values at or above the high limit the last |
| Kml.CoordOf | utils/Viz/KML.py:243-339 | a record keeps its coordinates when its latitude is in [-90, 90] and has longitude and latitude swapped otherwise; the depth is kept |
| Kml.CoordLatitude | utils/Viz/KML.py:333-337 | when either number is a valid latitude the placemark's latitude is one |
| Kml.Styles | utils/Viz/KML.py:305-324 | one point style per table colour, identified and coloured by that colour |
| Kml.PointsMeans | utils/Viz/KML.py:329-382 | one placemark per record, in order, at the record's coordinate and time, styled with the colour its value indexes; with records, failing exactly for a zero-width range or an empty table |
| Kml.LinesMeans | utils/Viz/KML.py:238-282 | n records give n-1 segments, segment i joining record i to record i+1 and stamped with the later record's time |
| Kml.FolderOfMeans | utils/Viz/KML.py:153-158 | a platform's folder has a point per record and, exactly when line strings are on, the segments between consecutive records |
| Kml.FoldersMeans | utils/Viz/KML.py:179-191 | one folder per platform listed, in the order given, each with its own records' points and lines |
| Kml.PlatformsOf | utils/Viz/KML.py:179-181 | the platforms of the folders, folder by folder |
| Kml.MakeKmlMeans | utils/Viz/KML.py:127-200 | the document has the given title and description, one folder per platform in sorted name order with a point per record and, exactly when line strings are on, its segments, and one point style per table colour |
| Kml.EmptyData | utils/Viz/KML.py:153-172 | with no data at all the as-written document fails (the style text is never bound); corrected it is the empty document with the colour styles |
| Kml.Reverse | utils/Viz/KML.py:101 | the records in reverse order |
| Kml.EveryOne | utils/Viz/KML.py:101 | a step of one keeps every record in order |
| Kml.BaseUrl | utils/Viz/KML.py:300-303 | icons are found under the site root when full icon URLs are on and relative to the static URL otherwise |
| Kml.EveryLength | utils/Viz/KML.py:101 | a positive step n keeps ⌈records / n⌉ records |
| Kml.EveryAt | utils/Viz/KML.py:101 | sampled record i is record i·n |
| Kml.GroupFromMeans | utils/Viz/KML.py:108-114 | adding records to the hash adds each record's platform, and appends each platform's records in their original order |
| Kml.GroupMeans | utils/Viz/KML.py:108-114 | `dataHash` has exactly the platforms of the records, each holding its own records in order |
| Kml.PNamePrecedence | utils/Viz/KML.py:77-91 | `parameter__id` (looked up) takes precedence over `parameter__name`, which takes precedence over `parameter__standard_name`; none of them is an error |
| Kml.FolderNameMeans | utils/Viz/KML.py:116-119 | with both depth bounds the folder is named after the parameter and the bounds to one decimal; with the lower bound missing, or a bound missing after a readable lower bound, it is the parameter and `_` |
| Kml.KmlFormats | utils/Viz/KML.py:33-59 | as written the views' kml and kmln calls fail with a TypeError (four positional arguments) and kmln's `withTimeStamps` is not a flag the writer reads; corrected, kml has every flag on and kmln every flag off |
| Kml.StrideOf | utils/Viz/KML.py:61-66 | the stride is the keyword when given, else the request's `stride` as an integer (a ValueError when it is not one), else 1 |
| Kml.GroupKeys | utils/Viz/KML.py:108-114 | the platforms of `dataHash` are exactly the platforms of the records |
| Kml.KmlResponseErrors | utils/Viz/KML.py:74-101 | no query set and no parameter name are errors; a zero stride draws the same document as a stride of one |
| Kml.KmlResponseMeans | utils/Viz/KML.py:68-125 | a response carries the request path with `&` escaped, a folder for each platform of the sampled records in sorted order, and one point per sampled record of that platform |
| Kml.GroupedDoc | utils/Viz/KML.py:108-191 | the document for grouped records has a folder per platform of the records, sorted, with a point per record of that platform |
| Loader.FirstMatch | loaders/__init__.py:334-339 | the tracking record chosen is the first whose name equals the platform name ignoring case, and there is none exactly when no record matches |
| Loader.GetPlatform | loaders/__init__.py:301-364 | a name with a non-word character is rejected and only such a name is; otherwise the stored platform has the tracking database's spelling of the name, the loader's colour and the type that `get_or_create` was given, and nothing but the database changes |
| Loader.PlatformNameRule | loaders/__init__.py:334-344 | the stored name equals the requested one ignoring case, and it is the requested name itself when no record matches |
| Loader.AsWrittenIgnoresRecordType | loaders/__init__.py:338-348 | as written, a platform found in the tracking records as a mooring is stored with the loader's own type `auv`, because the type found is assigned to a local that is never read |
| Loader.CorrectedUsesRecordType | loaders/__init__.py:334-348 | corrected, the stored type is that of the first matching tracking record |
| Loader.StandardKey | loaders/__init__.py:551-556 | the standard name used for the lookup is the first element of a list attribute; for a text attribute, as written, it is only the first character, and corrected it is the whole text |
| Loader.ByStandardName | loaders/__init__.py:556-559 | `get(standard_name=...)` finds at most one stored parameter and fails with MultipleObjectsReturned when several share the name |
| Loader.GetParameterByName | loaders/__init__.py:539-583 | a cached name returns its cached id; otherwise the standard-name lookup and then the name lookup are tried and a hit is cached; a miss adds the name to the ignored names and raises ParameterNotFound |
| Loader.LookupCached | loaders/__init__.py:547-568 | once found, asking again returns the same id from the cache without changing anything |
| Loader.LookupKeepsGood | loaders/__init__.py:539-583 | a lookup only caches ids of stored parameters |
| Loader.AsWrittenMissesStandardName | loaders/__init__.py:551-569 | as written, a variable whose standard name is `sea_water_temperature` is not found under that standard name and is ignored; corrected, it resolves to the stored parameter |
| Loader.TextAttr | loaders/__init__.py:391-399 | `v.get(key)` of a text attribute is present exactly when the attribute exists and is text |
| Loader.UnitsAttr | loaders/__init__.py:391-394 | list-valued units become the empty string and missing units stay absent |
| Loader.NewParameter | loaders/__init__.py:396-403 | the new parameter is named after the variable and has the activity name as its origin |
| Loader.RemoveFirstAppended | loaders/__init__.py:383-408 | removing a name from the ignored list right after the failed lookup appended it restores the list as it was |
| Loader.AddParameter | loaders/__init__.py:377-436 | an ignored or not-included variable changes nothing; an included one ends up cached, existing cache entries are kept, parameters are only added, and the only failure is an ambiguous lookup |
| Loader.AddNew | loaders/__init__.py:396-408 | a parameter that was not found is appended to the table, cached under its new id, and taken back off the ignored names |
| Loader.AddParameters | loaders/__init__.py:367-438 | after the loop every considered variable is cached and earlier cache entries are unchanged |
| Loader.CreateMeasurement | loaders/__init__.py:585-646 | values outside the depth, latitude or longitude bounds raise SkipRecord before any write; a created measurement lies at the activity's instant point with the given position, and has a nominal location exactly when nominal values are given |
| Loader.CreateAtInstant | loaders/__init__.py:616-633 | after the instant point, the measurement is recorded with its nominal location when one is given |
| Loader.SaveMeasurement | loaders/__init__.py:625-646 | saving a measurement never stops the load: it is found or created, or the record is skipped |
| Loader.CreateMeasurementIdempotent | loaders/__init__.py:614-626 | creating the same measurement twice returns the same id and leaves the database as the first call left it |
| Loader.CreateAtInstantIdempotent | loaders/__init__.py:622-626 | the same holds after the instant point |
| Loader.CheckCoordinates | loaders/__init__.py:656-669 | a row passes exactly when both coordinates are present, numeric, not the missing value, not zero, not NaN and (with ranges) inside the latitude and longitude bounds; only text coordinates stop the load: with ValueError when `float()` refuses one of them, with TypeError at `isnan` when `float()` reads both as non-zero |
| Loader.ZeroLatitudeSkips | loaders/__init__.py:657-661 | a zero latitude skips the row whenever `float()` reads the longitude, text or not |
| Loader.NaNLongitudeSkips | loaders/__init__.py:657-661 | a NaN longitude skips the row whenever `float()` reads the latitude, so a numeric text latitude never reaches `isnan` |
| Loader.TextLongitudeFails | loaders/__init__.py:657-661 | a text longitude that `float()` reads as non-zero stops the load with TypeError when the latitude is present, not missing and read as non-zero |
| Loader.TextLongitudeTypeError | loaders/__init__.py:657-661 | for instance a text longitude such as '1.5' with a latitude of 1.0 stops the load with TypeError: any text `float()` reads as non-zero does |
| Loader.UnreadableLongitudeFails | loaders/__init__.py:657-661 | a text longitude `float()` refuses, such as 'null', stops the load with ValueError at `float()` |
| Loader.TextLongitudeSkips | loaders/__init__.py:657-661 | a text longitude `float()` reads, such as '1.5', with a latitude of 0.0 is skipped, not fatal |
| Loader.TextLatitudeAfterNaN | loaders/__init__.py:657-661 | a NaN longitude with a text latitude `float()` reads, such as '1.5', is skipped, not fatal |
| Loader.PreProcessParams | loaders/__init__.py:648-671 | the base class returns the row unchanged exactly when its coordinates pass, range checks included |
| Loader.WithData | loaders/__init__.py:683-700 | the names collected are those with a non-NaN value that were not seen already, each once |
| Loader.CheckForValidData | loaders/__init__.py:673-703 | the result is true exactly when an included variable has a non-NaN value; only such variables are appended to `varsLoaded`, after the earlier entries |
| Loader.Summarize | loaders/__init__.py:736-771 | the statistics exist exactly when there are values; count, least and greatest are right, and least ≤ p1 ≤ p2.5 ≤ median ≤ p97.5 ≤ p99 ≤ greatest, with mean and mode in range |
| Loader.AddBins | loaders/__init__.py:783-794 | the histogram table only grows and comes to hold every bin of the loop |
| Loader.StoreHistogram | loaders/__init__.py:776-794 | every bin of the histogram is stored with its count and its two edges, and nothing else changes |
| Loader.StoreStats | loaders/__init__.py:756-794 | the ActivityParameter row for the activity and parameter holds the new statistics, every other row is unchanged, and the histogram bins are stored |
| Loader.KeepsCurrent | loaders/__init__.py:756-771 | writing one parameter's statistics keeps the other parameters' stored statistics current |
| Loader.UpdateOne | loaders/__init__.py:734-794 | a parameter with values gets current statistics; one without values is passed over; nothing but statistics and histograms changes |
| Loader.UpdateFrom | loaders/__init__.py:734-794 | after the loop every parameter with values has current statistics |
| Loader.UpdateChain | loaders/__init__.py:734 | statistics made current by one iteration stay current through the later ones |
| Loader.UpdateActivityParameterStats | loaders/__init__.py:724-796 | without an activity it raises; otherwise every listed parameter with values has an ActivityParameter row holding the statistics of exactly its values, and only statistics and histograms change |
| Loader.DepthLine | loaders/__init__.py:811-818 | the depth series holds, in table order, one point per measurement of the activity: its time in milliseconds and its depth, with its instant point alongside |
| Loader.BottomLine | loaders/__init__.py:849-858 | the bottom-depth series holds, in table order, one point per altitude value of the activity: time in milliseconds and the measurement's depth plus the altitude |
| Loader.Simplified | loaders/__init__.py:822-870 | the kept indices increase, start at the first point and end at the last, and are exactly the simplification's; an empty series gives none |
| Loader.InsertSimpleDepthTimeSeries | loaders/__init__.py:803-837 | the stored rows are exactly those of the simplified depth series of the activity; without an activity nothing is stored |
| Loader.InsertSimpleBottomDepthTimeSeries | loaders/__init__.py:840-889 | the stored rows are exactly those of the simplified bottom-depth series; without an activity nothing is stored |
| Loader.BottomDepthIsDepthPlusAltitude | loaders/__init__.py:856-877 | every stored bottom depth is the depth of a measurement of the activity plus an altitude value measured with it |
| Monitor.Units | loaders/CANON/realtime/monitorLrauv.py:64-67 | the two UTC spellings of the epoch (and only they, besides the plain one) become `seconds since 1970-01-01 00:00:00`; every other unit string is kept |
| Monitor.UnitsIdempotent | loaders/CANON/realtime/monitorLrauv.py:66-67 | normalising the units twice gives what normalising once gives |
| Monitor.Stem | loaders/CANON/realtime/monitorLrauv.py:80 | the URL's file-name stem holds neither `/` nor `.` |
| Monitor.OutFileName | loaders/CANON/realtime/monitorLrauv.py:80 | the interpolated file lies in `outDir`, is named after the last `/`-part of the URL up to its first `.`, and ends in `_i.nc` |
| Monitor.ProcessDecimated | loaders/CANON/realtime/monitorLrauv.py:74-105 | the file's start and end come back unchanged; a converted URL is returned exactly when the file ends after `lastDatetime` and the converter raised no TypeError |
| Monitor.GateByEpoch | loaders/CANON/realtime/monitorLrauv.py:85-100 | the gate compares instants (seconds since the epoch), and the converted URL is the file's with `.nc4` replaced by `_i.nc` |
| Monitor.PlatformOf | loaders/CANON/realtime/monitorLrauv.py:138-149 | a vehicle is found exactly when the first line of the URL matches `.*tethy` or `.*daphn`; it then has a colour; otherwise the script raises |
| Monitor.PlatformOfUrl | loaders/CANON/realtime/monitorLrauv.py:140-149 | on a one-line URL, one naming daphne is daphne's even if it names tethys too, one naming only tethys is tethys's, and one naming neither is refused |
| Monitor.Steps | loaders/CANON/realtime/monitorLrauv.py:168-171 | one result per listed file |
| Monitor.StepAt | loaders/CANON/realtime/monitorLrauv.py:168-171 | the file at position j is gated by the end of the file before it, whether or not that one was loaded (by the starting instant for the first) |
| Monitor.StepsGate | loaders/CANON/realtime/monitorLrauv.py:85-171 | a file is converted exactly when it ends after the previous file's end and the converter accepts it |
| Monitor.RepeatsSkipped | loaders/CANON/realtime/monitorLrauv.py:169-171 | in sorted order a file listed twice is converted at most once |
| Monitor.Loads | loaders/CANON/realtime/monitorLrauv.py:173-203 | no more loader calls than files |
| Monitor.Converted | loaders/CANON/realtime/monitorLrauv.py:173 | the files kept are exactly the converted ones |
| Monitor.CallsFor | loaders/CANON/realtime/monitorLrauv.py:173-200 | one loader call per converted file |
| Monitor.CallsForAt | loaders/CANON/realtime/monitorLrauv.py:173-200 | the k-th call is made for the k-th converted file |
| Monitor.CorrectedLoads | loaders/CANON/realtime/monitorLrauv.py:173-200 | with `--append` reading the target database, every converted file gets its loader call, in order, and the script runs to the end |
| Monitor.AsWrittenLoads | loaders/CANON/realtime/monitorLrauv.py:181-183 | without `--append` the script behaves as corrected; with it, the first converted file stops the script (NameError on `InstantPoint`, which the script never imports) before any load |
| Monitor.CallNames | loaders/CANON/realtime/monitorLrauv.py:175-200 | each call's activity is `<vehicle>_sbdlog_` followed by the 15-character start time; it carries the vehicle's colour and a stride of 10; a THREDDS URL is read from the Hyrax server; without `--append` no data start is passed |
| Monitor.ScriptCalls | loaders/CANON/realtime/monitorLrauv.py:136-203 | over a catalogue naming a vehicle the corrected script succeeds, makes one call per converted file, sorts a permutation of the crawled URLs, and never converts a repeated file twice |
| Platforms.FirstMeans | loaders/DAPloaders.py:1115-1135 | the first-found lookup that describes the renames is empty exactly when the row has none of the keys, and otherwise returns the value of the earliest key present |
| Platforms.SigmaTOf | loaders/DAPloaders.py:961-962 | sigma-t is density minus 1000 for numeric inputs, NaN when any input is NaN, and a fatal error when any input is text |
| Platforms.WithSigmaT | loaders/DAPloaders.py:961-962 | the row gains `sea_water_sigma_t` exactly when salinity, temperature, depth and latitude are all present, and is otherwise unchanged |
| Platforms.WithChlorophyll | loaders/DAPloaders.py:1012-1013 | a row with `fl700_uncorr` gains chlorophyll equal to 3443.1 times it (NaN stays NaN, text is an error); other rows are unchanged |
| Platforms.Then | loaders/DAPloaders.py:964-1018 | a failed derivation stops the load; otherwise the base class's coordinate checks decide |
| Platforms.Trajectory | loaders/DAPloaders.py:954-964 | a Trajectory row passes exactly when its coordinates are good, and what passes is the row with sigma-t added |
| Platforms.Dorado | loaders/DAPloaders.py:1008-1018 | a Dorado row passes only with good coordinates, carries the chlorophyll derived from `fl700_uncorr`, and text in `fl700_uncorr` stops the load |
| Platforms.DerivedKeepsVerdict | loaders/DAPloaders.py:961-1018 | adding derived columns never changes whether a row's coordinates pass |
| Platforms.RenameAllGet | loaders/DAPloaders.py:1101-1119 | after a chain of `row[v.lower()] = row.pop(v)` moves, a destination key holds the value of the last moved source present, else its own old value |
| Platforms.RenameAllRemoves | loaders/DAPloaders.py:1101-1119 | every moved source key is gone afterwards |
| Platforms.FillAllGet | loaders/DAPloaders.py:1120-1135 | a fill-if-absent chain leaves a key's own value if present, else the first fallback present |
| Platforms.Lrauv | loaders/DAPloaders.py:1097-1105 | the LRAUV loader lower-cases the coordinate keys and then applies the base class's checks |
| Platforms.LrauvCollects | loaders/DAPloaders.py:1101-1103 | `time` ends up with `TIME` if present, else `Time`, else the old `time`; `Time` and `TIME` are gone |
| Platforms.LrauvKeepsOthers | loaders/DAPloaders.py:1101-1103 | every key other than the three time spellings is left untouched |
| Platforms.Mooring | loaders/DAPloaders.py:1113-1137 | the mooring loader renames and fills the coordinate keys and then applies the base class's checks |
| Platforms.MooringTime | loaders/DAPloaders.py:1115-1133 | mooring `time` is the first present of `TIME`, `Time`, `time`, `hr_time_adcp`, `esecs` |
| Platforms.MooringLongitude | loaders/DAPloaders.py:1115-1123 | mooring `longitude` is the first present of `Longitude`, `LONGITUDE`, `longitude`, `GPS_LONGITUDE_HR` |
| Platforms.MooringLatitude | loaders/DAPloaders.py:1115-1127 | mooring `latitude` is the first present of `Latitude`, `LATITUDE`, `latitude`, `GPS_LATITUDE_HR` |
| Platforms.MooringDepth | loaders/DAPloaders.py:1115-1135 | mooring `depth` is the first present of `DEPTH`, `depth`, `NominalDepth`, `nominaldepth`, `HR_DEPTH_adcp` |
| Platforms.MooringLowersNames | loaders/DAPloaders.py:1115-1119 | none of the eight upper- or mixed-case names survives into the checked row |
| Platforms.Glider | loaders/DAPloaders.py:1174-1187 | a glider row without `time` goes straight to the base checks; a `time` that `float()` reads as a finite number, text included, is converted to seconds since 1970 first; any other `time` stops the load |
| Platforms.GliderTextTime | loaders/DAPloaders.py:1183-1184 | a `time` given as the text of a whole number is converted exactly as that number is |
| Platforms.GliderTime | loaders/DAPloaders.py:1179-1181 | glider `time` is `TIME` if present, else the old `time` |
| Platforms.GliderCoordinates | loaders/DAPloaders.py:1179-1181 | glider longitude, latitude and depth are their upper-case spellings if present, else the old lower-case values |
| Postgresify.AliasesUnquoted | utils/utils.py:293-310 | no double quote is left after the quote stripping and the column-alias rewrites, for every combination of the three flags |
| Postgresify.AliasesOnlyTouchColumns | utils/utils.py:296-310 | a query naming none of the aliased id or geometry columns comes out of the alias rewrites with only its double quotes removed |
| Postgresify.NoJoinAlias | utils/utils.py:298-299 | the join fix-up can only fire after the first `stoqs_activity.id` has been aliased |
| Postgresify.QuoteDatesOnlyQuotes | utils/utils.py:314-317 | quoting timestamps changes nothing but inserted single quotes |
| Postgresify.QuoteDatesExample | utils/utils.py:314-317 | a `YYYY-MM-DD HH:MM:SS` timestamp is wrapped in single quotes |
| Postgresify.QuoteDatesAbsent | utils/utils.py:314-317 | text with no timestamp is left unchanged |
| Postgresify.DateFits | utils/utils.py:314 | the timestamp pattern matches a 19-character date and time |
| Postgresify.Run | utils/utils.py:313 | a run of `\s+` (or `\S+`) is maximal: it stops at the end of the text or at the first character of the other class |
| Postgresify.NameEqualsAtStart | utils/utils.py:313 | a `name\s+=\s+\S+` match ends inside the text and its argument starts after `name =` |
| Postgresify.NameEqualsShape | utils/utils.py:313 | a match is `name`, at least one blank, `=`, at least one blank and then the argument |
| Postgresify.QuoteNameEqualsOnlyQuotes | utils/utils.py:313-316 | the `name = x` rewrite only normalises whitespace around `=` and quotes the argument: nothing else in the query changes |
| Postgresify.QuoteNameEqualsStep | utils/utils.py:313-316 | `re.sub` replaces a match by `name = '<argument>'` and carries on scanning after it |
| Postgresify.QuoteNameEqualsExample | utils/utils.py:313-316 | `name  =<tab>dorado` becomes `name = 'dorado'` |
| Postgresify.QuoteNameEqualsAbsent | utils/utils.py:313-316 | text without `name` is left unchanged |
| Postgresify.InClauseAt | utils/utils.py:320 | an `\sIN\s[^)]+)` match found at a position ends within the text |
| Postgresify.FindIns | utils/utils.py:320-322 | every clause `findall` reports has the shape of an `IN (...)` clause |
| Postgresify.FindInsAbsent | utils/utils.py:320-322 | a query without `IN` has no clauses to rewrite |
| Postgresify.ItemsAt | utils/utils.py:325 | the captured items appear in the clause between `(` and `)`, are non-empty and contain neither `'` nor `)` |
| Postgresify.FindItems | utils/utils.py:325-328 | `search` returns the first parenthesised item list, or nothing when no position matches |
| Postgresify.ItemTexts | utils/utils.py:333-337 | each comma-separated item gets its own rewritten text |
| Postgresify.AccumulateJoin | utils/utils.py:333-340 | the accumulating loop followed by dropping the last two characters is the items joined by `, ` |
| Postgresify.QuoteItemsIsJoin | utils/utils.py:333-340 | the new item list is the rewritten items joined by `, ` |
| Postgresify.QuoteItemsNonEmpty | utils/utils.py:333-343 | the rewritten list is never empty, so the `if new_items:` guard always holds |
| Postgresify.CorrectedQuotesExactlyNonNumbers | utils/utils.py:334-337 | with the digit test applied to the stripped item, an item is left unquoted exactly when it is a number |
| Postgresify.AsWrittenQuotesSpacedNumbers | utils/utils.py:334-337 | as written, `1, 2` becomes `1, '2'`: the space before `2` makes `isdigit` fail, so a number is quoted |
| Postgresify.PostgresifyUnquoted | utils/utils.py:282-347 | the finished query never contains a double quote |
| Postgresify.PlainQueryOnlyDequoted | utils/utils.py:282-347 | a query with no aliased column, no `name`, no `IN` and no timestamp only loses its double quotes |
| Query.HttpSiteUriMeans | stoqs/views/query.py:79-85 | the site URI is the absolute URI of '/' less its last character; a secure root `https://host/` is shown as `http://host` |
| Query.MapParamsMeans | stoqs/views/query.py:164-168 | every entry of the parameter table yields exactly one argument: a plain key all the values given for it (none when absent), a tuple key the last value of each sub-key in order, None for each sub-key absent |
| Query.TimeSpec | stoqs/views/query.py:52 | the time window is read from `start_time` and `end_time` |
| Query.ParameterValuesSpec | stoqs/views/query.py:56 | the parameter-value list starts empty |
| Query.CorrectedMinMax | stoqs/views/query.py:172-180 | with a key lacking its bounds skipped, the `_MIN` loop never fails; each entry is read from some `_MIN` key, and every `_MIN` key whose name has both bounds yields its entry with the first `_MIN` and `_MAX` values |
| Query.AsWrittenUnbound | stoqs/views/query.py:175-179 | `T_MIN=1` without `T_MAX` makes the request fail (`pminmax` is appended before it was ever bound) |
| Query.CorrectedSkipsHalf | stoqs/views/query.py:173-179 | corrected, `T_MIN=1` without `T_MAX` adds no constraint |
| Query.CorrectedNoStale | stoqs/views/query.py:173-179 | corrected, `T_MIN=1&T_MAX=2&U_MIN=3` yields the constraint on T once and none for U |
| Query.AsWrittenStale | stoqs/views/query.py:175-179 | as written, the same request appends T's constraint a second time in place of U's |
| Query.OfKindMeans | stoqs/views/query.py:107-125 | a platform is selected exactly when it is listed and its lower-cased type is one of the wanted kinds |
| Query.CommasJoin | stoqs/views/query.py:114-149 | appending a comma after each name and dropping the final character joins the names with commas |
| Query.BuildMapFileMeans | stoqs/views/query.py:87-153 | without 'platforms' in the options no map file is built; otherwise the line layers are the trajectory platforms in order, then the point layers the time-series ones, then the sample layer only for a non-empty sample query; each union string joins the names of its own layers only |
| Query.LayerKinds | stoqs/views/query.py:109-124 | a platform is a line layer exactly when its type is 'trajectory' in any case, and a point layer exactly when it is 'timeseries' or 'timeseriesprofile' |
| Router.AliasFor | stoqs/db_router.py:41-44 | the alias 'stoqs' becomes 'default'; every other alias is kept as the database name |
| Router.ProcessView | stoqs/db_router.py:32-55 | `dbAlias` leaves the view's keyword arguments and only it; when present its (translated) alias is kept per thread and put into the request's META; a path under /admin raises the admin flag, which otherwise stays as it was |
| Router.ProcessResponse | stoqs/db_router.py:57-63 | after a response neither thread-local variable is set |
| Router.DefaultDb | stoqs/db_router.py:68-77 | the result is a configured database or 'default'; it is the thread's alias exactly when that alias is set and configured |
| Router.DbForRead | stoqs/db_router.py:78-79 | reads go to the thread's alias when it names a configured database, to 'default' otherwise |
| Router.DbForWrite | stoqs/db_router.py:81-82 | writes go to the thread's alias when it names a configured database, to 'default' otherwise |
| Router.AllowRelation | stoqs/db_router.py:84-87 | a relation is allowed (True) exactly when one side belongs to the 'stoqs' application; otherwise there is no opinion (None) |
| Router.RoutedToAlias | stoqs/db_router.py:38-49 | a request whose alias names a configured database sends its reads and writes there, and the view sees the same alias in META |
| Router.StoqsIsDefault | stoqs/db_router.py:43-44 | a request with the alias 'stoqs' reads from 'default' |
| Router.UnknownAliasIsDefault | stoqs/db_router.py:72-77 | an alias that is not configured falls back to 'default' |
| Router.LifecycleResets | stoqs/db_router.py:57-63 | one request followed by its response leaves the thread unset, so a following request without an alias reads from 'default' and is admin only for an /admin path |
| Simplify.Direction | utils/utils.py:213-222 | when anchor and floater coincide the direction is the zero vector; otherwise it points from anchor to floater: some positive length times it is the step between them |
| Simplify.Deviation | utils/utils.py:225-249 | a point's distance from the segment is never negative; with the comparison applied on every branch, every point gets one |
| Simplify.Farthest | utils/utils.py:224-251 | the inner loop reports the largest deviation strictly between anchor and floater, at an index where it is attained, or 0 when no point deviates |
| Simplify.FarthestPoint | utils/utils.py:224-251 | the `for` loop with its running maximum computes exactly the reference `Farthest` |
| Simplify.Keep | utils/utils.py:253-258 | the indices kept for an interval always include both of its ends and lie inside it |
| Simplify.KeepStep | utils/utils.py:253-258 | an interval within tolerance keeps just its ends; otherwise it splits at the farthest point into two sub-intervals |
| Simplify.Listed | utils/utils.py:260-263 | the result lists the kept points in increasing index order, each paired with its own index in the input |
| Simplify.ListedAll | utils/utils.py:260-263 | the listed indices are exactly the kept set |
| Simplify.PopInterval | utils/utils.py:209-258 | one pop of the stack keeps the union of the kept set and what the stack still owes unchanged, and strictly reduces the remaining work |
| Simplify.SimplifyPoints | utils/utils.py:203-263 | an empty line raises `IndexError`; otherwise the result is sorted, starts at the first point, ends at the last and keeps exactly the indices of the recursive Douglas–Peucker definition |
| Simplify.PendingWhole | utils/utils.py:204-208 | the initial stack `[(0, n-1)]` owes exactly the whole recursive answer |
| Simplify.ListedWhole | utils/utils.py:209-263 | once the stack is empty, the listed result is exactly the recursive answer with both end points |
| Simplify.WithinTolerance | utils/utils.py:253-258 | every dropped point lies within the tolerance of the segment between its nearest kept neighbours |
| Simplify.AsWrittenDropsFarPoint | utils/utils.py:233-249 | as written, a point 10 behind the anchor of the line (0,0),(-10,0),(1,0) is dropped at tolerance 1 because its distance never reaches the maximum; comparing on every branch keeps it |
| Spice.Spiciness | utils/utils.py:349-409 | the two nested loops with running powers compute the polynomial sum over the 6 x 5 coefficient table of coef(i,j)·t^i·(s-35)^j |
| Spice.AddRow | utils/utils.py:404-407 | the inner loop adds row i of the table, Σj coef(i,j)·t^i·(s-35)^j, to the running sum |
| Spice.SpiceAtOrigin | utils/utils.py:359-409 | water at 0 degrees and salinity 35 has zero spiciness (the constant coefficient is 0) |
| Spice.SpiceReferenceValue | utils/utils.py:356-394 | spiciness at T=15, S=33 is exactly 0.54458641375, the value the docstring quotes |
| Stats.Min | loaders/__init__.py:761 | `numpy.min`: an element of the data no greater than any other |
| Stats.Max | loaders/__init__.py:762 | `numpy.max`: an element of the data no smaller than any other |
| Stats.Sort | loaders/__init__.py:739-741 | `numpy.sort`: the same values, as a multiset, in ascending order |
| Stats.MinMaxPermutation | loaders/__init__.py:739-762 | sorting before taking the least and greatest values changes neither |
| Stats.Mean | loaders/__init__.py:763 | `numpy.mean` lies between the least and the greatest value |
| Stats.Interp | utils/utils.py:147-154 | at an integral rank the element itself, otherwise a value between the two neighbouring elements |
| Stats.Percentile | utils/utils.py:135-154 | None exactly for an empty list; otherwise within the range of the data, the element itself at an integral rank, and on sorted data between the two elements around the rank |
| Stats.Median | utils/utils.py:156-157 | the 50th percentile: None exactly for an empty list, otherwise within the range of the data |
| Stats.PercentileEnds | utils/utils.py:140-151 | percentile 0 is the first element and percentile 1 the last |
| Stats.PercentileMonotone | utils/utils.py:135-154 | on sorted data a larger percent never gives a smaller percentile |
| Stats.InterpMonotone | utils/utils.py:146-154 | on sorted data the interpolated value never decreases with the rank |
| Stats.MedianExamples | utils/utils.py:156-157 | the median of an odd list is its middle element, of an even list the mean of the two middle elements |
| Stats.Edges | utils/utils.py:167-169 | `linspace(min, max, 100)`: 100 edges from the least to the greatest value |
| Stats.EdgesIncrease | utils/utils.py:169 | the edges never decrease |
| Stats.BinOf | utils/utils.py:170 | `numpy.histogram` counts a value in the highest bin whose left edge is at most the value |
| Stats.BinEncloses | utils/utils.py:169-170 | every value in the data range falls in a bin whose edges enclose it |
| Stats.Histogram | utils/utils.py:170 | 99 bin counts for 100 edges; count `j` is the number of values within the outer edges whose bin is `j` |
| Stats.CountIn | utils/utils.py:170 | one bin's count is the number of times that bin occurs among the bins of the values within the outer edges |
| Stats.HistogramTotal | utils/utils.py:170 | the counts add up to the number of values within the outer edges, each such value counted in exactly one bin |
| Stats.HistogramCountsAll | utils/utils.py:168-170 | with the edges `mode` builds from the minimum and maximum, every value is counted |
| Stats.ArgMax | utils/utils.py:171 | `numpy.argmax`: the first index of a largest count |
| Stats.Mode | utils/utils.py:161-175 | None exactly for empty data (numpy raises there); otherwise a value within the range of the data |
| Stats.ModeOfConstant | utils/utils.py:161-175 | when every value is the same, the mode is that value |
| Store.PreSave | stoqs/models.py:44-52 | on insert a non-empty uuid is kept and an empty one becomes a freshly generated uuid without dashes; on update the stored value is returned unchanged |
| Store.PreSaveFresh | stoqs/models.py:40-48 | a generated uuid with its dashes removed is its 32 hex digits again, matching the column's default `max_length` |
| Store.GetOrCreateLookup | stoqs/models.py:54-151 | for a table whose `name` is unique, the row with that name exists afterwards; it is created exactly when no row had the name, and no other table changes |
| Store.GetOrCreatePlatform | stoqs/models.py:153-168 | Platform has no unique column, so the lookup fails exactly when two equal rows already exist; otherwise the platform is found or appended, and created exactly when it was absent |
| Store.InsertParameter | stoqs/models.py:258-278 | saving a parameter raises IntegrityError exactly when its name is already taken; otherwise the parameter is appended |
| Store.GetOrCreateInstantPoint | loaders/__init__.py:613 | the (activity, time) point is found or appended, fails exactly when it is stored twice, and afterwards is stored at most once |
| Store.CreateInstantPoint | loaders/DAPloaders.py:569-573 | a bare save always appends a new instant point, even when an equal one exists |
| Store.GetOrCreateNominalLocation | loaders/__init__.py:620-623 | the nominal location is found or appended, fails exactly when it is stored twice, and afterwards is stored at most once |
| Store.GetOrCreateMeasurement | loaders/__init__.py:624-626 | the measurement is found or appended, fails exactly when it is stored twice, and afterwards is stored at most once |
| Store.CreateMeasurement | loaders/DAPloaders.py:574-579 | a bare save always appends a new measurement |
| Store.InsertMeasuredParameter | stoqs/models.py:529-542 | saving a value raises IntegrityError exactly when the measurement already has a value for that parameter; otherwise it is appended |
| Store.GetOrCreateActivityParameter | loaders/__init__.py:754 | the pair (activity, parameter) is unique, so this never fails: an existing row is returned unchanged, otherwise a row without statistics is appended |
| Store.CreateActivityParameter | stoqs/models.py:493-517 | a row for a pair that has none is appended at the next id |
| Store.SetStats | loaders/__init__.py:758-768 | setting the statistics of one activity-parameter row changes that row's statistics and nothing else |
| Store.GetOrCreateHistogram | loaders/__init__.py:793-795 | the histogram bin is found or appended; the only failure is MultipleObjectsReturned, exactly when the bin is stored twice |
| Store.CreateSimpleDepthTimes | loaders/__init__.py:830-833 | each depth-time row is appended in order |
| Store.CreateSimpleBottomDepthTimes | loaders/__init__.py:880-884 | each bottom-depth-time row is appended in order |
| Store.GetOrCreateActivityParameterWith | loaders/DAPloaders.py:850-861 | with every statistic in the lookup, the call fails with IntegrityError exactly when the pair has a row with other statistics; otherwise an equal row is found, or a new one is appended when the pair has none |
| Store.MeasurementActivity | stoqs/models.py:348-365 | the activity of a measurement, followed through its instant point; none for a dangling reference |
| Store.SampleActivity | stoqs/models.py:410-440 | the activity of a sample, followed through its instant point |
| Store.MeasuredValues | loaders/__init__.py:738 | the values of a parameter in an activity, or in every activity when none is given: never more than the table has, and empty when no row matches |
| Store.SampledValues | loaders/__init__.py:736 | the sampled values of a parameter in an activity, never more than the table has, and empty when no row matches |
| Store.ActivityFilterNarrows | loaders/DAPloaders.py:839 | filtering by activity can only drop values |
| Store.ActivityFilterKeepsAll | loaders/DAPloaders.py:839 | the filter drops nothing exactly when every value of the parameter belongs to the activity |
| Store.ActivityFilterDrops | loaders/DAPloaders.py:839 | one value of the parameter in another activity makes the filtered list strictly shorter |
| Store.UpdateActivityLoad | loaders/DAPloaders.py:797-803 | the update sets the activity's depth bounds and number of values loaded, keeps its name and platform, and leaves every other activity and table unchanged |
| Store.Associate | loaders/__init__.py:204-245 | the pair is in the association table afterwards; it is created exactly when it was absent, and no other table changes |
| Views.GetFields | stoqs/views/__init__.py:98-109 | a preset or cached field list is returned unchanged; otherwise the model's field names in declaration order, which are then cached |
| Views.GetFieldsStable | stoqs/views/__init__.py:102-109 | asking for the fields a second time gives the same list and changes nothing |
| Views.GeomNamesMeans | stoqs/views/__init__.py:115-123 | the geometry fields are exactly the fields of a geometry type: every name kept is one, every one is kept, none when the model has none |
| Views.GetGeomFields | stoqs/views/__init__.py:111-125 | a cached list is returned unchanged; otherwise the geometry-typed field names, cached unless the model has no fields at all |
| Views.GetGeomFieldsStable | stoqs/views/__init__.py:117-125 | asking for the geometry fields a second time gives the same list |
| Views.Suffixed | stoqs/views/__init__.py:134-135 | one `field__lookup` name per field, in field order |
| Views.LookupsLength | stoqs/views/__init__.py:133-143 | a lookup loop yields one name per lookup and field |
| Views.LookupsAt | stoqs/views/__init__.py:133-135 | lookup i on field j sits at position i·(number of fields)+j, lookups in the outer loop |
| Views.AmmendLayout | stoqs/views/__init__.py:56-145 | the amended list starts with the fields unchanged and holds one name per field for each of the 22 field lookups and one per geometry field for each of the 5 distance and 30 spatial lookups |
| Views.AmmendWithLayout | stoqs/views/__init__.py:131-145 | the amended list is the fields, then the field lookups, then the distance lookups, then the spatial lookups, each block where its size puts it |
| Views.ApplyFromKeys | stoqs/views/__init__.py:190-199 | a filter key is set exactly when some amended field given in the query writes it (under its own name for one value, with `__in` for several) |
| Views.ApplyFromLast | stoqs/views/__init__.py:192-199 | the last amended field that writes a key decides its value |
| Views.ApplyFromKept | stoqs/views/__init__.py:192-199 | a key no later field writes keeps its value |
| Views.ApplyFromMeans | stoqs/views/__init__.py:186-203 | starting from no filters, a key is present exactly when some field writes it, and its value is the last such field's argument |
| Views.ApplyFromField | stoqs/views/__init__.py:194-199 | a field given once filters `field = value`; one given several times filters `field__in = values` |
| Views.CorrectedBounds | stoqs/views/__init__.py:155-167 | with the trailing suffix stripped, the bound recorded for a name is exactly the first value of `name_MIN` (or `name_MAX`) |
| Views.ValueConstraintsMeans | stoqs/views/__init__.py:147-184 | a Parameter's name is constrained exactly when `name_MIN` or `name_MAX` has a value, and carries the first value of each, None for a missing one |
| Views.AsWrittenLosesMinNames | stoqs/views/__init__.py:156-159 | as written, a name that itself contains `_MIN` never receives a lower bound |
| Views.AsWrittenDropsConstraint | stoqs/views/__init__.py:156-180 | as written, `T_MINUS_MIN=3` with a Parameter `T_MINUS` yields no constraint on `T_MINUS` |
| Views.LowerBoundOnly | stoqs/views/__init__.py:170-180 | a Parameter given only a lower bound is constrained by that bound with no upper bound |
| Views.CorrectedKeepsConstraint | stoqs/views/__init__.py:170-180 | corrected, `T_MINUS_MIN=3` constrains `T_MINUS` to at least 3 with no upper bound |
| Views.KmlCallFor | stoqs/views/__init__.py:260-266 | 'kml' passes no keyword flags and 'kmln' turns the line-string and full-icon flags off; as written both pass a fourth positional argument |
| Views.Cells | stoqs/views/__init__.py:251 | a row is produced exactly when the object has every field, and then holds the values in field order |
| Views.TableRows | stoqs/views/__init__.py:250-251 | the table is produced exactly when every object has every field, one row per object |
| Views.Respond | stoqs/views/__init__.py:238-290 | csv and tsv succeed exactly when every object has every field, with the fields as header, one row per object, the format's delimiter and `<object>.<format>` as file name; every other format succeeds: kml/kmln build the KML writer, count gives the number of objects, help lists the fields and, when there are any, the geometry fields, anything unknown renders html |
| Views.DelimitedAgree | stoqs/views/__init__.py:239-253 | csv and tsv succeed together and carry the same header and rows |
| Waveglider.Fields | loaders/CANON/toNetCDF/wgToNetcdf.py:81-87 | the kept fields are read, in order, exactly when every header is in the record; a missing one is a KeyError |
| Waveglider.ReadRow | loaders/CANON/toNetCDF/wgToNetcdf.py:75-87 | a record reads exactly when it has the timestamp and every kept header and the timestamp parses as `%Y-%m-%d %H:%M:%S`; then it holds the parsed time and the kept fields in order; an unparsable timestamp is a ValueError |
| Waveglider.ReadRowsMeans | loaders/CANON/toNetCDF/wgToNetcdf.py:74-87 | the loop reads every record exactly when each one reads, keeping them in order; otherwise it stops with the error of the first record that does not read |
| Waveglider.Convert | loaders/CANON/toNetCDF/wgToNetcdf.py:97-133 | storing text in a float64 variable succeeds exactly when every text parses, giving the parsed numbers in order; otherwise a ValueError |
| Waveglider.Columns | loaders/CANON/toNetCDF/wgToNetcdf.py:104-133 | the columns are stored exactly when every field of them parses, each column then holding its parsed fields record by record |
| Waveglider.Times | loaders/CANON/toNetCDF/wgToNetcdf.py:77-80 | each written time is the record's seconds since 1970-01-01 |
| Waveglider.Metadata | loaders/CANON/toNetCDF/wgToNetcdf.py:210-244 | the metadata fails (ValueError of `np.min`) exactly when there are no records; otherwise it is a trajectory whose latitude, longitude and vertical extents are the least and greatest values and whose coverage runs from the first record's time to the last's |
| Waveglider.Stored | loaders/CANON/toNetCDF/wgToNetcdf.py:75-87 | once every record reads, every kept header is in every record and the records hold the parsed timestamps and fields |
| Waveglider.StoredColumns | loaders/CANON/toNetCDF/wgToNetcdf.py:97-133 | once every record reads, the columns are stored exactly when every kept field parses, and hold the parsed fields |
| Waveglider.WriteCtdMeans | loaders/CANON/toNetCDF/wgToNetcdf.py:55-137 | a CTD file is written exactly when every record reads, every kept field parses and there is a record; otherwise the error of the first unreadable record, or a ValueError |
| Waveglider.WriteCtdContent | loaders/CANON/toNetCDF/wgToNetcdf.py:94-135 | a written CTD file has one time per record, six variables each holding that field of every record, and metadata spanning them |
| Waveglider.WriteGpctdMeans | loaders/CANON/toNetCDF/wgToNetcdf.py:55-137 | the gpctd file is written exactly when every record reads, every field parses and the file is not empty; an empty file ends in the ValueError of the extent |
| Waveglider.WriteGpctdContent | loaders/CANON/toNetCDF/wgToNetcdf.py:94-135 | the gpctd file holds one time and one value per record in each variable, in record order, and its metadata spans them |
| Waveglider.KeysOf | loaders/CANON/toNetCDF/wgToNetcdf.py:170 | each column's CSV header is the variable name with a leading space |
| Waveglider.Zeros | loaders/CANON/toNetCDF/wgToNetcdf.py:202 | `np.zeros(n)`: n zeros |
| Waveglider.NamedVars | loaders/CANON/toNetCDF/wgToNetcdf.py:187-202 | one variable per header, named after it and long-named by it, holding its column, then the zero `DEPTH` |
| Waveglider.WriteNamedMeans | loaders/CANON/toNetCDF/wgToNetcdf.py:141-206 | the pCO2-style file is written exactly when every record reads, every field parses and there is a record; no records is a NameError, an unparsable field a ValueError |
| Waveglider.NamedLabels | loaders/CANON/toNetCDF/wgToNetcdf.py:187-202 | variable k is named after header k and long-named by it; the last is the zero `DEPTH` |
| Waveglider.NamedMeta | loaders/CANON/toNetCDF/wgToNetcdf.py:204-244 | the metadata spans the coordinate columns, with a vertical extent of zero |
| Waveglider.WritePco2Means | loaders/CANON/toNetCDF/wgToNetcdf.py:141-206 | the pCO2 file is written exactly when every record reads, every field parses and the file is not empty; an empty file is a NameError (the lists are made on the first record) |
| Waveglider.WritePco2Content | loaders/CANON/toNetCDF/wgToNetcdf.py:159-206 | the pCO2 file has one time per record, one variable per header holding its column under its derived name with the header as long name, a zero `DEPTH`, and metadata with a vertical extent of zero |
| Waveglider.NcNameOf | loaders/CANON/toNetCDF/wgToNetcdf.py:168-188 | `v.replace(' ', '_', 42)` of a header of at most 42 characters leaves no space and keeps the length |
| Waveglider.CoordinateNames | loaders/CANON/toNetCDF/wgToNetcdf.py:149-191 | the first two headers are Latitude and Longitude, written under upper-case names and bound to lower-case attributes |
| Waveglider.HeadedNames | loaders/CANON/toNetCDF/wgToNetcdf.py:187-240 | for headers of the pCO2 shape no variable name holds a space, and no column after the coordinates is bound to the attribute of either coordinate or to `depth` or `time`, which the metadata reads |
| Waveglider.Pco2Headed | loaders/CANON/toNetCDF/wgToNetcdf.py:149-157 | the 34 pCO2 headers have that shape |
| Waveglider.Report | loaders/CANON/toNetCDF/wgToNetcdf.py:249-255 | two lines are printed, the first naming the gpctd file; corrected, the second names the pCO2 file |
| Waveglider.AsWrittenReportsCtdTwice | loaders/CANON/toNetCDF/wgToNetcdf.py:255 | as written, the second line repeats the gpctd file's name and the pCO2 file is never named |

## Left out

- Django's ORM, SQL and transactions: the database is a `Store.Db` value, and `get_or_create`, `save` and `update` are functions on it. Savepoints, rollbacks, the raw sequence-reset SQL and the `@transaction` decorators are left out.
- Network and process I/O is not modelled: pydap `open_url`, the urllib2 fetches of the tracking CSV files, the THREDDS crawl, `scp`, `os.system`, the `grdtrack` subprocess and the NetCDF file writes. Their results are parameters.
- Logging, `print` and the DEBUG cursor hook: they change no modelled state.
- Plotting, template rendering and HttpResponse construction: the matplotlib/Basemap drawing, the animated gif and mp4 commands, and the temporary map files. The model keeps only the names, windows and panels they use.
- Float rounding and `%f`/`%e`/`%.1f` text formatting: values are `real`, and coordinates and times in generated text are kept as numbers or abstract strings.
- numpy, seawater, `coards`, pyproj, GEOS `LineString.simplify`, `math.sqrt`, `time.mktime` and `uuid4`: function parameters constrained only by the properties the proofs need.
- Concurrency: the per-request router's thread-local is one value threaded through a request's calls. Two loaders writing one database at once are not modelled.
- Dictionary and QueryDict iteration order: where the source iterates a `dict` or a `QueryDict`, the model takes the order as an input sequence (`order`, `keys`). Its results are proved for every order.
- Simplify.SimplifyPoints: a negative tolerance is excluded (`0.0 <= tol`). With one, the source can keep splitting a one-point interval and index outside the line. Every caller in the core passes a positive constant.
- Simplify.Keep: the same `0.0 <= tol` precondition, for the same reason.
- Stats.Percentile: requires `0.0 <= p <= 1.0`. The core only calls it with constant percents in that range. Outside it, the source indexes past the end of the list, or from its end for a negative percent.
- Dap.SliceIndices, Dap.Slice, Dap.Select and Dap.GenData require `stride > 0`. A zero or negative stride is handed to pydap's slicing, which is not part of this model.
- Dap.Select: a variable's rank is given by its `Variable` case. The `.ndim` attribute read on a pydap object that lacks one is not modelled.
- Loader.AddParameter: the save of a new parameter cannot raise IntegrityError here. The lookup has just found no parameter of that name and nothing else writes in between. The source's IntegrityError branch for a concurrent insert is therefore not modelled.
- Loader.AddNew: carries the same no-concurrent-insert assumption.
- Floats.Parse: a finite value is the exact value of the decimal text, not the nearest double. Text that underflows to 0.0 in Python, such as '1e-400', reads as non-zero; text that overflows to an infinity, such as '1e400', reads as a finite number.
- Platforms.Glider: a NaN or infinite `time` stops the load with ValueError. This takes coards' `from_udunits` to raise for such a value, as the `timedelta` it builds does; coards is not part of this model.
- Dap.ScalarOf: text that `float()` reads as an infinity gives None, so Dap.Select raises ScalarValueError where the source keeps an infinite scalar. Row values have no infinity.
- Loader.InsertSimpleBottomDepthTimeSeries: the write of `bottomdepth` back onto each Measurement is not modelled; only the SimpleBottomDepthTime rows are.
- DapLoad.Storable: a NaN depth is treated as a failed save, so its row is skipped. The database would store it, and `mindepth`/`maxdepth` would stay unchanged because NaN compares false. Measurement depths are reals in the model.
- DapLoad.Conclude: the activity update records the number loaded and the depth bounds. The new `comment` text, the `maptrack` linestring, `loaded_date` and `updateCampaignStartEnd` are left out; they hold text, geometry and clock readings.
- DapLoad.FinishLoad: leaves out the same side effects.
- DapLoad.ProcessData: of `initDB()` only the `checkForValidData()` precheck is modelled, over the dataset as `precheck` reads it; the platform, parameters, activity and resources it goes on to create are taken as given in `st`.
- DapLoad.ProcessData: the `sys.exit(-1)` calls and the uncaught exceptions are all folded into one `Exited(e)` outcome that ends the load. Of an endless row stream only the first row is modelled (`NeverEnds`).
- Clock.ParseIso: accepts only zero-padded, fixed-width `%Y-%m-%d %H:%M:%S` stamps. `strptime` also accepts unpadded fields, so on such a row Waveglider.ReadRow gives ValueError where the source parses it.
- Strs.Upper: maps ASCII letters only, and Strs.Lower the same. The inputs of the modelled code are ASCII names.
- Canon.LoadPlatform: only a missing `_base` or `_files` attribute raises AttributeError. The `_parms`, `_startDatetime` and `tdsBase` attributes are assumed present.
- Canon.LoadPlatform: a platform's `_base` and `_files` are configured together as one `Source`. A missing `_base` with an empty `_files` therefore raises AttributeError here; the source never reads `_base` in that case and raises nothing.
- Biplots: the drawing, the per-window database queries and `_getActivityExtent` are parameters. `hasData` says whether a triple has data in a window, and the extent is given as instants.
- Biplots.Format: a field name followed by an index `[n]` or an attribute `.name`, and a replacement field nested inside a format spec, are refused. `str.format` would look them up or expand them. The modelled templates are the sanitised title plus `_{time}`.
- Biplots.SpecRule: the format-spec mini-language (`:8`, `:>12` and so on) is a parameter. A rule says which specs it accepts and what they make of a text.
- Biplots.Repr: quotes the text without escaping anything. That is exact for the minute stamps and the `*` formatted here, which hold no quote, backslash or control character.
- Biplots.MakePlots: in an endless run, a pass that raises ends the run with that pass's error. The drawing and saving of the passes before it are not modelled. A run in which no pass raises is `Endless`.
- Drift: the `computeADCPDrift` query is an input, as the two ordered lists of (value, instant, depth) rows. So are the mooring's UTM origin and the inverse projection of the positions.
- Not modelled at all: the AMQP consumer `persistTrex.py`, `classify.py`, the Celery task, `settings.py`, `urls.py`, the campaign load scripts and `loaders/CANON/__init__old.py`. They are outside the ingestion core.

## Findings

| source | as written | input that shows it | evidently intended | confidence | as-written member | corrected member |
|---|---|---|---|---|---|---|
| utils/utils.py:334-337 | the `isdigit()` test runs on the list item before it is stripped | `postgresifySQL` of `... IN (1, 2)` gives `IN (1, '2')` | numbers stay unquoted whatever the spacing | not executed | Postgresify.AsWrittenQuotesSpacedNumbers | Postgresify.CorrectedQuotesExactlyNonNumbers |
| utils/utils.py:233-249 | for a point behind the anchor, the distance is computed but never compared with the running maximum | the line (0,0),(-10,0),(1,0) at tolerance 1 drops (-10,0), which lies 10 from the segment | every point farther than the tolerance is kept | not executed | Simplify.AsWrittenDropsFarPoint | Simplify.WithinTolerance |
| loaders/__init__.py:338-348 | the matching record's type goes into a local that is never read; the PlatformType is created from `self.platformTypeName` | an `auv` loader finds a platform listed as `mooring`, and the platform is stored as `auv` | the type of the matching record | not executed | Loader.AsWrittenIgnoresRecordType | Loader.CorrectedUsesRecordType |
| loaders/__init__.py:555 | the lookup uses `standard_names[name][0]`, the first character of a text attribute | a variable `temperature` whose standard name is `sea_water_temperature`, and a stored parameter with that standard name: the variable is ignored | the lookup uses the whole standard name | not executed | Loader.AsWrittenMissesStandardName | Loader.GetParameterByName |
| loaders/DAPloaders.py:839 | the statistics query filters by parameter but not by activity | a parameter also measured in another activity: the new row's statistics cover both | statistics of this activity's values | not executed | DapLoad.AsWrittenCountsOtherActivities | DapLoad.UpdateStats |
| loaders/DAPloaders.py:850-879 | `get_or_create` looks up with every statistic, then collides with the unique (activity, parameter) pair and skips the parameter | reloading an activity whose values changed leaves the old statistics | the pair's statistics are updated | not executed | DapLoad.AsWrittenKeepsStaleStats | DapLoad.UpdateStats |
| stoqs/views/query.py:175-179 | a `_MIN` key without its `_MAX` logs the error and still appends `pminmax` | `T_MIN=1` alone: `pminmax` is unbound and the request fails | the incomplete pair is skipped | not executed | Query.AsWrittenUnbound | Query.CorrectedSkipsHalf |
| stoqs/views/query.py:175-179 | after a failed lookup the previous key's `pminmax` is appended again | `T_MIN=1&T_MAX=2&U_MIN=3` gives T's constraint twice | T once and nothing for U | not executed | Query.AsWrittenStale | Query.CorrectedNoStale |
| stoqs/views/__init__.py:156-159 | the name is `key.split('_MIN')[0]`, the text before the FIRST `_MIN` | `T_MINUS_MIN=3` with a Parameter `T_MINUS` gives no constraint | the name is the key without its trailing suffix | not executed | Views.AsWrittenDropsConstraint | Views.CorrectedKeepsConstraint |
| stoqs/views/__init__.py:261-265 | the views pass the object name as a fourth positional argument to `KML(request, qs_mp, qparams, **kwargs)`; `kmln` passes `withTimeStamps`, which the constructor does not read | any `kml` or `kmln` request raises TypeError | `kml` with every flag on, `kmln` with every flag off | not executed | Kml.KmlFormats | Kml.KmlFormats |
| utils/Viz/KML.py:153-172 | the style text is bound only inside the loop over platforms | no data: `pointStyleKML` is unbound and `makeKML` raises | the empty document with its colour styles | not executed | Kml.EmptyData | Kml.EmptyData |
| loaders/CANON/toNetCDF/wgToNetcdf.py:255 | the second report prints `ctd.outFile` | any run names the gpctd file twice and never the pCO2 file | the second line names the pCO2 file | not executed | Waveglider.AsWrittenReportsCtdTwice | Waveglider.Report |
| loaders/CANON/realtime/monitorLrauv.py:181-183 | the script's main block queries `InstantPoint`, which it never imports (the models come in as `mod`), and reads `self.dbAlias`, with no `self` there | `--append` with one converted file: NameError before any load | the target database's alias | not executed | Monitor.AsWrittenLoads | Monitor.CorrectedLoads |
| loaders/CANON/__init__.py:135-148 | the John Martin profile-CTD method hands `self.rcpctd_files` to the bottle loader | any JMpctd load reads the Rachel Carson bottle files | its own `JMpctd_files` | not executed | Canon.AsWrittenJMpctdBottles | Canon.AsWrittenJMpctdBottles |
| loaders/CANON/__init__.py:646-658 | `loadAll` settles `stride`, then calls each method with no argument | `loadAll(5)` with a default of 10 loads at stride 10 | each method gets the given stride | not executed | Canon.AsWrittenIgnoresStride | Canon.LoadAllStrides |
| contrib/analysis/trajectory_biplots.py:221-276 | without `--hourStep` the step is the extent's length, which is zero for a single-instant extent, and `while endTime <= allActivityEndTime` never ends | one sample in all the activities | one plot of that instant | not executed | Biplots.AsWrittenZeroExtent | Biplots.CorrectedZeroExtent |

=== FILE: biplots.dfy ===
/** The plot files of `contrib/analysis/trajectory_biplots.py`: how a
    plot is named after its window and the title, and how
    `makePlatformsBiPlots` steps its time window over the platforms'
    extent. Drawing is left out; whether a platform has data in a window
    and the calendar stamp of an instant are parameters. */
module Biplots {
  import opened Wrappers
  import opened Strs
  import opened Findings
  import Clock

  datatype PlotError =
    | FormatError        // `str.format` rejects the template
    | TooManyPlatforms   // more than four platforms to draw
    | Endless            // the window never passes the end: the loop does not stop
    | NoWindow           // no window ran, so `wcName` is unbound at the final message

  // ---------------------------------------------------------------------
  // File names

  /** `[\s()]`: Python 2's `\s` on a byte string, and the parentheses. */
  predicate Blank(c: char)
  {
    IsSpace(c) || c == '(' || c == ')'
  }

  /** `re.sub('[\s()]', '_', title)`. */
  function Sanitize(title: string): (r: string)
    ensures |r| == |title|
  {
    seq(|title|, i requires 0 <= i < |title| => if Blank(title[i]) then '_' else title[i])
  }

  /** The sanitised title keeps every other character in place and has no
      blank or parenthesis left, so sanitising again changes nothing. */
  lemma SanitizeMeans(title: string)
    ensures var r := Sanitize(title);
      (forall i :: 0 <= i < |title| ==> (r[i] == title[i] || (Blank(title[i]) && r[i] == '_')))
      && (forall i :: 0 <= i < |r| ==> !Blank(r[i]))
      && Sanitize(r) == r
  {
  }

  /** The name's stem: the sanitised title, or `platforms` when there is
      no title. */
  function Stem(title: string): string
  {
    if |title| > 0 then Sanitize(title) else "platforms"
  }

  /** `fnTempl`. */
  function Template(title: string): string
  {
    Stem(title) + "_{time}"
  }

  /** `format(text, spec)` for a non-empty spec: the format mini-language
      of `str`, taken as a parameter. Whether a spec is accepted depends on
      the spec alone, not on the text it is applied to. */
  datatype SpecRule = SpecRule(accepts: string -> bool, apply: (string, string) -> string)

  /** `repr()` of a text with no quote, backslash or control character in
      it, as the minute stamps and the `*` formatted here are. */
  function Repr(s: string): string
  {
    "'" + s + "'"
  }

  /** A field's text after its conversion: unchanged for an empty spec, as
      `format(text, '')` is `str(text)`; otherwise as the rule gives it. */
  function ApplySpec(text: string, spec: string, rule: SpecRule): Result<string, PlotError>
  {
    if spec == "" then Success(text)
    else if rule.accepts(spec) then Success(rule.apply(spec, text))
    else Failure(FormatError)
  }

  /** A replacement field, given the text between its braces: the field
      name runs to the first `:` or `!`. */
  function Field(body: string, value: string, rule: SpecRule): Result<string, PlotError>
  {
    var n := IndexOf(body, ':', '!');
    Convert(body[..n], body[n..], value, rule)
  }

  /** The field named `name`, then an optional conversion `!s` or `!r`,
      then an optional `:` and format spec. Any name but `time` is a
      KeyError or, for an empty or numeric name, an IndexError; a
      conversion other than `s` or `r`, or one followed by anything but
      the end or `:`, is a ValueError. */
  function Convert(name: string, rest: string, value: string, rule: SpecRule): Result<string, PlotError>
  {
    if name != "time" then Failure(FormatError)
    else if rest == "" then Success(value)
    else if rest[0] == ':' then ApplySpec(value, rest[1..], rule)
    else if |rest| == 1 then Failure(FormatError)
    else if |rest| > 2 && rest[2] != ':' then Failure(FormatError)
    else if rest[1] != 's' && rest[1] != 'r' then Failure(FormatError)
    else ApplySpec(if rest[1] == 's' then value else Repr(value), if |rest| == 2 then "" else rest[3..], rule)
  }

  /** `template.format(time=value)`: `{{` and `}}` stand for single braces
      and `{...}` for a replacement field; a lone `}`, a `{` that is never
      closed and a field the formatting refuses are errors. */
  function Format(t: string, value: string, rule: SpecRule): Result<string, PlotError>
    decreases |t|
  {
    if |t| == 0 then Success("")
    else if StartsWith(t, "{{") then Prepend("{", Format(t[2..], value, rule))
    else if StartsWith(t, "}}") then Prepend("}", Format(t[2..], value, rule))
    else if t[0] == '}' then Failure(FormatError)
    else if t[0] == '{' then
      var k := 1 + IndexOf(t[1..], '{', '}');
      if k == |t| || t[k] == '{' then Failure(FormatError)
      else match Field(t[1..k], value, rule)
        case Failure(e) => Failure(e)
        case Success(f) => Prepend(f, Format(t[k + 1..], value, rule))
    else Prepend(t[..1], Format(t[1..], value, rule))
  }

  function Prepend(p: string, r: Result<string, PlotError>): Result<string, PlotError>
  {
    if r.Failure? then r else Success(p + r.value)
  }

  lemma PrependTwice(a: string, b: string, r: Result<string, PlotError>)
    ensures Prepend(a, Prepend(b, r)) == Prepend(a + b, r)
  {
    if r.Success? {
      assert a + (b + r.value) == (a + b) + r.value;
    }
  }

  predicate NoBraces(s: string)
  {
    forall i :: 0 <= i < |s| ==> s[i] != '{' && s[i] != '}'
  }

  /** Text without braces goes through the formatting unchanged, ahead of
      what the rest of the template gives. */
  lemma {:induction false} FormatPlain(s: string, t: string, value: string, rule: SpecRule)
    requires NoBraces(s)
    ensures Format(s + t, value, rule) == Prepend(s, Format(t, value, rule))
    decreases |s|
  {
    if |s| == 0 {
      assert s + t == t;
      var r := Format(t, value, rule);
      if r.Success? {
        assert s + r.value == r.value;
      }
    } else {
      var st := s + t;
      assert st[0] == s[0] && st[..1] == s[..1] && st[1..] == s[1..] + t;
      assert !StartsWith(st, "{{") && !StartsWith(st, "}}");
      FormatPlain(s[1..], t, value, rule);
      PrependTwice(s[..1], s[1..], Format(t, value, rule));
      assert s[..1] + s[1..] == s;
    }
  }

  /** A template whose first two characters differ does not start with a
      doubled brace. */
  lemma NotDoubled(t: string)
    requires |t| < 2 || t[1] != t[0]
    ensures !StartsWith(t, "{{") && !StartsWith(t, "}}")
  {
    if |t| >= 2 {
      assert t[0..2][0] == t[0] && t[0..2][1] == t[1];
    }
  }

  /** The first `c` or `d` of `s + t` is the first character of `t` when
      `s` holds neither. */
  lemma {:induction false} IndexAfter(s: string, t: string, c: char, d: char)
    requires forall i :: 0 <= i < |s| ==> s[i] != c && s[i] != d
    requires |t| > 0 && (t[0] == c || t[0] == d)
    ensures IndexOf(s + t, c, d) == |s|
    decreases |s|
  {
    if |s| > 0 {
      assert (s + t)[0] == s[0];
      assert (s + t)[1..] == s[1..] + t;
      IndexAfter(s[1..], t, c, d);
    } else {
      assert s + t == t;
    }
  }

  /** A template that is one field with no brace inside formats as that
      field. */
  lemma FieldAlone(body: string, value: string, rule: SpecRule)
    requires NoBraces(body)
    ensures Format("{" + body + "}", value, rule) == Field(body, value, rule)
  {
    var t := "{" + body + "}";
    assert t[1..] == body + "}";
    IndexAfter(body, "}", '{', '}');
    assert t[1..|body| + 1] == body && t[|body| + 2..] == "";
    NotDoubled(t);
    var f := Field(body, value, rule);
    if f.Success? {
      assert f.value + "" == f.value;
    }
  }

  /** The field `time` followed by `rest`, which is empty or starts the
      conversion or the spec, formats as `rest` says. */
  lemma FieldOfTime(rest: string, value: string, rule: SpecRule)
    requires NoBraces(rest)
    requires rest == "" || rest[0] == ':' || rest[0] == '!'
    ensures Format("{" + ("time" + rest) + "}", value, rule) == Convert("time", rest, value, rule)
  {
    var body := "time" + rest;
    assert NoBraces(body) by {
      forall i | 0 <= i < |body| ensures body[i] != '{' && body[i] != '}' {
        if i >= 4 {
          assert body[i] == rest[i - 4];
        }
      }
    }
    FieldAlone(body, value, rule);
    if rest == "" {
      assert body == "time";
      assert IndexOf("time", ':', '!') == 4;
    } else {
      IndexAfter("time", rest, ':', '!');
    }
    assert body[..4] == "time" && body[4..] == rest;
  }

  /** The field `{time}` is the value itself. */
  lemma FormatTime(value: string, rule: SpecRule)
    ensures Format("{time}", value, rule) == Success(value)
  {
    FieldOfTime("", value, rule);
    assert "{" + ("time" + "") + "}" == "{time}";
  }

  /** A stem without braces names the file after it and the value. */
  lemma FormatStem(stem: string, value: string, rule: SpecRule)
    requires NoBraces(stem)
    ensures Format(stem + "_{time}", value, rule) == Success(stem + "_" + value)
  {
    var t := "{time}";
    assert Format(t, value, rule) == Success(value) by { FormatTime(value, rule); }
    assert stem + "_{time}" == (stem + "_") + t;
    FormatPlain(stem + "_", t, value, rule);
  }

  /** A lone brace in the title makes the formatting fail. */
  lemma FormatLoneBrace(stem: string, value: string, rule: SpecRule)
    requires NoBraces(stem)
    ensures Format(stem + "}_{time}", value, rule) == Failure(FormatError)
  {
    FormatPlain(stem, "}_{time}", value, rule);
    NotDoubled("}_{time}");
  }

  /** `{time!s}` is the value and `{time!r}` its `repr()`; any other
      conversion is refused. */
  lemma FormatConversion(c: char, value: string, rule: SpecRule)
    requires c != '{' && c != '}'
    ensures Format("{time!" + [c] + "}", value, rule)
         == if c == 's' then Success(value) else if c == 'r' then Success(Repr(value)) else Failure(FormatError)
  {
    FieldOfTime("!" + [c], value, rule);
    assert "{" + ("time" + ("!" + [c])) + "}" == "{time!" + [c] + "}";
  }

  lemma FormatSpecPlain(spec: string, value: string, rule: SpecRule)
    requires NoBraces(spec)
    ensures Format("{time:" + spec + "}", value, rule) == ApplySpec(value, spec, rule)
  {
    SpecOfTime(":" + spec, value, rule);
    assert "{" + ("time" + (":" + spec)) + "}" == "{time:" + spec + "}";
    assert (":" + spec)[1..] == spec;
  }

  lemma FormatSpecConverted(c: char, spec: string, value: string, rule: SpecRule)
    requires NoBraces(spec) && (c == 's' || c == 'r')
    ensures Format("{time!" + [c] + ":" + spec + "}", value, rule)
         == ApplySpec(if c == 's' then value else Repr(value), spec, rule)
  {
    var rest := "!" + [c] + ":" + spec;
    SpecOfTime(rest, value, rule);
    assert "{" + ("time" + rest) + "}" == "{time!" + [c] + ":" + spec + "}";
    assert rest[1] == c && rest[2] == ':' && rest[3..] == spec;
  }

  /** `{time:spec}` applies the spec to the value, and `{time!s:spec}` and
      `{time!r:spec}` to the value and its `repr()`. */
  lemma FormatSpecField(spec: string, value: string, rule: SpecRule)
    requires NoBraces(spec)
    ensures Format("{time:" + spec + "}", value, rule)
         == if spec == "" then Success(value)
            else if rule.accepts(spec) then Success(rule.apply(spec, value)) else Failure(FormatError)
    ensures Format("{time!s:" + spec + "}", value, rule) == Format("{time:" + spec + "}", value, rule)
    ensures Format("{time!r:" + spec + "}", value, rule)
         == if spec == "" then Success(Repr(value))
            else if rule.accepts(spec) then Success(rule.apply(spec, Repr(value))) else Failure(FormatError)
  {
    FormatSpecPlain(spec, value, rule);
    FormatSpecConverted('s', spec, value, rule);
    assert "{time!" + ['s'] + ":" + spec + "}" == "{time!s:" + spec + "}";
    FormatSpecConverted('r', spec, value, rule);
    assert "{time!" + ['r'] + ":" + spec + "}" == "{time!r:" + spec + "}";
  }

  lemma SpecOfTime(rest: string, value: string, rule: SpecRule)
    requires |rest| > 0 && (rest[0] == ':' || rest[0] == '!')
    requires NoBraces(rest[1..])
    ensures Format("{" + ("time" + rest) + "}", value, rule) == Convert("time", rest, value, rule)
  {
    assert NoBraces(rest) by {
      forall i | 0 <= i < |rest| ensures rest[i] != '{' && rest[i] != '}' {
        if i > 0 {
          assert rest[i] == rest[1..][i - 1];
        }
      }
    }
    FieldOfTime(rest, value, rule);
  }

  /** A field whose name is not `time`, the empty name included, is
      refused. */
  lemma FormatOtherName(name: string, value: string, rule: SpecRule)
    requires NoBraces(name) && name != "time"
    requires forall i :: 0 <= i < |name| ==> name[i] != ':' && name[i] != '!'
    ensures Format("{" + name + "}", value, rule) == Failure(FormatError)
  {
    FieldAlone(name, value, rule);
    assert IndexOf(name, ':', '!') == |name|;
    assert name[..|name|] == name;
  }

  /** A field that is never closed is refused. */
  lemma FormatUnclosed(body: string, value: string, rule: SpecRule)
    requires NoBraces(body)
    ensures Format("{" + body, value, rule) == Failure(FormatError)
  {
    var t := "{" + body;
    assert t[1..] == body;
    NotDoubled(t);
    assert IndexOf(body, '{', '}') == |body|;
  }

  /** Whether formatting fails depends on the template alone: a template
      that formats one value formats every value, and every failure is
      the formatting's error. */
  lemma {:induction false} FormatFailsAlike(t: string, v1: string, v2: string, rule: SpecRule)
    ensures Format(t, v1, rule).Failure? <==> Format(t, v2, rule).Failure?
    ensures Format(t, v1, rule).Failure? ==> Format(t, v1, rule).error == FormatError
    decreases |t|
  {
    FormatFailureKind(t, v1, rule);
    if |t| > 0 {
      if StartsWith(t, "{{") || StartsWith(t, "}}") {
        FormatFailsAlike(t[2..], v1, v2, rule);
      } else if t[0] == '{' {
        var k := 1 + IndexOf(t[1..], '{', '}');
        if k < |t| && t[k] != '{' {
          assert Field(t[1..k], v1, rule).Failure? <==> Field(t[1..k], v2, rule).Failure?;
          FormatFailsAlike(t[k + 1..], v1, v2, rule);
        }
      } else if t[0] != '}' {
        FormatFailsAlike(t[1..], v1, v2, rule);
      }
    }
  }

  lemma {:induction false} FormatFailureKind(t: string, value: string, rule: SpecRule)
    ensures Format(t, value, rule).Failure? ==> Format(t, value, rule).error == FormatError
    decreases |t|
  {
    if |t| > 0 {
      if StartsWith(t, "{{") || StartsWith(t, "}}") {
        FormatFailureKind(t[2..], value, rule);
      } else if t[0] == '{' {
        var k := 1 + IndexOf(t[1..], '{', '}');
        if k < |t| && t[k] != '{' {
          FormatFailureKind(t[k + 1..], value, rule);
        }
      } else if t[0] != '}' {
        FormatFailureKind(t[1..], value, rule);
      }
    }
  }

  /** The command line's naming options. */
  datatype Args = Args(title: string, plotDir: string, plotPrefix: string, daytime: bool, nighttime: bool)

  /** `_day` and `_night`, in that order, for the options given. */
  function Suffixes(a: Args): string
  {
    (if a.daytime then "_day" else "") + (if a.nighttime then "_night" else "")
  }

  /** `getFilename`: the plot file and the shell pattern of all the
      series' files. */
  function GetFilename(a: Args, start: Clock.Stamp, rule: SpecRule): Result<(string, string), PlotError>
  {
    Names(a, Clock.CompactMinutes(start), rule)
  }

  /** The two names for the formatted time `time`. */
  function Names(a: Args, time: string, rule: SpecRule): Result<(string, string), PlotError>
  {
    var t := Template(a.title);
    var name :- Format(t, time, rule);
    var wc :- Format(t, "*", rule);
    Success((PathJoin(a.plotDir, a.plotPrefix + name + Suffixes(a) + ".png"),
             PathJoin(a.plotDir, a.plotPrefix + wc) + Suffixes(a)))
  }

  /** For a title without braces, the file is the joined directory, prefix
      and stem, then `_` and the minute of `start`, the suffixes and
      `.png`; the pattern has `*` in place of the minute and no `.png`,
      so `pattern + ".png"` matches every file of the series. */
  lemma FilenameLayout(a: Args, start: Clock.Stamp, rule: SpecRule)
    requires NoBraces(a.title)
    ensures var head := PathJoin(a.plotDir, a.plotPrefix + Stem(a.title) + "_");
      GetFilename(a, start, rule) == Success((head + Clock.CompactMinutes(start) + Suffixes(a) + ".png", head + "*" + Suffixes(a)))
  {
    NamesLayout(a, Clock.CompactMinutes(start), rule);
  }

  lemma NamesLayout(a: Args, time: string, rule: SpecRule)
    requires NoBraces(a.title)
    ensures var head := PathJoin(a.plotDir, a.plotPrefix + Stem(a.title) + "_");
      Names(a, time, rule) == Success((head + time + Suffixes(a) + ".png", head + "*" + Suffixes(a)))
  {
    NamesFormatted(a, time, rule);
    JoinLayout(a.plotDir, a.plotPrefix, Stem(a.title), time, Suffixes(a));
  }

  lemma NamesFormatted(a: Args, time: string, rule: SpecRule)
    requires NoBraces(a.title)
    ensures var stem := Stem(a.title);
      Names(a, time, rule) == Success((PathJoin(a.plotDir, a.plotPrefix + (stem + "_" + time) + Suffixes(a) + ".png"),
                                 PathJoin(a.plotDir, a.plotPrefix + (stem + "_" + "*")) + Suffixes(a)))
  {
    StemPlain(a.title);
    FormatStem(Stem(a.title), time, rule);
    FormatStem(Stem(a.title), "*", rule);
  }

  lemma JoinLayout(dir: string, prefix: string, stem: string, time: string, suffixes: string)
    ensures PathJoin(dir, prefix + (stem + "_" + time) + suffixes + ".png")
         == PathJoin(dir, prefix + stem + "_") + time + suffixes + ".png"
    ensures PathJoin(dir, prefix + (stem + "_" + "*")) + suffixes == PathJoin(dir, prefix + stem + "_") + "*" + suffixes
  {
    JoinFile(dir, prefix, stem, "_", time, suffixes, ".png");
    JoinPattern(dir, prefix, stem, "_", "*", suffixes);
  }

  lemma JoinFile(dir: string, prefix: string, stem: string, sep: string, time: string, suffixes: string, ext: string)
    requires |sep| > 0
    ensures PathJoin(dir, prefix + (stem + sep + time) + suffixes + ext) == PathJoin(dir, prefix + stem + sep) + time + suffixes + ext
  {
    var b := prefix + stem + sep;
    assert prefix + (stem + sep + time) + suffixes + ext == b + (time + suffixes + ext);
    PathJoinAppend(dir, b, time + suffixes + ext);
  }

  lemma JoinPattern(dir: string, prefix: string, stem: string, sep: string, star: string, suffixes: string)
    requires |sep| > 0
    ensures PathJoin(dir, prefix + (stem + sep + star)) + suffixes == PathJoin(dir, prefix + stem + sep) + star + suffixes
  {
    var b := prefix + stem + sep;
    assert prefix + (stem + sep + star) == b + star;
    PathJoinAppend(dir, b, star);
  }

  lemma StemPlain(title: string)
    requires NoBraces(title)
    ensures NoBraces(Stem(title))
  {
    var stem := Stem(title);
    if |title| > 0 {
      forall i | 0 <= i < |stem| ensures stem[i] != '{' && stem[i] != '}' {
        assert stem[i] == title[i] || stem[i] == '_';
      }
    } else {
      assert stem == "platforms";
    }
  }

  // ---------------------------------------------------------------------
  // Time windows

  /** Instants are microseconds; an hour option is a count of hours. */
  const MicrosPerHour := 3600000000

  /** `timeStep` and `timeWindow`. */
  datatype Stepping = Stepping(step: int, window: int)

  /** `--hourStep` and `--hourWindow` (both `int`, `None` when absent):
      without a non-zero step one window spans the whole extent; with one,
      the window is `--hourWindow` hours, or the step when that is absent
      or zero. */
  function SteppingOf(hourStep: Option<int>, hourWindow: Option<int>, allStart: int, allEnd: int): (s: Stepping)
    ensures hourStep.Some? && hourStep.value != 0 ==> s.step == hourStep.value * MicrosPerHour
    ensures hourStep.Some? && hourStep.value != 0 && hourWindow.Some? && hourWindow.value != 0 ==>
      s.window == hourWindow.value * MicrosPerHour
    ensures (hourWindow.None? || hourWindow == Some(0)) ==> s.window == s.step
    ensures (hourStep.None? || hourStep == Some(0)) ==> s.step == s.window == allEnd - allStart
  {
    if hourStep.Some? && hourStep.value != 0 then
      var step := hourStep.value * MicrosPerHour;
      Stepping(step, if hourWindow.Some? && hourWindow.value != 0 then hourWindow.value * MicrosPerHour else step)
    else
      Stepping(allEnd - allStart, allEnd - allStart)
  }

  /** One pass of the loop: the window `[start, end]` drawn, and the start
      of the next window, after which the file is named. */
  datatype Window = Window(start: int, end: int, named: int)

  /** The loop's `startTime` after `n` passes: the independent account of
      where each window begins. */
  function StartAfter(start: int, step: int, n: nat): int
    decreases n
  {
    if n == 0 then start else StartAfter(start + step, step, n - 1)
  }

  lemma {:induction false} StartAfterLinear(start: int, step: int, n: nat)
    ensures StartAfter(start, step, n) == start + n * step
    decreases n
  {
    if n > 0 {
      StartAfterLinear(start + step, step, n - 1);
      assert (n - 1) * step + step == n * step;
    }
  }

  /** The loop `while endTime <= allActivityEndTime` for a positive step. */
  function WindowsFrom(start: int, step: int, window: int, allEnd: int): seq<Window>
    requires step > 0
    decreases allEnd - start - window
  {
    if start + window > allEnd then []
    else [Window(start, start + window, start + step)] + WindowsFrom(start + step, step, window, allEnd)
  }

  /** The windows are the loop's successive starts, each ending `window`
      later and no later than the end of the extent, each named after the
      next start; the start after the last one would end past the extent. */
  lemma {:induction false} WindowsAt(start: int, step: int, window: int, allEnd: int)
    requires step > 0
    ensures var ws := WindowsFrom(start, step, window, allEnd);
      (forall k :: 0 <= k < |ws| ==>
         ws[k] == Window(StartAfter(start, step, k), StartAfter(start, step, k) + window, StartAfter(start, step, k + 1))
         && ws[k].end <= allEnd)
      && StartAfter(start, step, |ws|) + window > allEnd
    decreases allEnd - start - window
  {
    var ws := WindowsFrom(start, step, window, allEnd);
    if start + window <= allEnd {
      var rest := WindowsFrom(start + step, step, window, allEnd);
      WindowsAt(start + step, step, window, allEnd);
      assert ws == [Window(start, start + window, start + step)] + rest;
      forall k | 0 <= k < |ws|
        ensures ws[k] == Window(StartAfter(start, step, k), StartAfter(start, step, k) + window, StartAfter(start, step, k + 1))
        ensures ws[k].end <= allEnd
      {
        if k > 0 {
          assert ws[k] == rest[k - 1];
        }
      }
    }
  }

  /** The loop as a whole: the positive-step loop above; no window when
      the first already ends past the extent; otherwise, with a step that
      is not positive, the loop as written never ends, and the corrected
      loop draws the one window and stops. */
  function Windows(v: Variant, s: Stepping, allStart: int, allEnd: int): Result<seq<Window>, PlotError>
  {
    if s.step > 0 then Success(WindowsFrom(allStart, s.step, s.window, allEnd))
    else if allStart + s.window > allEnd then Success([])
    else match v
      case AsWritten => Failure(Endless)
      case Corrected => Success([Window(allStart, allStart + s.window, allStart + s.step)])
  }

  /** With a step that is not positive, a first window inside the extent
      keeps every later one inside it too: the loop's guard never fails. */
  lemma {:induction false} NeverPasses(start: int, step: int, window: int, allEnd: int, n: nat)
    requires step <= 0 && start + window <= allEnd
    ensures StartAfter(start, step, n) + window <= allEnd
    decreases n
  {
    if n > 0 {
      NeverPasses(start + step, step, window, allEnd, n - 1);
    }
  }

  /** The loop as written fails to end exactly when the step is not
      positive and the first window fits, and then every pass's guard holds;
      the corrected loop always ends. */
  lemma WindowsEndless(s: Stepping, allStart: int, allEnd: int)
    ensures Windows(AsWritten, s, allStart, allEnd).Failure? <==> s.step <= 0 && allStart + s.window <= allEnd
    ensures Windows(AsWritten, s, allStart, allEnd).Failure? ==>
      forall n: nat :: StartAfter(allStart, s.step, n) + s.window <= allEnd
    ensures Windows(Corrected, s, allStart, allEnd).Success?
  {
    if s.step <= 0 && allStart + s.window <= allEnd {
      forall n: nat ensures StartAfter(allStart, s.step, n) + s.window <= allEnd {
        NeverPasses(allStart, s.step, s.window, allEnd, n);
      }
    }
  }

  /** Without `--hourStep` over a non-empty extent: one window, the whole
      extent, named after its end. */
  lemma WholeExtent(v: Variant, hourWindow: Option<int>, allStart: int, allEnd: int)
    requires allStart < allEnd
    ensures Windows(v, SteppingOf(None, hourWindow, allStart, allEnd), allStart, allEnd)
         == Success([Window(allStart, allEnd, allEnd)])
  {
    var s := SteppingOf(None, hourWindow, allStart, allEnd);
    assert s.step == s.window == allEnd - allStart;
    assert allStart + s.step == allEnd && allStart + s.window == allEnd;
    assert WindowsFrom(allStart + s.step, s.step, s.window, allEnd) == [];
    assert WindowsFrom(allStart, s.step, s.window, allEnd)
        == [Window(allStart, allStart + s.window, allStart + s.step)] + WindowsFrom(allStart + s.step, s.step, s.window, allEnd);
    assert Windows(v, s, allStart, allEnd) == Success(WindowsFrom(allStart, s.step, s.window, allEnd));
    assert [Window(allStart, allEnd, allEnd)] + [] == [Window(allStart, allEnd, allEnd)];
  }

  /** Without `--hourStep` over an extent of one instant (a single
      sample), the loop as written never ends. */
  lemma AsWrittenZeroExtent(hourWindow: Option<int>, t: int)
    ensures Windows(AsWritten, SteppingOf(None, hourWindow, t, t), t, t) == Failure(Endless)
  {
  }

  /** Corrected, the one-instant extent gets its one plot. */
  lemma CorrectedZeroExtent(hourWindow: Option<int>, t: int)
    ensures Windows(Corrected, SteppingOf(None, hourWindow, t, t), t, t) == Success([Window(t, t, t)])
  {
  }

  // ---------------------------------------------------------------------
  // Panels

  /** Where a platform's parameter-parameter plot goes. */
  datatype Panel = Single | Cell(index: nat)

  /** `plat1_gs[0]` for one platform, `plat4_gs[i]` otherwise. */
  function Place(platforms: nat, i: nat): Panel
  {
    if platforms == 1 then Single else Cell(i)
  }

  /** The place for up to four platforms, and an exception beyond: the
      count is of `--platform`, not of the zipped triples. */
  function PanelFor(platforms: nat, i: nat): Result<Panel, PlotError>
  {
    if platforms < 5 then Success(Place(platforms, i)) else Failure(TooManyPlatforms)
  }

  /** The inner loop from triple `i` on, for `pairs` zipped triples:
      a triple without data in the window is skipped. */
  function PanelsFrom(platforms: nat, pairs: nat, hasData: nat -> bool, i: nat): Result<seq<(nat, Panel)>, PlotError>
    decreases pairs - i
  {
    if i >= pairs then Success([])
    else if !hasData(i) then PanelsFrom(platforms, pairs, hasData, i + 1)
    else match PanelFor(platforms, i)
      case Failure(e) => Failure(e)
      case Success(p) =>
        match PanelsFrom(platforms, pairs, hasData, i + 1)
          case Failure(e) => Failure(e)
          case Success(rest) => Success([(i, p)] + rest)
  }

  function Panels(platforms: nat, pairs: nat, hasData: nat -> bool): Result<seq<(nat, Panel)>, PlotError>
  {
    PanelsFrom(platforms, pairs, hasData, 0)
  }

  /** The triples from `i` on that have data, in increasing order: the
      independent account of which panels are drawn. */
  function WithData(pairs: nat, hasData: nat -> bool, i: nat): (r: seq<nat>)
    ensures forall k :: 0 <= k < |r| ==> i <= r[k] < pairs && hasData(r[k])
    ensures forall k, l :: 0 <= k < l < |r| ==> r[k] < r[l]
    ensures forall j :: i <= j < pairs && hasData(j) ==> j in r
    decreases pairs - i
  {
    if i >= pairs then []
    else if hasData(i) then [i] + WithData(pairs, hasData, i + 1)
    else WithData(pairs, hasData, i + 1)
  }

  /** Each triple with data in its place. */
  function Placed(platforms: nat, js: seq<nat>): (r: seq<(nat, Panel)>)
    ensures |r| == |js|
    ensures forall k :: 0 <= k < |js| ==> r[k] == (js[k], Place(platforms, js[k]))
  {
    seq(|js|, k requires 0 <= k < |js| => (js[k], Place(platforms, js[k])))
  }

  /** Drawing fails exactly when there are five platforms or more and some
      triple has data; otherwise the panels are the triples with data, in
      order, each in its place. */
  lemma {:induction false} PanelsFromMeans(platforms: nat, pairs: nat, hasData: nat -> bool, i: nat)
    ensures var r := PanelsFrom(platforms, pairs, hasData, i);
      (r.Failure? <==> platforms >= 5 && |WithData(pairs, hasData, i)| > 0)
      && (r.Failure? ==> r.error == TooManyPlatforms)
      && (r.Success? ==> r.value == Placed(platforms, WithData(pairs, hasData, i)))
    decreases pairs - i
  {
    if i < pairs {
      PanelsFromMeans(platforms, pairs, hasData, i + 1);
      var r, next := PanelsFrom(platforms, pairs, hasData, i), PanelsFrom(platforms, pairs, hasData, i + 1);
      var rest := WithData(pairs, hasData, i + 1);
      if !hasData(i) {
        assert r == next;
        assert WithData(pairs, hasData, i) == rest;
      } else if platforms >= 5 {
        assert r == Failure(TooManyPlatforms);
        assert WithData(pairs, hasData, i) == [i] + rest;
      } else {
        assert WithData(pairs, hasData, i) == [i] + rest;
        assert r == Success([(i, Place(platforms, i))] + next.value);
        PlacedCons(platforms, i, rest);
      }
    }
  }

  lemma PlacedCons(platforms: nat, i: nat, js: seq<nat>)
    ensures Placed(platforms, [i] + js) == [(i, Place(platforms, i))] + Placed(platforms, js)
  {
  }

  lemma PanelsMeans(platforms: nat, pairs: nat, hasData: nat -> bool)
    ensures var r := Panels(platforms, pairs, hasData);
      (r.Failure? <==> platforms >= 5 && exists j :: 0 <= j < pairs && hasData(j))
      && (r.Failure? ==> r.error == TooManyPlatforms)
      && (r.Success? ==> r.value == Placed(platforms, WithData(pairs, hasData, 0)))
  {
    PanelsFromMeans(platforms, pairs, hasData, 0);
    var w := WithData(pairs, hasData, 0);
    if exists j :: 0 <= j < pairs && hasData(j) {
      var j :| 0 <= j < pairs && hasData(j);
      assert j in w;
    }
    if |w| > 0 {
      assert 0 <= w[0] < pairs && hasData(w[0]);
    }
  }

  // ---------------------------------------------------------------------
  // The plots

  /** One saved figure. */
  datatype Plot = Plot(window: Window, panels: seq<(nat, Panel)>, fileName: string, wcName: string)

  /** The panels of window `w`: `_getPPData` between its start and end. */
  function PanelsIn(platforms: nat, pairs: nat, hasData: (int, int, nat) -> bool, w: Window): Result<seq<(nat, Panel)>, PlotError>
  {
    Panels(platforms, pairs, (j: nat) => hasData(w.start, w.end, j))
  }

  /** One pass of the loop: the panels first, then the name. */
  function PlotFor(a: Args, rule: SpecRule, platforms: nat, pairs: nat, hasData: (int, int, nat) -> bool,
                   stampOf: int -> Clock.Stamp, w: Window): Result<Plot, PlotError>
  {
    var panels :- PanelsIn(platforms, pairs, hasData, w);
    var names :- GetFilename(a, stampOf(w.named), rule);
    Success(Plot(w, panels, names.0, names.1))
  }

  /** `f` of each element in turn, stopping at the first failure. */
  function EachOf<T, U>(f: T -> Result<U, PlotError>, xs: seq<T>): Result<seq<U>, PlotError>
    decreases |xs|
  {
    if |xs| == 0 then Success([])
    else match f(xs[0])
      case Failure(e) => Failure(e)
      case Success(y) =>
        match EachOf(f, xs[1..])
          case Failure(e) => Failure(e)
          case Success(rest) => Success([y] + rest)
  }

  lemma {:induction false} EachOfMeans<T, U>(f: T -> Result<U, PlotError>, xs: seq<T>)
    ensures var r := EachOf(f, xs);
      (r.Success? <==> forall k :: 0 <= k < |xs| ==> f(xs[k]).Success?)
      && (r.Success? ==> |r.value| == |xs| && forall k :: 0 <= k < |xs| ==> r.value[k] == f(xs[k]).value)
    decreases |xs|
  {
    if |xs| > 0 {
      var tail := xs[1..];
      EachOfMeans(f, tail);
      assert forall k :: 1 <= k < |xs| ==> xs[k] == tail[k - 1];
      var r, next := EachOf(f, xs), EachOf(f, tail);
      if f(xs[0]).Success? && next.Success? {
        assert r == Success([f(xs[0]).value] + next.value);
      }
    }
  }

  /** The figures, window by window, stopping at the first failure. */
  function PlotsOf(a: Args, rule: SpecRule, platforms: nat, pairs: nat, hasData: (int, int, nat) -> bool,
                   stampOf: int -> Clock.Stamp, ws: seq<Window>): Result<seq<Plot>, PlotError>
  {
    EachOf((w: Window) => PlotFor(a, rule, platforms, pairs, hasData, stampOf, w), ws)
  }

  /** The figures succeed exactly when every window's does, and then there
      is one figure per window, in order. */
  lemma PlotsOfMeans(a: Args, rule: SpecRule, platforms: nat, pairs: nat, hasData: (int, int, nat) -> bool,
                     stampOf: int -> Clock.Stamp, ws: seq<Window>)
    ensures var r := PlotsOf(a, rule, platforms, pairs, hasData, stampOf, ws);
      (r.Success? <==> forall k :: 0 <= k < |ws| ==> PlotFor(a, rule, platforms, pairs, hasData, stampOf, ws[k]).Success?)
      && (r.Success? ==> |r.value| == |ws| && forall k :: 0 <= k < |ws| ==>
            r.value[k] == PlotFor(a, rule, platforms, pairs, hasData, stampOf, ws[k]).value)
  {
    EachOfMeans((w: Window) => PlotFor(a, rule, platforms, pairs, hasData, stampOf, w), ws);
  }

  /** Pass `n` of the loop, counted from 0: the window from the start
      after `n` steps, named after the start after `n + 1`. */
  function Pass(allStart: int, s: Stepping, n: nat): Window
  {
    Window(StartAfter(allStart, s.step, n), StartAfter(allStart, s.step, n) + s.window, StartAfter(allStart, s.step, n + 1))
  }

  /** `makePlatformsBiPlots`: the windows, a figure for each, and the
      closing message, which names the last figure's pattern and so needs
      at least one. `hasData` says whether `_getPPData` finds data for a
      triple in a window; `stampOf` is the calendar minute of an instant.
      A loop whose guard never fails still draws its passes, and the first
      pass that raises ends the run: the first pass with its own error, a
      later one only in drawing, because the names fail alike for every
      instant. */
  ghost function MakePlots(v: Variant, a: Args, rule: SpecRule, hourStep: Option<int>, hourWindow: Option<int>,
                           allStart: int, allEnd: int, platforms: nat, pairs: nat,
                           hasData: (int, int, nat) -> bool, stampOf: int -> Clock.Stamp): Result<seq<Plot>, PlotError>
  {
    var s := SteppingOf(hourStep, hourWindow, allStart, allEnd);
    match Windows(v, s, allStart, allEnd)
    case Failure(e) =>
      var first := PlotFor(a, rule, platforms, pairs, hasData, stampOf, Pass(allStart, s, 0));
      if first.Failure? then Failure(first.error)
      else if exists n: nat :: PlotFor(a, rule, platforms, pairs, hasData, stampOf, Pass(allStart, s, n)).Failure? then
        Failure(TooManyPlatforms)
      else Failure(e)
    case Success(ws) =>
      var plots :- PlotsOf(a, rule, platforms, pairs, hasData, stampOf, ws);
      if |plots| == 0 then Failure(NoWindow) else Success(plots)
  }

  /** Whether a file name can be formatted does not depend on the instant. */
  lemma NamesFailAlike(a: Args, rule: SpecRule, t1: Clock.Stamp, t2: Clock.Stamp)
    ensures GetFilename(a, t1, rule).Failure? <==> GetFilename(a, t2, rule).Failure?
    ensures GetFilename(a, t1, rule).Failure? ==> GetFilename(a, t1, rule).error == FormatError
  {
    var t := Template(a.title);
    FormatFailsAlike(t, Clock.CompactMinutes(t1), Clock.CompactMinutes(t2), rule);
    FormatFailsAlike(t, Clock.CompactMinutes(t1), "*", rule);
  }

  /** Once one figure is drawn and named, a figure of another window can
      fail only in drawing, with too many platforms. */
  lemma LaterPassFails(a: Args, rule: SpecRule, platforms: nat, pairs: nat, hasData: (int, int, nat) -> bool,
                       stampOf: int -> Clock.Stamp, w0: Window, w: Window)
    requires PlotFor(a, rule, platforms, pairs, hasData, stampOf, w0).Success?
    requires PlotFor(a, rule, platforms, pairs, hasData, stampOf, w).Failure?
    ensures PlotFor(a, rule, platforms, pairs, hasData, stampOf, w).error == TooManyPlatforms
  {
    PanelsMeans(platforms, pairs, (j: nat) => hasData(w.start, w.end, j));
    NamesFailAlike(a, rule, stampOf(w0.named), stampOf(w.named));
  }

  /** The least number at or below `n` that has property `p`. */
  lemma {:induction false} LeastOf(p: nat -> bool, n: nat) returns (m: nat)
    requires p(n)
    ensures m <= n && p(m) && forall k: nat :: k < m ==> !p(k)
    decreases n
  {
    if exists k: nat :: k < n && p(k) {
      var k: nat :| k < n && p(k);
      m := LeastOf(p, k);
    } else {
      m := n;
    }
  }

  /** A figure fails only by drawing too many platforms or by a name the
      formatting refuses. */
  lemma PlotForError(a: Args, rule: SpecRule, platforms: nat, pairs: nat, hasData: (int, int, nat) -> bool,
                     stampOf: int -> Clock.Stamp, w: Window)
    ensures var p := PlotFor(a, rule, platforms, pairs, hasData, stampOf, w);
      p.Failure? ==> p.error == TooManyPlatforms || p.error == FormatError
  {
    PanelsMeans(platforms, pairs, (j: nat) => hasData(w.start, w.end, j));
    NamesFailAlike(a, rule, stampOf(w.named), stampOf(w.named));
  }

  /** As written, a step that is not positive with a first window that
      fits keeps the guard true on every pass; the run then ends at the
      first pass that raises, with that pass's error, and is endless
      exactly when no pass raises. With a zero step every pass draws the
      first window again. */
  lemma EndlessMeans(a: Args, rule: SpecRule, hourStep: Option<int>, hourWindow: Option<int>,
                     allStart: int, allEnd: int, platforms: nat, pairs: nat,
                     hasData: (int, int, nat) -> bool, stampOf: int -> Clock.Stamp)
    requires var s := SteppingOf(hourStep, hourWindow, allStart, allEnd);
      s.step <= 0 && allStart + s.window <= allEnd
    ensures var s := SteppingOf(hourStep, hourWindow, allStart, allEnd);
      forall n: nat :: Pass(allStart, s, n).end <= allEnd
    ensures var s := SteppingOf(hourStep, hourWindow, allStart, allEnd);
      var r := MakePlots(AsWritten, a, rule, hourStep, hourWindow, allStart, allEnd, platforms, pairs, hasData, stampOf);
      r.Failure?
      && (r.error == Endless <==>
            forall n: nat :: PlotFor(a, rule, platforms, pairs, hasData, stampOf, Pass(allStart, s, n)).Success?)
      && (r.error != Endless ==> exists n: nat ::
            PlotFor(a, rule, platforms, pairs, hasData, stampOf, Pass(allStart, s, n)) == Failure(r.error)
            && forall m: nat :: m < n ==> PlotFor(a, rule, platforms, pairs, hasData, stampOf, Pass(allStart, s, m)).Success?)
    ensures var s := SteppingOf(hourStep, hourWindow, allStart, allEnd);
      s.step == 0 ==> forall n: nat :: Pass(allStart, s, n) == Pass(allStart, s, 0)
  {
    var s := SteppingOf(hourStep, hourWindow, allStart, allEnd);
    EndlessResult(a, rule, s, hourStep, hourWindow, allStart, allEnd, platforms, pairs, hasData, stampOf);
    forall n: nat ensures Pass(allStart, s, n).end <= allEnd {
      NeverPasses(allStart, s.step, s.window, allEnd, n);
    }
    if s.step == 0 {
      forall n: nat ensures Pass(allStart, s, n) == Pass(allStart, s, 0) {
        StartAfterLinear(allStart, 0, n);
        StartAfterLinear(allStart, 0, n + 1);
        StartAfterLinear(allStart, 0, 1);
      }
    }
  }

  lemma EndlessResult(a: Args, rule: SpecRule, s: Stepping, hourStep: Option<int>, hourWindow: Option<int>,
                      allStart: int, allEnd: int, platforms: nat, pairs: nat,
                      hasData: (int, int, nat) -> bool, stampOf: int -> Clock.Stamp)
    requires s == SteppingOf(hourStep, hourWindow, allStart, allEnd)
    requires s.step <= 0 && allStart + s.window <= allEnd
    ensures var r := MakePlots(AsWritten, a, rule, hourStep, hourWindow, allStart, allEnd, platforms, pairs, hasData, stampOf);
      r.Failure?
      && (r.error == Endless <==>
            forall n: nat :: PlotFor(a, rule, platforms, pairs, hasData, stampOf, Pass(allStart, s, n)).Success?)
      && (r.error != Endless ==> exists n: nat ::
            PlotFor(a, rule, platforms, pairs, hasData, stampOf, Pass(allStart, s, n)) == Failure(r.error)
            && forall m: nat :: m < n ==> PlotFor(a, rule, platforms, pairs, hasData, stampOf, Pass(allStart, s, m)).Success?)
  {
    var r := MakePlots(AsWritten, a, rule, hourStep, hourWindow, allStart, allEnd, platforms, pairs, hasData, stampOf);
    assert Windows(AsWritten, s, allStart, allEnd) == Failure(Endless);
    var first := PlotFor(a, rule, platforms, pairs, hasData, stampOf, Pass(allStart, s, 0));
    if first.Failure? {
      assert r == Failure(first.error);
      PlotForError(a, rule, platforms, pairs, hasData, stampOf, Pass(allStart, s, 0));
    } else if exists n: nat :: PlotFor(a, rule, platforms, pairs, hasData, stampOf, Pass(allStart, s, n)).Failure? {
      var n: nat :| PlotFor(a, rule, platforms, pairs, hasData, stampOf, Pass(allStart, s, n)).Failure?;
      var p := (k: nat) => PlotFor(a, rule, platforms, pairs, hasData, stampOf, Pass(allStart, s, k)).Failure?;
      assert p(n);
      var m := LeastOf(p, n);
      assert p(m);
      LaterPassFails(a, rule, platforms, pairs, hasData, stampOf, Pass(allStart, s, 0), Pass(allStart, s, m));
      assert r == Failure(TooManyPlatforms);
      forall k: nat | k < m
        ensures PlotFor(a, rule, platforms, pairs, hasData, stampOf, Pass(allStart, s, k)).Success?
      {
        assert !p(k);
      }
    } else {
      assert r == Failure(Endless);
    }
  }


  /** A figure whose names the formatting refuses fails with that error
      when at most four platforms are drawn. */
  lemma FigureNameFails(a: Args, rule: SpecRule, platforms: nat, pairs: nat, hasData: (int, int, nat) -> bool,
                        stampOf: int -> Clock.Stamp, w: Window)
    requires Format(Template(a.title), "*", rule).Failure? && platforms < 5
    ensures PlotFor(a, rule, platforms, pairs, hasData, stampOf, w) == Failure(FormatError)
  {
    PanelsMeans(platforms, pairs, (j: nat) => hasData(w.start, w.end, j));
    FormatFailsAlike(Template(a.title), Clock.CompactMinutes(stampOf(w.named)), "*", rule);
  }

  /** The figures stop at a first window whose figure fails. */
  lemma PlotsFailFirst(a: Args, rule: SpecRule, platforms: nat, pairs: nat, hasData: (int, int, nat) -> bool,
                       stampOf: int -> Clock.Stamp, ws: seq<Window>)
    requires |ws| > 0 && PlotFor(a, rule, platforms, pairs, hasData, stampOf, ws[0]).Failure?
    ensures PlotsOf(a, rule, platforms, pairs, hasData, stampOf, ws)
         == Failure(PlotFor(a, rule, platforms, pairs, hasData, stampOf, ws[0]).error)
  {
  }

  /** A title the formatting refuses stops the run with that error at its
      first figure, whatever the stepping and the variant, when the first
      window fits and at most four platforms are given. */
  lemma BadTitleFails(v: Variant, a: Args, rule: SpecRule, hourStep: Option<int>, hourWindow: Option<int>,
                      allStart: int, allEnd: int, platforms: nat, pairs: nat,
                      hasData: (int, int, nat) -> bool, stampOf: int -> Clock.Stamp)
    requires Format(Template(a.title), "*", rule).Failure? && platforms < 5
    requires allStart + SteppingOf(hourStep, hourWindow, allStart, allEnd).window <= allEnd
    ensures MakePlots(v, a, rule, hourStep, hourWindow, allStart, allEnd, platforms, pairs, hasData, stampOf)
         == Failure(FormatError)
  {
    var s := SteppingOf(hourStep, hourWindow, allStart, allEnd);
    var w0 := Window(allStart, allStart + s.window, allStart + s.step);
    assert Pass(allStart, s, 0) == w0 by {
      assert StartAfter(allStart, s.step, 1) == allStart + s.step;
    }
    FigureNameFails(a, rule, platforms, pairs, hasData, stampOf, w0);
    var ws := if s.step > 0 then WindowsFrom(allStart, s.step, s.window, allEnd) else [w0];
    if s.step > 0 || v == Corrected {
      assert Windows(v, s, allStart, allEnd) == Success(ws);
      assert ws[0] == w0;
      PlotsFailFirst(a, rule, platforms, pairs, hasData, stampOf, ws);
    } else {
      assert Windows(v, s, allStart, allEnd) == Failure(Endless);
    }
  }

  /** A title with a lone `}` stops the run with ValueError at the first
      figure; in particular an extent of one instant raises before the
      endless loop gets to a second pass. */
  lemma LoneBraceTitleFails(v: Variant, stem: string, a: Args, rule: SpecRule, hourStep: Option<int>, hourWindow: Option<int>,
                            allStart: int, allEnd: int, platforms: nat, pairs: nat,
                            hasData: (int, int, nat) -> bool, stampOf: int -> Clock.Stamp)
    requires a.title == stem + "}" && NoBraces(stem) && platforms < 5
    requires allStart + SteppingOf(hourStep, hourWindow, allStart, allEnd).window <= allEnd
    ensures MakePlots(v, a, rule, hourStep, hourWindow, allStart, allEnd, platforms, pairs, hasData, stampOf)
         == Failure(FormatError)
  {
    assert Sanitize(a.title) == Sanitize(stem) + "}";
    StemPlain(stem);
    assert NoBraces(Sanitize(stem)) by {
      if |stem| == 0 {
        assert Sanitize(stem) == "";
      }
    }
    FormatLoneBrace(Sanitize(stem), "*", rule);
    assert Template(a.title) == Sanitize(stem) + "}_{time}";
    BadTitleFails(v, a, rule, hourStep, hourWindow, allStart, allEnd, platforms, pairs, hasData, stampOf);
  }

  /** With a positive `--hourStep`, a title without braces and at most four
      platforms, the plots are one per window of the stepping, each saved
      as the file named after the next window's start, and the closing
      pattern matches every one of them. */
  lemma MakePlotsNames(v: Variant, a: Args, rule: SpecRule, hours: int, hourWindow: Option<int>,
                       allStart: int, allEnd: int, platforms: nat, pairs: nat,
                       hasData: (int, int, nat) -> bool, stampOf: int -> Clock.Stamp)
    requires hours > 0 && NoBraces(a.title) && platforms < 5
    ensures var s := SteppingOf(Some(hours), hourWindow, allStart, allEnd);
      var r := MakePlots(v, a, rule, Some(hours), hourWindow, allStart, allEnd, platforms, pairs, hasData, stampOf);
      var head := PathJoin(a.plotDir, a.plotPrefix + Stem(a.title) + "_");
      (r.Success? <==> allStart + s.window <= allEnd)
      && (r.Success? ==>
            |r.value| == |WindowsFrom(allStart, s.step, s.window, allEnd)|
            && forall k :: 0 <= k < |r.value| ==>
                 r.value[k].window.start == StartAfter(allStart, s.step, k)
                 && r.value[k].fileName == head + Clock.CompactMinutes(stampOf(StartAfter(allStart, s.step, k + 1))) + Suffixes(a) + ".png"
                 && r.value[k].wcName == head + "*" + Suffixes(a))
  {
    var s := SteppingOf(Some(hours), hourWindow, allStart, allEnd);
    var ws := WindowsFrom(allStart, s.step, s.window, allEnd);
    WindowsAt(allStart, s.step, s.window, allEnd);
    PlotsOfMeans(a, rule, platforms, pairs, hasData, stampOf, ws);
    forall k | 0 <= k < |ws|
      ensures PlotFor(a, rule, platforms, pairs, hasData, stampOf, ws[k]).Success?
    {
      PlotForLayout(a, rule, platforms, pairs, hasData, stampOf, ws[k]);
    }
    var plots := PlotsOf(a, rule, platforms, pairs, hasData, stampOf, ws);
    assert Windows(v, s, allStart, allEnd) == Success(ws);
    assert MakePlots(v, a, rule, Some(hours), hourWindow, allStart, allEnd, platforms, pairs, hasData, stampOf)
        == if |plots.value| == 0 then Failure(NoWindow) else plots;
    if allStart + s.window > allEnd {
      assert ws == [];
    } else {
      assert |ws| > 0;
      var head := PathJoin(a.plotDir, a.plotPrefix + Stem(a.title) + "_");
      assert plots.Success? && |plots.value| == |ws|;
      forall k | 0 <= k < |plots.value|
        ensures plots.value[k].window.start == StartAfter(allStart, s.step, k)
        ensures plots.value[k].fileName == head + Clock.CompactMinutes(stampOf(StartAfter(allStart, s.step, k + 1))) + Suffixes(a) + ".png"
        ensures plots.value[k].wcName == head + "*" + Suffixes(a)
      {
        PlotForLayout(a, rule, platforms, pairs, hasData, stampOf, ws[k]);
        assert plots.value[k] == PlotFor(a, rule, platforms, pairs, hasData, stampOf, ws[k]).value;
        assert ws[k] == Window(StartAfter(allStart, s.step, k), StartAfter(allStart, s.step, k) + s.window, StartAfter(allStart, s.step, k + 1));
      }
    }
  }

  /** A window's figure, for a title without braces and at most four
      platforms: drawn, and saved under the name of the window's `named`
      instant. */
  lemma PlotForLayout(a: Args, rule: SpecRule, platforms: nat, pairs: nat, hasData: (int, int, nat) -> bool,
                      stampOf: int -> Clock.Stamp, w: Window)
    requires NoBraces(a.title) && platforms < 5
    ensures var p := PlotFor(a, rule, platforms, pairs, hasData, stampOf, w);
      var head := PathJoin(a.plotDir, a.plotPrefix + Stem(a.title) + "_");
      p.Success? && p.value.window == w
      && p.value.fileName == head + Clock.CompactMinutes(stampOf(w.named)) + Suffixes(a) + ".png"
      && p.value.wcName == head + "*" + Suffixes(a)
  {
    PanelsMeans(platforms, pairs, (j: nat) => hasData(w.start, w.end, j));
    FilenameLayout(a, stampOf(w.named), rule);
  }
}

=== FILE: canon.dfy ===
/** The CANON campaign loader (`loaders/CANON/__init__.py`): one method per
    platform that names an activity after each of its files and hands the
    file's URL to the matching DAP loader, and `loadAll`, which runs a
    fixed list of them. The DAP loaders, `load_gulps` and the bottle
    loader are recorded as the calls the methods make. */
module Canon {
  import opened Wrappers
  import opened Strs
  import opened Findings

  /** Which `DAPloaders.run*Loader` a platform uses. */
  datatype Kind = DoradoRun | LrauvRun | TrajectoryRun | GliderRun | MooringRun

  /** How a method names its platform and picks its colour. */
  datatype Naming =
    | Fixed(platform: string, colorKey: string)
    | GliderNamed       // from the file's first `_`-token
    | StellaNamed       // from three characters of the activity name

  /** The bottle files a profile-CTD method hands to the Seabird loader
      after its casts, and the activity name it gives that loader. */
  datatype Bottles =
    | NoBottles
    | BottlesNamed(activity: string, filesKey: string)
    | BottlesOfLast(filesKey: string)

  /** One platform method: the attribute prefix of its `_files` and
      `_base`, the loader, the names and types it passes, whether it cuts
      the file at its first `.` for the activity name, whether it joins
      base and file with `os.path.join`, whether it loads gulper samples
      per file, and which bottles it loads. */
  datatype Spec = Spec(
    key: string, kind: Kind, naming: Naming, platformType: string, activityType: string,
    cut: bool, joined: bool, gulps: bool, bottles: Bottles)

  /** A platform's `_base` and `_files` attributes. */
  datatype Source = Source(base: string, files: seq<string>)

  /** The loader's attributes: its default stride, the colour table and
      the sources the load script set. */
  datatype Loader = Loader(stride: int, colors: map<string, string>, sources: map<string, Source>)

  /** One call to a DAP loader; `withGulps` says `load_gulps(aName, file)`
      follows it. */
  datatype Load = Load(
    kind: Kind, url: string, aName: string, platform: string, color: string,
    platformType: string, activityType: string, stride: int, withGulps: bool)

  /** The Seabird bottle load made after the casts. `platformType` is the
      `platformTypeName` passed, or None for SeabirdLoader's default. */
  datatype BottleLoad = BottleLoad(activity: string, platform: string, color: string, platformType: Option<string>, files: seq<string>)

  datatype CanonError = AttributeError | KeyError | NameError

  /** The calls a method made and, if it raised, what. */
  datatype Run = Run(loads: seq<Load>, bottles: seq<BottleLoad>, error: Option<CanonError>)

  // ---------------------------------------------------------------------
  // Names

  /** `stride or self.stride`: a missing or zero stride falls back to the
      loader's. */
  function Fallback(arg: Option<int>, default: int): (s: int)
    ensures arg.None? || arg == Some(0) ==> s == default
    ensures arg.Some? && arg.value != 0 ==> s == arg.value
  {
    if arg.None? || arg.value == 0 then default else arg.value
  }

  /** Passing on the stride a method settled on changes nothing. */
  lemma FallbackStable(arg: Option<int>, default: int)
    ensures Fallback(Some(Fallback(arg, default)), default) == Fallback(arg, default)
  {
  }

  /** `' (stride=%d)' % stride`. */
  function Suffix(stride: int): string
  {
    " (stride=" + IntToString(stride) + ")"
  }

  /** The activity name of one file: the file (up to its first `.` in the
      profile-CTD methods) and the stride. */
  function ActivityName(file: string, stride: int, cut: bool): string
  {
    (if cut then SplitFirst(file, ".") else file) + Suffix(stride)
  }

  /** The comprehension zipped with the files. */
  function ActivityNames(files: seq<string>, stride: int, cut: bool): (names: seq<string>)
    ensures |names| == |files|
    ensures forall k :: 0 <= k < |files| ==> names[k] == ActivityName(files[k], stride, cut)
  {
    seq(|files|, k requires 0 <= k < |files| => ActivityName(files[k], stride, cut))
  }

  /** An activity name starts with the file's name (all of it, or the part
      before the first `.`) and ends with the stride, which reads back from
      its digits. */
  lemma ActivityNameParts(file: string, stride: int, cut: bool)
    requires stride >= 0
    ensures var a := ActivityName(file, stride, cut); var digits := NatToString(stride);
      var stem := if cut then SplitFirst(file, ".") else file;
      a == stem + " (stride=" + digits + ")"
      && StartsWith(file, stem) && (cut ==> '.' !in stem)
      && ParseNat(digits) == stride
  {
    ParseNatToString(stride);
    var stem := if cut then SplitFirst(file, ".") else file;
    assert file[..|stem|] == stem;
    if cut {
      NoCharInside(stem, '.');
    }
  }

  /** `base + file`, or `os.path.join(base, file)` in the mooring methods. */
  function Url(base: string, file: string, joined: bool): string
  {
    if joined then PathJoin(base, file) else base + file
  }

  /** Python's `s[i:j]` for `0 <= i <= j`: both ends clamped to the text. */
  function Slice(s: string, i: nat, j: nat): (r: string)
    requires i <= j
    ensures |r| <= j - i
  {
    if i >= |s| then "" else if j >= |s| then s[i..] else s[i..j]
  }

  /** `aName.split('_')[0]`. */
  function GliderToken(aName: string): string
  {
    SplitFirst(aName, "_")
  }

  /** `'Stella' + aName[6:9]`. */
  function StellaName(aName: string): string
  {
    "Stella" + Slice(aName, 6, 9)
  }

  /** The platform name and colour of the file named `aName`; a colour key
      missing from the table is a `KeyError`. */
  function PlatformOf(naming: Naming, aName: string, colors: map<string, string>): (r: Result<(string, string), CanonError>)
    ensures r.Failure? ==> r.error == KeyError
  {
    var (platform, key) :=
      match naming
      case Fixed(p, c) => (p, c)
      case GliderNamed => (Upper(GliderToken(aName)) + "_Glider", Lower(GliderToken(aName)))
      case StellaNamed => ("Drifter_" + StellaName(aName), StellaName(aName));
    if key in colors then Success((platform, colors[key])) else Failure(KeyError)
  }

  lemma LowerUpperChar(c: char)
    ensures LowerChar(UpperChar(c)) == LowerChar(c)
  {
  }

  /** Lower-casing forgets an earlier upper-casing. */
  lemma LowerUpper(s: string)
    ensures Lower(Upper(s)) == Lower(s)
  {
    forall i | 0 <= i < |s| ensures Lower(Upper(s))[i] == Lower(s)[i] {
      LowerUpperChar(s[i]);
    }
  }

  /** A glider's platform is its first `_`-token upper-cased with
      `_Glider` after it, and its colour is looked up under the same token
      lower-cased, so the two agree whatever case the file used. */
  lemma GliderNames(aName: string, colors: map<string, string>)
    ensures var tok := GliderToken(aName); var r := PlatformOf(GliderNamed, aName, colors);
      '_' !in tok && StartsWith(aName, tok)
      && (r.Success? <==> Lower(tok) in colors)
      && (r.Success? ==>
            var p := r.value.0;
            p == Upper(tok) + "_Glider" && Lower(p[..|tok|]) == Lower(tok) && r.value.1 == colors[Lower(tok)])
  {
    var tok := GliderToken(aName);
    assert aName[..|tok|] == tok;
    NoCharInside(tok, '_');
    var p := Upper(tok) + "_Glider";
    assert p[..|tok|] == Upper(tok);
    LowerUpper(tok);
  }

  /** A Stella drifter whose activity name has at least nine characters is
      called `Stella` and its seventh to ninth characters, and its platform
      is `Drifter_` and that name; a shorter name gives a shorter one. */
  lemma StellaNames(aName: string, colors: map<string, string>)
    ensures var d := StellaName(aName); var r := PlatformOf(StellaNamed, aName, colors);
      (|aName| >= 9 ==> d == "Stella" + aName[6..9] && |d| == 9)
      && (|aName| < 9 ==> |d| < 9)
      && (r.Success? <==> d in colors)
      && (r.Success? ==> r.value == ("Drifter_" + d, colors[d]))
  {
  }

  // ---------------------------------------------------------------------
  // One platform

  /** The loop over `zip(names, files)`: one load per file, stopping at the
      first colour that is missing. */
  function LoadEach(spec: Spec, loader: Loader, stride: int, base: string, names: seq<string>, files: seq<string>): (r: Run)
    requires |names| == |files|
    ensures |r.loads| <= |files| && r.bottles == []
    ensures r.error.None? || r.error == Some(KeyError)
    decreases |files|
  {
    if |files| == 0 then Run([], [], None)
    else match PlatformOf(spec.naming, names[0], loader.colors)
      case Failure(e) => Run([], [], Some(e))
      case Success((platform, color)) =>
        var load := Load(spec.kind, Url(base, files[0], spec.joined), names[0], platform, color,
                         spec.platformType, spec.activityType, stride, spec.gulps);
        var rest := LoadEach(spec, loader, stride, base, names[1..], files[1..]);
        Run([load] + rest.loads, [], rest.error)
  }

  /** Every colour the files need is in the table. */
  predicate Colored(naming: Naming, names: seq<string>, colors: map<string, string>)
  {
    forall k :: 0 <= k < |names| ==> PlatformOf(naming, names[k], colors).Success?
  }

  /** The load made for one file. */
  function LoadFor(spec: Spec, loader: Loader, stride: int, base: string, aName: string, file: string): Load
    requires PlatformOf(spec.naming, aName, loader.colors).Success?
  {
    var (platform, color) := PlatformOf(spec.naming, aName, loader.colors).value;
    Load(spec.kind, Url(base, file, spec.joined), aName, platform, color,
         spec.platformType, spec.activityType, stride, spec.gulps)
  }

  /** The files are loaded pairwise with their names, in order, when
      every colour is found; otherwise the loop stops with `KeyError` at the
      first file whose colour is missing. */
  lemma {:induction false} LoadEachMeans(spec: Spec, loader: Loader, stride: int, base: string, names: seq<string>, files: seq<string>)
    requires |names| == |files|
    ensures var r := LoadEach(spec, loader, stride, base, names, files);
      (r.error.None? <==> Colored(spec.naming, names, loader.colors))
      && (r.error.None? ==> |r.loads| == |files|)
      && forall k :: 0 <= k < |r.loads| ==>
           PlatformOf(spec.naming, names[k], loader.colors).Success?
           && r.loads[k] == LoadFor(spec, loader, stride, base, names[k], files[k])
    decreases |files|
  {
    if |files| > 0 && PlatformOf(spec.naming, names[0], loader.colors).Success? {
      LoadEachMeans(spec, loader, stride, base, names[1..], files[1..]);
      var r := LoadEach(spec, loader, stride, base, names, files);
      var rest := LoadEach(spec, loader, stride, base, names[1..], files[1..]);
      assert r.loads == [LoadFor(spec, loader, stride, base, names[0], files[0])] + rest.loads;
      if Colored(spec.naming, names[1..], loader.colors) {
        forall k | 0 <= k < |names| ensures PlatformOf(spec.naming, names[k], loader.colors).Success? {
          if k > 0 {
            assert names[1..][k - 1] == names[k];
          }
        }
      } else {
        var k :| 0 <= k < |names[1..]| && !PlatformOf(spec.naming, names[1..][k], loader.colors).Success?;
        assert names[k + 1] == names[1..][k];
      }
      forall k | 1 <= k < |r.loads|
        ensures PlatformOf(spec.naming, names[k], loader.colors).Success?
          && r.loads[k] == LoadFor(spec, loader, stride, base, names[k], files[k])
      {
        assert names[1..][k - 1] == names[k] && files[1..][k - 1] == files[k];
      }
    }
  }

  /** The attribute a method reads for its bottle files. */
  function BottleSource(b: Bottles): string
    requires !b.NoBottles?
  {
    match b
    case BottlesNamed(_, key) => key
    case BottlesOfLast(key) => key
  }

  /** A platform method called with `arg` as its stride. The `_files`
      attribute is read first, so a platform the script did not configure
      raises `AttributeError` before any load. The bottle load of the
      profile-CTD methods names its activity after the first five
      characters of the last cast's name, which does not exist when there
      are no casts. */
  function LoadPlatform(spec: Spec, loader: Loader, arg: Option<int>): (r: Run)
  {
    if spec.key !in loader.sources then Run([], [], Some(AttributeError))
    else
      var stride := Fallback(arg, loader.stride);
      var src := loader.sources[spec.key];
      var names := ActivityNames(src.files, stride, spec.cut);
      var r := LoadEach(spec, loader, stride, src.base, names, src.files);
      if r.error.Some? || spec.bottles.NoBottles? then r
      else if spec.bottles.BottlesOfLast? && |names| == 0 then Run(r.loads, [], Some(NameError))
      else if BottleSource(spec.bottles) !in loader.sources then Run(r.loads, [], Some(AttributeError))
      else
        var activity := if spec.bottles.BottlesNamed? then spec.bottles.activity else Slice(names[|names| - 1], 0, 5);
        match PlatformOf(spec.naming, activity, loader.colors)
        case Failure(e) => Run(r.loads, [], Some(e))
        case Success((platform, color)) =>
          var platformType := if spec.bottles.BottlesOfLast? then Some("ship") else None;
          Run(r.loads, [BottleLoad(activity, platform, color, platformType, loader.sources[BottleSource(spec.bottles)].files)], None)
  }

  /** A configured platform whose colours are all found loads each of its
      files once, in order, under the name `file (stride=N)` with N the
      stride it was given or else the loader's default, and the URL
      `base + file`. */
  lemma LoadPlatformMeans(spec: Spec, loader: Loader, arg: Option<int>)
    requires spec.key in loader.sources && spec.bottles.NoBottles?
    ensures var src := loader.sources[spec.key]; var stride := Fallback(arg, loader.stride);
      var names := ActivityNames(src.files, stride, spec.cut); var r := LoadPlatform(spec, loader, arg);
      (r.error.None? <==> Colored(spec.naming, names, loader.colors))
      && (r.error.None? ==> |r.loads| == |src.files|)
      && forall k :: 0 <= k < |r.loads| ==>
           r.loads[k].aName == ActivityName(src.files[k], stride, spec.cut)
           && r.loads[k].url == Url(src.base, src.files[k], spec.joined)
           && r.loads[k].stride == stride && r.loads[k].kind == spec.kind
  {
    var src := loader.sources[spec.key];
    var stride := Fallback(arg, loader.stride);
    var names := ActivityNames(src.files, stride, spec.cut);
    LoadEachMeans(spec, loader, stride, src.base, names, src.files);
  }

  // ---------------------------------------------------------------------
  // The methods

  const WFpctd: Spec := Spec("wfpctd", TrajectoryRun, Fixed("WesternFlyer_PCTD", "flyer"), "ship",
    "Western Flyer Profile CTD Data", true, false, false, BottlesNamed("activity name", "wfpctd"))

  const RCpctd: Spec := Spec("rcpctd", TrajectoryRun, Fixed("RachelCarson_PCTD", "carson"), "ship",
    "Rachel Carson Profile CTD Data", true, false, false, BottlesOfLast("rcpctd"))

  /** `loadJMpctd`. As written it loads the Rachel Carson bottle files
      after the John Martin casts; corrected, its own. */
  function JMpctd(v: Variant): Spec
  {
    Spec("JMpctd", TrajectoryRun, Fixed("RV_John_Martin_PCTD", "martin"), "ship",
      "John Martin Profile CTD Data", false, false, false,
      BottlesOfLast(if v == AsWritten then "rcpctd" else "JMpctd"))
  }

  /** The methods `loadAll` runs, in its order. */
  const LoadAllSpecs: seq<Spec> := [
    Spec("dorado", DoradoRun, Fixed("AUV_Dorado", "dorado"), "auv", "AUV mission", false, false, true, NoBottles),
    Spec("tethys", LrauvRun, Fixed("LRAUV_Tethys", "tethys"), "auv", "AUV mission", false, false, false, NoBottles),
    Spec("daphne", LrauvRun, Fixed("LRAUV_Daphne", "daphne"), "auv", "AUV mission", false, false, false, NoBottles),
    Spec("martin", TrajectoryRun, Fixed("r/v_martin", "martin"), "ship", "cruise", false, false, false, NoBottles),
    Spec("fulmar", TrajectoryRun, Fixed("fulmar", "fulmar"), "ship", "cruise", false, false, false, NoBottles),
    Spec("nps_g29", GliderRun, Fixed("nps_g29", "nps_g29"), "glider", "Glider Mission", false, false, false, NoBottles),
    Spec("waveglider", GliderRun, Fixed("waveglider", "waveglider"), "glider", "Glider Mission", false, false, false, NoBottles),
    Spec("l_662", GliderRun, Fixed("SPRAY_Glider", "l_662"), "glider", "Glider Mission", false, false, false, NoBottles),
    Spec("espdrift", TrajectoryRun, Fixed("espdrift", "espdrift"), "drifter", "ESP drift Mission", false, false, false, NoBottles),
    Spec("wfuctd", TrajectoryRun, Fixed("WesternFlyer_UCTD", "flyer"), "ship", "Western Flyer Underway CTD Data", false, false, false, NoBottles),
    WFpctd]

  /** The bottle load of a profile-CTD method: the first five characters of
      the last cast's name (the literal `activity name` for the Western
      Flyer) and the bottle files it is told to read; no casts, no name. */
  lemma BottlesMeans(spec: Spec, loader: Loader, arg: Option<int>)
    requires spec.key in loader.sources && spec.bottles.BottlesOfLast?
    requires BottleSource(spec.bottles) in loader.sources
    ensures var src := loader.sources[spec.key]; var stride := Fallback(arg, loader.stride);
      var names := ActivityNames(src.files, stride, spec.cut); var r := LoadPlatform(spec, loader, arg);
      Colored(spec.naming, names, loader.colors) ==>
        (|src.files| == 0 ==> r.error == Some(NameError))
        && (|src.files| > 0 && spec.naming.Fixed? ==>
              r.error.None? && |r.bottles| == 1
              && r.bottles[0].activity == Slice(names[|names| - 1], 0, 5)
              && r.bottles[0].platformType == Some("ship")
              && r.bottles[0].files == loader.sources[BottleSource(spec.bottles)].files)
  {
    var src := loader.sources[spec.key];
    var stride := Fallback(arg, loader.stride);
    var names := ActivityNames(src.files, stride, spec.cut);
    LoadEachMeans(spec, loader, stride, src.base, names, src.files);
  }

  /** As written, the John Martin profile-CTD method hands the Rachel
      Carson bottle files to the bottle loader; corrected, it hands its
      own. */
  lemma AsWrittenJMpctdBottles(loader: Loader, arg: Option<int>)
    requires "JMpctd" in loader.sources && "rcpctd" in loader.sources && "martin" in loader.colors
    requires |loader.sources["JMpctd"].files| > 0
    ensures var r := LoadPlatform(JMpctd(AsWritten), loader, arg);
      r.error.None? && r.bottles[0].files == loader.sources["rcpctd"].files
    ensures var r := LoadPlatform(JMpctd(Corrected), loader, arg);
      r.error.None? && r.bottles[0].files == loader.sources["JMpctd"].files
  {
    var stride := Fallback(arg, loader.stride);
    forall v | v == AsWritten || v == Corrected
      ensures Colored(JMpctd(v).naming, ActivityNames(loader.sources["JMpctd"].files, stride, false), loader.colors)
    {
    }
    BottlesMeans(JMpctd(AsWritten), loader, arg);
    BottlesMeans(JMpctd(Corrected), loader, arg);
  }

  // ---------------------------------------------------------------------
  // loadAll

  /** The loop of `loadAll` over `specs`: each method's `AttributeError`
      becomes a warning and the next method runs; any other error ends the
      loop. As written the methods are called without the stride that
      `loadAll` settled on; corrected, with it. */
  function LoadSeq(v: Variant, specs: seq<Spec>, loader: Loader, stride: int): (r: Run)
    ensures r.error != Some(AttributeError)
    decreases |specs|
  {
    if |specs| == 0 then Run([], [], None)
    else
      var one := LoadPlatform(specs[0], loader, if v == AsWritten then None else Some(stride));
      if one.error.Some? && one.error != Some(AttributeError) then one
      else
        var rest := LoadSeq(v, specs[1..], loader, stride);
        Run(one.loads + rest.loads, one.bottles + rest.bottles, rest.error)
  }

  /** `loadAll(stride)`. */
  function LoadAll(v: Variant, loader: Loader, arg: Option<int>): Run
  {
    LoadSeq(v, LoadAllSpecs, loader, Fallback(arg, loader.stride))
  }

  /** Every load uses stride `s`. */
  predicate AllAt(loads: seq<Load>, s: int)
  {
    forall k :: 0 <= k < |loads| ==> loads[k].stride == s
  }

  /** A platform method loads every file with the stride it settled on. */
  lemma PlatformStrides(spec: Spec, loader: Loader, arg: Option<int>)
    ensures AllAt(LoadPlatform(spec, loader, arg).loads, Fallback(arg, loader.stride))
  {
    if spec.key in loader.sources {
      var src := loader.sources[spec.key];
      var s := Fallback(arg, loader.stride);
      LoadEachMeans(spec, loader, s, src.base, ActivityNames(src.files, s, spec.cut), src.files);
    }
  }

  lemma AllAtConcat(a: seq<Load>, b: seq<Load>, s: int)
    requires AllAt(a, s) && AllAt(b, s)
    ensures AllAt(a + b, s)
  {
  }

  /** Corrected, every load uses the stride `loadAll` settled on; as
      written, every load uses the loader's default whatever `loadAll` was
      given. */
  lemma {:induction false} LoadSeqStrides(v: Variant, specs: seq<Spec>, loader: Loader, stride: int)
    ensures AllAt(LoadSeq(v, specs, loader, stride).loads,
                  if v == AsWritten then loader.stride else Fallback(Some(stride), loader.stride))
    decreases |specs|
  {
    if |specs| > 0 {
      var arg := if v == AsWritten then None else Some(stride);
      var one := LoadPlatform(specs[0], loader, arg);
      PlatformStrides(specs[0], loader, arg);
      LoadSeqStrides(v, specs[1..], loader, stride);
      if !(one.error.Some? && one.error != Some(AttributeError)) {
        AllAtConcat(one.loads, LoadSeq(v, specs[1..], loader, stride).loads, Fallback(arg, loader.stride));
      }
    }
  }

  /** `loadAll(stride)` loads with the stride it was given (or the
      loader's when that is missing or zero) once corrected. As written a
      different stride given to it is ignored. */
  lemma LoadAllStrides(loader: Loader, arg: Option<int>)
    ensures AllAt(LoadAll(Corrected, loader, arg).loads, Fallback(arg, loader.stride))
    ensures AllAt(LoadAll(AsWritten, loader, arg).loads, loader.stride)
  {
    var stride := Fallback(arg, loader.stride);
    var specs := LoadAllSpecs;
    LoadSeqStrides(Corrected, specs, loader, stride);
    LoadSeqStrides(AsWritten, specs, loader, stride);
    FallbackStable(arg, loader.stride);
  }

  /** A method whose platform the script did not configure contributes
      nothing and does not stop the others. */
  lemma LoadSeqSkips(v: Variant, spec: Spec, specs: seq<Spec>, loader: Loader, stride: int)
    requires spec.key !in loader.sources
    ensures LoadSeq(v, [spec] + specs, loader, stride) == LoadSeq(v, specs, loader, stride)
  {
    assert ([spec] + specs)[1..] == specs;
  }

  /** Any other error ends `loadAll` with that method's calls. */
  lemma LoadSeqStops(v: Variant, spec: Spec, specs: seq<Spec>, loader: Loader, stride: int)
    requires var one := LoadPlatform(spec, loader, if v == AsWritten then None else Some(stride));
      one.error.Some? && one.error != Some(AttributeError)
    ensures LoadSeq(v, [spec] + specs, loader, stride) == LoadPlatform(spec, loader, if v == AsWritten then None else Some(stride))
  {
  }

  /** With a stride of 5 given to `loadAll` and a default of 10, the first
      Dorado mission loads at stride 10 as written and 5 corrected. */
  lemma AsWrittenIgnoresStride(loader: Loader)
    requires loader.stride == 10 && "dorado" in loader.sources && "dorado" in loader.colors
    requires |loader.sources["dorado"].files| > 0
    ensures |LoadAll(AsWritten, loader, Some(5)).loads| > 0 && LoadAll(AsWritten, loader, Some(5)).loads[0].stride == 10
    ensures |LoadAll(Corrected, loader, Some(5)).loads| > 0 && LoadAll(Corrected, loader, Some(5)).loads[0].stride == 5
  {
    var dorado := LoadAllSpecs[0];
    var src := loader.sources["dorado"];
    LoadAllStrides(loader, Some(5));
    LoadEachMeans(dorado, loader, 10, src.base, ActivityNames(src.files, 10, false), src.files);
    LoadEachMeans(dorado, loader, 5, src.base, ActivityNames(src.files, 5, false), src.files);
  }
}

=== FILE: clock.dfy ===
/** Calendar time as Python's `datetime` has it: proleptic Gregorian
    dates, seconds since 1970-01-01 00:00:00 UTC, and the fixed-width
    `strptime`/`strftime` formats the scripts use. */
module Clock {
  import opened Wrappers
  import opened Strs

  predicate Leap(y: int)
  {
    y % 4 == 0 && (y % 100 != 0 || y % 400 == 0)
  }

  function YearLen(y: int): int
  {
    if Leap(y) then 366 else 365
  }

  function MonthLen(y: int, m: int): int
    requires 1 <= m <= 12
  {
    if m == 2 then (if Leap(y) then 29 else 28)
    else if m == 4 || m == 6 || m == 9 || m == 11 then 30
    else 31
  }

  /** Days in the months of year `y` before month `m`. */
  function DaysBeforeMonth(y: int, m: int): (r: int)
    requires 1 <= m <= 12
    ensures r >= 0
  {
    if m == 1 then 0 else DaysBeforeMonth(y, m - 1) + MonthLen(y, m - 1)
  }

  /** Days from 1970-01-01 to the first of January of `y` (negative
      before 1970). */
  function YearStart(y: int): int
    decreases if y >= 1970 then y - 1970 else 1970 - y
  {
    if y == 1970 then 0
    else if y > 1970 then YearStart(y - 1) + YearLen(y - 1)
    else YearStart(y + 1) - YearLen(y)
  }

  datatype Stamp = Stamp(year: int, month: int, day: int, hour: int, minute: int, second: int)

  /** What `datetime(*tt[:6])` accepts. */
  predicate Valid(t: Stamp)
  {
    1 <= t.year <= 9999 && 1 <= t.month <= 12 && 1 <= t.day <= MonthLen(t.year, t.month)
    && 0 <= t.hour < 24 && 0 <= t.minute < 60 && 0 <= t.second < 60
  }

  /** Days since 1970-01-01. */
  function DayNumber(t: Stamp): int
    requires Valid(t)
  {
    YearStart(t.year) + DaysBeforeMonth(t.year, t.month) + t.day - 1
  }

  /** `diff.days * 86400 + diff.seconds` for `diff = t - datetime(1970, 1, 1)`:
      the timedelta's days and seconds recombine to the whole difference. */
  function Epoch(t: Stamp): int
    requires Valid(t)
  {
    DayNumber(t) * 86400 + t.hour * 3600 + t.minute * 60 + t.second
  }

  lemma EpochOrigin()
    ensures Epoch(Stamp(1970, 1, 1, 0, 0, 0)) == 0
  {
    var t := Stamp(1970, 1, 1, 0, 0, 0);
    assert YearStart(1970) == 0 && DaysBeforeMonth(1970, 1) == 0;
    assert DayNumber(t) == 0;
  }

  /** The next second on the calendar. */
  function Tick(t: Stamp): Stamp
    requires Valid(t)
  {
    if t.second < 59 then t.(second := t.second + 1)
    else if t.minute < 59 then t.(minute := t.minute + 1, second := 0)
    else if t.hour < 23 then t.(hour := t.hour + 1, minute := 0, second := 0)
    else if t.day < MonthLen(t.year, t.month) then t.(day := t.day + 1, hour := 0, minute := 0, second := 0)
    else if t.month < 12 then Stamp(t.year, t.month + 1, 1, 0, 0, 0)
    else Stamp(t.year + 1, 1, 1, 0, 0, 0)
  }

  lemma YearStartStep(y: int)
    ensures YearStart(y + 1) == YearStart(y) + YearLen(y)
  {
  }

  lemma YearFills(y: int)
    ensures DaysBeforeMonth(y, 12) + 31 == YearLen(y)
  {
    var f := if Leap(y) then 29 else 28;
    assert DaysBeforeMonth(y, 2) == 31;
    assert DaysBeforeMonth(y, 3) == 31 + f;
    assert DaysBeforeMonth(y, 4) == 62 + f;
    assert DaysBeforeMonth(y, 5) == 92 + f;
    assert DaysBeforeMonth(y, 6) == 123 + f;
    assert DaysBeforeMonth(y, 7) == 153 + f;
    assert DaysBeforeMonth(y, 8) == 184 + f;
    assert DaysBeforeMonth(y, 9) == 215 + f;
    assert DaysBeforeMonth(y, 10) == 245 + f;
    assert DaysBeforeMonth(y, 11) == 276 + f;
  }

  lemma NextDay(t: Stamp, u: Stamp)
    requires Valid(t) && Valid(u) && u.year == t.year && u.month == t.month && u.day == t.day + 1
    ensures DayNumber(u) == DayNumber(t) + 1
  {
  }

  lemma NextMonth(t: Stamp, u: Stamp)
    requires Valid(t) && Valid(u) && u.year == t.year && u.month == t.month + 1
    requires t.day == MonthLen(t.year, t.month) && u.day == 1
    ensures DayNumber(u) == DayNumber(t) + 1
  {
  }

  lemma NextYear(t: Stamp, u: Stamp)
    requires Valid(t) && Valid(u) && u.year == t.year + 1 && t.month == 12 && t.day == 31
    requires u.month == 1 && u.day == 1
    ensures DayNumber(u) == DayNumber(t) + 1
  {
    YearStartStep(t.year);
    YearFills(t.year);
  }

  /** The day count of the next second: the same day, or the next one
      when the clock passes midnight. */
  lemma DayTick(t: Stamp)
    requires Valid(t) && Valid(Tick(t))
    ensures DayNumber(Tick(t)) == DayNumber(t) + if t.second == 59 && t.minute == 59 && t.hour == 23 then 1 else 0
  {
    var u := Tick(t);
    if t.second == 59 && t.minute == 59 && t.hour == 23 {
      if t.day < MonthLen(t.year, t.month) {
        NextDay(t, u);
      } else if t.month < 12 {
        NextMonth(t, u);
      } else {
        NextYear(t, u);
      }
    } else {
      assert u.year == t.year && u.month == t.month && u.day == t.day;
    }
  }

  /** Every second advances the count by exactly one, across minute, hour,
      day, month and year boundaries alike. */
  lemma EpochTick(t: Stamp)
    requires Valid(t) && Valid(Tick(t))
    ensures Epoch(Tick(t)) == Epoch(t) + 1
  {
    DayTick(t);
  }

  /** Only the last second of year 9999 has no successor. */
  lemma TickValid(t: Stamp)
    requires Valid(t) && t != Stamp(9999, 12, 31, 23, 59, 59)
    ensures Valid(Tick(t))
  {
  }

  lemma {:induction false} MonthsIncrease(y: int, m1: int, m2: int)
    requires 1 <= m1 < m2 <= 12
    ensures DaysBeforeMonth(y, m1) + MonthLen(y, m1) <= DaysBeforeMonth(y, m2)
    decreases m2
  {
    if m2 > m1 + 1 {
      MonthsIncrease(y, m1, m2 - 1);
    }
  }

  lemma {:induction false} YearsIncrease(y1: int, y2: int)
    requires y1 < y2
    ensures YearStart(y1) + YearLen(y1) <= YearStart(y2)
    decreases y2 - y1
  {
    YearStartStep(y1);
    if y2 > y1 + 1 {
      YearsIncrease(y1 + 1, y2);
    }
  }

  function Key(t: Stamp): seq<int>
  {
    [t.year, t.month, t.day, t.hour, t.minute, t.second]
  }

  /** Calendar order: by year, then month, day, hour, minute, second. */
  predicate Before(a: Stamp, b: Stamp)
  {
    a.year < b.year
    || (a.year == b.year && (a.month < b.month
    || (a.month == b.month && (a.day < b.day
    || (a.day == b.day && (a.hour < b.hour
    || (a.hour == b.hour && (a.minute < b.minute
    || (a.minute == b.minute && a.second < b.second)))))))))
  }

  lemma DaysIncrease(a: Stamp, b: Stamp)
    requires Valid(a) && Valid(b)
    requires a.year < b.year || (a.year == b.year && (a.month < b.month || (a.month == b.month && a.day < b.day)))
    ensures DayNumber(a) < DayNumber(b)
  {
    if a.year < b.year {
      if a.month < 12 {
        MonthsIncrease(a.year, a.month, 12);
      }
      YearFills(a.year);
      YearsIncrease(a.year, b.year);
    } else if a.month < b.month {
      MonthsIncrease(a.year, a.month, b.month);
    }
  }

  /** Seconds since the epoch order timestamps as the calendar does. */
  lemma EpochOrder(a: Stamp, b: Stamp)
    requires Valid(a) && Valid(b)
    ensures Before(a, b) <==> Epoch(a) < Epoch(b)
    ensures a == b <==> Epoch(a) == Epoch(b)
  {
    if a.year != b.year || a.month != b.month || a.day != b.day {
      if Before(a, b) {
        DaysIncrease(a, b);
      } else {
        DaysIncrease(b, a);
      }
    }
  }

  // ---------------------------------------------------------------------
  // Text

  predicate DigitsAt(s: string, i: nat, n: nat)
  {
    i + n <= |s| && forall k :: i <= k < i + n ==> IsDigit(s[k])
  }

  function NumberAt(s: string, i: nat, n: nat): nat
    requires DigitsAt(s, i, n)
  {
    ParseNat(s[i..i + n])
  }

  /** `time.strptime(s, '%Y-%m-%d %H:%M:%S')` followed by `datetime(...)`,
      for the zero-padded spelling. */
  function ParseIso(s: string): (r: Option<Stamp>)
    ensures r.Some? ==> Valid(r.value)
  {
    if |s| == 19 && s[4] == '-' && s[7] == '-' && s[10] == ' ' && s[13] == ':' && s[16] == ':'
       && DigitsAt(s, 0, 4) && DigitsAt(s, 5, 2) && DigitsAt(s, 8, 2)
       && DigitsAt(s, 11, 2) && DigitsAt(s, 14, 2) && DigitsAt(s, 17, 2)
    then
      var t := Stamp(NumberAt(s, 0, 4), NumberAt(s, 5, 2), NumberAt(s, 8, 2),
                     NumberAt(s, 11, 2), NumberAt(s, 14, 2), NumberAt(s, 17, 2));
      if Valid(t) then Some(t) else None
    else None
  }

  function Pad(n: int, width: nat): string
  {
    if n >= 0 then ZeroPad(n, width) else IntToString(n)
  }

  /** `t.isoformat(sep)` for a whole-second `datetime`. */
  function Isoformat(t: Stamp, sep: char): string
  {
    Pad(t.year, 4) + "-" + Pad(t.month, 2) + "-" + Pad(t.day, 2) + [sep]
    + Pad(t.hour, 2) + ":" + Pad(t.minute, 2) + ":" + Pad(t.second, 2)
  }

  /** `'%Y-%m-%d %H:%M:%S'`. */
  function FormatIso(t: Stamp): string
  {
    Isoformat(t, ' ')
  }

  /** `'%Y%m%dT%H%M'`. */
  function CompactMinutes(t: Stamp): string
  {
    Pad(t.year, 4) + Pad(t.month, 2) + Pad(t.day, 2) + "T" + Pad(t.hour, 2) + Pad(t.minute, 2)
  }

  /** `'%Y%m%dT%H%M%S'`. */
  function Compact(t: Stamp): string
  {
    CompactMinutes(t) + Pad(t.second, 2)
  }

  function Pow10(k: nat): nat
  {
    if k == 0 then 1 else 10 * Pow10(k - 1)
  }

  lemma {:induction false} DigitsFit(n: nat, k: nat)
    requires k >= 1 && n < Pow10(k)
    ensures |NatToString(n)| <= k
    decreases k
  {
    if n >= 10 {
      DigitsFit(n / 10, k - 1);
    }
  }

  /** A number below 10^width is written in exactly `width` digits that
      read back as the number. */
  lemma PadFits(n: nat, width: nat)
    requires width >= 1 && n < Pow10(width)
    ensures |Pad(n, width)| == width && ParseNat(Pad(n, width)) == n
    ensures forall k :: 0 <= k < width ==> IsDigit(Pad(n, width)[k])
  {
    DigitsFit(n, width);
  }

  lemma Pieces(a: string, b: string, s: string, i: nat, n: nat)
    requires |b| == n && i == |a| && |a| + n <= |s| && s[..|a| + n] == a + b
    ensures s[i..i + n] == b
  {
    assert s[i..i + n] == s[..|a| + n][i..i + n];
  }

  /** Where the fields of a `'%Y-%m-%d %H:%M:%S'` string lie. */
  lemma IsoPieces(y: string, mo: string, d: string, h: string, mi: string, se: string)
    requires |y| == 4 && |mo| == 2 && |d| == 2 && |h| == 2 && |mi| == 2 && |se| == 2
    ensures var s := y + "-" + mo + "-" + d + " " + h + ":" + mi + ":" + se;
      |s| == 19 && s[4] == '-' && s[7] == '-' && s[10] == ' ' && s[13] == ':' && s[16] == ':'
      && s[0..4] == y && s[5..7] == mo && s[8..10] == d && s[11..13] == h && s[14..16] == mi && s[17..19] == se
  {
    var s := y + "-" + mo + "-" + d + " " + h + ":" + mi + ":" + se;
    Pieces(y + "-", mo, s, 5, 2);
    Pieces(y + "-" + mo + "-", d, s, 8, 2);
    Pieces(y + "-" + mo + "-" + d + " ", h, s, 11, 2);
    Pieces(y + "-" + mo + "-" + d + " " + h + ":", mi, s, 14, 2);
    Pieces(y + "-" + mo + "-" + d + " " + h + ":" + mi + ":", se, s, 17, 2);
  }

  lemma DigitsOf(s: string, i: nat, n: nat, piece: string)
    requires i + n <= |s| && s[i..i + n] == piece && |piece| == n
    requires forall k :: 0 <= k < n ==> IsDigit(piece[k])
    ensures DigitsAt(s, i, n) && NumberAt(s, i, n) == ParseNat(piece)
  {
    forall k | i <= k < i + n ensures IsDigit(s[k]) {
      assert s[k] == piece[k - i];
    }
  }

  /** Formatting a valid timestamp and parsing it back gives the same
      timestamp. */
  lemma ParseFormatIso(t: Stamp)
    requires Valid(t)
    ensures ParseIso(FormatIso(t)) == Some(t)
  {
    PadFits(t.year, 4);
    PadFits(t.month, 2);
    PadFits(t.day, 2);
    PadFits(t.hour, 2);
    PadFits(t.minute, 2);
    PadFits(t.second, 2);
    var y, mo, d, h, mi, se := Pad(t.year, 4), Pad(t.month, 2), Pad(t.day, 2), Pad(t.hour, 2), Pad(t.minute, 2), Pad(t.second, 2);
    var s := FormatIso(t);
    IsoPieces(y, mo, d, h, mi, se);
    DigitsOf(s, 0, 4, y);
    DigitsOf(s, 5, 2, mo);
    DigitsOf(s, 8, 2, d);
    DigitsOf(s, 11, 2, h);
    DigitsOf(s, 14, 2, mi);
    DigitsOf(s, 17, 2, se);
  }

  /** The compact forms are fixed width for valid timestamps: 13 and 15
      characters, with the 'T' after the date. */
  lemma CompactLayout(t: Stamp)
    requires Valid(t)
    ensures |CompactMinutes(t)| == 13 && CompactMinutes(t)[8] == 'T'
    ensures |Compact(t)| == 15 && Compact(t)[..13] == CompactMinutes(t)
  {
    PadFits(t.year, 4);
    PadFits(t.month, 2);
    PadFits(t.day, 2);
    PadFits(t.hour, 2);
    PadFits(t.minute, 2);
    PadFits(t.second, 2);
  }
}

=== FILE: dap.dfy ===
/** The OPeNDAP loader `Base_Loader` (loaders/DAPloaders.py): the time
    window and strided reads of `_genData`, its lock-step row generation,
    this loader's own `createMeasurement` and `preProcessParams`, the
    per-value loop of `process_data` with its counters, and the statistics
    pass that follows a load.

    The dataset is a map from variable names to `Variable`s, its time axis
    a sequence of numbers in the axis' units; the database and the loader
    object are `Loader.State`. */
module Dap {
  import opened Wrappers
  import opened Table
  import opened Store
  import opened Findings
  import opened Rows
  import Strs
  import Stats
  import Loader

  /** The exceptions that end a load of this loader. */
  datatype DapError =
    | TimeIndexError          // `tIndx[0]` of an empty window, or `timeAxis[-1]` of an empty axis
    | ScalarValueError        // `float()` of a scalar variable whose text is no number
    | MissingKey(key: string) // `row.pop` of an absent coordinate
    | TimeTypeError           // `utcfromtimestamp` of text
    | CountKeyError           // `parmCount[key] += 1` for a key it does not hold
    | EmptyValues             // `numpy.min` of no values
    | NoValidData             // `initDB()`: no included variable has a value that is not NaN
    | LoadFailed(e: Loader.LoadError)

  // ---------------------------------------------------------------------
  // The time window

  /** Index `i` of the axis lies within [s, hi]. */
  predicate InWindow(axis: seq<real>, s: real, hi: real, i: int)
  {
    0 <= i < |axis| && s <= axis[i] <= hi
  }

  /** The upper end of the window: `to_udunits(endDatetime)` when an end
      is given, else the last axis value; None for the IndexError of
      `timeAxis[-1]` on an empty axis. */
  function WindowEnd(axis: seq<real>, e: Option<real>): (r: Option<real>)
    ensures e.Some? ==> r == e
    ensures e.None? ==> (r.Some? <==> |axis| > 0)
    ensures e.None? && r.Some? ==> r.value == axis[|axis| - 1]
  {
    if e.Some? then e
    else if |axis| == 0 then None
    else Some(axis[|axis| - 1])
  }

  /** The key `numpy.nonzero` selects on: the value lies within [s, hi]. */
  function Within(s: real, hi: real): real -> bool
  {
    x => s <= x <= hi
  }

  /** `(tIndx[0], tIndx[-1])` for `tIndx` the indices of the axis values
      within [s, e]: the first and the last index in the window, or
      TimeIndexError when the window (or, without an end, the axis) is
      empty. */
  function TimeWindow(axis: seq<real>, s: real, e: Option<real>): (r: Result<(nat, nat), DapError>)
    ensures WindowEnd(axis, e).None? ==> r == Failure(TimeIndexError)
    ensures r.Failure? ==> r.error == TimeIndexError
    ensures WindowEnd(axis, e).Some? ==>
      (r.Failure? <==> forall i :: 0 <= i < |axis| ==> !InWindow(axis, s, WindowEnd(axis, e).value, i))
    ensures r.Success? ==> WindowEnd(axis, e).Some? && r.value.0 <= r.value.1
    ensures r.Success? ==> InWindow(axis, s, WindowEnd(axis, e).value, r.value.0)
    ensures r.Success? ==> InWindow(axis, s, WindowEnd(axis, e).value, r.value.1)
    ensures r.Success? ==> forall i :: InWindow(axis, s, WindowEnd(axis, e).value, i) ==> r.value.0 <= i <= r.value.1
  {
    match WindowEnd(axis, e)
    case None => Failure(TimeIndexError)
    case Some(hi) =>
      var ix := Matches(axis, Within(s, hi), true);
      if |ix| == 0 then
        assert forall i :: 0 <= i < |axis| ==> !InWindow(axis, s, hi, i);
        Failure(TimeIndexError)
      else
        var first, last := ix[0], ix[|ix| - 1];
        assert Within(s, hi)(axis[first]) && Within(s, hi)(axis[last]);
        assert InWindow(axis, s, hi, first);
        assert forall i :: InWindow(axis, s, hi, i) ==> first <= i <= last by {
          forall i | InWindow(axis, s, hi, i) ensures first <= i <= last {
            assert Within(s, hi)(axis[i]);
            assert i in ix;
            var j :| 0 <= j < |ix| && ix[j] == i;
          }
        }
        Success((first, last))
  }

  // ---------------------------------------------------------------------
  // Strided reads

  /** The indices `x[lo:hi:stride]` reads from a variable of `n` values:
      lo, lo + stride, lo + 2 stride, ... while below both `hi` and `n`.
      `hi` itself is never read. */
  function SliceIndices(lo: nat, hi: nat, n: nat, stride: nat): (ix: seq<nat>)
    requires stride > 0
    ensures |ix| == 0 <==> lo >= hi || lo >= n
    ensures |ix| > 0 ==> ix[0] == lo
    ensures forall j :: 0 <= j < |ix| - 1 ==> ix[j + 1] == ix[j] + stride
    ensures forall j :: 0 <= j < |ix| ==> ix[j] < hi && ix[j] < n
    ensures |ix| > 0 ==> ix[|ix| - 1] + stride >= hi || ix[|ix| - 1] + stride >= n
    decreases n - lo
  {
    if lo >= hi || lo >= n then []
    else [lo] + SliceIndices(lo + stride, hi, n, stride)
  }

  /** The values `data[lo:hi:stride]`. */
  function Slice(data: seq<Value>, lo: nat, hi: nat, stride: nat): (r: seq<Value>)
    requires stride > 0
    ensures |r| == |SliceIndices(lo, hi, |data|, stride)|
    ensures forall j :: 0 <= j < |r| ==> r[j] == data[SliceIndices(lo, hi, |data|, stride)[j]]
  {
    var ix := SliceIndices(lo, hi, |data|, stride);
    seq(|ix|, j requires 0 <= j < |ix| => data[ix[j]])
  }

  /** The read of a window [first, last] never includes the window's last
      index, and reads its first index exactly when the window holds more
      than one index: a window of a single time step reads nothing. */
  lemma LastIndexNeverRead(axis: seq<real>, s: real, e: Option<real>, n: nat, stride: nat)
    requires stride > 0 && TimeWindow(axis, s, e).Success?
    ensures var (first, last) := TimeWindow(axis, s, e).value;
      last !in SliceIndices(first, last, n, stride)
      && (first in SliceIndices(first, last, n, stride) <==> first < last && first < n)
  {
  }

  // ---------------------------------------------------------------------
  // Variable selection and rows

  /** A dataset variable as `_genData` sees it: a grid or one-dimensional
      array (all its values along the time axis), a 0-d value, a variable
      of another rank, or one whose read raises ServerError. */
  datatype Variable = Series(data: seq<Value>) | Scalar(x: Value) | Higher | Unreadable

  /** `_genData` builds an iterator for `k` only if its name has no '%2E'
      and, with a non-empty `include_names`, it is included or ignored. */
  predicate Wanted(k: string, includes: seq<string>, ignored: seq<string>)
  {
    !Strs.Contains(k, "%2E") && !(|includes| > 0 && k !in includes && k !in ignored)
  }

  /** The iterators (`parts`) and the scalars `_genData` delivers rows from. */
  datatype Selection = Selection(parts: map<string, seq<Value>>, scalars: map<string, Value>)

  /** `float(v)` as a row value: a number, NaN, or None for text that
      `float()` refuses or reads as an infinity. */
  function ScalarOf(v: Value): (r: Option<Value>)
    ensures r.Some? ==> !r.value.Text?
    ensures !v.Text? ==> r == Some(v)
  {
    var f := FloatOf(v);
    if f.None? || f.value.Infinite? then None
    else if f.value.NotANumber? then Some(NaN)
    else Some(Num(f.value.x))
  }

  /** A wanted 0-d variable whose value `float()` cannot read. */
  predicate BadScalar(ds: map<string, Variable>, includes: seq<string>, ignored: seq<string>, k: string)
  {
    k in ds && Wanted(k, includes, ignored) && ds[k].Scalar? && ScalarOf(ds[k].x).None?
  }

  /** The variable loop of `_genData` over the window [first, last]: every
      wanted series is read `[first:last:stride]`, every wanted 0-d value
      kept as a scalar; other ranks and unreadable variables are passed
      over. */
  function Select(ds: map<string, Variable>, includes: seq<string>, ignored: seq<string>, first: nat, last: nat, stride: nat): (r: Result<Selection, DapError>)
    requires stride > 0
    ensures r.Failure? <==> exists k :: BadScalar(ds, includes, ignored, k)
    ensures r.Failure? ==> r.error == ScalarValueError
    ensures r.Success? ==> forall k :: k in r.value.parts <==> k in ds && Wanted(k, includes, ignored) && ds[k].Series?
    ensures r.Success? ==> forall k :: k in r.value.parts ==> r.value.parts[k] == Slice(ds[k].data, first, last, stride)
    ensures r.Success? ==> forall k :: k in r.value.scalars <==> k in ds && Wanted(k, includes, ignored) && ds[k].Scalar?
    ensures r.Success? ==> forall k :: k in r.value.scalars ==> Some(r.value.scalars[k]) == ScalarOf(ds[k].x)
    ensures r.Success? ==> forall k :: k in r.value.scalars && !ds[k].x.Text? ==> r.value.scalars[k] == ds[k].x
  {
    if exists k :: k in ds && BadScalar(ds, includes, ignored, k) then Failure(ScalarValueError)
    else
      Success(Selection(
        map k | k in ds && Wanted(k, includes, ignored) && ds[k].Series? :: Slice(ds[k].data, first, last, stride),
        map k | k in ds && Wanted(k, includes, ignored) && ds[k].Scalar? :: ScalarOf(ds[k].x).value))
  }

  /** What `_genData` yields: finitely many rows, or (with scalars but no
      iterators) the same row for ever. */
  datatype Stream = Finite(rows: seq<Row>) | Endless(row: Row)

  /** The largest element of a non-empty set; a proof device only. */
  ghost function MaxOf(s: set<nat>): (m: nat)
    requires s != {}
    ensures m in s && forall x :: x in s ==> x <= m
  {
    var x :| x in s;
    if s == {x} then x
    else
      var m := MaxOf(s - {x});
      assert forall y :: y in s ==> y == x || y in s - {x};
      if x > m then x else m
  }

  /** The least element of `s` at or above `i`, all of `s` lying there. */
  function LeastFrom(s: set<nat>, i: nat): (m: nat)
    requires s != {} && forall x :: x in s ==> i <= x
    ensures m in s && forall x :: x in s ==> m <= x
    decreases MaxOf(s) - i
  {
    if i in s then i else LeastFrom(s, i + 1)
  }

  /** The length of the shortest iterator. */
  function Shortest(parts: map<string, seq<Value>>): (n: nat)
    requires parts != map[]
    ensures forall k :: k in parts ==> n <= |parts[k]|
    ensures exists k :: k in parts && n == |parts[k]|
  {
    var lengths := set k | k in parts :: |parts[k]|;
    var k0 :| k0 in parts;
    assert |parts[k0]| in lengths;
    var n := LeastFrom(lengths, 0);
    assert forall k :: k in parts ==> |parts[k]| in lengths;
    n
  }

  /** The row of step `i`: the `i`-th value of every iterator and every
      scalar. */
  function RowAt(sel: Selection, i: nat): (row: Row)
    requires forall k :: k in sel.parts ==> i < |sel.parts[k]|
    requires forall k :: k in sel.parts ==> k !in sel.scalars
    ensures forall k :: k in row <==> k in sel.parts || k in sel.scalars
    ensures forall k :: k in sel.parts ==> row[k] == sel.parts[k][i]
    ensures forall k :: k in sel.scalars ==> row[k] == sel.scalars[k]
  {
    (map k | k in sel.parts :: sel.parts[k][i]) + sel.scalars
  }

  /** The row delivery loop of `_genData`: each row holds the next value of
      every iterator plus every scalar, and generation stops as soon as
      one iterator is exhausted, so there are as many rows as the shortest
      iterator has values. Without iterators the row of scalars alone is
      yielded for ever, and with nothing at all generation stops at once. */
  function Deliver(sel: Selection): (r: Stream)
    requires forall k :: k in sel.parts ==> k !in sel.scalars
    ensures sel.parts == map[] && sel.scalars == map[] ==> r == Finite([])
    ensures sel.parts == map[] && sel.scalars != map[] ==> r == Endless(sel.scalars)
    ensures sel.parts != map[] ==> r.Finite?
    ensures sel.parts != map[] ==> forall k :: k in sel.parts ==> |r.rows| <= |sel.parts[k]|
    ensures sel.parts != map[] ==> exists k :: k in sel.parts && |r.rows| == |sel.parts[k]|
    ensures r.Finite? ==> forall i :: 0 <= i < |r.rows| ==>
      (forall k :: k in sel.parts ==> i < |sel.parts[k]|) && r.rows[i] == RowAt(sel, i)
  {
    if sel.parts == map[] then
      if sel.scalars == map[] then Finite([]) else Endless(sel.scalars)
    else
      var n := Shortest(sel.parts);
      Finite(seq(n, i requires 0 <= i < n => RowAt(sel, i)))
  }

  /** `_genData` as a whole: the window, the selection and the rows. */
  function GenData(ds: map<string, Variable>, axis: seq<real>, s: real, e: Option<real>,
                   includes: seq<string>, ignored: seq<string>, stride: nat): (r: Result<Stream, DapError>)
    requires stride > 0
    ensures r.Failure? && TimeWindow(axis, s, e).Success? ==> r.error == ScalarValueError
    ensures TimeWindow(axis, s, e).Failure? ==> r == Failure(TimeIndexError)
    ensures r.Success? ==> var (first, last) := TimeWindow(axis, s, e).value;
      var sel := Select(ds, includes, ignored, first, last, stride);
      sel.Success? && r.value == Deliver(sel.value)
  {
    var w :- TimeWindow(axis, s, e);
    var sel :- Select(ds, includes, ignored, w.0, w.1, stride);
    Success(Deliver(sel))
  }
}

=== FILE: dapload.dfy ===
/** The loading half of the OPeNDAP `Base_Loader` (loaders/DAPloaders.py):
    its own `createMeasurement` and `preProcessParams`, the row and value
    loops of `process_data` with their counters, and the statistics pass
    that follows a load. The rows come from `Dap.GenData`; the loader
    object is a `Loader.State`. */
module DapLoad {
  import opened Wrappers
  import opened Table
  import opened Store
  import opened Findings
  import opened Rows
  import Stats
  import Simplify
  import Loader
  import Dap

  // ---------------------------------------------------------------------
  // createMeasurement

  /** This loader's depth check `depth < -1000 or depth > 4000`, passed by
      a number within [-1000, 4000]. Python 2 orders text above every
      number, so text fails the upper bound; NaN fails neither comparison. */
  predicate DepthPasses(depth: Value)
  {
    match depth
    case Num(x) => -1000.0 <= x <= 4000.0
    case NaN => true
    case Text(_) => false
  }

  /** Values a measurement row of the model can hold: a number depth and
      number coordinates. A coordinate that is not a number makes
      `measurement.save()` fail; a NaN depth is stored by the database,
      but the model's depths are reals, so such a row is passed over
      here as a failed save. */
  predicate Storable(depth: Value, lat: Value, lon: Value)
  {
    depth.Num? && lat.Num? && lon.Num?
  }

  /** The database after the instant point of the current activity at
      `time` has been saved. */
  function WithInstant(db: Db, a: nat, time: real): Db
  {
    db.(instantPoints := db.instantPoints + [InstantPoint(a, time)])
  }

  /** `createMeasurement(time, depth, lat, long)`: SkipRecord for a depth
      outside [-1000, 4000] before any write; otherwise a new instant point
      is saved (an activity-less one raises IntegrityError), then a new
      measurement at it, whose failing save becomes SkipRecord with the
      instant point kept. Both rows are always new: nothing is looked up. */
  function CreateMeasurement(st: Loader.State, time: real, depth: Value, lat: Value, lon: Value): (r: Loader.Step<nat>)
    requires Loader.Good(st)
    ensures !DepthPasses(depth) ==> r == Loader.Skipped(st)
    ensures r.Stopped? <==> DepthPasses(depth) && st.activity.None?
    ensures r.Stopped? ==> r.e == Loader.DatabaseError(IntegrityError)
    ensures r.Done? <==> DepthPasses(depth) && Storable(depth, lat, lon) && st.activity.Some?
    ensures r.Done? ==> r.value == |st.db.measurements|
    ensures r.Done? ==> r.st == st.(db := WithInstant(st.db, st.activity.value, time).(measurements :=
      st.db.measurements + [Measurement(|st.db.instantPoints|, None, depth.x, lon.x, lat.x)]))
    ensures r.Skipped? && DepthPasses(depth) ==> r.st == st.(db := WithInstant(st.db, st.activity.value, time))
    ensures r.Done? || r.Skipped? ==> Loader.Good(r.st)
  {
    if !DepthPasses(depth) then Loader.Skipped(st)
    else if st.activity.None? then Loader.Stopped(Loader.DatabaseError(IntegrityError))
    else
      var ip := CreateInstantPoint(st.db, st.activity.value, time);
      if Storable(depth, lat, lon) then
        var g := Store.CreateMeasurement(ip.db, Measurement(ip.id, None, depth.x, lon.x, lat.x));
        Loader.Done(st.(db := g.db), g.id)
      else Loader.Skipped(st.(db := ip.db))
  }

  /** Unlike the `get_or_create` of `Loader.CreateMeasurement`, a second
      call with the same values stores a second instant point and a second
      measurement: reloading a data set into the same activity duplicates
      its rows. */
  lemma CreateMeasurementRepeats(st: Loader.State, time: real, depth: Value, lat: Value, lon: Value)
    requires Loader.Good(st) && CreateMeasurement(st, time, depth, lat, lon).Done?
    ensures var r1 := CreateMeasurement(st, time, depth, lat, lon);
      var r2 := CreateMeasurement(r1.st, time, depth, lat, lon);
      r2.Done? && r2.value == r1.value + 1
      && |r2.st.db.instantPoints| == |st.db.instantPoints| + 2
      && r2.st.db.instantPoints[|st.db.instantPoints|] == r2.st.db.instantPoints[|st.db.instantPoints| + 1]
      && r2.st.db.measurements[r1.value].depth == r2.st.db.measurements[r2.value].depth
  {
  }

  // ---------------------------------------------------------------------
  // preProcessParams

  /** This loader's `preProcessParams`: the coordinate checks of the base
      class without the latitude and longitude ranges. */
  function PreProcessParams(row: Row): (r: Loader.Checked<Row>)
    ensures r.Pass? <==> Loader.GoodCoordinates(row, false)
    ensures r.Pass? ==> r.value == row
    ensures r.Fatal? ==> "longitude" in row && "latitude" in row
    ensures r.Fatal? ==> row["longitude"].Text? || row["latitude"].Text?
    ensures r.Fatal? ==> r.e == Loader.CoordinateValueError || r.e == Loader.CoordinateTypeError
  {
    Loader.CheckCoordinates(row, false)
  }

  /** Coordinates within latitude [-90, 90] and longitude [-720, 720]. */
  predicate InRange(row: Row)
    requires "latitude" in row && "longitude" in row && row["latitude"].Num? && row["longitude"].Num?
  {
    -90.0 <= row["latitude"].x <= 90.0 && -720.0 <= row["longitude"].x <= 720.0
  }

  /** The base class accepts exactly the rows this loader accepts whose
      coordinates also lie within range. */
  lemma BaseCheckIsStricter(row: Row)
    ensures Loader.PreProcessParams(row).Pass? <==> PreProcessParams(row).Pass? && InRange(row)
  {
  }

  // ---------------------------------------------------------------------
  // The time of a row

  /** `utcfromtimestamp` accepts seconds from 0001-01-01T00:00:00 up to,
      not including, 10000-01-01T00:00:00. */
  const FirstSecond: real := -62135596800.0
  const PastLastSecond: real := 253402300800.0

  /** `datetime.utcfromtimestamp(v)`: the time for a number in range; the
      ValueError the row loop skips for NaN or a number out of range
      (None); TypeError for text. */
  function Timestamp(v: Value): (r: Result<Option<real>, Dap.DapError>)
    ensures r.Failure? <==> v.Text?
    ensures r.Failure? ==> r.error == Dap.TimeTypeError
    ensures r == Success(None) <==> v.NaN? || (v.Num? && !(FirstSecond <= v.x < PastLastSecond))
    ensures r.Success? && r.value.Some? ==> v == Num(r.value.value) && FirstSecond <= r.value.value < PastLastSecond
  {
    match v
    case Text(_) => Failure(Dap.TimeTypeError)
    case NaN => Success(None)
    case Num(x) => if FirstSecond <= x < PastLastSecond then Success(Some(x)) else Success(None)
  }

  // ---------------------------------------------------------------------
  // The counters of process_data

  /** The counters `process_data` keeps: `loaded`, `parmCount` by variable
      name, `parameterCount` by parameter and the running `mindepth` and
      `maxdepth`. For the contracts it also logs, in order, the name and
      parameter of every stored value and the depth of every created
      measurement (the source keeps the latter's positions in
      `linestringPoints`). */
  datatype Tally = Tally(
    loaded: nat,
    parmCount: map<string, nat>,
    parameterCount: map<nat, nat>,
    mindepth: real,
    maxdepth: real,
    keys: seq<string>,
    params: seq<nat>,
    depths: seq<real>)

  /** The starting counters: nothing loaded, a zero count for every
      included name, depth bounds 8000 and -8000. */
  function Start(includes: seq<string>): (t: Tally)
    ensures forall mps :: Accounts(t, includes, mps)
    ensures t.loaded == 0
    ensures forall k :: k in t.parmCount <==> k in includes
    ensures t.mindepth == 8000.0 && t.maxdepth == -8000.0
  {
    Tally(0, map k | k in includes :: 0, map[], 8000.0, -8000.0, [], [], [])
  }

  /** The counters account for the last `|t.params|` rows of `mps`: one
      stored value each, in order; `loaded` is their number, `parmCount`
      counts them by name (with every included name present), and
      `parameterCount` holds each of their parameters with one less than
      its number of values. */
  ghost predicate Accounts(t: Tally, includes: seq<string>, mps: seq<MeasuredParameter>)
  {
    Logged(t, mps) && NameCounts(t, includes) && ParameterCounts(t)
  }

  /** `loaded` counts the logged values, the last rows of `mps`. */
  predicate Logged(t: Tally, mps: seq<MeasuredParameter>)
  {
    |t.params| <= |mps| && t.loaded == |t.params| == |t.keys|
    && forall i :: 0 <= i < |t.params| ==> mps[|mps| - |t.params| + i].parameter == t.params[i]
  }

  /** `parmCount` holds the included names and the logged ones, each with
      its number of logged values. */
  ghost predicate NameCounts(t: Tally, includes: seq<string>)
  {
    (forall k :: k in t.parmCount <==> k in includes || k in t.keys)
    && forall k :: k in t.parmCount ==> t.parmCount[k] == multiset(t.keys)[k]
  }

  /** `parameterCount` holds the logged parameters, each with one less than
      its number of logged values. */
  ghost predicate ParameterCounts(t: Tally)
  {
    (forall p :: p in t.parameterCount <==> p in t.params)
    && forall p :: p in t.parameterCount ==> t.parameterCount[p] + 1 == multiset(t.params)[p]
  }

  /** The depth bounds are those of the last `|t.depths|` measurements of
      `ms`: their least and greatest depth, or 8000 and -8000 when there
      are none. */
  predicate Depths(t: Tally, ms: seq<Measurement>)
  {
    EndsWith(ms, t.depths) && Bounds(t.depths, t.mindepth, t.maxdepth)
  }

  /** The last `|depths|` measurements of `ms` have those depths. */
  predicate EndsWith(ms: seq<Measurement>, depths: seq<real>)
  {
    |depths| <= |ms| && forall i :: 0 <= i < |depths| ==> ms[|ms| - |depths| + i].depth == depths[i]
  }

  /** `lo` and `hi` are the least and greatest of `depths`, or 8000 and
      -8000 when there are none. */
  predicate Bounds(depths: seq<real>, lo: real, hi: real)
  {
    (|depths| == 0 ==> lo == 8000.0 && hi == -8000.0)
    && (|depths| > 0 ==> lo == Stats.Min(depths) && hi == Stats.Max(depths))
  }

  /** The increments after a value is stored: `loaded += 1`,
      `parmCount[key] += 1` (a KeyError as written when `key` has no count;
      Corrected starts it at 0), and `parameterCount[p] += 1`, or 0 for the
      first value of `p`. */
  function Count(t: Tally, key: string, p: nat, v: Variant): (r: Result<Tally, Dap.DapError>)
    ensures r.Failure? <==> v == AsWritten && key !in t.parmCount
    ensures r.Failure? ==> r.error == Dap.CountKeyError
    ensures r.Success? ==> r.value.keys == t.keys + [key] && r.value.params == t.params + [p]
    ensures r.Success? ==> r.value.depths == t.depths && r.value.mindepth == t.mindepth && r.value.maxdepth == t.maxdepth
  {
    if v == AsWritten && key !in t.parmCount then Failure(Dap.CountKeyError)
    else
      var before := if key in t.parmCount then t.parmCount[key] else 0;
      var pc := if p in t.parameterCount then t.parameterCount[p] + 1 else 0;
      Success(t.(loaded := t.loaded + 1,
                 parmCount := t.parmCount[key := before + 1],
                 parameterCount := t.parameterCount[p := pc],
                 keys := t.keys + [key],
                 params := t.params + [p]))
  }

  /** Counting a value stored as the new last row keeps the counters
      accounting for the table. */
  lemma CountKeepsAccounts(t: Tally, key: string, p: nat, v: Variant, includes: seq<string>,
                           mps: seq<MeasuredParameter>, mp: MeasuredParameter)
    requires Accounts(t, includes, mps) && mp.parameter == p && Count(t, key, p, v).Success?
    ensures Accounts(Count(t, key, p, v).value, includes, mps + [mp])
  {
    var t' := Count(t, key, p, v).value;
    CountKeepsLogged(t, t', key, p, mps, mp);
    CountKeepsNames(t, t', key, p, v, includes);
    CountKeepsParameters(t, t', key, p, v);
  }

  lemma CountKeepsLogged(t: Tally, t': Tally, key: string, p: nat, mps: seq<MeasuredParameter>, mp: MeasuredParameter)
    requires Logged(t, mps) && mp.parameter == p
    requires t'.loaded == t.loaded + 1 && t'.keys == t.keys + [key] && t'.params == t.params + [p]
    ensures Logged(t', mps + [mp])
  {
    var mps' := mps + [mp];
    forall i | 0 <= i < |t'.params| ensures mps'[|mps'| - |t'.params| + i].parameter == t'.params[i] {
      if i < |t.params| {
        assert mps'[|mps'| - |t'.params| + i] == mps[|mps| - |t.params| + i];
      }
    }
  }

  lemma CountKeepsNames(t: Tally, t': Tally, key: string, p: nat, v: Variant, includes: seq<string>)
    requires NameCounts(t, includes) && Count(t, key, p, v) == Success(t')
    ensures NameCounts(t', includes)
  {
    assert multiset(t'.keys) == multiset(t.keys) + multiset{key};
    assert t'.parmCount == t.parmCount[key := (if key in t.parmCount then t.parmCount[key] else 0) + 1];
  }

  lemma CountKeepsParameters(t: Tally, t': Tally, key: string, p: nat, v: Variant)
    requires ParameterCounts(t) && Count(t, key, p, v) == Success(t')
    ensures ParameterCounts(t')
  {
    assert multiset(t'.params) == multiset(t.params) + multiset{p};
    assert t'.parameterCount == t.parameterCount[p := if p in t.parameterCount then t.parameterCount[p] + 1 else 0];
    forall q | q in t'.parameterCount ensures t'.parameterCount[q] + 1 == multiset(t'.params)[q] {
      if q != p {
        assert q in t.parameterCount;
      } else if p !in t.parameterCount {
        assert p !in t.params;
        assert multiset(t.params)[p] == 0;
      }
    }
  }

  /** As written, `parmCount[key] += 1` raises only for a name that has no
      count, which needs an empty `include_names`: with a non-empty one
      every admitted name was given a count at the start. `initDB()`
      stops a load with an empty one first (`ValidDataNeedsIncludes`), so
      within a load this path is never taken. */
  lemma AsWrittenCountNeedsEmptyIncludes(t: Tally, st: Loader.State, key: string, p: nat, mps: seq<MeasuredParameter>)
    requires Accounts(t, st.includeNames, mps) && Admitted(st, key)
    ensures Count(t, key, p, AsWritten).Failure? <==> |st.includeNames| == 0 && key !in t.keys
    ensures |st.includeNames| > 0 ==> Count(t, key, p, AsWritten) == Count(t, key, p, Corrected)
  {
  }

  // ---------------------------------------------------------------------
  // The value loop of process_data

  /** The outcome of the loops: they go on with a loader and counters, or
      an exception ends the load (`sys.exit` or an uncaught error). */
  datatype Progress = Going(st: Loader.State, t: Tally) | Exited(e: Dap.DapError)

  /** The key filter of the value loop: with a non-empty `include_names`
      the name must be in it, and it must not be ignored. */
  predicate Admitted(st: Loader.State, key: string)
  {
    !(|st.includeNames| > 0 && key !in st.includeNames) && key !in st.ignoredNames
  }

  /** A value the loop passes over as absent: the missing value, 'null'
      or NaN. */
  predicate Absent(value: Value)
  {
    IsMissing(value) || value == Text("null") || value.NaN?
  }

  /** Only the database, the parameter cache and the ignored names
      differ, and the database has the same activities and parameters. */
  predicate Kept(st: Loader.State, st2: Loader.State)
  {
    st2 == st.(db := st2.db, parameterDict := st2.parameterDict, ignoredNames := st2.ignoredNames)
    && |st2.db.activities| == |st.db.activities| && |st2.db.parameters| == |st.db.parameters|
  }

  /** One `key, value` of a row with measurement `mid`: passed over when
      the name is filtered out or the value absent; otherwise the
      parameter is looked up (ParameterNotFound passes over it, another
      lookup error ends the load) and the value saved, a failing save of
      text passing over it. */
  function StoreValue(st: Loader.State, t: Tally, mid: nat, key: string, value: Value, v: Variant): (r: Progress)
    requires Loader.Good(st) && mid < |st.db.measurements|
    requires Accounts(t, st.includeNames, st.db.measuredParameters)
    ensures !Admitted(st, key) || Absent(value) ==> r == Going(st, t)
    ensures r.Exited? ==> (r.e == Dap.LoadFailed(Loader.DatabaseError(MultipleObjectsReturned))
                           || (r.e == Dap.CountKeyError && v == AsWritten && |st.includeNames| == 0))
    ensures r.Going? ==> Loader.Good(r.st) && Kept(st, r.st) && r.st.includeNames == st.includeNames
    ensures r.Going? ==> r.st.db == st.db.(measuredParameters := r.st.db.measuredParameters)
    ensures r.Going? ==> Accounts(r.t, st.includeNames, r.st.db.measuredParameters)
    ensures r.Going? ==> r.t.depths == t.depths && r.t.mindepth == t.mindepth && r.t.maxdepth == t.maxdepth
    ensures r.Going? ==> Stored(st.db.measuredParameters, r.st.db.measuredParameters, t, r.t, mid, key, value)
    ensures r.Going? ==> Grew(st.db.measuredParameters, r.st.db.measuredParameters, t, r.t)
  {
    if !Admitted(st, key) || Absent(value) then Going(st, t)
    else
      Loader.LookupKeepsGood(st, key, v);
      match Loader.GetParameterByName(st, key, v)
      case NotFound(st1) => Going(st1, t)
      case LookupFailed(e) => Exited(Dap.LoadFailed(Loader.DatabaseError(e)))
      case Found(st1, p) =>
        if value.Text? then Going(st1, t)
        else SaveValue(st, st1, t, mid, key, p, value, v)
  }

  /** Nothing was stored and the counters are as they were, or one value
      `x` of measurement `mid` was stored and counted under `key`. */
  ghost predicate Stored(mps: seq<MeasuredParameter>, mps2: seq<MeasuredParameter>, t: Tally, t2: Tally,
                   mid: nat, key: string, value: Value)
  {
    (mps2 == mps && t2 == t)
    || (value.Num? && t2.keys == t.keys + [key]
        && exists p :: t2.params == t.params + [p] && mps2 == mps + [MeasuredParameter(mid, p, value.x)])
  }

  /** `mp.save()` of the value `x` for parameter `p` and, when it
      succeeds, the counters. An IntegrityError (the measurement already
      has a value for `p`, as when two names share a standard name) passes
      over the value. */
  function SaveValue(st: Loader.State, st1: Loader.State, t: Tally, mid: nat, key: string, p: nat, value: Value, v: Variant): (r: Progress)
    requires Loader.Good(st1) && Kept(st, st1) && st1.db == st.db && mid < |st.db.measurements| && p < |st.db.parameters|
    requires value.Num?
    requires Accounts(t, st.includeNames, st.db.measuredParameters)
    requires Admitted(st, key)
    ensures r.Exited? ==> r.e == Dap.CountKeyError && v == AsWritten && |st.includeNames| == 0
    ensures r.Going? ==> Loader.Good(r.st) && Kept(st, r.st) && r.st.includeNames == st.includeNames
    ensures r.Going? ==> r.st.db == st.db.(measuredParameters := r.st.db.measuredParameters)
    ensures r.Going? ==> Accounts(r.t, st.includeNames, r.st.db.measuredParameters)
    ensures r.Going? ==> r.t.depths == t.depths && r.t.mindepth == t.mindepth && r.t.maxdepth == t.maxdepth
    ensures r.Going? ==> Stored(st.db.measuredParameters, r.st.db.measuredParameters, t, r.t, mid, key, value)
    ensures r.Going? ==> Grew(st.db.measuredParameters, r.st.db.measuredParameters, t, r.t)
    ensures r.Going? && r.st.db == st.db ==> Has(st.db.measuredParameters, MeasuredParameterKey, (mid, p))
  {
    var x := value.x;
    match InsertMeasuredParameter(st1.db, MeasuredParameter(mid, p, x))
    case Failure(_) => Going(st1, t)
    case Success(db) =>
      match Count(t, key, p, v)
      case Failure(e) =>
        AsWrittenCountNeedsEmptyIncludes(t, st, key, p, st.db.measuredParameters);
        Exited(e)
      case Success(t1) =>
        CountKeepsAccounts(t, key, p, v, st.includeNames, st.db.measuredParameters, MeasuredParameter(mid, p, x));
        Going(st1.(db := db), t1)
  }

  /** The values of `keys[i..]` of the row with measurement `mid`, in
      turn; stops at the first exception. */
  function StoreValues(st: Loader.State, t: Tally, mid: nat, row: Row, keys: seq<string>, i: nat, v: Variant): (r: Progress)
    requires Loader.Good(st) && mid < |st.db.measurements| && i <= |keys|
    requires Accounts(t, st.includeNames, st.db.measuredParameters)
    requires forall j :: 0 <= j < |keys| ==> keys[j] in row
    ensures r.Going? ==> Loader.Good(r.st) && Kept(st, r.st) && r.st.includeNames == st.includeNames
    ensures r.Going? ==> r.st.db == st.db.(measuredParameters := r.st.db.measuredParameters)
    ensures r.Going? ==> Accounts(r.t, st.includeNames, r.st.db.measuredParameters)
    ensures r.Going? ==> r.t.depths == t.depths && r.t.mindepth == t.mindepth && r.t.maxdepth == t.maxdepth
    ensures r.Going? ==> Grew(st.db.measuredParameters, r.st.db.measuredParameters, t, r.t)
    ensures r.Exited? ==> (r.e == Dap.LoadFailed(Loader.DatabaseError(MultipleObjectsReturned))
                           || (r.e == Dap.CountKeyError && v == AsWritten && |st.includeNames| == 0))
    decreases |keys| - i
  {
    if i == |keys| then Going(st, t)
    else
      match StoreValue(st, t, mid, keys[i], row[keys[i]], v)
      case Exited(e) => Exited(e)
      case Going(st1, t1) =>
        var r := StoreValues(st1, t1, mid, row, keys, i + 1, v);
        if r.Going? then GrewTrans(st.db.measuredParameters, st1.db.measuredParameters, r.st.db.measuredParameters, t, t1, r.t); r
        else r
  }

  /** The table and the log grew by the same number of values, the old
      ones kept. */
  predicate Grew(mps: seq<MeasuredParameter>, mps2: seq<MeasuredParameter>, t: Tally, t2: Tally)
  {
    mps <= mps2 && t.keys <= t2.keys && t.params <= t2.params
    && |mps2| - |mps| == |t2.params| - |t.params|
  }

  lemma GrewTrans(mps: seq<MeasuredParameter>, mps1: seq<MeasuredParameter>, mps2: seq<MeasuredParameter>, t: Tally, t1: Tally, t2: Tally)
    requires Grew(mps, mps1, t, t1)
    requires Grew(mps1, mps2, t1, t2)
    ensures Grew(mps, mps2, t, t2)
  {
  }

  // ---------------------------------------------------------------------
  // The row loop of process_data

  /** `mindepth` and `maxdepth` after a measurement at `depth` is created. */
  function Deepen(t: Tally, depth: real): (r: Tally)
    ensures r.loaded == t.loaded && r.parmCount == t.parmCount && r.parameterCount == t.parameterCount
    ensures r.keys == t.keys && r.params == t.params && r.depths == t.depths + [depth]
  {
    t.(mindepth := if depth < t.mindepth then depth else t.mindepth,
       maxdepth := if depth > t.maxdepth then depth else t.maxdepth,
       depths := t.depths + [depth])
  }

  /** With depths inside [-1000, 4000], the running bounds stay the least
      and greatest depth of the created measurements. */
  lemma DeepenKeepsDepths(t: Tally, ms: seq<Measurement>, m: Measurement)
    requires Depths(t, ms) && -1000.0 <= m.depth <= 4000.0
    ensures Depths(Deepen(t, m.depth), ms + [m])
  {
    var t' := Deepen(t, m.depth);
    EndsWithAppend(ms, t.depths, m);
    if |t.depths| > 0 {
      MinAppend(t.depths, m.depth);
      MaxAppend(t.depths, m.depth);
    } else {
      assert t'.depths == [m.depth];
    }
  }

  /** The depth bounds do not touch the other counters. */
  lemma DeepenKeepsAccounts(t: Tally, depth: real, includes: seq<string>, mps: seq<MeasuredParameter>)
    requires Accounts(t, includes, mps)
    ensures Accounts(Deepen(t, depth), includes, mps)
  {
    var t' := Deepen(t, depth);
    assert Logged(t', mps);
    assert NameCounts(t', includes);
    assert ParameterCounts(t');
  }

  lemma EndsWithAppend(ms: seq<Measurement>, depths: seq<real>, m: Measurement)
    requires EndsWith(ms, depths)
    ensures EndsWith(ms + [m], depths + [m.depth])
  {
    var ms', ds' := ms + [m], depths + [m.depth];
    forall i | 0 <= i < |ds'| ensures ms'[|ms'| - |ds'| + i].depth == ds'[i] {
      if i < |depths| {
        assert ms'[|ms'| - |ds'| + i] == ms[|ms| - |depths| + i];
      }
    }
  }

  lemma MinAppend(xs: seq<real>, d: real)
    requires |xs| > 0
    ensures Stats.Min(xs + [d]) == if d < Stats.Min(xs) then d else Stats.Min(xs)
  {
    var ys := xs + [d];
    var c := if d < Stats.Min(xs) then d else Stats.Min(xs);
    assert c in ys;
    assert forall i :: 0 <= i < |ys| ==> c <= ys[i] by {
      forall i | 0 <= i < |ys| ensures c <= ys[i] {
        if i < |xs| { assert ys[i] == xs[i]; }
      }
    }
    var m := Stats.Min(ys);
    var j :| 0 <= j < |ys| && ys[j] == m;
    var k :| 0 <= k < |ys| && ys[k] == c;
  }

  lemma MaxAppend(xs: seq<real>, d: real)
    requires |xs| > 0
    ensures Stats.Max(xs + [d]) == if d > Stats.Max(xs) then d else Stats.Max(xs)
  {
    var ys := xs + [d];
    var c := if d > Stats.Max(xs) then d else Stats.Max(xs);
    assert c in ys;
    assert forall i :: 0 <= i < |ys| ==> ys[i] <= c by {
      forall i | 0 <= i < |ys| ensures ys[i] <= c {
        if i < |xs| { assert ys[i] == xs[i]; }
      }
    }
    var m := Stats.Max(ys);
    var j :| 0 <= j < |ys| && ys[j] == m;
    var k :| 0 <= k < |ys| && ys[k] == c;
  }

  /** The loader and counters after some rows: only the instant point,
      measurement and value tables changed, each by appending; the
      counters account for the new values and the depth bounds for the new
      measurements. */
  ghost predicate Advanced(st: Loader.State, st2: Loader.State, t: Tally, t2: Tally)
  {
    Loader.Good(st2) && Kept(st, st2) && st2.includeNames == st.includeNames
    && st2.db == st.db.(instantPoints := st2.db.instantPoints, measurements := st2.db.measurements,
                        measuredParameters := st2.db.measuredParameters)
    && st.db.instantPoints <= st2.db.instantPoints
    && st.db.measurements <= st2.db.measurements && t.depths <= t2.depths
    && |st2.db.measurements| - |st.db.measurements| == |t2.depths| - |t.depths|
    && Grew(st.db.measuredParameters, st2.db.measuredParameters, t, t2)
    && Accounts(t2, st.includeNames, st2.db.measuredParameters)
    && Depths(t2, st2.db.measurements)
  }

  lemma AdvancedTrans(st: Loader.State, st1: Loader.State, st2: Loader.State, t: Tally, t1: Tally, t2: Tally)
    requires Advanced(st, st1, t, t1) && Advanced(st1, st2, t1, t2)
    ensures Advanced(st, st2, t, t2)
  {
    GrewTrans(st.db.measuredParameters, st1.db.measuredParameters, st2.db.measuredParameters, t, t1, t2);
  }

  /** `order(row)` lists the keys of `row` once each: the order of
      `row.iteritems()`, which the source leaves to the dictionary. */
  ghost predicate Orders(order: Row -> seq<string>)
  {
    (forall row: Row, k :: k in row <==> k in order(row))
    && forall row: Row, i, j :: 0 <= i < j < |order(row)| ==> order(row)[i] != order(row)[j]
  }

  /** Every name `order` lists is a key of the row. */
  lemma OrderedKeys(order: Row -> seq<string>, row: Row)
    requires Orders(order)
    ensures forall j :: 0 <= j < |order(row)| ==> order(row)[j] in row
  {
    forall j | 0 <= j < |order(row)| ensures order(row)[j] in row {
      assert order(row)[j] in order(row);
    }
  }

  /** How a row can end the load: a missing key, a text time, a failed
      check, lookup or write, or the counting line, which raises only for
      a loader without `include_names`. */
  predicate RowExit(st: Loader.State, v: Variant, e: Dap.DapError)
  {
    e.MissingKey? || e == Dap.TimeTypeError || e.LoadFailed?
    || (e == Dap.CountKeyError && v == AsWritten && |st.includeNames| == 0)
  }

  /** The measurement of a checked row and its values: the coordinates,
      the time and the depth are popped in that order (a missing one is a
      KeyError that ends the load, a time `utcfromtimestamp` rejects skips
      the row, text time ends the load), the measurement is created (a
      SkipRecord skips the row) and the remaining values are stored in
      the order `order` gives. */
  function LoadChecked(st: Loader.State, t: Tally, row: Row, order: Row -> seq<string>, v: Variant): (r: Progress)
    requires Loader.Good(st) && Orders(order)
    requires Accounts(t, st.includeNames, st.db.measuredParameters) && Depths(t, st.db.measurements)
    ensures "longitude" !in row ==> r == Exited(Dap.MissingKey("longitude"))
    ensures "longitude" in row && "latitude" !in row ==> r == Exited(Dap.MissingKey("latitude"))
    ensures "longitude" in row && "latitude" in row && "time" !in row ==> r == Exited(Dap.MissingKey("time"))
    ensures "longitude" in row && "latitude" in row && "time" in row && Timestamp(row["time"]) == Success(None) ==> r == Going(st, t)
    ensures r.Going? ==> Advanced(st, r.st, t, r.t)
    ensures r.Going? && |r.st.db.measurements| > |st.db.measurements| ==> RowMeasured(row, t, r.t)
    ensures r.Exited? ==> RowExit(st, v, r.e)
  {
    if "longitude" !in row then Exited(Dap.MissingKey("longitude"))
    else if "latitude" !in row then Exited(Dap.MissingKey("latitude"))
    else if "time" !in row then Exited(Dap.MissingKey("time"))
    else
      match Timestamp(row["time"])
      case Failure(e) => Exited(e)
      case Success(None) => Going(st, t)
      case Success(Some(time)) =>
        if "depth" !in row then Exited(Dap.MissingKey("depth"))
        else
          var rest := row - {"longitude", "latitude", "time", "depth"};
          Measured(st, t, time, row["depth"], row["latitude"], row["longitude"], rest, order, v)
  }

  /** A row whose measurement was created: its four coordinates present,
      its time accepted, its depth a number that passes the check and its
      coordinates numbers; the depth is logged. */
  predicate RowMeasured(row: Row, t: Tally, t2: Tally)
  {
    "longitude" in row && "latitude" in row && "time" in row && "depth" in row
    && Timestamp(row["time"]).Success? && Timestamp(row["time"]).value.Some?
    && Storable(row["depth"], row["latitude"], row["longitude"]) && DepthPasses(row["depth"])
    && t2.depths == t.depths + [row["depth"].x]
  }

  /** `createMeasurement` for a row's time, depth and coordinates, then
      the row's other values. */
  function Measured(st: Loader.State, t: Tally, time: real, depth: Value, lat: Value, lon: Value,
                    rest: Row, order: Row -> seq<string>, v: Variant): (r: Progress)
    requires Loader.Good(st) && Orders(order)
    requires Accounts(t, st.includeNames, st.db.measuredParameters) && Depths(t, st.db.measurements)
    ensures !DepthPasses(depth) ==> r == Going(st, t)
    ensures r.Going? ==> Advanced(st, r.st, t, r.t)
    ensures r.Going? && |r.st.db.measurements| > |st.db.measurements| ==>
      Storable(depth, lat, lon) && DepthPasses(depth) && r.t.depths == t.depths + [depth.x]
    ensures r.Exited? ==> RowExit(st, v, r.e)
  {
    match CreateMeasurement(st, time, depth, lat, lon)
    case Skipped(st1) =>
      SkipAdvances(st, st1, t, time);
      Going(st1, t)
    case Stopped(e) => Exited(Dap.LoadFailed(e))
    case Done(st1, mid) => ValuesOf(st, t, st1, time, depth, lat, lon, rest, order, v)
  }

  /** The row's other values, stored against the measurement just created. */
  function ValuesOf(st: Loader.State, t: Tally, st1: Loader.State, time: real, depth: Value, lat: Value, lon: Value,
                    rest: Row, order: Row -> seq<string>, v: Variant): (r: Progress)
    requires Loader.Good(st) && Loader.Good(st1) && Orders(order) && st.activity.Some? && DepthPasses(depth) && Storable(depth, lat, lon)
    requires Accounts(t, st.includeNames, st.db.measuredParameters) && Depths(t, st.db.measurements)
    requires st1 == st.(db := WithInstant(st.db, st.activity.value, time).(measurements :=
      st.db.measurements + [Measurement(|st.db.instantPoints|, None, depth.x, lon.x, lat.x)]))
    ensures r.Going? ==> Advanced(st, r.st, t, r.t) && r.t.depths == t.depths + [depth.x]
    ensures r.Exited? ==> RowExit(st, v, r.e)
  {
    var mid := |st.db.measurements|;
    var t1 := Deepen(t, depth.x);
    DeepenKeepsDepths(t, st.db.measurements, st1.db.measurements[mid]);
    DeepenKeepsAccounts(t, depth.x, st.includeNames, st.db.measuredParameters);
    OrderedKeys(order, rest);
    match StoreValues(st1, t1, mid, rest, order(rest), 0, v)
    case Exited(e) => Exited(e)
    case Going(st2, t2) =>
      MeasuredAdvances(st, st1, st2, t, t1, t2);
      Going(st2, t2)
  }

  /** A skipped measurement that left only a new instant point behind. */
  lemma SkipAdvances(st: Loader.State, st1: Loader.State, t: Tally, time: real)
    requires Loader.Good(st) && Loader.Good(st1) && Accounts(t, st.includeNames, st.db.measuredParameters) && Depths(t, st.db.measurements)
    requires st1 == st || (st.activity.Some? && st1 == st.(db := WithInstant(st.db, st.activity.value, time)))
    ensures Advanced(st, st1, t, t)
  {
  }

  /** A created measurement followed by its row's values. */
  lemma MeasuredAdvances(st: Loader.State, st1: Loader.State, st2: Loader.State, t: Tally, t1: Tally, t2: Tally)
    requires Loader.Good(st) && Loader.Good(st2)
    requires st1 == st.(db := st.db.(instantPoints := st1.db.instantPoints, measurements := st1.db.measurements))
    requires st.db.instantPoints <= st1.db.instantPoints
    requires |st1.db.measurements| == |st.db.measurements| + 1 && st.db.measurements <= st1.db.measurements
    requires t1.depths == t.depths + [st1.db.measurements[|st.db.measurements|].depth]
    requires t1.keys == t.keys && t1.params == t.params
    requires Depths(t1, st1.db.measurements)
    requires Kept(st1, st2) && st2.includeNames == st1.includeNames
    requires st2.db == st1.db.(measuredParameters := st2.db.measuredParameters)
    requires Accounts(t2, st1.includeNames, st2.db.measuredParameters)
    requires t2.depths == t1.depths && t2.mindepth == t1.mindepth && t2.maxdepth == t1.maxdepth
    requires Grew(st1.db.measuredParameters, st2.db.measuredParameters, t1, t2)
    ensures Advanced(st, st2, t, t2)
  {
    assert Depths(t2, st2.db.measurements);
  }

  /** A row from `_genData`: `preProcessParams` (the loader's own, `pre`)
      skips it, ends the load, or passes the row on to `LoadChecked`. */
  function LoadRow(st: Loader.State, t: Tally, row: Row, pre: Row -> Loader.Checked<Row>,
                   order: Row -> seq<string>, v: Variant): (r: Progress)
    requires Loader.Good(st) && Orders(order)
    requires Accounts(t, st.includeNames, st.db.measuredParameters) && Depths(t, st.db.measurements)
    ensures pre(row).SkipRecord? ==> r == Going(st, t)
    ensures pre(row).Fatal? ==> r == Exited(Dap.LoadFailed(pre(row).e))
    ensures pre(row).Pass? ==> r == LoadChecked(st, t, pre(row).value, order, v)
    ensures r.Going? ==> Advanced(st, r.st, t, r.t)
    ensures r.Exited? ==> RowExit(st, v, r.e)
  {
    match pre(row)
    case SkipRecord =>
      AdvancedRefl(st, t);
      Going(st, t)
    case Fatal(e) => Exited(Dap.LoadFailed(e))
    case Pass(checked) => LoadChecked(st, t, checked, order, v)
  }

  lemma AdvancedRefl(st: Loader.State, t: Tally)
    requires Loader.Good(st) && Accounts(t, st.includeNames, st.db.measuredParameters) && Depths(t, st.db.measurements)
    ensures Advanced(st, st, t, t)
  {
  }

  /** The row loop over `rows[i..]`; stops at the first exception. */
  function LoadRows(st: Loader.State, t: Tally, rows: seq<Row>, i: nat, pre: Row -> Loader.Checked<Row>,
                    order: Row -> seq<string>, v: Variant): (r: Progress)
    requires Loader.Good(st) && Orders(order) && i <= |rows|
    requires Accounts(t, st.includeNames, st.db.measuredParameters) && Depths(t, st.db.measurements)
    ensures r.Going? ==> Advanced(st, r.st, t, r.t)
    ensures r.Exited? ==> RowExit(st, v, r.e)
    decreases |rows| - i
  {
    if i == |rows| then
      AdvancedRefl(st, t);
      Going(st, t)
    else
      match LoadRow(st, t, rows[i], pre, order, v)
      case Exited(e) => Exited(e)
      case Going(st1, t1) =>
        var r := LoadRows(st1, t1, rows, i + 1, pre, order, v);
        if r.Going? then
          AdvancedTrans(st, st1, r.st, t, t1, r.t);
          r
        else r
  }

  // ---------------------------------------------------------------------
  // The statistics pass of this loader

  /** The keys of `parameterCount`: the logged parameters, each once, in
      the order of their first value. */
  function Distinct(xs: seq<nat>): (ys: seq<nat>)
    ensures forall x :: x in ys <==> x in xs
    ensures forall i, j :: 0 <= i < j < |ys| ==> ys[i] != ys[j]
  {
    if |xs| == 0 then []
    else
      var ys := Distinct(xs[..|xs| - 1]);
      assert forall x :: x in xs <==> x in xs[..|xs| - 1] || x == xs[|xs| - 1];
      if xs[|xs| - 1] in ys then ys else ys + [xs[|xs| - 1]]
  }

  /** The statistics this loader computes for parameter `p`: those of all
      its values, in every activity, with no 1/99 percentiles. */
  function AllValuesStats(db: Db, p: nat): Option<ParameterStats>
  {
    Loader.Summarize(MeasuredValues(db.measurements, db.instantPoints, db.measuredParameters, p, None), false)
  }

  /** One parameter of `updateActivityParameterStats(parameterCounts)` as
      written: the values of `p` are read without an activity filter
      (`numpy.min` of none raises) and handed to `AsWrittenSaveStats`. */
  function AsWrittenStatsOne(db: Db, a: nat, p: nat, hist: (seq<real>, nat) -> (seq<nat>, seq<real>)): (r: Result<Db, Dap.DapError>)
    requires Valid(db) && a < |db.activities| && p < |db.parameters| && Loader.HistogramLike(hist)
    ensures AllValuesStats(db, p).None? <==> r == Failure(Dap.EmptyValues)
    ensures r.Failure? ==> r == Failure(Dap.EmptyValues) || r == Failure(Dap.LoadFailed(Loader.DatabaseError(MultipleObjectsReturned)))
    ensures r.Success? ==> Valid(r.value) && Loader.SameData(db, r.value)
    ensures r.Success? && r.value != db ==> Loader.StatsStored(r.value, a, p, AllValuesStats(db, p).value)
    ensures r.Success? && !Has(db.activityParameters, ActivityParameterKey, (a, p)) ==>
      Loader.StatsStored(r.value, a, p, AllValuesStats(db, p).value)
  {
    var xs := MeasuredValues(db.measurements, db.instantPoints, db.measuredParameters, p, None);
    match Loader.Summarize(xs, false)
    case None => Failure(Dap.EmptyValues)
    case Some(s) => AsWrittenSaveStats(db, a, p, s, hist(Stats.Sort(xs), 100))
  }

  /** The ActivityParameter is got or created with every statistic in the
      lookup, so a row for (a, p) holding other statistics raises
      IntegrityError and the parameter, histogram included, is passed
      over; otherwise the 100-bin histogram `h` is stored. */
  function AsWrittenSaveStats(db: Db, a: nat, p: nat, s: ParameterStats, h: (seq<nat>, seq<real>)): (r: Result<Db, Dap.DapError>)
    requires Valid(db) && a < |db.activities| && p < |db.parameters| && |h.1| == |h.0| + 1
    ensures r.Failure? ==> r == Failure(Dap.LoadFailed(Loader.DatabaseError(MultipleObjectsReturned)))
    ensures r.Success? ==> Valid(r.value) && Loader.SameData(db, r.value)
    ensures r.Success? && r.value != db ==> Loader.StatsStored(r.value, a, p, s)
    ensures ActivityParameter(a, p, Some(s)) in db.activityParameters ==> r.Failure? || Loader.StatsStored(r.value, a, p, s)
    ensures !Has(db.activityParameters, ActivityParameterKey, (a, p)) ==> r.Failure? || Loader.StatsStored(r.value, a, p, s)
    ensures (Has(db.activityParameters, ActivityParameterKey, (a, p)) && ActivityParameter(a, p, Some(s)) !in db.activityParameters) ==> r == Success(db)
  {
    match GetOrCreateActivityParameterWith(db, ActivityParameter(a, p, Some(s)))
    case Failure(_) => Success(db)
    case Success(g) =>
      match Loader.StoreHistogram(g.db, g.id, h.0, h.1)
      case Failure(e) => Failure(Dap.LoadFailed(Loader.DatabaseError(e)))
      case Success(db2) =>
        assert db2.activityParameters[g.id] == ActivityParameter(a, p, Some(s));
        Success(db2)
  }

  /** The exceptions of the statistics pass: `numpy.min` of no values, or
      a lookup that finds two rows. */
  predicate StatsError(e: Dap.DapError)
  {
    e == Dap.EmptyValues || e == Dap.LoadFailed(Loader.DatabaseError(MultipleObjectsReturned))
  }

  /** The as-written pass over `params[i..]`; stops at the first exception. */
  function AsWrittenStatsFrom(db: Db, a: nat, params: seq<nat>, hist: (seq<real>, nat) -> (seq<nat>, seq<real>), i: nat): (r: Result<Db, Dap.DapError>)
    requires Valid(db) && a < |db.activities| && Loader.HistogramLike(hist) && i <= |params|
    requires forall j :: 0 <= j < |params| ==> params[j] < |db.parameters|
    ensures r.Success? ==> Valid(r.value) && Loader.SameData(db, r.value)
    ensures r.Failure? ==> StatsError(r.error)
    decreases |params| - i
  {
    if i == |params| then Success(db)
    else
      match AsWrittenStatsOne(db, a, params[i], hist)
      case Failure(e) => Failure(e)
      case Success(db1) => AsWrittenStatsFrom(db1, a, params, hist, i + 1)
  }

  /** `updateActivityParameterStats(parameterCounts)` over the parameters
      `params`. Corrected reads the values of the activity only and gets
      or creates the row by (activity, parameter) before storing the
      statistics, so every parameter with values in the activity ends with
      current statistics. */
  function UpdateStats(db: Db, a: nat, params: seq<nat>, hist: (seq<real>, nat) -> (seq<nat>, seq<real>), v: Variant): (r: Result<Db, Dap.DapError>)
    requires Valid(db) && a < |db.activities| && Loader.HistogramLike(hist)
    requires forall j :: 0 <= j < |params| ==> params[j] < |db.parameters|
    ensures r.Success? ==> Valid(r.value) && Loader.SameData(db, r.value)
    ensures r.Success? && v == Corrected ==> Loader.CurrentFrom(db, r.value, a, params, false, false, 0)
    ensures r.Failure? && v == Corrected ==> r.error == Dap.LoadFailed(Loader.DatabaseError(MultipleObjectsReturned))
    ensures r.Failure? ==> StatsError(r.error)
  {
    if v == AsWritten then AsWrittenStatsFrom(db, a, params, hist, 0)
    else
      match Loader.UpdateFrom(db, a, params, false, false, hist, 0)
      case Failure(e) => Failure(Dap.LoadFailed(Loader.DatabaseError(e)))
      case Success(db2) => Success(db2)
  }

  // ---------------------------------------------------------------------
  // Findings of the statistics pass and the counters

  /** Two statistics stored for the same (activity, parameter) are the same
      row's, by the `unique_together` constraint. */
  lemma StoredOnce(db: Db, a: nat, p: nat, s: ParameterStats, s2: ParameterStats)
    requires Valid(db) && Loader.StatsStored(db, a, p, s) && Loader.StatsStored(db, a, p, s2)
    ensures s == s2
  {
    var i :| 0 <= i < |db.activityParameters| && db.activityParameters[i] == ActivityParameter(a, p, Some(s));
    var j :| 0 <= j < |db.activityParameters| && db.activityParameters[j] == ActivityParameter(a, p, Some(s2));
    assert ActivityParameterKey(db.activityParameters[i]) == ActivityParameterKey(db.activityParameters[j]);
  }

  /** Finding: as written, the statistics of a new (activity, parameter)
      row count the parameter's values in every activity, so a single value
      of it in another activity leaves the row not current for this one. */
  lemma AsWrittenCountsOtherActivities(db: Db, a: nat, p: nat, hist: (seq<real>, nat) -> (seq<nat>, seq<real>), i: nat)
    requires Valid(db) && a < |db.activities| && p < |db.parameters| && Loader.HistogramLike(hist)
    requires i < |db.measuredParameters| && db.measuredParameters[i].parameter == p
    requires MeasurementActivity(db.measurements, db.instantPoints, db.measuredParameters[i].measurement) != Some(a)
    requires !Has(db.activityParameters, ActivityParameterKey, (a, p))
    ensures AsWrittenStatsOne(db, a, p, hist).Success? ==>
      !Loader.Current(AsWrittenStatsOne(db, a, p, hist).value, a, p, false, false)
  {
    var all := MeasuredValues(db.measurements, db.instantPoints, db.measuredParameters, p, None);
    ActivityFilterDrops(db.measurements, db.instantPoints, db.measuredParameters, p, a, i);
    var r := AsWrittenStatsOne(db, a, p, hist);
    if r.Success? {
      var sAll := AllValuesStats(db, p).value;
      assert Loader.ValuesFor(r.value, a, p, false) == MeasuredValues(db.measurements, db.instantPoints, db.measuredParameters, p, Some(a));
      forall s | Loader.StatsStored(r.value, a, p, s)
        ensures s.number == |all|
      {
        StoredOnce(r.value, a, p, s, sAll);
      }
    }
  }

  /** Finding: as written, reloading an activity whose values of `p` have
      changed leaves the old statistics in place, because the lookup by
      every statistic misses and the insert then collides with the old row;
      `Loader.UpdateOne` (the corrected pass) stores the current ones. */
  lemma AsWrittenKeepsStaleStats(db: Db, a: nat, p: nat, hist: (seq<real>, nat) -> (seq<nat>, seq<real>), stale: ParameterStats)
    requires Valid(db) && a < |db.activities| && p < |db.parameters| && Loader.HistogramLike(hist)
    requires ActivityParameter(a, p, Some(stale)) in db.activityParameters
    requires AllValuesStats(db, p).Some? && AllValuesStats(db, p).value != stale
    ensures AsWrittenStatsOne(db, a, p, hist) == Success(db)
    ensures Loader.StatsStored(db, a, p, stale) && !Loader.StatsStored(db, a, p, AllValuesStats(db, p).value)
  {
    StaleStored(db, a, p, stale, AllValuesStats(db, p).value);
  }

  /** A row holding `stale` for (a, p) is the only row for that pair, so
      no other statistics are stored for it. */
  lemma StaleStored(db: Db, a: nat, p: nat, stale: ParameterStats, current: ParameterStats)
    requires Valid(db) && ActivityParameter(a, p, Some(stale)) in db.activityParameters && current != stale
    ensures Loader.StatsStored(db, a, p, stale) && !Loader.StatsStored(db, a, p, current)
  {
    var i :| 0 <= i < |db.activityParameters| && db.activityParameters[i] == ActivityParameter(a, p, Some(stale));
    assert ActivityParameterKey(db.activityParameters[i]) == (a, p);
    if Loader.StatsStored(db, a, p, current) {
      StoredOnce(db, a, p, stale, current);
    }
  }

  /** `initDB()` goes on only when `checkForValidData()` finds an included
      variable with data, so a load never runs with an empty
      `include_names`: within a load the counting line never raises, and
      the as-written and corrected counters agree. */
  lemma ValidDataNeedsIncludes(st: Loader.State, precheck: map<string, Loader.DsVar>, t: Tally, key: string, p: nat,
                               mps: seq<MeasuredParameter>)
    requires Loader.CheckForValidData(st, precheck).1
    requires Accounts(t, st.includeNames, mps) && Admitted(st, key)
    ensures |st.includeNames| > 0
    ensures Count(t, key, p, AsWritten).Success? && Count(t, key, p, AsWritten) == Count(t, key, p, Corrected)
  {
    ghost var w :| w in st.includeNames && Loader.HasData(precheck, w);
    AsWrittenCountNeedsEmptyIncludes(t, st, key, p, mps);
  }

  // ---------------------------------------------------------------------
  // process_data

  /** How a load ends: with the loader and its counters, stopped by an
      exception, or (a row of scalars only, yielded for ever) never. */
  datatype LoadResult = Loaded(st: Loader.State, t: Tally) | Failed(e: Dap.DapError) | NeverEnds

  /** The parameters of the logged values exist. */
  lemma LoggedParametersExist(t: Tally, db: Db)
    requires Valid(db) && Logged(t, db.measuredParameters)
    ensures forall x :: x in t.params ==> x < |db.parameters|
  {
    forall x | x in t.params
      ensures x < |db.parameters|
    {
      var i :| 0 <= i < |t.params| && t.params[i] == x;
      var mps := db.measuredParameters;
      assert MeasuredParameterOf(mps[|mps| - |t.params| + i]) == x;
    }
  }

  /** Statistics are not read from the simplified depth series. */
  lemma CurrentIgnoresDepthRows(db: Db, db2: Db, a: nat)
    requires db2 == db.(simpleDepthTimes := db2.simpleDepthTimes)
    ensures forall p :: Loader.ValuesFor(db2, a, p, false) == Loader.ValuesFor(db, a, p, false)
    ensures forall p :: Loader.Current(db, a, p, false, false) ==> Loader.Current(db2, a, p, false, false)
  {
  }

  /** What follows the row loop: the activity's `update(...)` with the
      depth bounds and the count, then the statistics of the counted
      parameters (those of `parameterCount`, each once). */
  function Conclude(st: Loader.State, t: Tally, hist: (seq<real>, nat) -> (seq<nat>, seq<real>), v: Variant): (r: Result<Db, Dap.DapError>)
    requires Loader.Good(st) && st.activity.Some? && Loader.HistogramLike(hist) && Logged(t, st.db.measuredParameters)
    ensures r.Success? ==> Valid(r.value) && |r.value.activities| == |st.db.activities| && |r.value.parameters| == |st.db.parameters|
    ensures r.Success? ==> r.value == st.db.(activities := r.value.activities, activityParameters := r.value.activityParameters,
                                             histograms := r.value.histograms)
    ensures r.Success? ==> (r.value.activities[st.activity.value].numMeasuredParameters == Some(t.loaded)
      && r.value.activities[st.activity.value].mindepth == Some(t.mindepth)
      && r.value.activities[st.activity.value].maxdepth == Some(t.maxdepth))
    ensures r.Success? && v == Corrected ==> forall p :: p in t.params && |Loader.ValuesFor(r.value, st.activity.value, p, false)| > 0 ==>
      Loader.Current(r.value, st.activity.value, p, false, false)
    ensures r.Failure? ==> StatsError(r.error)
  {
    var a := st.activity.value;
    var db2 := UpdateActivityLoad(st.db, a, t.mindepth, t.maxdepth, t.loaded);
    var params := Distinct(t.params);
    LoggedParametersExist(t, st.db);
    assert forall j :: 0 <= j < |params| ==> params[j] in t.params;
    assert db2.parameters == st.db.parameters;
    match UpdateStats(db2, a, params, hist, v)
    case Failure(e) => Failure(e)
    case Success(db3) =>
      assert forall p :: Loader.ValuesFor(db3, a, p, false) == Loader.ValuesFor(db2, a, p, false);
      Success(db3)
  }

  /** `process_data()`: first `initDB()`, which raises NoValidData when
      `checkForValidData()` finds no included variable with data in the
      dataset as `precheck` reads it; `st` is the loader as the rest of
      `initDB()` leaves it, its activity created. Then `LoadStream`. */
  method ProcessData(st: Loader.State, precheck: map<string, Loader.DsVar>,
                     ds: map<string, Dap.Variable>, axis: seq<real>, s: real, e: Option<real>, stride: nat,
                     pre: Row -> Loader.Checked<Row>, order: Row -> seq<string>,
                     hist: (seq<real>, nat) -> (seq<nat>, seq<real>), sqrt: real -> real, v: Variant)
    returns (r: LoadResult)
    requires Loader.Good(st) && st.activity.Some?
    requires Orders(order) && Loader.HistogramLike(hist) && Simplify.SqrtLike(sqrt) && stride > 0
    ensures !Loader.CheckForValidData(st, precheck).1 <==> r == Failed(Dap.NoValidData)
    ensures r != Failed(Dap.CountKeyError)
    ensures Loader.CheckForValidData(st, precheck).1 && Dap.GenData(ds, axis, s, e, st.includeNames, st.ignoredNames, stride).Failure? ==>
      r == Failed(Dap.GenData(ds, axis, s, e, st.includeNames, st.ignoredNames, stride).error)
    ensures r.NeverEnds? ==> (Dap.GenData(ds, axis, s, e, st.includeNames, st.ignoredNames, stride).Success?
      && Dap.GenData(ds, axis, s, e, st.includeNames, st.ignoredNames, stride).value.Endless?)
    ensures r.Loaded? ==> st.activity.Some? && Loader.Good(r.st) && r.st.activity == st.activity
    ensures r.Loaded? ==> (st.db.measuredParameters <= r.st.db.measuredParameters
      && |r.st.db.measuredParameters| - |st.db.measuredParameters| == r.t.loaded
      && Accounts(r.t, st.includeNames, r.st.db.measuredParameters))
    ensures r.Loaded? ==> (st.db.measurements <= r.st.db.measurements && Depths(r.t, r.st.db.measurements)
      && |r.t.depths| == |r.st.db.measurements| - |st.db.measurements|)
    ensures r.Loaded? ==> st.db.simpleDepthTimes <= r.st.db.simpleDepthTimes
    ensures r.Loaded? ==> (|r.st.db.activities| == |st.db.activities|
      && r.st.db.activities[st.activity.value].numMeasuredParameters == Some(r.t.loaded)
      && r.st.db.activities[st.activity.value].mindepth == Some(r.t.mindepth)
      && r.st.db.activities[st.activity.value].maxdepth == Some(r.t.maxdepth))
    ensures r.Loaded? && v == Corrected ==> forall p :: p in r.t.params && |Loader.ValuesFor(r.st.db, st.activity.value, p, false)| > 0 ==>
      Loader.Current(r.st.db, st.activity.value, p, false, false)
  {
    if !Loader.CheckForValidData(st, precheck).1 {
      return Failed(Dap.NoValidData);
    }
    ghost var w :| w in st.includeNames && Loader.HasData(precheck, w);
    r := LoadStream(st, ds, axis, s, e, stride, pre, order, hist, sqrt, v);
  }

  /** `process_data()` once `initDB()` has passed, so `include_names` is
      not empty: `_genData` from the dataset `ds` with time axis `axis`
      over [`s`, `e`], every row through `pre` (the loader's
      `preProcessParams`) and `LoadChecked`, then `Conclude` and the
      simplified depth series. The counting line never raises here. */
  method LoadStream(st: Loader.State, ds: map<string, Dap.Variable>, axis: seq<real>, s: real, e: Option<real>, stride: nat,
                    pre: Row -> Loader.Checked<Row>, order: Row -> seq<string>,
                    hist: (seq<real>, nat) -> (seq<nat>, seq<real>), sqrt: real -> real, v: Variant)
    returns (r: LoadResult)
    requires Loader.Good(st) && st.activity.Some? && |st.includeNames| > 0
    requires Orders(order) && Loader.HistogramLike(hist) && Simplify.SqrtLike(sqrt) && stride > 0
    ensures r.Failed? ==> r.e != Dap.NoValidData && r.e != Dap.CountKeyError
    ensures Dap.GenData(ds, axis, s, e, st.includeNames, st.ignoredNames, stride).Failure? ==>
      r == Failed(Dap.GenData(ds, axis, s, e, st.includeNames, st.ignoredNames, stride).error)
    ensures r.NeverEnds? ==> (Dap.GenData(ds, axis, s, e, st.includeNames, st.ignoredNames, stride).Success?
      && Dap.GenData(ds, axis, s, e, st.includeNames, st.ignoredNames, stride).value.Endless?)
    ensures r.Loaded? ==> st.activity.Some? && Loader.Good(r.st) && r.st.activity == st.activity
    ensures r.Loaded? ==> (st.db.measuredParameters <= r.st.db.measuredParameters
      && |r.st.db.measuredParameters| - |st.db.measuredParameters| == r.t.loaded
      && Accounts(r.t, st.includeNames, r.st.db.measuredParameters))
    ensures r.Loaded? ==> (st.db.measurements <= r.st.db.measurements && Depths(r.t, r.st.db.measurements)
      && |r.t.depths| == |r.st.db.measurements| - |st.db.measurements|)
    ensures r.Loaded? ==> st.db.simpleDepthTimes <= r.st.db.simpleDepthTimes
    ensures r.Loaded? ==> (|r.st.db.activities| == |st.db.activities|
      && r.st.db.activities[st.activity.value].numMeasuredParameters == Some(r.t.loaded)
      && r.st.db.activities[st.activity.value].mindepth == Some(r.t.mindepth)
      && r.st.db.activities[st.activity.value].maxdepth == Some(r.t.maxdepth))
    ensures r.Loaded? && v == Corrected ==> forall p :: p in r.t.params && |Loader.ValuesFor(r.st.db, st.activity.value, p, false)| > 0 ==>
      Loader.Current(r.st.db, st.activity.value, p, false, false)
  {
    var g := Dap.GenData(ds, axis, s, e, st.includeNames, st.ignoredNames, stride);
    if g.Failure? {
      return Failed(g.error);
    }
    var t0 := Start(st.includeNames);
    match g.value
    case Endless(row) =>
      var p := LoadRow(st, t0, row, pre, order, v);
      if p.Exited? {
        RowExitInLoad(st, v, p.e);
        return Failed(p.e);
      }
      return NeverEnds;
    case Finite(rows) =>
      var p := LoadRows(st, t0, rows, 0, pre, order, v);
      if p.Exited? {
        RowExitInLoad(st, v, p.e);
        return Failed(p.e);
      }
      r := FinishLoad(st, p.st, p.t, hist, sqrt, v);
  }

  /** With `include_names` set, a row ends the load neither by the
      counting line nor by the precheck. */
  lemma RowExitInLoad(st: Loader.State, v: Variant, e: Dap.DapError)
    requires RowExit(st, v, e) && |st.includeNames| > 0
    ensures e != Dap.NoValidData && e != Dap.CountKeyError
  {
  }

  /** `process_data()` after the row loop left the loader `st1` and the
      counters `t`. */
  method FinishLoad(st: Loader.State, st1: Loader.State, t: Tally,
                    hist: (seq<real>, nat) -> (seq<nat>, seq<real>), sqrt: real -> real, v: Variant)
    returns (r: LoadResult)
    requires Loader.Good(st) && st.activity.Some? && Loader.HistogramLike(hist) && Simplify.SqrtLike(sqrt)
    requires Advanced(st, st1, Start(st.includeNames), t)
    ensures !r.NeverEnds?
    ensures r.Failed? ==> StatsError(r.e)
    ensures r.Loaded? ==> st.activity.Some? && Loader.Good(r.st) && r.st.activity == st.activity && r.t == t
    ensures r.Loaded? ==> (st.db.measuredParameters <= r.st.db.measuredParameters
      && |r.st.db.measuredParameters| - |st.db.measuredParameters| == r.t.loaded
      && Accounts(r.t, st.includeNames, r.st.db.measuredParameters))
    ensures r.Loaded? ==> (st.db.measurements <= r.st.db.measurements && Depths(r.t, r.st.db.measurements)
      && |r.t.depths| == |r.st.db.measurements| - |st.db.measurements|)
    ensures r.Loaded? ==> st.db.simpleDepthTimes <= r.st.db.simpleDepthTimes
    ensures r.Loaded? ==> (|r.st.db.activities| == |st.db.activities|
      && r.st.db.activities[st.activity.value].numMeasuredParameters == Some(r.t.loaded)
      && r.st.db.activities[st.activity.value].mindepth == Some(r.t.mindepth)
      && r.st.db.activities[st.activity.value].maxdepth == Some(r.t.maxdepth))
    ensures r.Loaded? && v == Corrected ==> forall p :: p in r.t.params && |Loader.ValuesFor(r.st.db, st.activity.value, p, false)| > 0 ==>
      Loader.Current(r.st.db, st.activity.value, p, false, false)
  {
    var c := Conclude(st1, t, hist, v);
    if c.Failure? {
      return Failed(c.error);
    }
    var st3 := Loader.WithDb(st1, c.value);
    var st4, kept := Loader.InsertSimpleDepthTimeSeries(st3, sqrt, v);
    CurrentIgnoresDepthRows(st3.db, st4.db, st1.activity.value);
    return Loaded(st4, t);
  }
}

=== FILE: drift.dfy ===
/** The drift products of `contrib/analysis/drift_data.py`: tracking fixes
    read from the tracking database's CSV feeds, progressive vectors built
    from a moored ADCP's velocities, and the map extent that covers them.
    Fetching the feeds, the database query, `time.mktime` and the UTM
    projection are left to the caller: the model takes their results. */
module Drift {
  import opened Wrappers
  import Stats

  // ---------------------------------------------------------------------
  // Tracking data

  /** One CSV row: its epoch seconds, platform and position. */
  datatype Row = Row(es: real, platform: string, lat: real, lon: real)

  /** One stored fix; `trackDrift[p]` keeps its `es`, `lat` and `lon`
      lists in step, so they are modelled as one list of fixes. */
  datatype Fix = Fix(es: real, lat: real, lon: real)

  function FixOf(r: Row): Fix
  {
    Fix(r.es, r.lat, r.lon)
  }

  /** The start and end tests: a row earlier than the start or later than
      the end is skipped, and a missing bound lets every row through. */
  predicate Kept(r: Row, start: Option<real>, end: Option<real>)
  {
    !(start.Some? && r.es < start.value) && !(end.Some? && r.es > end.value)
  }

  /** The platform's lists, empty when the `defaultdict` has no entry yet. */
  function Stored(tracks: map<string, seq<Fix>>, p: string): seq<Fix>
  {
    if p in tracks then tracks[p] else []
  }

  /** The loop body: a kept row goes in front of its platform's lists. */
  function LoadRow(tracks: map<string, seq<Fix>>, r: Row, start: Option<real>, end: Option<real>): map<string, seq<Fix>>
  {
    if Kept(r, start, end) then tracks[r.platform := [FixOf(r)] + Stored(tracks, r.platform)] else tracks
  }

  /** A row changes its own platform's lists only, and those only if it
      is kept. */
  lemma LoadRowAt(tracks: map<string, seq<Fix>>, r: Row, p: string, start: Option<real>, end: Option<real>)
    ensures Stored(LoadRow(tracks, r, start, end), p)
         == (if Kept(r, start, end) && r.platform == p then [FixOf(r)] else []) + Stored(tracks, p)
  {
  }

  /** `loadTrackingData` over the rows of all feeds, one feed after the
      other. */
  function LoadTracking(tracks: map<string, seq<Fix>>, rows: seq<Row>, start: Option<real>, end: Option<real>): map<string, seq<Fix>>
    decreases |rows|
  {
    if |rows| == 0 then tracks
    else LoadTracking(LoadRow(tracks, rows[0], start, end), rows[1..], start, end)
  }

  /** The feeds read one after the other are one stream of rows. */
  lemma {:induction false} LoadTrackingConcat(tracks: map<string, seq<Fix>>, a: seq<Row>, b: seq<Row>, start: Option<real>, end: Option<real>)
    ensures LoadTracking(tracks, a + b, start, end) == LoadTracking(LoadTracking(tracks, a, start, end), b, start, end)
    decreases |a|
  {
    if |a| > 0 {
      assert (a + b)[0] == a[0] && (a + b)[1..] == a[1..] + b;
      LoadTrackingConcat(LoadRow(tracks, a[0], start, end), a[1..], b, start, end);
    } else {
      assert a + b == b;
    }
  }

  /** The fixes of the kept rows of platform `p`, in input order. */
  function KeptOf(rows: seq<Row>, p: string, start: Option<real>, end: Option<real>): seq<Fix>
    decreases |rows|
  {
    if |rows| == 0 then []
    else (if Kept(rows[0], start, end) && rows[0].platform == p then [FixOf(rows[0])] else [])
         + KeptOf(rows[1..], p, start, end)
  }

  function Reverse<T>(s: seq<T>): (r: seq<T>)
    ensures |r| == |s|
  {
    if |s| == 0 then [] else Reverse(s[1..]) + [s[0]]
  }

  /** The reversed list holds the elements back to front. */
  lemma {:induction false} ReverseAt<T>(s: seq<T>)
    ensures forall i :: 0 <= i < |s| ==> Reverse(s)[i] == s[|s| - 1 - i]
  {
    if |s| > 0 {
      ReverseAt(s[1..]);
    }
  }

  /** Each platform's lists end with what they held before and begin with
      its kept rows, last row first. */
  lemma {:induction false} LoadTrackingMeans(tracks: map<string, seq<Fix>>, rows: seq<Row>, p: string, start: Option<real>, end: Option<real>)
    ensures Stored(LoadTracking(tracks, rows, start, end), p) == Reverse(KeptOf(rows, p, start, end)) + Stored(tracks, p)
    decreases |rows|
  {
    if |rows| > 0 {
      var t := LoadRow(tracks, rows[0], start, end);
      LoadTrackingMeans(t, rows[1..], p, start, end);
      LoadRowAt(tracks, rows[0], p, start, end);
      var head := if Kept(rows[0], start, end) && rows[0].platform == p then [FixOf(rows[0])] else [];
      var rest := KeptOf(rows[1..], p, start, end);
      assert KeptOf(rows, p, start, end) == head + rest;
      if head != [] {
        assert (head + rest)[0] == head[0] && (head + rest)[1..] == rest;
        assert Reverse(head + rest) == Reverse(rest) + head;
      } else {
        assert head + rest == rest;
      }
      assert Stored(LoadTracking(tracks, rows, start, end), p) == Reverse(rest) + Stored(t, p);
    }
  }

  /** A platform has lists afterwards exactly when it had them before or
      one of its rows was kept. */
  lemma {:induction false} LoadTrackingKeys(tracks: map<string, seq<Fix>>, rows: seq<Row>, p: string, start: Option<real>, end: Option<real>)
    ensures p in LoadTracking(tracks, rows, start, end) <==> p in tracks || |KeptOf(rows, p, start, end)| > 0
    decreases |rows|
  {
    if |rows| > 0 {
      LoadTrackingKeys(LoadRow(tracks, rows[0], start, end), rows[1..], p, start, end);
    }
  }

  /** A fix is stored for `p` exactly when a kept row of `p` carries it. */
  lemma {:induction false} KeptOfMembers(rows: seq<Row>, p: string, start: Option<real>, end: Option<real>, f: Fix)
    ensures f in KeptOf(rows, p, start, end) <==>
      exists i :: 0 <= i < |rows| && Kept(rows[i], start, end) && rows[i].platform == p && FixOf(rows[i]) == f
    decreases |rows|
  {
    if |rows| > 0 {
      KeptOfMembers(rows[1..], p, start, end, f);
      if exists i :: 0 <= i < |rows| && Kept(rows[i], start, end) && rows[i].platform == p && FixOf(rows[i]) == f {
        var i :| 0 <= i < |rows| && Kept(rows[i], start, end) && rows[i].platform == p && FixOf(rows[i]) == f;
        if i > 0 {
          assert rows[1..][i - 1] == rows[i];
        }
      }
      if f in KeptOf(rows[1..], p, start, end) {
        var i :| 0 <= i < |rows| - 1 && Kept(rows[1..][i], start, end) && rows[1..][i].platform == p && FixOf(rows[1..][i]) == f;
        assert rows[i + 1] == rows[1..][i];
      }
    }
  }

  /** The tracking database's order: the latest row first. */
  predicate LatestFirst(rows: seq<Row>)
  {
    forall i, j :: 0 <= i < j < |rows| ==> rows[i].es >= rows[j].es
  }

  lemma {:induction false} KeptOfLatestFirst(rows: seq<Row>, p: string, start: Option<real>, end: Option<real>)
    requires LatestFirst(rows)
    ensures var k := KeptOf(rows, p, start, end); forall a, b :: 0 <= a < b < |k| ==> k[a].es >= k[b].es
    decreases |rows|
  {
    if |rows| > 0 {
      KeptOfLatestFirst(rows[1..], p, start, end);
      var rest := KeptOf(rows[1..], p, start, end);
      forall b | 0 <= b < |rest| ensures rest[b].es <= rows[0].es {
        KeptOfMembers(rows[1..], p, start, end, rest[b]);
        var i :| 0 <= i < |rows| - 1 && FixOf(rows[1..][i]) == rest[b];
        assert rows[1..][i] == rows[i + 1];
      }
    }
  }

  /** Fed the database's latest-first rows, a platform that had no lists
      ends up with its fixes in time order. */
  lemma TracksInTimeOrder(rows: seq<Row>, p: string, start: Option<real>, end: Option<real>)
    requires LatestFirst(rows)
    ensures var s := Stored(LoadTracking(map[], rows, start, end), p);
      forall a, b :: 0 <= a < b < |s| ==> s[a].es <= s[b].es
  {
    LoadTrackingMeans(map[], rows, p, start, end);
    KeptOfLatestFirst(rows, p, start, end);
    ReverseAt(KeptOf(rows, p, start, end));
  }

  // ---------------------------------------------------------------------
  // Progressive vectors

  /** One row of the velocity query: a velocity component in cm/s, its
      instant in microseconds since the epoch and its depth. */
  datatype Sample = Sample(value: real, time: int, depth: real)

  const MicrosPerDay: int := 86400000000

  /** A `timedelta` as Python normalises it: whole days, negative for a
      negative span, then seconds and microseconds within their ranges. */
  datatype Delta = Delta(days: int, seconds: int, micro: int)

  function DeltaOf(d: int): (t: Delta)
    ensures 0 <= t.seconds < 86400 && 0 <= t.micro < 1000000
    ensures (t.days * 86400 + t.seconds) * 1000000 + t.micro == d
  {
    Delta(d / MicrosPerDay, (d % MicrosPerDay) / 1000000, (d % MicrosPerDay) % 1000000)
  }

  /** `dt = udiff.seconds + udiff.days * 24 * 3600` for a difference of `d`
      microseconds: the difference in whole seconds, rounded down, so
      negative exactly when the difference is. */
  function Dt(d: int): (s: int)
    ensures s * 1000000 <= d < s * 1000000 + 1000000
    ensures s < 0 <==> d < 0
  {
    var t := DeltaOf(d);
    t.seconds + t.days * 24 * 3600
  }

  datatype AdcpError =
    | TimesDisagree     // `udiff != vdiff`
    | NoTimeStep        // a lone row: `None.seconds`
    | NoPreviousStep    // a negative first step: `last_dt` is unbound
    | DepthsDisagree    // `ud != vd`

  /** What one row appends: `u*dt/100` to `x[depth]`, `v*dt/100` to
      `y[depth]` and the row's instant to the depth's times. */
  datatype Step = Step(depth: real, dx: real, dy: real, time: int)

  /** The rows `zip` pairs up. */
  function Count(utd: seq<Sample>, vtd: seq<Sample>): nat
  {
    if |utd| <= |vtd| then |utd| else |vtd|
  }

  /** `u * dt / 100`: the metres a velocity in cm/s covers in `dt` seconds. */
  function Move(velocity: real, dt: int): real
  {
    velocity * dt as real / 100.0
  }

  /** What the u row `u` and the v row `v` append when they move for `dt`
      seconds. */
  function RowStep(u: Sample, v: Sample, dt: int): Step
  {
    Step(u.depth, Move(u.value, dt), Move(v.value, dt), u.time)
  }

  /** Prepends a row's step to the rest of the loop's outcome. */
  function Then(s: Step, r: Result<seq<Step>, AdcpError>): Result<seq<Step>, AdcpError>
  {
    if r.Failure? then r else Success([s] + r.value)
  }

  /** The loop from row `i` on, given `last_udiff` and `last_dt`. The last
      row has no next row and reuses the last difference; a negative step
      reuses the last `dt`. */
  function StepsFrom(utd: seq<Sample>, vtd: seq<Sample>, i: nat, lastDiff: Option<int>, lastDt: Option<int>): Result<seq<Step>, AdcpError>
    decreases Count(utd, vtd) - i
  {
    if i >= Count(utd, vtd) then Success([])
    else
      var next := i + 1 < |utd| && i + 1 < |vtd|;
      var udiff := if next then Some(utd[i + 1].time - utd[i].time) else lastDiff;
      var vdiff := if next then Some(vtd[i + 1].time - vtd[i].time) else lastDiff;
      if udiff != vdiff then Failure(TimesDisagree)
      else if udiff.None? then Failure(NoTimeStep)
      else
        var raw := Dt(udiff.value);
        if raw < 0 && lastDt.None? then Failure(NoPreviousStep)
        else
          var dt := if raw < 0 then lastDt.value else raw;
          if utd[i].depth != vtd[i].depth then Failure(DepthsDisagree)
          else
            Then(RowStep(utd[i], vtd[i], dt), StepsFrom(utd, vtd, i + 1, udiff, Some(dt)))
  }

  /** The loop of `computeADCPDrift` over the eastward (`utd`) and
      northward (`vtd`) rows. */
  function Progressive(utd: seq<Sample>, vtd: seq<Sample>): Result<seq<Step>, AdcpError>
  {
    StepsFrom(utd, vtd, 0, None, None)
  }

  /** The time difference row `k` moves by: to the next row, and for the
      last row the difference before it. */
  function DiffAt(utd: seq<Sample>, vtd: seq<Sample>, k: nat): int
    requires 2 <= Count(utd, vtd) && k < Count(utd, vtd)
  {
    var j := if k + 1 < Count(utd, vtd) then k else Count(utd, vtd) - 2;
    utd[j + 1].time - utd[j].time
  }

  /** The seconds row `k` moves for: its own step unless that is negative,
      then the nearest earlier row's. */
  function DtAt(utd: seq<Sample>, vtd: seq<Sample>, k: nat): int
    requires 2 <= Count(utd, vtd) && k < Count(utd, vtd) && Dt(DiffAt(utd, vtd, 0)) >= 0
    decreases k
  {
    if Dt(DiffAt(utd, vtd, k)) >= 0 || k == 0 then Dt(DiffAt(utd, vtd, k)) else DtAt(utd, vtd, k - 1)
  }

  /** The rows the loop gets through: none at all, or at least two whose u
      and v times step alike, whose depths agree and whose first step is
      not negative. */
  predicate Clean(utd: seq<Sample>, vtd: seq<Sample>)
  {
    var n := Count(utd, vtd);
    n == 0 ||
    (2 <= n && Dt(DiffAt(utd, vtd, 0)) >= 0
     && (forall k :: 0 <= k < n - 1 ==> utd[k + 1].time - utd[k].time == vtd[k + 1].time - vtd[k].time)
     && (forall k :: 0 <= k < n ==> utd[k].depth == vtd[k].depth))
  }

  /** What row `k` appends once the rows before it passed. */
  function StepAt(utd: seq<Sample>, vtd: seq<Sample>, k: nat): Step
    requires 2 <= Count(utd, vtd) && k < Count(utd, vtd) && Dt(DiffAt(utd, vtd, 0)) >= 0
  {
    RowStep(utd[k], vtd[k], DtAt(utd, vtd, k))
  }

  /** The rows before `i` passed: the u and v times stepped alike, the
      depths agreed and, once a row is through, the first step was not
      negative. */
  predicate CleanBefore(utd: seq<Sample>, vtd: seq<Sample>, i: nat)
  {
    var n := Count(utd, vtd);
    i <= n
    && (0 < i ==> 2 <= n && Dt(DiffAt(utd, vtd, 0)) >= 0)
    && (forall k :: 0 <= k < i && k < n - 1 ==> utd[k + 1].time - utd[k].time == vtd[k + 1].time - vtd[k].time)
    && (forall k :: 0 <= k < i ==> utd[k].depth == vtd[k].depth)
  }

  /** Row `i` passes the loop's checks. */
  predicate RowClean(utd: seq<Sample>, vtd: seq<Sample>, i: nat)
    requires i < Count(utd, vtd)
  {
    var n := Count(utd, vtd);
    (i == 0 ==> 2 <= n && Dt(DiffAt(utd, vtd, 0)) >= 0)
    && (i + 1 < n ==> utd[i + 1].time - utd[i].time == vtd[i + 1].time - vtd[i].time)
    && utd[i].depth == vtd[i].depth
  }

  /** The state the loop hands to row `i`. */
  predicate StateAt(utd: seq<Sample>, vtd: seq<Sample>, i: nat, lastDiff: Option<int>, lastDt: Option<int>)
    requires CleanBefore(utd, vtd, i)
  {
    (i == 0 ==> lastDiff.None? && lastDt.None?)
    && (0 < i < Count(utd, vtd) ==>
          lastDiff == Some(utd[i].time - utd[i - 1].time) && lastDt == Some(DtAt(utd, vtd, i - 1)))
  }

  lemma CleanStep(utd: seq<Sample>, vtd: seq<Sample>, i: nat)
    requires CleanBefore(utd, vtd, i) && i < Count(utd, vtd)
    ensures CleanBefore(utd, vtd, i + 1) <==> RowClean(utd, vtd, i)
  {
  }

  lemma CleanAll(utd: seq<Sample>, vtd: seq<Sample>, i: nat)
    requires i <= Count(utd, vtd)
    ensures Clean(utd, vtd) <==> CleanBefore(utd, vtd, Count(utd, vtd))
    ensures Clean(utd, vtd) && i < Count(utd, vtd) ==> RowClean(utd, vtd, i)
  {
  }

  /** What a row that fails its checks does: raise. */
  lemma RowFails(utd: seq<Sample>, vtd: seq<Sample>, i: nat, lastDiff: Option<int>, lastDt: Option<int>)
    requires CleanBefore(utd, vtd, i) && StateAt(utd, vtd, i, lastDiff, lastDt)
    requires i < Count(utd, vtd) && !RowClean(utd, vtd, i)
    ensures StepsFrom(utd, vtd, i, lastDiff, lastDt).Failure?
  {
  }

  /** The difference the loop carries past row `i`. */
  function NextDiff(utd: seq<Sample>, vtd: seq<Sample>, i: nat, lastDiff: Option<int>): Option<int>
  {
    if i + 1 < |utd| && i + 1 < |vtd| then Some(utd[i + 1].time - utd[i].time) else lastDiff
  }

  /** A row that passes its checks appends `StepAt` and hands on the state
      the next row expects. */
  lemma RowPasses(utd: seq<Sample>, vtd: seq<Sample>, i: nat, lastDiff: Option<int>, lastDt: Option<int>)
    requires CleanBefore(utd, vtd, i) && StateAt(utd, vtd, i, lastDiff, lastDt)
    requires i < Count(utd, vtd) && RowClean(utd, vtd, i)
    ensures CleanBefore(utd, vtd, i + 1)
    ensures StateAt(utd, vtd, i + 1, NextDiff(utd, vtd, i, lastDiff), Some(DtAt(utd, vtd, i)))
    ensures StepsFrom(utd, vtd, i, lastDiff, lastDt)
         == Then(StepAt(utd, vtd, i), StepsFrom(utd, vtd, i + 1, NextDiff(utd, vtd, i, lastDiff), Some(DtAt(utd, vtd, i))))
  {
    CleanStep(utd, vtd, i);
    var n := Count(utd, vtd);
    var next := i + 1 < |utd| && i + 1 < |vtd|;
    var udiff := NextDiff(utd, vtd, i, lastDiff);
    var vdiff := if next then Some(vtd[i + 1].time - vtd[i].time) else lastDiff;
    assert udiff == vdiff && udiff == Some(DiffAt(utd, vtd, i));
    var raw := Dt(udiff.value);
    assert !(raw < 0 && lastDt.None?);
    var dt := if raw < 0 then lastDt.value else raw;
    assert dt == DtAt(utd, vtd, i);
  }

  /** From row `i` on, with the state the earlier rows left, the loop
      succeeds exactly on clean rows and appends `StepAt` for each row. */
  lemma {:induction false} StepsFromMeans(utd: seq<Sample>, vtd: seq<Sample>, i: nat, lastDiff: Option<int>, lastDt: Option<int>)
    requires CleanBefore(utd, vtd, i) && StateAt(utd, vtd, i, lastDiff, lastDt)
    ensures var r := StepsFrom(utd, vtd, i, lastDiff, lastDt);
      (r.Success? <==> Clean(utd, vtd))
      && (r.Success? ==>
            |r.value| == Count(utd, vtd) - i
            && forall k :: i <= k < Count(utd, vtd) ==> r.value[k - i] == StepAt(utd, vtd, k))
    decreases Count(utd, vtd) - i
  {
    CleanAll(utd, vtd, i);
    if i < Count(utd, vtd) {
      if RowClean(utd, vtd, i) {
        RowPasses(utd, vtd, i, lastDiff, lastDt);
        var rest := StepsFrom(utd, vtd, i + 1, NextDiff(utd, vtd, i, lastDiff), Some(DtAt(utd, vtd, i)));
        StepsFromMeans(utd, vtd, i + 1, NextDiff(utd, vtd, i, lastDiff), Some(DtAt(utd, vtd, i)));
        if rest.Success? {
          var r := StepsFrom(utd, vtd, i, lastDiff, lastDt).value;
          assert r == [StepAt(utd, vtd, i)] + rest.value;
          forall k | i <= k < Count(utd, vtd) ensures r[k - i] == StepAt(utd, vtd, k) {
            if k > i {
              assert r[k - i] == rest.value[k - (i + 1)];
            }
          }
        }
      } else {
        RowFails(utd, vtd, i, lastDiff, lastDt);
      }
    }
  }

  /** The loop raises exactly on rows that are not clean, and otherwise
      moves every row by its velocity times its step. */
  lemma ProgressiveMeans(utd: seq<Sample>, vtd: seq<Sample>)
    ensures var r := Progressive(utd, vtd);
      (r.Success? <==> Clean(utd, vtd))
      && (r.Success? ==>
            |r.value| == Count(utd, vtd)
            && forall k :: 0 <= k < Count(utd, vtd) ==> r.value[k] == StepAt(utd, vtd, k))
  {
    StepsFromMeans(utd, vtd, 0, None, None);
  }

  /** `np.cumsum([origin] + xs)`. */
  function Cumsum(origin: real, xs: seq<real>): (ps: seq<real>)
    ensures |ps| == |xs| + 1 && ps[0] == origin
    decreases |xs|
  {
    if |xs| == 0 then [origin] else [origin] + Cumsum(origin + xs[0], xs[1..])
  }

  /** Each position is the origin plus the steps before it. */
  lemma {:induction false} CumsumPartial(origin: real, xs: seq<real>, k: nat)
    requires k <= |xs|
    ensures Cumsum(origin, xs)[k] == origin + Stats.Sum(xs[..k])
    decreases k
  {
    if k > 0 {
      CumsumPartial(origin + xs[0], xs[1..], k - 1);
      assert xs[..k][1..] == xs[1..][..k - 1];
    }
  }

  /** The steps at one depth, in row order: what `x[depth]`, `y[depth]`
      and `adcpDrift[depth]['es']` collect. */
  function AtDepth(steps: seq<Step>, depth: real): (col: seq<Step>)
    ensures forall s :: s in col <==> s in steps && s.depth == depth
    decreases |steps|
  {
    if |steps| == 0 then []
    else (if steps[0].depth == depth then [steps[0]] else []) + AtDepth(steps[1..], depth)
  }

  function Dxs(col: seq<Step>): (r: seq<real>)
    ensures |r| == |col| && forall k :: 0 <= k < |col| ==> r[k] == col[k].dx
  {
    seq(|col|, k requires 0 <= k < |col| => col[k].dx)
  }

  function Dys(col: seq<Step>): (r: seq<real>)
    ensures |r| == |col| && forall k :: 0 <= k < |col| ==> r[k] == col[k].dy
  {
    seq(|col|, k requires 0 <= k < |col| => col[k].dy)
  }

  function Times(col: seq<Step>): (r: seq<int>)
    ensures |r| == |col| && forall k :: 0 <= k < |col| ==> r[k] == col[k].time
  {
    seq(|col|, k requires 0 <= k < |col| => col[k].time)
  }

  /** One depth's progressive vector in UTM metres, before projection back
      to longitude and latitude, and the instants of its steps. */
  datatype Vector = Vector(times: seq<int>, east: seq<real>, north: seq<real>)

  function VectorAt(steps: seq<Step>, depth: real, e0: real, n0: real): Vector
  {
    var col := AtDepth(steps, depth);
    Vector(Times(col), Cumsum(e0, Dxs(col)), Cumsum(n0, Dys(col)))
  }

  /** `computeADCPDrift`: the steps of the rows and, for every depth they
      reach, the vector starting at the mooring's position `(e0, n0)`. */
  function ComputeAdcpDrift(utd: seq<Sample>, vtd: seq<Sample>, e0: real, n0: real): Result<map<real, Vector>, AdcpError>
  {
    var steps :- Progressive(utd, vtd);
    Success(Vectors(steps, e0, n0))
  }

  /** The `for depth in x` loop: a vector for every depth the steps reach. */
  function Vectors(steps: seq<Step>, e0: real, n0: real): (m: map<real, Vector>)
    ensures forall d :: d in m <==> exists k :: 0 <= k < |steps| && steps[k].depth == d
    ensures forall d :: d in m ==> m[d] == VectorAt(steps, d, e0, n0)
  {
    map d | d in (set k | 0 <= k < |steps| :: steps[k].depth) :: VectorAt(steps, d, e0, n0)
  }

  /** A depth's vector holds one position more than its steps, starts at
      the mooring and reaches, after `k` steps, the mooring plus the first
      `k` displacements. */
  lemma VectorAtMeans(steps: seq<Step>, depth: real, e0: real, n0: real)
    ensures var v := VectorAt(steps, depth, e0, n0); var col := AtDepth(steps, depth);
      |v.east| == |v.north| == |v.times| + 1 == |col| + 1
      && (forall k :: 0 <= k < |col| ==> v.times[k] == col[k].time)
      && forall k :: 0 <= k <= |col| ==>
           v.east[k] == e0 + Stats.Sum(Dxs(col)[..k]) && v.north[k] == n0 + Stats.Sum(Dys(col)[..k])
  {
    var col := AtDepth(steps, depth);
    forall k | 0 <= k <= |col|
      ensures Cumsum(e0, Dxs(col))[k] == e0 + Stats.Sum(Dxs(col)[..k])
      ensures Cumsum(n0, Dys(col))[k] == n0 + Stats.Sum(Dys(col)[..k])
    {
      CumsumPartial(e0, Dxs(col), k);
      CumsumPartial(n0, Dys(col), k);
    }
  }

  /** Rows that are not clean raise; clean rows give a vector for exactly
      the depths of the rows, each built from the steps at its depth. */
  lemma AdcpDriftMeans(utd: seq<Sample>, vtd: seq<Sample>, e0: real, n0: real)
    ensures var r := ComputeAdcpDrift(utd, vtd, e0, n0);
      (r.Success? <==> Clean(utd, vtd))
      && (r.Success? ==>
            (forall d :: d in r.value <==> exists k :: 0 <= k < Count(utd, vtd) && utd[k].depth == d)
            && forall d :: d in r.value ==> r.value[d] == VectorAt(Progressive(utd, vtd).value, d, e0, n0))
  {
    ProgressiveMeans(utd, vtd);
    if Clean(utd, vtd) {
      var steps := Progressive(utd, vtd).value;
      assert forall k :: 0 <= k < |steps| ==> steps[k].depth == utd[k].depth;
    }
  }

  // ---------------------------------------------------------------------
  // Map extent

  /** The longitudes and latitudes of one entry of `trackDrift` or
      `adcpDrift`. */
  datatype Span = Span(lon: seq<real>, lat: seq<real>)

  /** `(lonMin, latMin, lonMax, latMax)`. */
  datatype Box = Box(lonMin: real, latMin: real, lonMax: real, latMax: real)

  /** The bounds the loop starts from. */
  const World: Box := Box(180.0, 90.0, -180.0, -90.0)

  /** `np.min` or `np.max` of an empty list raises `ValueError`. */
  datatype ExtentError = EmptyList

  /** One entry of the loop: a bound moves only to a strictly smaller
      minimum or strictly larger maximum of the entry. */
  function Grow(b: Box, s: Span): Box
    requires |s.lon| > 0 && |s.lat| > 0
  {
    var lo, la := Stats.Min(s.lon), Stats.Min(s.lat);
    var hi, ha := Stats.Max(s.lon), Stats.Max(s.lat);
    Box(if lo < b.lonMin then lo else b.lonMin, if la < b.latMin then la else b.latMin,
        if hi > b.lonMax then hi else b.lonMax, if ha > b.latMax then ha else b.latMax)
  }

  /** The loop over the entries of both dictionaries. */
  function Bounds(b: Box, spans: seq<Span>): Result<Box, ExtentError>
    decreases |spans|
  {
    if |spans| == 0 then Success(b)
    else if |spans[0].lon| == 0 || |spans[0].lat| == 0 then Failure(EmptyList)
    else Bounds(Grow(b, spans[0]), spans[1..])
  }

  /** `getExtent`: a non-empty `--extent` as given; otherwise the bounds
      of the data, widened by `extend` degrees on every side. */
  function GetExtent(explicit: seq<real>, spans: seq<Span>, extend: real): Result<seq<real>, ExtentError>
  {
    if |explicit| > 0 then Success(explicit)
    else
      match Bounds(World, spans)
      case Failure(e) => Failure(e)
      case Success(b) => Success(Widen(b, extend))
  }

  /** The box widened by `extend` degrees on every side, as a list. */
  function Widen(b: Box, extend: real): seq<real>
  {
    [b.lonMin - extend, b.latMin - extend, b.lonMax + extend, b.latMax + extend]
  }

  /** Narrowing the list back by `extend` gives the box. */
  lemma WidenBack(b: Box, extend: real)
    ensures var e := Widen(b, extend); Box(e[0] + extend, e[1] + extend, e[2] - extend, e[3] - extend) == b
  {
  }

  /** Every position of the entry lies within the box. */
  predicate Covers(r: Box, s: Span)
  {
    (forall i :: 0 <= i < |s.lon| ==> r.lonMin <= s.lon[i] <= r.lonMax)
    && (forall i :: 0 <= i < |s.lat| ==> r.latMin <= s.lat[i] <= r.latMax)
  }

  /** `r` contains `b`. */
  predicate Contains(r: Box, b: Box)
  {
    r.lonMin <= b.lonMin && r.latMin <= b.latMin && b.lonMax <= r.lonMax && b.latMax <= r.latMax
  }

  predicate InLons(x: real, spans: seq<Span>)
  {
    exists k :: 0 <= k < |spans| && x in spans[k].lon
  }

  predicate InLats(x: real, spans: seq<Span>)
  {
    exists k :: 0 <= k < |spans| && x in spans[k].lat
  }

  /** Each bound is where it started or a value of the data. */
  predicate Tight(r: Box, b: Box, spans: seq<Span>)
  {
    (r.lonMin == b.lonMin || InLons(r.lonMin, spans)) && (r.lonMax == b.lonMax || InLons(r.lonMax, spans))
    && (r.latMin == b.latMin || InLats(r.latMin, spans)) && (r.latMax == b.latMax || InLats(r.latMax, spans))
  }

  /** The loop raises exactly when an entry has no positions. */
  lemma {:induction false} BoundsFail(b: Box, spans: seq<Span>)
    ensures Bounds(b, spans).Failure? <==> exists k :: 0 <= k < |spans| && (|spans[k].lon| == 0 || |spans[k].lat| == 0)
    decreases |spans|
  {
    if |spans| > 0 && |spans[0].lon| > 0 && |spans[0].lat| > 0 {
      BoundsFail(Grow(b, spans[0]), spans[1..]);
      if exists k :: 0 <= k < |spans| && (|spans[k].lon| == 0 || |spans[k].lat| == 0) {
        var k :| 0 <= k < |spans| && (|spans[k].lon| == 0 || |spans[k].lat| == 0);
        assert spans[1..][k - 1] == spans[k];
      }
    }
  }

  /** One entry's growth covers the entry, contains the old box and moves
      each bound only to a value of the entry. */
  lemma GrowMeans(b: Box, s: Span)
    requires |s.lon| > 0 && |s.lat| > 0
    ensures Covers(Grow(b, s), s) && Contains(Grow(b, s), b) && Tight(Grow(b, s), b, [s])
  {
    assert [s][0] == s;
    assert InLons(Stats.Min(s.lon), [s]) && InLons(Stats.Max(s.lon), [s]);
    assert InLats(Stats.Min(s.lat), [s]) && InLats(Stats.Max(s.lat), [s]);
  }

  /** What the loop finds: a box that contains the starting one, covers
      every entry, and whose bounds are the starting ones or data values. */
  lemma {:induction false} BoundsMeans(b: Box, spans: seq<Span>)
    requires Bounds(b, spans).Success?
    ensures var r := Bounds(b, spans).value;
      Contains(r, b) && Tight(r, b, spans) && forall k :: 0 <= k < |spans| ==> Covers(r, spans[k])
    decreases |spans|
  {
    if |spans| > 0 {
      var g := Grow(b, spans[0]);
      GrowMeans(b, spans[0]);
      BoundsMeans(g, spans[1..]);
      var r := Bounds(b, spans).value;
      assert r == Bounds(g, spans[1..]).value;
      TightCons(r, g, b, spans);
      CoversWider(r, g, spans[0]);
      forall k | 0 <= k < |spans| ensures Covers(r, spans[k]) {
        if k > 0 {
          assert spans[k] == spans[1..][k - 1];
        }
      }
    }
  }

  /** A box that contains one covering an entry covers it too. */
  lemma CoversWider(r: Box, g: Box, s: Span)
    requires Contains(r, g) && Covers(g, s)
    ensures Covers(r, s)
  {
  }

  /** The bounds found over the rest, after the first entry moved the
      start, are the start or values of some entry. */
  lemma TightCons(r: Box, g: Box, b: Box, spans: seq<Span>)
    requires |spans| > 0 && Tight(r, g, spans[1..]) && Tight(g, b, [spans[0]]) && Contains(r, g) && Contains(g, b)
    ensures Tight(r, b, spans)
  {
    forall x | InLons(x, spans[1..]) || InLons(x, [spans[0]]) ensures InLons(x, spans) {
      if InLons(x, spans[1..]) {
        var k :| 0 <= k < |spans| - 1 && x in spans[1..][k].lon;
        assert spans[1..][k] == spans[k + 1];
      } else {
        assert x in spans[0].lon;
      }
    }
    forall x | InLats(x, spans[1..]) || InLats(x, [spans[0]]) ensures InLats(x, spans) {
      if InLats(x, spans[1..]) {
        var k :| 0 <= k < |spans| - 1 && x in spans[1..][k].lat;
        assert spans[1..][k] == spans[k + 1];
      } else {
        assert x in spans[0].lat;
      }
    }
  }

  /** A given extent comes back as it is; otherwise an entry without
      positions raises. */
  lemma ExtentFails(explicit: seq<real>, spans: seq<Span>, extend: real)
    ensures |explicit| > 0 ==> GetExtent(explicit, spans, extend) == Success(explicit)
    ensures |explicit| == 0 ==>
      (GetExtent(explicit, spans, extend).Failure? <==>
         exists k :: 0 <= k < |spans| && (|spans[k].lon| == 0 || |spans[k].lat| == 0))
  {
    BoundsFail(World, spans);
  }

  /** The computed extent, narrowed back by `extend`, is a box within the
      starting bounds that covers every position and whose every side is
      the starting one or a position's coordinate. */
  lemma ExtentMeans(spans: seq<Span>, extend: real)
    ensures GetExtent([], spans, extend).Success? ==>
      var e := GetExtent([], spans, extend).value;
      |e| == 4
      && var b := Box(e[0] + extend, e[1] + extend, e[2] - extend, e[3] - extend);
      Contains(b, World) && Tight(b, World, spans) && forall k :: 0 <= k < |spans| ==> Covers(b, spans[k])
  {
    var r := Bounds(World, spans);
    if r.Success? {
      assert GetExtent([], spans, extend) == Success(Widen(r.value, extend));
      BoundsMeans(World, spans);
      WidenBack(r.value, extend);
    }
  }
}

=== FILE: findings.dfy ===
/** Where the source as written and its evident intent part ways, the model
    keeps both readings side by side and selects one with a `Variant`. */
module Findings {
  /** `AsWritten` follows the source line for line; `Corrected` is the
      behaviour its comments and callers ask for. */
  datatype Variant = AsWritten | Corrected
}

=== FILE: floats.dfy ===
/** What Python 2's `float()` makes of text: white space around the text is
    ignored; then comes an optional sign and either a decimal literal with
    an optional exponent, or `inf`, `infinity` or `nan` in any case.
    Anything else raises ValueError. */
module Floats {
  import opened Wrappers
  import Strs

  /** A float as `float()` returns it. Finite values are exact: the
      rounding to the nearest double is not modelled. */
  datatype Float = Finite(x: real) | Infinite(negative: bool) | NotANumber

  predicate Digits(s: string)
  {
    forall i :: 0 <= i < |s| ==> Strs.IsDigit(s[i])
  }

  /** An optional leading `+` or `-`: whether it is `-`, and the rest. */
  function Sign(s: string): (r: (bool, string))
    ensures r.1 == s || (|s| > 0 && (s[0] == '+' || s[0] == '-') && r.1 == s[1..])
    ensures r.0 <==> |s| > 0 && s[0] == '-'
  {
    if |s| > 0 && (s[0] == '+' || s[0] == '-') then (s[0] == '-', s[1..]) else (false, s)
  }

  /** `10 ** k` as a real. */
  function Power(k: nat): (r: real)
    ensures r >= 1.0
  {
    if k == 0 then 1.0 else 10.0 * Power(k - 1)
  }

  /** `10 ** e` for an exponent of either sign. */
  function Scale(e: int): (r: real)
    ensures r > 0.0
  {
    if e >= 0 then Power(e) else 1.0 / Power(-e)
  }

  /** `digits[.digits]` or `.digits`, at least one digit in all. */
  function Mantissa(s: string): (r: Option<real>)
    ensures r.Some? ==> r.value >= 0.0
    ensures r.Some? ==> |s| > 0
  {
    var d := Strs.IndexOf(s, '.', '.');
    var whole := s[..d];
    var frac := if d < |s| then s[d + 1..] else "";
    if Digits(whole) && Digits(frac) && |whole| + |frac| > 0 then
      Some(Strs.ParseNat(whole) as real + Strs.ParseNat(frac) as real / Power(|frac|))
    else None
  }

  /** What follows `e` or `E`: an optional sign and at least one digit. */
  function Exponent(s: string): (r: Option<int>)
  {
    var (negative, ds) := Sign(s);
    if |ds| > 0 && Digits(ds) then
      Some(if negative then -(Strs.ParseNat(ds) as int) else Strs.ParseNat(ds))
    else None
  }

  /** An unsigned decimal literal: a mantissa and an optional exponent. */
  function Decimal(s: string): (r: Option<real>)
    ensures r.Some? ==> r.value >= 0.0 && |s| > 0
  {
    var k := Strs.IndexOf(s, 'e', 'E');
    match Mantissa(s[..k])
    case None => None
    case Some(m) =>
      if k == |s| then Some(m)
      else match Exponent(s[k + 1..])
        case None => None
        case Some(e) => Some(m * Scale(e))
  }

  /** `float()` of text with no white space around it. */
  function Literal(t: string): (r: Option<Float>)
    ensures r.Some? ==> |t| > 0
    ensures r.Some? && r.value.Finite? && r.value.x < 0.0 ==> t[0] == '-'
  {
    var (negative, body) := Sign(t);
    var word := Strs.Lower(body);
    if word == "inf" || word == "infinity" then Some(Infinite(negative))
    else if word == "nan" then Some(NotANumber)
    else match Decimal(body)
      case None => None
      case Some(x) => Some(Finite(if negative then -x else x))
  }

  /** `float(text)`, or None for the ValueError. */
  function Parse(text: string): (r: Option<Float>)
    ensures Strs.Strip(text) == "" ==> r.None?
    ensures r.Some? && r.value.Finite? && r.value.x < 0.0 ==> Strs.Strip(text)[0] == '-'
  {
    Literal(Strs.Strip(text))
  }

  /** `float('%d' % n) == n`: text the program formats from a natural
      number reads back as that number. */
  lemma {:induction false} ParseFormatted(n: nat)
    ensures Parse(Strs.NatToString(n)) == Some(Finite(n as real))
  {
    var s := Strs.NatToString(n);
    StripDigits(s);
    assert Sign(s) == (false, s);
    assert Strs.IndexOf(s, 'e', 'E') == |s| by { NoneOf(s, 'e', 'E'); }
    assert s[..|s|] == s;
    assert Strs.IndexOf(s, '.', '.') == |s| by { NoneOf(s, '.', '.'); }
    assert Mantissa(s) == Some(n as real) by { Strs.ParseNatToString(n); }
    assert Strs.Lower(s) == s by { LowerDigits(s); }
    assert s != "inf" && s != "infinity" && s != "nan" by { assert Strs.IsDigit(s[0]); }
  }

  lemma NoneOf(s: string, c: char, d: char)
    requires Digits(s) && !Strs.IsDigit(c) && !Strs.IsDigit(d)
    ensures Strs.IndexOf(s, c, d) == |s|
  {
  }

  lemma LowerDigits(s: string)
    requires Digits(s)
    ensures Strs.Lower(s) == s
  {
  }

  /** Digits have no white space to strip. */
  lemma StripDigits(s: string)
    requires Digits(s)
    ensures Strs.Strip(s) == s
  {
    assert |s| > 0 ==> !Strs.IsSpace(s[0]) && !Strs.IsSpace(s[|s| - 1]);
  }

  /** `float(' ' + s) == float(s)`: leading white space is ignored. */
  lemma ParsePadded(s: string)
    ensures Parse(" " + s) == Parse(s)
  {
    assert (" " + s)[1..] == s;
    assert Strs.Strip(" " + s) == Strs.Strip(s) by {
      assert Strs.StripLeft(" " + s) == Strs.StripLeft(s);
    }
  }

  /** Text with no white space at either end is read as it stands. */
  lemma ParseTrimmed(t: string)
    requires |t| > 0 && !Strs.IsSpace(t[0]) && !Strs.IsSpace(t[|t| - 1])
    ensures Parse(t) == Literal(t)
  {
    assert Strs.StripLeft(t) == t;
    assert Strs.StripRight(t) == t;
  }

  /** Text that starts with a digit or a point is no word `float()`
      knows, so it is read as a decimal literal. */
  lemma DecimalLiteral(t: string)
    requires |t| > 0 && (Strs.IsDigit(t[0]) || t[0] == '.')
    ensures Decimal(t).None? ==> Literal(t).None?
    ensures Decimal(t).Some? ==> Literal(t) == Some(Finite(Decimal(t).value))
  {
    assert Strs.Lower(t)[0] == t[0];
  }

  /** The same after a minus sign, with the value negated. */
  lemma NegativeLiteral(t: string)
    requires |t| > 1 && t[0] == '-' && (Strs.IsDigit(t[1]) || t[1] == '.')
    ensures Decimal(t[1..]).None? ==> Literal(t).None?
    ensures Decimal(t[1..]).Some? ==> Literal(t) == Some(Finite(-Decimal(t[1..]).value))
  {
    assert Strs.Lower(t[1..])[0] == t[1];
  }

  /** 'null', the text the loaders test for, is not a number. */
  lemma ParseNull()
    ensures Parse("null") == None
  {
    ParseTrimmed("null");
    assert Sign("null") == (false, "null");
    assert Strs.Lower("null") == "null";
    assert Decimal("null") == None by {
      assert Strs.IndexOf("null", 'e', 'E') == 4;
      assert "null"[..4] == "null";
      assert Strs.IndexOf("null", '.', '.') == 4;
      assert !Strs.IsDigit("null"[0]);
    }
  }

  /** `float('NaN')` is NaN: the word is read in any case. */
  lemma ParseNaN()
    ensures Parse("NaN") == Some(NotANumber)
  {
    ParseTrimmed("NaN");
    assert Sign("NaN") == (false, "NaN");
    assert Strs.Lower("NaN") == "nan";
  }

  lemma MantissaFraction()
    ensures Mantissa("1.5") == Some(1.5)
  {
    assert Strs.IndexOf("1.5", '.', '.') == 1;
    assert "1.5"[..1] == "1" && "1.5"[2..] == "5";
  }

  lemma DecimalFraction()
    ensures Decimal("1.5") == Some(1.5)
  {
    MantissaFraction();
    assert Strs.IndexOf("1.5", 'e', 'E') == 3;
    assert "1.5"[..3] == "1.5";
  }

  /** `float('1.5') == 1.5`. */
  lemma ParseFraction()
    ensures Parse("1.5") == Some(Finite(1.5))
  {
    DecimalFraction();
    ParseTrimmed("1.5");
    DecimalLiteral("1.5");
  }

  lemma MantissaQuarter()
    ensures Mantissa("0.25") == Some(0.25)
  {
    assert Strs.ParseNat("25") == 25 by { assert "25"[..1] == "2"; }
    assert Strs.IndexOf("0.25", '.', '.') == 1;
    assert "0.25"[..1] == "0" && "0.25"[2..] == "25";
  }

  lemma ExponentOne()
    ensures Exponent("1") == Some(1)
  {
    assert Sign("1") == (false, "1");
  }

  lemma DecimalExponent()
    ensures Decimal("0.25e1") == Some(2.5)
  {
    MantissaQuarter();
    ExponentOne();
    assert Strs.IndexOf("0.25e1", 'e', 'E') == 4;
    assert "0.25e1"[..4] == "0.25" && "0.25e1"[5..] == "1";
  }

  /** `float('-0.25e1') == -2.5`: a sign, a fraction and an exponent. */
  lemma ParseExponent()
    ensures Parse("-0.25e1") == Some(Finite(-2.5))
  {
    ParseTrimmed("-0.25e1");
    assert Literal("-0.25e1") == Some(Finite(-2.5)) by {
      DecimalExponent();
      assert "-0.25e1"[1..] == "0.25e1";
      NegativeLiteral("-0.25e1");
    }
  }

  lemma DecimalIncomplete()
    ensures Decimal(".") == None
    ensures Decimal("1e") == None
  {
    assert Strs.IndexOf(".", 'e', 'E') == 1;
    assert "."[..1] == ".";
    assert Strs.IndexOf(".", '.', '.') == 0;
    assert "."[..0] == "";
    assert Strs.IndexOf("1e", 'e', 'E') == 1;
    assert "1e"[2..] == "";
  }

  /** A point with no digit, and an exponent with no digit, are refused. */
  lemma ParseIncomplete()
    ensures Parse(".") == None
    ensures Parse("1e") == None
  {
    DecimalIncomplete();
    ParseTrimmed(".");
    ParseTrimmed("1e");
    DecimalLiteral(".");
    DecimalLiteral("1e");
  }
}

=== FILE: kml.dfy ===
/** The KML serialiser for measured parameters: the colour lookup table,
    the per-platform point and line placemarks with their colour styles,
    and the document that groups them in folders by platform. Text
    formatting (`%.6f`, `%.1f`, `strftime`) is abstract: coordinates and
    times are kept as numbers. */
module Kml {
  import opened Wrappers
  import opened Strs
  import opened Order
  import opened Findings
  import Views
  import Query

  datatype KmlError = NoQuerySet | NoParameter | ValueError | KeyError
                    | ZeroDivision | IndexError | Unbound | TypeError

  // ---------------------------------------------------------------------
  // Colour lookup table

  datatype Rgb = Rgb(r: real, g: real, b: real)

  /** One line of the table: the fields after the first, split on two
      spaces, must be exactly three numbers. */
  function ReadLine(line: string, parse: string -> Option<real>): Result<Rgb, KmlError>
  {
    var fields := Split(line, "  ")[1..];
    if |fields| != 3 then Failure(ValueError)
    else match (parse(fields[0]), parse(fields[1]), parse(fields[2]))
      case (Some(r), Some(g), Some(b)) => Success(Rgb(r, g, b))
      case _ => Failure(ValueError)
  }

  /** `readCLT`: one colour per line of the file, in order. */
  function ReadClt(lines: seq<string>, parse: string -> Option<real>): Result<seq<Rgb>, KmlError>
    decreases |lines|
  {
    if |lines| == 0 then Success([])
    else
      var c :- ReadLine(lines[0], parse);
      var rest :- ReadClt(lines[1..], parse);
      Success([c] + rest)
  }

  /** The table is read exactly when every line reads, and then has one
      colour per line: the three numbers after the first field. */
  lemma {:induction false} ReadCltMeans(lines: seq<string>, parse: string -> Option<real>)
    ensures ReadClt(lines, parse).Success? <==> forall i :: 0 <= i < |lines| ==> ReadLine(lines[i], parse).Success?
    ensures ReadClt(lines, parse).Success? ==>
      |ReadClt(lines, parse).value| == |lines|
      && forall i :: 0 <= i < |lines| ==> ReadClt(lines, parse).value[i] == ReadLine(lines[i], parse).value
    decreases |lines|
  {
    if |lines| > 0 {
      ReadCltMeans(lines[1..], parse);
      forall i | 1 <= i < |lines| ensures lines[1..][i - 1] == lines[i] { }
      if ReadLine(lines[0], parse).Success? && ReadClt(lines[1..], parse).Failure? {
        var i :| 0 <= i < |lines[1..]| && ReadLine(lines[1..][i], parse).Failure?;
        assert ReadLine(lines[i + 1], parse).Failure?;
      }
    }
  }

  /** A line reads when its fields after the first are exactly three
      numbers, and gives those numbers in order. */
  lemma ReadLineMeans(line: string, parse: string -> Option<real>)
    ensures var f := Split(line, "  ")[1..];
      ReadLine(line, parse).Success? <==> |f| == 3 && parse(f[0]).Some? && parse(f[1]).Some? && parse(f[2]).Some?
    ensures var f := Split(line, "  ")[1..];
      ReadLine(line, parse).Success? ==> ReadLine(line, parse).value == Rgb(parse(f[0]).value, parse(f[1]).value, parse(f[2]).value)
  {
  }

  // ---------------------------------------------------------------------
  // Colours as KML writes them

  /** Python 2's `round`: halves go away from zero. */
  function RoundHalfAway(x: real): int
  {
    if x >= 0.0 then (x + 0.5).Floor else -((-x + 0.5).Floor)
  }

  lemma RoundMonotone(x: real, y: real)
    requires x <= y
    ensures RoundHalfAway(x) <= RoundHalfAway(y)
  {
  }

  lemma RoundBounds(x: real, lo: int, hi: int)
    requires lo as real <= x <= hi as real
    ensures lo <= RoundHalfAway(x) <= hi
  {
    RoundMonotone(lo as real, x);
    RoundMonotone(x, hi as real);
  }

  function HexDigit(d: nat): char
    requires d < 16
  {
    if d < 10 then ('0' as int + d) as char else ('a' as int + d - 10) as char
  }

  function DigitOf(c: char): nat
  {
    if '0' <= c <= '9' then (c as int - '0' as int) as nat
    else if 'a' <= c <= 'f' then (c as int - 'a' as int + 10) as nat
    else 0
  }

  /** Lower-case hexadecimal digits without padding. */
  function HexOf(n: nat): (r: string)
    ensures |r| >= 1
    decreases n
  {
    if n < 16 then [HexDigit(n)] else HexOf(n / 16) + [HexDigit(n % 16)]
  }

  function ParseHex(s: string): nat
    decreases |s|
  {
    if |s| == 0 then 0 else ParseHex(s[..|s| - 1]) * 16 + DigitOf(s[|s| - 1])
  }

  lemma {:induction false} ParseHexOf(n: nat)
    ensures ParseHex(HexOf(n)) == n
    decreases n
  {
    if n >= 16 {
      ParseHexOf(n / 16);
      var s := HexOf(n / 16) + [HexDigit(n % 16)];
      assert s[..|s| - 1] == HexOf(n / 16);
    }
  }

  /** Python's `"%02x" % n`. */
  function Hex02(n: int): string
  {
    if n < 0 then "-" + HexOf(-n) else if n < 16 then "0" + HexOf(n) else HexOf(n)
  }

  /** A byte is written as exactly two hexadecimal digits that read back
      as the byte. */
  lemma Hex02Byte(n: int)
    requires 0 <= n < 256
    ensures |Hex02(n)| == 2 && ParseHex(Hex02(n)) == n
  {
    ParseHexOf(n);
    if n < 16 {
      assert ("0" + HexOf(n))[..1] == "0";
    } else {
      assert HexOf(n) == HexOf(n / 16) + [HexDigit(n % 16)];
    }
  }

  function Channel(x: real): int
  {
    RoundHalfAway(x * 255.0)
  }

  /** The Google Earth colour of a table entry: opaque, then blue, green
      and red. */
  function GeColor(c: Rgb): string
  {
    "ff" + Hex02(Channel(c.b)) + Hex02(Channel(c.g)) + Hex02(Channel(c.r))
  }

  lemma Slices(w: string, x: string, y: string, z: string)
    requires |w| == 2 && |x| == 2 && |y| == 2 && |z| == 2
    ensures var s := w + x + y + z; |s| == 8 && s[..2] == w && s[2..4] == x && s[4..6] == y && s[6..8] == z
  {
    var s := w + x + y + z;
    assert s[..2] == w;
    assert s[2..4] == x;
    assert s[4..6] == y;
    assert s[6..8] == z;
  }

  /** A component in [0, 1] becomes a byte. */
  lemma ChannelByte(x: real)
    requires 0.0 <= x <= 1.0
    ensures 0 <= Channel(x) < 256 && |Hex02(Channel(x))| == 2 && ParseHex(Hex02(Channel(x))) == Channel(x)
  {
    RoundBounds(x * 255.0, 0, 255);
    Hex02Byte(Channel(x));
  }

  /** For components in [0, 1] the colour is eight characters: 'ff' then
      the blue, green and red bytes, each reading back as the rounded
      component times 255. */
  lemma GeColorLayout(c: Rgb)
    requires 0.0 <= c.r <= 1.0 && 0.0 <= c.g <= 1.0 && 0.0 <= c.b <= 1.0
    ensures var s := GeColor(c);
      |s| == 8 && s[..2] == "ff"
      && ParseHex(s[2..4]) == Channel(c.b) && ParseHex(s[4..6]) == Channel(c.g) && ParseHex(s[6..8]) == Channel(c.r)
  {
    ChannelByte(c.b);
    ChannelByte(c.g);
    ChannelByte(c.r);
    Slices("ff", Hex02(Channel(c.b)), Hex02(Channel(c.g)), Hex02(Channel(c.r)));
  }

  /** The value on the scale of table positions: `clim.0` at 0 and
      `clim.1` at the last entry. */
  function Scaled(value: real, clim: (real, real), n: nat): real
    requires clim.1 != clim.0
  {
    (value - clim.0) * ((n - 1) as real / (clim.1 - clim.0))
  }

  /** Clamping into [0, n - 1]; an empty table leaves -1. */
  function Clamp(raw: int, n: nat): int
  {
    var low := if raw < 0 then 0 else raw;
    if low > n - 1 then n - 1 else low
  }

  /** Colour-table index of a value: scaled, rounded, then clamped into
      the table. A zero-width range divides by zero; an empty table has no
      entry to index. */
  function ColorIndex(value: real, clim: (real, real), n: nat): Result<nat, KmlError>
  {
    if clim.1 - clim.0 == 0.0 then Failure(ZeroDivision)
    else
      var idx := Clamp(RoundHalfAway(Scaled(value, clim, n)), n);
      if idx < 0 then Failure(IndexError) else Success(idx)
  }

  /** The index is always inside a non-empty table; only a zero-width
      range or an empty table fail. */
  lemma ColorIndexInRange(value: real, clim: (real, real), n: nat)
    ensures ColorIndex(value, clim, n).Success? <==> clim.1 != clim.0 && n > 0
    ensures ColorIndex(value, clim, n).Success? ==> ColorIndex(value, clim, n).value < n
  {
  }

  lemma ClampMonotone(a: int, b: int, n: nat)
    requires a <= b
    ensures Clamp(a, n) <= Clamp(b, n)
  {
  }

  /** The scale from value to index: non-negative, and the whole range
      spans the table. */
  lemma Slope(clim: (real, real), n: nat)
    requires clim.0 < clim.1 && n > 0
    ensures (n - 1) as real / (clim.1 - clim.0) >= 0.0
    ensures (clim.1 - clim.0) * ((n - 1) as real / (clim.1 - clim.0)) == (n - 1) as real
  {
    var d := clim.1 - clim.0;
    var k := (n - 1) as real / d;
    assert k * d == (n - 1) as real;
  }

  lemma ScaleMonotone(a: real, b: real, k: real)
    requires a <= b && k >= 0.0
    ensures a * k <= b * k
  {
  }

  lemma ScaledMonotone(v1: real, v2: real, clim: (real, real), n: nat)
    requires v1 <= v2 && clim.0 < clim.1 && n > 0
    ensures Scaled(v1, clim, n) <= Scaled(v2, clim, n)
  {
    Slope(clim, n);
    ScaleMonotone(v1 - clim.0, v2 - clim.0, (n - 1) as real / (clim.1 - clim.0));
  }

  lemma ScaledEnds(value: real, clim: (real, real), n: nat)
    requires clim.0 < clim.1 && n > 0
    ensures value <= clim.0 ==> Scaled(value, clim, n) <= 0.0
    ensures value >= clim.1 ==> Scaled(value, clim, n) >= (n - 1) as real
  {
    var k := (n - 1) as real / (clim.1 - clim.0);
    Slope(clim, n);
    if value <= clim.0 {
      ScaleMonotone(value - clim.0, 0.0, k);
    }
    if value >= clim.1 {
      ScaleMonotone(clim.1 - clim.0, value - clim.0, k);
    }
  }

  /** For an increasing range, a larger value never gets a smaller colour. */
  lemma ColorIndexMonotone(v1: real, v2: real, clim: (real, real), n: nat)
    requires v1 <= v2 && clim.0 < clim.1 && n > 0
    ensures ColorIndex(v1, clim, n).value <= ColorIndex(v2, clim, n).value
  {
    ScaledMonotone(v1, v2, clim, n);
    RoundMonotone(Scaled(v1, clim, n), Scaled(v2, clim, n));
    ClampMonotone(RoundHalfAway(Scaled(v1, clim, n)), RoundHalfAway(Scaled(v2, clim, n)), n);
  }

  /** Values at or below the low limit get the first colour, values at or
      above the high limit the last. */
  lemma ColorIndexEnds(value: real, clim: (real, real), n: nat)
    requires clim.0 < clim.1 && n > 0
    ensures value <= clim.0 ==> ColorIndex(value, clim, n).value == 0
    ensures value >= clim.1 ==> ColorIndex(value, clim, n).value == n - 1
  {
    ScaledEnds(value, clim, n);
    if value <= clim.0 {
      RoundMonotone(Scaled(value, clim, n), 0.0);
    }
    if value >= clim.1 {
      RoundMonotone((n - 1) as real, Scaled(value, clim, n));
    }
  }

  // ---------------------------------------------------------------------
  // Placemarks

  /** One measured value as the query delivers it. */
  datatype Record = Record(time: int, lon: real, lat: real, depth: real, parm: string, value: real, platform: string)

  datatype Coord = Coord(lon: real, lat: real, depth: real)

  /** The coordinate of a record, with longitude and latitude swapped back
      when the latitude is out of range. */
  function CoordOf(d: Record): (c: Coord)
    ensures d.depth == c.depth
    ensures -90.0 <= d.lat <= 90.0 ==> c == Coord(d.lon, d.lat, d.depth)
    ensures !(-90.0 <= d.lat <= 90.0) ==> c == Coord(d.lat, d.lon, d.depth)
  {
    if d.lat < -90.0 || d.lat > 90.0 then Coord(d.lat, d.lon, d.depth) else Coord(d.lon, d.lat, d.depth)
  }

  /** When either number is a valid latitude, the placemark's latitude is
      one. */
  lemma CoordLatitude(d: Record)
    requires -90.0 <= d.lat <= 90.0 || -90.0 <= d.lon <= 90.0
    ensures -90.0 <= CoordOf(d).lat <= 90.0
  {
  }

  /** Everything `kmlResponse` reads from the request: the full path, the
      `cmin` and `cmax` parameters and the absolute URI of the site root. */
  datatype Request = Request(fullPath: string, cmin: Option<string>, cmax: Option<string>, absoluteRoot: string)

  datatype Flags = Flags(withTimeStamp: bool, withLineStrings: bool, withFullIconURL: bool)

  function When(flags: Flags, d: Record): Option<int>
  {
    if flags.withTimeStamp then Some(d.time) else None
  }

  datatype PointMark = PointMark(style: string, when: Option<int>, coord: Coord)

  datatype LineMark = LineMark(style: string, when: Option<int>, from: Coord, to: Coord)

  datatype Style = Style(id: string, color: string, href: string)

  /** `_buildKMLpoints` styles: one per table entry, named by its colour. */
  function Styles(clt: seq<Rgb>, baseUrl: string): (r: seq<Style>)
    ensures |r| == |clt|
    ensures forall i :: 0 <= i < |clt| ==> r[i].id == GeColor(clt[i]) && r[i].color == GeColor(clt[i])
  {
    seq(|clt|, i requires 0 <= i < |clt| =>
      Style(GeColor(clt[i]), GeColor(clt[i]), PathJoin(PathJoin(PathJoin(baseUrl, "colormaps"), "jetplus_dots"), GeColor(clt[i])) + ".png"))
  }

  /** `_buildKMLpoints` placemarks: one per record, coloured by the clamped
      index of its value. */
  function Points(data: seq<Record>, clt: seq<Rgb>, clim: (real, real), flags: Flags): Result<seq<PointMark>, KmlError>
    decreases |data|
  {
    if |data| == 0 then Success([])
    else
      var idx :- ColorIndex(data[0].value, clim, |clt|);
      var rest :- Points(data[1..], clt, clim, flags);
      if idx < |clt| then Success([PointMark(GeColor(clt[idx]), When(flags, data[0]), CoordOf(data[0]))] + rest)
      else Failure(IndexError)
  }

  /** One placemark per record, in order, coloured by the table entry its
      value indexes, and failing only for a zero-width range or an empty
      table. */
  lemma {:induction false} PointsMeans(data: seq<Record>, clt: seq<Rgb>, clim: (real, real), flags: Flags)
    ensures |data| > 0 ==> (Points(data, clt, clim, flags).Success? <==> clim.1 != clim.0 && |clt| > 0)
    ensures Points(data, clt, clim, flags).Success? ==>
      var r := Points(data, clt, clim, flags).value;
      |r| == |data|
      && forall i :: 0 <= i < |data| ==>
           r[i].coord == CoordOf(data[i]) && r[i].when == When(flags, data[i])
           && ColorIndex(data[i].value, clim, |clt|).Success?
           && r[i].style == GeColor(clt[ColorIndex(data[i].value, clim, |clt|).value])
    decreases |data|
  {
    if |data| > 0 {
      ColorIndexInRange(data[0].value, clim, |clt|);
      PointsMeans(data[1..], clt, clim, flags);
      forall i | 1 <= i < |data| ensures data[1..][i - 1] == data[i] { }
    }
  }

  /** `_buildKMLlines`: a segment from each record's coordinate to the
      next one's, stamped with the later record's time. */
  function Lines(plat: string, data: seq<Record>, flags: Flags): (r: seq<LineMark>)
    decreases |data|
  {
    if |data| < 2 then []
    else [LineMark(plat, When(flags, data[1]), CoordOf(data[0]), CoordOf(data[1]))] + Lines(plat, data[1..], flags)
  }

  /** n records give n - 1 segments, segment i joining record i to record
      i + 1. */
  lemma {:induction false} LinesMeans(plat: string, data: seq<Record>, flags: Flags)
    ensures |Lines(plat, data, flags)| == if |data| == 0 then 0 else |data| - 1
    ensures forall i :: 0 <= i < |data| - 1 ==>
      Lines(plat, data, flags)[i] == LineMark(plat, When(flags, data[i + 1]), CoordOf(data[i]), CoordOf(data[i + 1]))
    decreases |data|
  {
    if |data| >= 2 {
      LinesMeans(plat, data[1..], flags);
      forall i | 1 <= i < |data| ensures data[1..][i - 1] == data[i] { }
    }
  }

  // ---------------------------------------------------------------------
  // The document

  datatype Folder = Folder(platform: string, points: seq<PointMark>, lines: Option<seq<LineMark>>)

  datatype Doc = Doc(title: string, description: string, pointStyles: seq<Style>, lineStyles: bool, folders: seq<Folder>)

  function FolderOf(plat: string, data: seq<Record>, clt: seq<Rgb>, clim: (real, real), flags: Flags): Result<Folder, KmlError>
  {
    var points :- Points(data, clt, clim, flags);
    Success(Folder(plat, points, if flags.withLineStrings then Some(Lines(plat, data, flags)) else None))
  }

  /** A folder carries its platform, a point per record and, when line
      strings are on, the segments between consecutive records. */
  lemma FolderOfMeans(plat: string, data: seq<Record>, clt: seq<Rgb>, clim: (real, real), flags: Flags)
    ensures FolderOf(plat, data, clt, clim, flags).Success? ==>
      var f := FolderOf(plat, data, clt, clim, flags).value;
      f.platform == plat && |f.points| == |data|
      && (f.lines.Some? <==> flags.withLineStrings)
      && (f.lines.Some? ==> f.lines.value == Lines(plat, data, flags))
  {
    PointsMeans(data, clt, clim, flags);
  }

  function Folders(plats: seq<string>, hash: map<string, seq<Record>>, clt: seq<Rgb>, clim: (real, real), flags: Flags)
    : Result<seq<Folder>, KmlError>
    requires forall i :: 0 <= i < |plats| ==> plats[i] in hash
    decreases |plats|
  {
    if |plats| == 0 then Success([])
    else
      var f :- FolderOf(plats[0], hash[plats[0]], clt, clim, flags);
      var rest :- Folders(plats[1..], hash, clt, clim, flags);
      Success([f] + rest)
  }

  lemma {:induction false} FoldersMeans(plats: seq<string>, hash: map<string, seq<Record>>, clt: seq<Rgb>, clim: (real, real), flags: Flags)
    requires forall i :: 0 <= i < |plats| ==> plats[i] in hash
    ensures Folders(plats, hash, clt, clim, flags).Success? ==>
      var r := Folders(plats, hash, clt, clim, flags).value;
      |r| == |plats|
      && forall i :: 0 <= i < |plats| ==>
           r[i].platform == plats[i] && |r[i].points| == |hash[plats[i]]|
           && (r[i].lines.Some? <==> flags.withLineStrings)
           && (r[i].lines.Some? ==> r[i].lines.value == Lines(plats[i], hash[plats[i]], flags))
    decreases |plats|
  {
    if |plats| > 0 {
      FolderOfMeans(plats[0], hash[plats[0]], clt, clim, flags);
      FoldersMeans(plats[1..], hash, clt, clim, flags);
      forall i | 1 <= i < |plats| ensures plats[1..][i - 1] == plats[i] { }
    }
  }

  /** The colour limits: the requested ones when both are given (and both
      non-empty), otherwise the averaged 2.5 and 97.5 percentiles of the
      parameter. */
  function Clim(cmin: Option<string>, cmax: Option<string>, parse: string -> Option<real>,
                climHash: map<string, (real, real)>, pName: string): Result<(real, real), KmlError>
  {
    if cmin.Some? && cmin.value != "" && cmax.Some? && cmax.value != "" then
      match (parse(cmin.value), parse(cmax.value))
      case (Some(lo), Some(hi)) => Success((lo, hi))
      case _ => Failure(ValueError)
    else if pName in climHash then Success(climHash[pName])
    else Failure(KeyError)
  }

  /** `makeKML`. As written the style text exists only once some platform
      has been processed, so no data at all fails with an unbound name;
      corrected, the styles come from the table alone. */
  function MakeKml(v: Variant, flags: Flags, hash: map<string, seq<Record>>, pName: string, title: string, desc: string,
                   cmin: Option<string>, cmax: Option<string>, parse: string -> Option<real>,
                   climHash: map<string, (real, real)>, clt: seq<Rgb>, baseUrl: string): Result<Doc, KmlError>
  {
    var clim :- Clim(cmin, cmax, parse, climHash, pName);
    var plats := Sorted(hash.Keys);
    var folders :- Folders(plats, hash, clt, clim, flags);
    if v.AsWritten? && |hash| == 0 then Failure(Unbound)
    else Success(Doc(title, desc, Styles(clt, baseUrl), flags.withLineStrings, folders))
  }

  function PlatformsOf(folders: seq<Folder>): (r: seq<string>)
    ensures |r| == |folders| && forall i :: 0 <= i < |folders| ==> r[i] == folders[i].platform
  {
    seq(|folders|, i requires 0 <= i < |folders| => folders[i].platform)
  }

  /** The document: one folder per platform, in sorted name order (each
      platform once), each with a point placemark per record and, when
      line strings are on, the segments between consecutive records; one
      point style per colour of the table. */
  lemma MakeKmlMeans(v: Variant, flags: Flags, hash: map<string, seq<Record>>, pName: string, title: string, desc: string,
                     cmin: Option<string>, cmax: Option<string>, parse: string -> Option<real>,
                     climHash: map<string, (real, real)>, clt: seq<Rgb>, baseUrl: string)
    ensures var r := MakeKml(v, flags, hash, pName, title, desc, cmin, cmax, parse, climHash, clt, baseUrl);
      r.Success? ==>
        PlatformsOf(r.value.folders) == Sorted(hash.Keys)
        && (forall i :: 0 <= i < |r.value.folders| ==>
              var f := r.value.folders[i];
              f.platform in hash && |f.points| == |hash[f.platform]|
              && (f.lines.Some? <==> flags.withLineStrings)
              && (f.lines.Some? ==> f.lines.value == Lines(f.platform, hash[f.platform], flags)))
        && |r.value.pointStyles| == |clt|
        && r.value.title == title && r.value.description == desc
  {
    var r := MakeKml(v, flags, hash, pName, title, desc, cmin, cmax, parse, climHash, clt, baseUrl);
    if r.Success? {
      var clim := Clim(cmin, cmax, parse, climHash, pName).value;
      var plats := Sorted(hash.Keys);
      FoldersMeans(plats, hash, clt, clim, flags);
      assert r.value.folders == Folders(plats, hash, clt, clim, flags).value;
    }
  }

  /** No data at all: as written the document cannot be produced; corrected
      it is the empty document with the colour styles. */
  lemma EmptyData(flags: Flags, pName: string, title: string, desc: string, parse: string -> Option<real>,
                  clt: seq<Rgb>, baseUrl: string)
    ensures var climHash := map[pName := (0.0, 1.0)];
      MakeKml(AsWritten, flags, map[], pName, title, desc, None, None, parse, climHash, clt, baseUrl) == Failure(Unbound)
      && MakeKml(Corrected, flags, map[], pName, title, desc, None, None, parse, climHash, clt, baseUrl)
         == Success(Doc(title, desc, Styles(clt, baseUrl), flags.withLineStrings, []))
  {
    var empty: map<string, seq<Record>> := map[];
    assert empty.Keys == {};
  }

  // ---------------------------------------------------------------------
  // The response

  function Reverse(data: seq<Record>): (r: seq<Record>)
    ensures |r| == |data| && forall i :: 0 <= i < |data| ==> r[i] == data[|data| - 1 - i]
  {
    seq(|data|, i requires 0 <= i < |data| => data[|data| - 1 - i])
  }

  /** `qs[::stride]` on a fresh query set: a zero step is falsy and leaves
      the query set as it is; otherwise the records are listed and sliced,
      a negative step walking from the end. */
  function Slice(data: seq<Record>, stride: int): seq<Record>
  {
    if stride == 0 then data
    else if stride > 0 then Every(data, stride)
    else Every(Reverse(data), -stride)
  }

  /** A step of one keeps every record, in order. */
  lemma {:induction false} EveryOne(data: seq<Record>)
    ensures Every(data, 1) == data
    decreases |data|
  {
    if |data| > 1 {
      EveryOne(data[1..]);
      assert [data[0]] + data[1..] == data;
    } else if |data| == 1 {
      assert [data[0]] == data;
    }
  }

  /** Where the colour icons are: under the site root when full icon URLs
      are on, relative to the static URL otherwise. */
  function BaseUrl(flags: Flags, request: Request, staticUrl: string): (r: string)
    ensures !flags.withFullIconURL ==> r == staticUrl
    ensures flags.withFullIconURL && |request.absoluteRoot| > 0 ==>
      r == request.absoluteRoot[..|request.absoluteRoot| - 1] + "/" + staticUrl
  {
    if flags.withFullIconURL then Query.DropLast(request.absoluteRoot) + "/" + staticUrl else staticUrl
  }

  /** `data[::stride]` for a positive step. */
  function Every(data: seq<Record>, stride: nat): (r: seq<Record>)
    requires stride > 0
    decreases |data|
  {
    if |data| == 0 then [] else [data[0]] + (if |data| <= stride then [] else Every(data[stride..], stride))
  }

  /** i·k, built up by repeated addition. */
  function Step(i: nat, k: nat): nat
  {
    if i == 0 then 0 else Step(i - 1, k) + k
  }

  lemma {:induction false} StepIsProduct(i: nat, k: nat)
    ensures Step(i, k) == i * k
  {
    if i > 0 {
      StepIsProduct(i - 1, k);
      assert (i - 1) * k + k == i * k;
    }
  }

  lemma {:induction false} EveryCount(data: seq<Record>, stride: nat)
    requires stride > 0
    ensures |data| == 0 ==> |Every(data, stride)| == 0
    ensures |data| > 0 ==> Step(|Every(data, stride)| - 1, stride) < |data| <= Step(|Every(data, stride)|, stride)
    decreases |data|
  {
    if |data| > stride {
      EveryCount(data[stride..], stride);
    }
  }

  /** There are ⌈n / stride⌉ sampled records. */
  lemma EveryLength(data: seq<Record>, stride: nat)
    requires stride > 0
    ensures |data| == 0 ==> |Every(data, stride)| == 0
    ensures |data| > 0 ==> (|Every(data, stride)| - 1) * stride < |data| <= |Every(data, stride)| * stride
  {
    EveryCount(data, stride);
    if |data| > 0 {
      StepIsProduct(|Every(data, stride)| - 1, stride);
      StepIsProduct(|Every(data, stride)|, stride);
    }
  }

  /** Sampled record i is record i·stride. */
  lemma {:induction false} EveryIndex(data: seq<Record>, stride: nat, i: nat)
    requires stride > 0 && i < |Every(data, stride)|
    ensures Step(i, stride) < |data| && Every(data, stride)[i] == data[Step(i, stride)]
    decreases i
  {
    if i > 0 {
      var rest := data[stride..];
      assert Every(data, stride)[i] == Every(rest, stride)[i - 1];
      EveryIndex(rest, stride, i - 1);
      assert rest[Step(i - 1, stride)] == data[Step(i, stride)];
    }
  }

  lemma EveryAt(data: seq<Record>, stride: nat)
    requires stride > 0
    ensures forall i :: 0 <= i < |Every(data, stride)| ==> i * stride < |data| && Every(data, stride)[i] == data[i * stride]
  {
    forall i | 0 <= i < |Every(data, stride)| ensures i * stride < |data| && Every(data, stride)[i] == data[i * stride] {
      EveryIndex(data, stride, i);
      StepIsProduct(i, stride);
    }
  }

  /** The records of one platform, in order. */
  function Only(data: seq<Record>, plat: string): (r: seq<Record>)
    decreases |data|
  {
    if |data| == 0 then []
    else (if data[0].platform == plat then [data[0]] else []) + Only(data[1..], plat)
  }

  /** The loop building `dataHash`. */
  function GroupFrom(hash: map<string, seq<Record>>, data: seq<Record>): map<string, seq<Record>>
    decreases |data|
  {
    if |data| == 0 then hash
    else
      var p := data[0].platform;
      GroupFrom(hash[p := (if p in hash then hash[p] else []) + [data[0]]], data[1..])
  }

  function Group(data: seq<Record>): map<string, seq<Record>>
  {
    GroupFrom(map[], data)
  }

  lemma {:induction false} GroupFromMeans(hash: map<string, seq<Record>>, data: seq<Record>, plat: string)
    ensures plat in GroupFrom(hash, data) <==> plat in hash || exists i :: 0 <= i < |data| && data[i].platform == plat
    ensures plat in GroupFrom(hash, data) ==>
      GroupFrom(hash, data)[plat] == (if plat in hash then hash[plat] else []) + Only(data, plat)
    decreases |data|
  {
    if |data| > 0 {
      var p := data[0].platform;
      var h := hash[p := (if p in hash then hash[p] else []) + [data[0]]];
      GroupFromMeans(h, data[1..], plat);
      if exists i :: 0 <= i < |data| && data[i].platform == plat {
        var i :| 0 <= i < |data| && data[i].platform == plat;
        if i > 0 {
          assert data[1..][i - 1] == data[i];
        }
      }
      if exists i :: 0 <= i < |data[1..]| && data[1..][i].platform == plat {
        var i :| 0 <= i < |data[1..]| && data[1..][i].platform == plat;
        assert data[i + 1].platform == plat;
      }
    }
  }

  /** `dataHash`: the platforms are exactly those of the records, and each
      holds its records in their original order. */
  lemma GroupMeans(data: seq<Record>, plat: string)
    ensures plat in Group(data) <==> exists i :: 0 <= i < |data| && data[i].platform == plat
    ensures plat in Group(data) ==> Group(data)[plat] == Only(data, plat)
  {
    GroupFromMeans(map[], data, plat);
  }

  /** The parameter name: `parameter__id` (looked up) over
      `parameter__name` over `parameter__standard_name`. */
  function PName(qparams: map<string, string>, nameOfId: string -> Option<string>): Result<string, KmlError>
  {
    var p :=
      if "parameter__id" in qparams then nameOfId(qparams["parameter__id"])
      else if "parameter__name" in qparams then Some(qparams["parameter__name"])
      else if "parameter__standard_name" in qparams then Some(qparams["parameter__standard_name"])
      else None;
    if "parameter__id" in qparams && p.None? then Failure(KeyError)
    else if p.None? || p.value == "" then Failure(NoParameter)
    else Success(p.value)
  }

  lemma PNamePrecedence(qparams: map<string, string>, nameOfId: string -> Option<string>)
    ensures "parameter__id" in qparams && nameOfId(qparams["parameter__id"]).Some? && nameOfId(qparams["parameter__id"]).value != "" ==>
      PName(qparams, nameOfId) == Success(nameOfId(qparams["parameter__id"]).value)
    ensures "parameter__id" !in qparams && "parameter__name" in qparams && qparams["parameter__name"] != "" ==>
      PName(qparams, nameOfId) == Success(qparams["parameter__name"])
    ensures ("parameter__id" !in qparams && "parameter__name" !in qparams && "parameter__standard_name" in qparams
             && qparams["parameter__standard_name"] != "") ==>
      PName(qparams, nameOfId) == Success(qparams["parameter__standard_name"])
    ensures "parameter__id" !in qparams && "parameter__name" !in qparams && "parameter__standard_name" !in qparams ==>
      PName(qparams, nameOfId) == Failure(NoParameter)
  {
  }

  /** The folder name: parameter and depth range to one decimal, or just
      the parameter and '_' when either depth bound is missing; a bound that
      is not a number fails. */
  function FolderName(pName: string, qparams: map<string, string>, fmt1: string -> Option<string>): Result<string, KmlError>
  {
    if "measurement__depth__gte" !in qparams then Success(pName + "_")
    else match fmt1(qparams["measurement__depth__gte"])
      case None => Failure(ValueError)
      case Some(lo) =>
        if "measurement__depth__lte" !in qparams then Success(pName + "_")
        else match fmt1(qparams["measurement__depth__lte"])
          case None => Failure(ValueError)
          case Some(hi) => Success(pName + "_" + lo + "_" + hi)
  }

  lemma FolderNameMeans(pName: string, qparams: map<string, string>, fmt1: string -> Option<string>)
    ensures ("measurement__depth__gte" in qparams && "measurement__depth__lte" in qparams
             && fmt1(qparams["measurement__depth__gte"]).Some? && fmt1(qparams["measurement__depth__lte"]).Some?) ==>
      FolderName(pName, qparams, fmt1) == Success(pName + "_" + fmt1(qparams["measurement__depth__gte"]).value + "_" + fmt1(qparams["measurement__depth__lte"]).value)
    ensures "measurement__depth__gte" !in qparams ==> FolderName(pName, qparams, fmt1) == Success(pName + "_")
    ensures ("measurement__depth__gte" in qparams && fmt1(qparams["measurement__depth__gte"]).Some?
             && "measurement__depth__lte" !in qparams) ==>
      FolderName(pName, qparams, fmt1) == Success(pName + "_")
  {
  }


  /** The KML constructor's keyword flags, each on unless given. */
  function FlagsOf(kwargs: map<string, bool>): Flags
  {
    Flags(if "withTimeStamp" in kwargs then kwargs["withTimeStamp"] else true,
          if "withLineStrings" in kwargs then kwargs["withLineStrings"] else true,
          if "withFullIconURL" in kwargs then kwargs["withFullIconURL"] else true)
  }

  /** `KML(...)`: request, query set and query parameters positionally, the
      rest as keywords. */
  function Construct(call: Views.KmlCall): Result<Flags, KmlError>
  {
    if call.positional != 3 then Failure(TypeError) else Success(FlagsOf(call.kwargs))
  }

  /** The views' `kml` and `kmln` formats: as written the constructor gets
      the object name as a fourth positional argument and fails, and
      `kmln`'s `withTimeStamps` is not a flag it reads (time stamps would
      stay on); corrected, `kml`
      has every flag on and `kmln` every flag off. */
  lemma KmlFormats(objectName: string, fields: seq<string>, geomFields: seq<string>, objs: seq<map<string, string>>)
    ensures Construct(Views.Respond(AsWritten, "kml", objectName, fields, geomFields, objs).value.call) == Failure(TypeError)
    ensures Construct(Views.Respond(AsWritten, "kmln", objectName, fields, geomFields, objs).value.call) == Failure(TypeError)
    ensures FlagsOf(Views.Respond(AsWritten, "kmln", objectName, fields, geomFields, objs).value.call.kwargs).withTimeStamp
    ensures Construct(Views.Respond(Corrected, "kml", objectName, fields, geomFields, objs).value.call) == Success(Flags(true, true, true))
    ensures Construct(Views.Respond(Corrected, "kmln", objectName, fields, geomFields, objs).value.call) == Success(Flags(false, false, false))
  {
  }

  /** The stride: the `stride` keyword when given, else the request's
      `stride` parameter as an integer, else 1. */
  function StrideOf(kwStride: Option<int>, getStride: Option<string>, parseInt: string -> Option<int>): (r: Result<int, KmlError>)
    ensures kwStride.Some? ==> r == Success(kwStride.value)
    ensures kwStride.None? && getStride.None? ==> r == Success(1)
    ensures kwStride.None? && getStride.Some? ==>
      (r.Success? <==> parseInt(getStride.value).Some?) && (r.Success? ==> r.value == parseInt(getStride.value).value)
  {
    if kwStride.Some? then Success(kwStride.value)
    else if getStride.None? then Success(1)
    else match parseInt(getStride.value)
      case Some(n) => Success(n)
      case None => Failure(ValueError)
  }

  /** `kmlResponse` with the options the constructor was given. */
  function KmlResponse(v: Variant, flags: Flags, stride: int, qs: Option<seq<Record>>, qparams: map<string, string>,
                       nameOfId: string -> Option<string>, fmt1: string -> Option<string>, parse: string -> Option<real>,
                       request: Request, climHash: map<string, (real, real)>, clt: seq<Rgb>, staticUrl: string)
    : Result<Doc, KmlError>
  {
    if qs.None? then Failure(NoQuerySet)
    else
      var pName :- PName(qparams, nameOfId);
      var data := Slice(qs.value, stride);
      var hash := Group(data);
      var title :- FolderName(pName, qparams, fmt1);
      var desc := Replace(request.fullPath, "&", "&amp;");
      MakeKml(v, flags, hash, pName, title, desc, request.cmin, request.cmax, parse, climHash, clt, BaseUrl(flags, request, staticUrl))
  }

  function PlatformSet(data: seq<Record>): set<string>
  {
    set i | 0 <= i < |data| :: data[i].platform
  }

  /** The platforms of `dataHash` are those of the records. */
  lemma GroupKeys(data: seq<Record>)
    ensures Group(data).Keys == PlatformSet(data)
  {
    forall p ensures p in Group(data) <==> p in PlatformSet(data) {
      GroupMeans(data, p);
      if p in PlatformSet(data) {
        var i :| 0 <= i < |data| && data[i].platform == p;
      }
    }
  }

  /** No query set and no parameter name are errors; a zero stride draws
      the same document as a stride of one. */
  lemma KmlResponseErrors(v: Variant, flags: Flags, stride: int, qs: Option<seq<Record>>, qparams: map<string, string>,
                          nameOfId: string -> Option<string>, fmt1: string -> Option<string>, parse: string -> Option<real>,
                          request: Request, climHash: map<string, (real, real)>, clt: seq<Rgb>, staticUrl: string)
    ensures qs.None? ==>
      KmlResponse(v, flags, stride, qs, qparams, nameOfId, fmt1, parse, request, climHash, clt, staticUrl) == Failure(NoQuerySet)
    ensures qs.Some? && PName(qparams, nameOfId).Failure? ==>
      KmlResponse(v, flags, stride, qs, qparams, nameOfId, fmt1, parse, request, climHash, clt, staticUrl).Failure?
    ensures stride == 0 ==>
      KmlResponse(v, flags, stride, qs, qparams, nameOfId, fmt1, parse, request, climHash, clt, staticUrl)
      == KmlResponse(v, flags, 1, qs, qparams, nameOfId, fmt1, parse, request, climHash, clt, staticUrl)
  {
    if qs.Some? {
      EveryOne(qs.value);
    }
  }

  /** The response has a folder for each platform of the sampled records,
      in sorted order, each with one point per sampled record of that
      platform. */
  lemma KmlResponseMeans(v: Variant, flags: Flags, stride: int, qs: Option<seq<Record>>, qparams: map<string, string>,
                         nameOfId: string -> Option<string>, fmt1: string -> Option<string>, parse: string -> Option<real>,
                         request: Request, climHash: map<string, (real, real)>, clt: seq<Rgb>, staticUrl: string)
    ensures var r := KmlResponse(v, flags, stride, qs, qparams, nameOfId, fmt1, parse, request, climHash, clt, staticUrl);
      r.Success? ==>
        qs.Some?
        && var data := Slice(qs.value, stride);
        r.value.description == Replace(request.fullPath, "&", "&amp;")
        && PlatformsOf(r.value.folders) == Sorted(PlatformSet(data))
        && (forall i :: 0 <= i < |r.value.folders| ==> |r.value.folders[i].points| == |Only(data, r.value.folders[i].platform)|)
  {
    var r := KmlResponse(v, flags, stride, qs, qparams, nameOfId, fmt1, parse, request, climHash, clt, staticUrl);
    if r.Success? {
      KmlResponseUnfolds(v, flags, stride, qs, qparams, nameOfId, fmt1, parse, request, climHash, clt, staticUrl);
      var data := Slice(qs.value, stride);
      var pName := PName(qparams, nameOfId).value;
      var title := FolderName(pName, qparams, fmt1).value;
      var desc := Replace(request.fullPath, "&", "&amp;");
      GroupedDoc(v, flags, data, pName, title, desc, request.cmin, request.cmax, parse, climHash, clt, BaseUrl(flags, request, staticUrl));
      MakeKmlMeans(v, flags, Group(data), pName, title, desc, request.cmin, request.cmax, parse, climHash, clt, BaseUrl(flags, request, staticUrl));
    }
  }

  /** A response that succeeds is the document of the sampled records. */
  lemma KmlResponseUnfolds(v: Variant, flags: Flags, stride: int, qs: Option<seq<Record>>, qparams: map<string, string>,
                           nameOfId: string -> Option<string>, fmt1: string -> Option<string>, parse: string -> Option<real>,
                           request: Request, climHash: map<string, (real, real)>, clt: seq<Rgb>, staticUrl: string)
    requires KmlResponse(v, flags, stride, qs, qparams, nameOfId, fmt1, parse, request, climHash, clt, staticUrl).Success?
    ensures qs.Some? && PName(qparams, nameOfId).Success?
    ensures FolderName(PName(qparams, nameOfId).value, qparams, fmt1).Success?
    ensures KmlResponse(v, flags, stride, qs, qparams, nameOfId, fmt1, parse, request, climHash, clt, staticUrl)
         == MakeKml(v, flags, Group(Slice(qs.value, stride)), PName(qparams, nameOfId).value,
                    FolderName(PName(qparams, nameOfId).value, qparams, fmt1).value,
                    Replace(request.fullPath, "&", "&amp;"), request.cmin, request.cmax, parse, climHash, clt,
                    BaseUrl(flags, request, staticUrl))
  {
  }

  /** The document for grouped records: a folder per platform of the
      records, in sorted order, with a point per record of that platform. */
  lemma GroupedDoc(v: Variant, flags: Flags, data: seq<Record>, pName: string, title: string, desc: string,
                   cmin: Option<string>, cmax: Option<string>, parse: string -> Option<real>,
                   climHash: map<string, (real, real)>, clt: seq<Rgb>, baseUrl: string)
    ensures var r := MakeKml(v, flags, Group(data), pName, title, desc, cmin, cmax, parse, climHash, clt, baseUrl);
      r.Success? ==>
        PlatformsOf(r.value.folders) == Sorted(PlatformSet(data))
        && forall i :: 0 <= i < |r.value.folders| ==> |r.value.folders[i].points| == |Only(data, r.value.folders[i].platform)|
  {
    var r := MakeKml(v, flags, Group(data), pName, title, desc, cmin, cmax, parse, climHash, clt, baseUrl);
    MakeKmlMeans(v, flags, Group(data), pName, title, desc, cmin, cmax, parse, climHash, clt, baseUrl);
    GroupKeys(data);
    if r.Success? {
      forall i | 0 <= i < |r.value.folders| ensures |r.value.folders[i].points| == |Only(data, r.value.folders[i].platform)| {
        GroupMeans(data, r.value.folders[i].platform);
      }
    }
  }
}

=== FILE: loader.dfy ===
/** The database-facing methods of `STOQS_Loader` (loaders/__init__.py):
    platform lookup against the MBARI tracking records, the parameter
    cache, parameter creation, measurement creation with its QC bounds,
    coordinate checks, the valid-data precheck, the post-load statistics
    and the simplified depth-time series.

    The loader object is a `State` value; each method takes one and returns
    the next. The database is a `Store.Db`, the tracking records and the
    dataset's variables are parameters. */
module Loader {
  import opened Wrappers
  import opened Table
  import opened Store
  import opened Findings
  import Strs
  import Stats
  import Simplify
  import Rows
  import Floats

  /** An attribute value as pydap returns it: text, or (for attributes it
      could not read) a list. */
  datatype Attr = AttrText(s: string) | AttrList(items: seq<string>)

  type Attributes = map<string, Attr>

  /** The fields of the loader object that the modelled methods use. */
  datatype State = State(
    db: Db,
    activity: Option<nat>,
    activityName: string,
    platformTypeName: string,
    platformColor: Option<string>,
    includeNames: seq<string>,
    ignoredNames: seq<string>,
    parameterDict: map<string, nat>,
    standardNames: map<string, Option<Attr>>,
    varsLoaded: seq<string>)

  /** The database is consistent and the loader's references point into it. */
  predicate Good(st: State)
  {
    Valid(st.db)
    && OptRef(st.activity, |st.db.activities|)
    && forall k :: k in st.parameterDict ==> st.parameterDict[k] < |st.db.parameters|
  }

  /** The loader with its database replaced by a consistent one that has
      the same activities and parameters. */
  function WithDb(st: State, db: Db): (r: State)
    requires Good(st) && Valid(db) && |db.activities| == |st.db.activities| && |db.parameters| == |st.db.parameters|
    ensures Good(r) && r == st.(db := db)
  {
    st.(db := db)
  }

  /** The exceptions that leave the loader's methods. */
  datatype LoadError =
    | BadPlatformName       // the name has a character outside [a-zA-Z0-9_]
    | NoActivity            // `self.activity` is not set
    | DatabaseError(e: DbError)
    | NominalValueError     // only some of the nominal coordinates are given
    | CoordinateValueError  // `float()` of a coordinate that is not a number
    | CoordinateTypeError   // `math.isnan()` of a coordinate given as text
    | DerivedValueError     // arithmetic on, or conversion of, a value that is not a number

  // ---------------------------------------------------------------------
  // getPlatform

  /** A row of the tracking database's platformAssociations.csv. */
  datatype TrackingRecord = TrackingRecord(platformType: string, platformName: string)

  predicate ValidPlatformName(name: string)
  {
    forall i :: 0 <= i < |name| ==> Strs.IsWordChar(name[i])
  }

  /** The first record whose name equals `name` ignoring case. */
  function FirstMatch(records: seq<TrackingRecord>, name: string): (r: Option<nat>)
    ensures r.Some? ==> r.value < |records| && Strs.EqualsIgnoreCase(records[r.value].platformName, name)
    ensures r.Some? ==> forall j :: 0 <= j < r.value ==> !Strs.EqualsIgnoreCase(records[j].platformName, name)
    ensures r.None? <==> forall j :: 0 <= j < |records| ==> !Strs.EqualsIgnoreCase(records[j].platformName, name)
  {
    if |records| == 0 then None
    else
      match FirstMatch(records[..|records| - 1], name)
      case Some(j) => Some(j)
      case None =>
        if Strs.EqualsIgnoreCase(records[|records| - 1].platformName, name) then Some(|records| - 1) else None
  }

  /** The platform name the loader stores: the matching record's spelling,
      or `name` when no record matches or the matching one is blank. */
  function PlatformNameFor(records: seq<TrackingRecord>, name: string): string
  {
    match FirstMatch(records, name)
    case Some(j) => if records[j].platformName != "" then records[j].platformName else name
    case None => name
  }

  /** The platform type name the loader stores. As written it is always the
      loader's own `platformTypeName`: the record's type and the `type`
      argument are assigned to a local that is never read. Corrected, it is
      the matching record's type, or `type` without a match. */
  function PlatformTypeFor(st: State, records: seq<TrackingRecord>, name: string, kind: string, v: Variant): string
  {
    match v
    case AsWritten => st.platformTypeName
    case Corrected =>
      match FirstMatch(records, name)
      case Some(j) => if records[j].platformName != "" then records[j].platformType else kind
      case None => kind
  }

  /** `getPlatform(name, type)`: rejects a name with a non-word character,
      then `get_or_create`s the platform type and the platform (name,
      the loader's colour, type). Returns the new state and the platform id. */
  function GetPlatform(st: State, name: string, kind: string, records: seq<TrackingRecord>, v: Variant): (r: Result<(State, nat), LoadError>)
    requires Good(st)
    ensures r == Failure(BadPlatformName) <==> !ValidPlatformName(name)
    ensures r.Failure? ==> r.error == BadPlatformName || r.error == DatabaseError(MultipleObjectsReturned)
    ensures r.Success? ==> Good(r.value.0) && r.value.0 == st.(db := r.value.0.db)
    ensures r.Success? ==>
      var db := r.value.0.db;
      r.value.1 < |db.platforms|
      && db.platforms[r.value.1].name == PlatformNameFor(records, name)
      && db.platforms[r.value.1].color == st.platformColor
      && db.lookups[PlatformType][db.platforms[r.value.1].platformtype] == PlatformTypeFor(st, records, name, kind, v)
  {
    if !ValidPlatformName(name) then Failure(BadPlatformName)
    else
      var t := GetOrCreateLookup(st.db, PlatformType, PlatformTypeFor(st, records, name, kind, v));
      match GetOrCreatePlatform(t.db, Platform(PlatformNameFor(records, name), st.platformColor, t.id))
      case Failure(e) => Failure(DatabaseError(e))
      case Success(g) => Success((st.(db := g.db), g.id))
  }

  /** A record that matches the name case-insensitively supplies the
      stored spelling; without a match the given name is kept. */
  lemma PlatformNameRule(records: seq<TrackingRecord>, name: string)
    ensures (forall j :: 0 <= j < |records| ==> !Strs.EqualsIgnoreCase(records[j].platformName, name))
              ==> PlatformNameFor(records, name) == name
    ensures Strs.EqualsIgnoreCase(PlatformNameFor(records, name), name)
  {
  }

  /** The platform type the source stores ignores the tracking record: for
      the record ("mooring", "M1") and the name "m1", a loader whose
      `platformTypeName` is "auv" files platform "M1" under "auv", where
      the record calls for "mooring". */
  lemma AsWrittenIgnoresRecordType(st: State)
    requires st.platformTypeName == "auv"
    ensures PlatformNameFor([TrackingRecord("mooring", "M1")], "m1") == "M1"
    ensures PlatformTypeFor(st, [TrackingRecord("mooring", "M1")], "m1", "auv", AsWritten) == "auv"
    ensures PlatformTypeFor(st, [TrackingRecord("mooring", "M1")], "m1", "auv", Corrected) == "mooring"
  {
    assert Strs.Lower("M1") == "m1";
    assert Strs.Lower("m1") == "m1";
  }

  /** Corrected, the stored type is the matching record's, and the `type`
      argument only when nothing matches. */
  lemma CorrectedUsesRecordType(st: State, records: seq<TrackingRecord>, name: string, kind: string, j: nat)
    requires j < |records| && Strs.EqualsIgnoreCase(records[j].platformName, name) && records[j].platformName != ""
    requires forall i :: 0 <= i < j ==> !Strs.EqualsIgnoreCase(records[i].platformName, name)
    ensures PlatformTypeFor(st, records, name, kind, Corrected) == records[j].platformType
    ensures PlatformNameFor(records, name) == records[j].platformName
  {
    var m := FirstMatch(records, name);
    if m.value < j {
    } else if j < m.value {
    }
  }

  // ---------------------------------------------------------------------
  // getParameterByName

  /** The outcome of `getParameterByName`: the parameter's id, or
      ParameterNotFound, each with the loader's new state; or an exception
      from the database lookups. */
  datatype ParamLookup = Found(st: State, id: nat) | NotFound(st: State) | LookupFailed(e: DbError)

  /** The standard name `getParameterByName` looks up for an attribute.
      The source indexes the attribute with `[0]`, which for a list is its
      first item but for text is its first character; Corrected uses the
      whole text. None stands for the IndexError of an empty value, which
      the source ignores. */
  function StandardKey(a: Attr, v: Variant): (k: Option<string>)
    ensures a.AttrList? ==> (k.Some? <==> |a.items| > 0)
    ensures a.AttrList? && k.Some? ==> k.value == a.items[0]
    ensures a.AttrText? && v == Corrected ==> k == Some(a.s)
    ensures a.AttrText? && v == AsWritten ==> (k.Some? <==> |a.s| > 0) && (k.Some? ==> |k.value| == 1 && k.value[0] == a.s[0])
  {
    match a
    case AttrList(items) => if |items| == 0 then None else Some(items[0])
    case AttrText(s) =>
      if v == Corrected then Some(s)
      else if |s| == 0 then None
      else Some(s[..1])
  }

  /** The standard-name lookup of `getParameterByName`: the id of the one
      parameter with that standard name, None when there is none (or no
      usable standard name), or MultipleObjectsReturned. */
  function ByStandardName(st: State, name: string, v: Variant): (r: Result<Option<nat>, DbError>)
    ensures r.Success? && r.value.Some? ==> r.value.value < |st.db.parameters|
    ensures r.Failure? ==> r.error == MultipleObjectsReturned
  {
    if name !in st.standardNames || st.standardNames[name].None? then Success(None)
    else
      match StandardKey(st.standardNames[name].value, v)
      case None => Success(None)
      case Some(k) =>
        match Get(st.db.parameters, ParameterStandardName, Some(k))
        case Success(id) => Success(Some(id))
        case Failure(e) => if e == DoesNotExist then Success(None) else Failure(e)
  }

  /** `getParameterByName(name)`: the cached id; else the parameter with
      the variable's standard name; else the parameter called `name`, the
      id being cached either way. When neither lookup finds one, `name` is
      appended to `ignored_names` and ParameterNotFound raised. */
  function GetParameterByName(st: State, name: string, v: Variant): (r: ParamLookup)
    ensures name in st.parameterDict ==> r == Found(st, st.parameterDict[name])
    ensures r.Found? ==> r.st == st.(parameterDict := st.parameterDict[name := r.id])
    ensures r.Found? && name !in st.parameterDict && ByStandardName(st, name, v) == Success(None) ==>
      r.id < |st.db.parameters| && st.db.parameters[r.id].name == name
    ensures r.NotFound? <==>
      name !in st.parameterDict && ByStandardName(st, name, v) == Success(None) && !Has(st.db.parameters, ParameterName, name)
    ensures r.NotFound? ==> r.st == st.(ignoredNames := st.ignoredNames + [name])
    ensures r.LookupFailed? ==> r.e == MultipleObjectsReturned
  {
    if name in st.parameterDict then Found(st, st.parameterDict[name])
    else
      match ByStandardName(st, name, v)
      case Failure(e) => LookupFailed(e)
      case Success(Some(id)) => Found(st.(parameterDict := st.parameterDict[name := id]), id)
      case Success(None) =>
        match Get(st.db.parameters, ParameterName, name)
        case Success(id) => Found(st.(parameterDict := st.parameterDict[name := id]), id)
        case Failure(e) =>
          if e == DoesNotExist then NotFound(st.(ignoredNames := st.ignoredNames + [name]))
          else LookupFailed(e)
  }

  /** A found parameter is cached: asking again returns the same id and
      changes nothing. */
  lemma LookupCached(st: State, name: string, v: Variant)
    requires GetParameterByName(st, name, v).Found?
    ensures var r := GetParameterByName(st, name, v);
      GetParameterByName(r.st, name, v) == Found(r.st, r.id)
  {
  }

  /** A lookup keeps the loader good: the cache holds only stored
      parameters. */
  lemma LookupKeepsGood(st: State, name: string, v: Variant)
    requires Good(st)
    ensures GetParameterByName(st, name, v).Found? ==> Good(GetParameterByName(st, name, v).st) && GetParameterByName(st, name, v).id < |st.db.parameters|
    ensures GetParameterByName(st, name, v).NotFound? ==> Good(GetParameterByName(st, name, v).st)
  {
  }

  /** Using the first character of a text standard name loses the match:
      with a parameter "temp" whose standard name is
      "sea_water_temperature" and the variable "temperature" carrying that
      standard name, the source raises ParameterNotFound where the whole
      standard name finds parameter 0. */
  lemma AsWrittenMissesStandardName(st: State)
    requires st.parameterDict == map[]
    requires st.standardNames == map["temperature" := Some(AttrText("sea_water_temperature"))]
    requires st.db.parameters == [Parameter("temp", Some("sea_water_temperature"), None, None, None, None, None)]
    ensures GetParameterByName(st, "temperature", AsWritten).NotFound?
    ensures GetParameterByName(st, "temperature", Corrected).Found?
    ensures GetParameterByName(st, "temperature", Corrected).id == 0
  {
    var ps := st.db.parameters;
    var k := StandardKey(AttrText("sea_water_temperature"), AsWritten).value;
    assert |k| == 1 && k[0] == 's';
    assert k == "s";
    assert ParameterStandardName(ps[0]) != Some("s");
    assert !Has(ps, ParameterStandardName, Some("s"));
    assert ParameterName(ps[0]) != "temperature";
    assert !Has(ps, ParameterName, "temperature");
    assert Has(ps, ParameterStandardName, Some("sea_water_temperature"));
  }

  // ---------------------------------------------------------------------
  // addParameters

  /** `v.get(key)` of a text attribute. A list-valued attribute other than
      units is taken as absent. */
  function TextAttr(attrs: Attributes, key: string): (r: Option<string>)
    ensures r.Some? <==> key in attrs && attrs[key].AttrText?
  {
    if key in attrs && attrs[key].AttrText? then Some(attrs[key].s) else None
  }

  /** The units the loader stores: '' for the list pydap returns when the
      attribute is unset. */
  function UnitsAttr(attrs: Attributes): (r: Option<string>)
    ensures "units" in attrs && attrs["units"].AttrList? ==> r == Some("")
    ensures "units" !in attrs ==> r == None
  {
    if "units" in attrs && attrs["units"].AttrList? then Some("") else TextAttr(attrs, "units")
  }

  /** The Parameter `addParameters` creates for a variable. */
  function NewParameter(st: State, key: string, attrs: Attributes): (p: Parameter)
    ensures p.name == key && p.origin == Some(st.activityName)
  {
    Parameter(key, TextAttr(attrs, "standard_name"), TextAttr(attrs, "long_name"), UnitsAttr(attrs),
              TextAttr(attrs, "type"), TextAttr(attrs, "description"), Some(st.activityName))
  }

  /** `list.remove(x)`: drops the first occurrence of `x`. */
  function RemoveFirst(xs: seq<string>, x: string): (r: seq<string>)
    ensures x !in xs ==> r == xs
    ensures x in xs ==> |r| == |xs| - 1
  {
    if |xs| == 0 then []
    else if xs[0] == x then xs[1..]
    else [xs[0]] + RemoveFirst(xs[1..], x)
  }

  lemma {:induction false} RemoveFirstAppended(xs: seq<string>, x: string)
    requires x !in xs
    ensures RemoveFirst(xs + [x], x) == xs
  {
    if |xs| > 0 {
      assert (xs + [x])[1..] == xs[1..] + [x];
      RemoveFirstAppended(xs[1..], x);
    } else {
      assert xs + [x] == [x];
    }
  }

  /** Whether `addParameters` considers a variable at all. */
  predicate Considered(st: State, key: string)
  {
    key !in st.ignoredNames && key in st.includeNames
  }

  /** `addParameters(parmDict)` for one variable: nothing unless it is
      considered; a variable the lookup cannot find becomes a new Parameter,
      cached under its name and taken off `ignored_names` again. */
  function AddParameter(st: State, key: string, attrs: Attributes, v: Variant): (r: Result<State, LoadError>)
    requires Good(st)
    ensures r.Success? ==> Good(r.value)
    ensures r.Success? ==> r.value.ignoredNames == st.ignoredNames && r.value.includeNames == st.includeNames
    ensures r.Success? && Considered(st, key) ==> key in r.value.parameterDict
    ensures r.Success? ==> forall k :: k in st.parameterDict ==> k in r.value.parameterDict && r.value.parameterDict[k] == st.parameterDict[k]
    ensures r.Success? ==> |st.db.parameters| <= |r.value.db.parameters|
    ensures r.Failure? ==> Considered(st, key) && r.error == DatabaseError(MultipleObjectsReturned)
  {
    if !Considered(st, key) then Success(st)
    else
      LookupKeepsGood(st, key, v);
      match GetParameterByName(st, key, v)
      case Found(st', _) => Success(st')
      case LookupFailed(e) => Failure(DatabaseError(e))
      case NotFound(st') => Success(AddNew(st, st', key, attrs))
  }

  /** The new Parameter saved, cached under its name and taken off
      `ignored_names` again. The lookup has just found no parameter of
      that name, so the save cannot break the name's uniqueness. */
  function AddNew(st: State, st': State, key: string, attrs: Attributes): (r: State)
    requires Good(st') && st' == st.(ignoredNames := st.ignoredNames + [key])
    requires key !in st.ignoredNames && !Has(st.db.parameters, ParameterName, key)
    ensures Good(r) && r.ignoredNames == st.ignoredNames && r.includeNames == st.includeNames
    ensures r.parameterDict == st.parameterDict[key := |st.db.parameters|]
    ensures r.db.parameters == st.db.parameters + [NewParameter(st, key, attrs)]
  {
    var p := NewParameter(st, key, attrs);
    var db := InsertParameter(st'.db, p).value;
    RemoveFirstAppended(st.ignoredNames, key);
    st'.(db := db, parameterDict := st'.parameterDict[key := |st'.db.parameters|],
         ignoredNames := RemoveFirst(st'.ignoredNames, key))
  }

  /** `addParameters(parmDict)` over the variables in order; stops at the
      first exception. */
  function AddParameters(st: State, vars: seq<(string, Attributes)>, v: Variant): (r: Result<State, LoadError>)
    requires Good(st)
    ensures r.Success? ==> Good(r.value)
    ensures r.Success? ==> r.value.ignoredNames == st.ignoredNames && r.value.includeNames == st.includeNames
    ensures r.Success? ==> forall j :: 0 <= j < |vars| && Considered(st, vars[j].0) ==> vars[j].0 in r.value.parameterDict
    ensures r.Success? ==> forall k :: k in st.parameterDict ==> k in r.value.parameterDict && r.value.parameterDict[k] == st.parameterDict[k]
    decreases |vars|
  {
    if |vars| == 0 then Success(st)
    else
      match AddParameter(st, vars[0].0, vars[0].1, v)
      case Failure(e) => Failure(e)
      case Success(st') =>
        match AddParameters(st', vars[1..], v)
        case Failure(e) => Failure(e)
        case Success(st'') =>
          assert forall j :: 0 <= j < |vars| && Considered(st, vars[j].0) ==> vars[j].0 in st''.parameterDict by {
            forall j | 0 <= j < |vars| && Considered(st, vars[j].0) ensures vars[j].0 in st''.parameterDict {
              if j > 0 {
                assert vars[j] == vars[1..][j - 1];
              }
            }
          }
          Success(st'')
  }

  // ---------------------------------------------------------------------
  // createMeasurement

  /** The outcome of a method that works on one record: it completes with
      a value, raises SkipRecord (the load goes on from the state it
      leaves), or raises an exception that ends the load. */
  datatype Step<T> = Done(st: State, value: T) | Skipped(st: State) | Stopped(e: LoadError)

  /** The QC bounds of this `createMeasurement`: depth within
      [-1000, 5000], latitude within [-90, 90], longitude within
      [-720, 720]. */
  predicate InBounds(depth: real, lat: real, lon: real)
  {
    -1000.0 <= depth <= 5000.0 && -90.0 <= lat <= 90.0 && -720.0 <= lon <= 720.0
  }

  /** The nominal values are all given or all absent. */
  predicate NominalWhole(nomDepth: Option<real>, nomLat: Option<real>, nomLong: Option<real>)
  {
    (nomDepth.None? && nomLat.None? && nomLong.None?) || (nomDepth.Some? && nomLat.Some? && nomLong.Some?)
  }

  /** `createMeasurement(time, depth, lat, long, nomDepth, nomLat,
      nomLong)`: SkipRecord for values outside the QC bounds, before any
      write; otherwise `get_or_create` of the instant point, of the
      nominal location when a nominal value is given, and of the
      measurement. A partial nominal position fails to convert; a failing
      measurement lookup becomes SkipRecord. */
  function CreateMeasurement(st: State, time: real, depth: real, lat: real, lon: real,
                             nomDepth: Option<real>, nomLat: Option<real>, nomLong: Option<real>): (r: Step<nat>)
    requires Good(st)
    ensures !InBounds(depth, lat, lon) ==> r == Skipped(st)
    ensures r.Done? ==> InBounds(depth, lat, lon) && st.activity.Some?
    ensures r.Done? || r.Skipped? ==> Good(r.st) && r.st == st.(db := r.st.db)
    ensures r.Done? ==>
      Recorded(r.st.db, r.value, InstantPoint(st.activity.value, time), depth, lat, lon, nomDepth, nomLat, nomLong)
    ensures r.Stopped? && InBounds(depth, lat, lon) && st.activity.Some? && NominalWhole(nomDepth, nomLat, nomLong)
      ==> r.e == DatabaseError(MultipleObjectsReturned)
  {
    if depth < -1000.0 || depth > 5000.0 then Skipped(st)
    else if lat < -90.0 || lat > 90.0 then Skipped(st)
    else if lon < -720.0 || lon > 720.0 then Skipped(st)
    else if st.activity.None? then Stopped(DatabaseError(IntegrityError))
    else
      match GetOrCreateInstantPoint(st.db, st.activity.value, time)
      case Failure(e) => Stopped(DatabaseError(e))
      case Success(ip) => CreateAtInstant(st, ip.db, ip.id, depth, lat, lon, nomDepth, nomLat, nomLong)
  }

  /** Measurement `id` of `db` exists, lies at the instant point `ip` with
      the given position, and has a nominal location exactly when the
      nominal values are given, that location holding them. */
  predicate Recorded(db: Db, id: nat, ip: InstantPoint, depth: real, lat: real, lon: real,
                     nomDepth: Option<real>, nomLat: Option<real>, nomLong: Option<real>)
  {
    id < |db.measurements|
    && var m := db.measurements[id];
    m.depth == depth && m.lat == lat && m.lon == lon
    && m.instantpoint < |db.instantPoints| && db.instantPoints[m.instantpoint] == ip
    && (m.nominallocation.None? <==> nomDepth.None? && nomLat.None? && nomLong.None?)
    && (m.nominallocation.Some? ==>
          nomDepth.Some? && nomLat.Some? && nomLong.Some? && m.nominallocation.value < |db.nominalLocations|
          && db.nominalLocations[m.nominallocation.value] == NominalLocation(ip.activity, nomDepth.value, nomLong.value, nomLat.value))
  }

  /** The part of `createMeasurement` after the instant point `ipId` of
      the current activity has been got or created in `db`. */
  function CreateAtInstant(st: State, db: Db, ipId: nat, depth: real, lat: real, lon: real,
                           nomDepth: Option<real>, nomLat: Option<real>, nomLong: Option<real>): (r: Step<nat>)
    requires Good(st.(db := db)) && st.activity.Some? && ipId < |db.instantPoints|
    requires db.instantPoints[ipId].activity == st.activity.value
    ensures r.Done? || r.Skipped? ==> Good(r.st) && r.st == st.(db := r.st.db)
    ensures r.Done? ==> Recorded(r.st.db, r.value, db.instantPoints[ipId], depth, lat, lon, nomDepth, nomLat, nomLong)
    ensures r.Stopped? && NominalWhole(nomDepth, nomLat, nomLong) ==> r.e == DatabaseError(MultipleObjectsReturned)
  {
    var a := st.activity.value;
    if nomDepth.None? && nomLat.None? && nomLong.None? then
      SaveMeasurement(st, db, Measurement(ipId, None, depth, lon, lat))
    else if nomDepth.None? || nomLat.None? || nomLong.None? then Stopped(NominalValueError)
    else
      match GetOrCreateNominalLocation(db, NominalLocation(a, nomDepth.value, nomLong.value, nomLat.value))
      case Failure(e) => Stopped(DatabaseError(e))
      case Success(nl) => SaveMeasurement(st, nl.db, Measurement(ipId, Some(nl.id), depth, lon, lat))
  }

  /** The measurement's `get_or_create`, a failure of which becomes
      SkipRecord with the rows written so far kept. */
  function SaveMeasurement(st: State, db: Db, m: Measurement): (r: Step<nat>)
    requires Good(st.(db := db)) && m.instantpoint < |db.instantPoints| && OptRef(m.nominallocation, |db.nominalLocations|)
    ensures r.Done? || r.Skipped?
    ensures Good(r.st) && r.st == st.(db := r.st.db)
    ensures r.Done? ==> r.value < |r.st.db.measurements| && r.st.db.measurements[r.value] == m
    ensures r.Done? ==> r.st.db.instantPoints == db.instantPoints && r.st.db.nominalLocations == db.nominalLocations
  {
    match GetOrCreateMeasurement(db, m)
    case Failure(_) => Skipped(st.(db := db))
    case Success(g) => Done(st.(db := g.db), g.id)
  }

  /** Re-running `createMeasurement` with the same values finds the rows
      the first run stored and writes nothing: a reload does not duplicate
      instant points, nominal locations or measurements. */
  lemma CreateMeasurementIdempotent(st: State, time: real, depth: real, lat: real, lon: real,
                                    nomDepth: Option<real>, nomLat: Option<real>, nomLong: Option<real>)
    requires Good(st)
    requires CreateMeasurement(st, time, depth, lat, lon, nomDepth, nomLat, nomLong).Done?
    ensures var r := CreateMeasurement(st, time, depth, lat, lon, nomDepth, nomLat, nomLong);
      CreateMeasurement(r.st, time, depth, lat, lon, nomDepth, nomLat, nomLong) == Done(r.st, r.value)
  {
    var a := st.activity.value;
    var ip := GetOrCreateInstantPoint(st.db, a, time).value;
    var r := CreateMeasurement(st, time, depth, lat, lon, nomDepth, nomLat, nomLong);
    assert r == CreateAtInstant(st, ip.db, ip.id, depth, lat, lon, nomDepth, nomLat, nomLong);
    var db := r.st.db;
    CreateAtInstantIdempotent(st, ip.db, ip.id, depth, lat, lon, nomDepth, nomLat, nomLong);
    GetFinds(db.instantPoints, Self, ip.id);
    assert GetOrCreateInstantPoint(db, a, time) == Success(Got(db, ip.id, false));
  }

  /** The same for the part after the instant point: run again on the
      database it leaves, it finds the nominal location and measurement it
      created, and leaves the instant points as they were. */
  lemma CreateAtInstantIdempotent(st: State, db: Db, ipId: nat, depth: real, lat: real, lon: real,
                                  nomDepth: Option<real>, nomLat: Option<real>, nomLong: Option<real>)
    requires Good(st.(db := db)) && st.activity.Some? && ipId < |db.instantPoints|
    requires db.instantPoints[ipId].activity == st.activity.value
    requires CreateAtInstant(st, db, ipId, depth, lat, lon, nomDepth, nomLat, nomLong).Done?
    ensures var r := CreateAtInstant(st, db, ipId, depth, lat, lon, nomDepth, nomLat, nomLong);
      r.st.db.instantPoints == db.instantPoints
      && CreateAtInstant(r.st, r.st.db, ipId, depth, lat, lon, nomDepth, nomLat, nomLong) == Done(r.st, r.value)
  {
    var a := st.activity.value;
    var r := CreateAtInstant(st, db, ipId, depth, lat, lon, nomDepth, nomLat, nomLong);
    var db' := r.st.db;
    if nomDepth.None? && nomLat.None? && nomLong.None? {
      var g := GetOrCreateMeasurement(db, Measurement(ipId, None, depth, lon, lat)).value;
      GetFinds(db'.measurements, Self, g.id);
    } else {
      var nlRow := NominalLocation(a, nomDepth.value, nomLong.value, nomLat.value);
      var nl := GetOrCreateNominalLocation(db, nlRow).value;
      var g := GetOrCreateMeasurement(nl.db, Measurement(ipId, Some(nl.id), depth, lon, lat)).value;
      GetFinds(db'.nominalLocations, Self, nl.id);
      assert GetOrCreateNominalLocation(db', nlRow) == Success(Got(db', nl.id, false));
      GetFinds(db'.measurements, Self, g.id);
    }
  }

  // ---------------------------------------------------------------------
  // preProcessParams

  /** The outcome of a check on a row: the row passes, SkipRecord, or an
      exception that ends the load. */
  datatype Checked<T> = Pass(value: T) | SkipRecord | Fatal(e: LoadError)

  /** What the coordinate check accepts: both coordinates present, numbers,
      neither the missing value nor 0.0, and (when `ranges`) latitude
      within [-90, 90] and longitude within [-720, 720]. */
  predicate GoodCoordinates(row: Rows.Row, ranges: bool)
  {
    "longitude" in row && "latitude" in row
    && row["longitude"].Num? && row["latitude"].Num?
    && row["longitude"].x != Rows.MissingValue && row["latitude"].x != Rows.MissingValue
    && row["longitude"].x != 0.0 && row["latitude"].x != 0.0
    && (ranges ==> -90.0 <= row["latitude"].x <= 90.0 && -720.0 <= row["longitude"].x <= 720.0)
  }

  /** The coordinate checks of `preProcessParams`, in the source's order:
      a missing key; either coordinate equal to the missing value;
      `float(longitude) == 0.0`, then `float(latitude) == 0.0`;
      `isnan(longitude)`, then `isnan(latitude)`; then (when `ranges`)
      the latitude and longitude bounds. Each test runs only when those
      before it are false, so text stops the load only when no earlier
      test skips the row: text `float()` refuses raises ValueError, and
      text it reads raises TypeError at `isnan`. */
  function CheckCoordinates(row: Rows.Row, ranges: bool): (r: Checked<Rows.Row>)
    ensures r.Pass? <==> GoodCoordinates(row, ranges)
    ensures r.Pass? ==> r.value == row
    ensures r.Fatal? ==> "longitude" in row && "latitude" in row
    ensures r.Fatal? ==> row["longitude"].Text? || row["latitude"].Text?
    ensures r.Fatal? ==> r.e == CoordinateValueError || r.e == CoordinateTypeError
    ensures r == Fatal(CoordinateValueError) ==>
      Rows.FloatOf(row["longitude"]).None? || Rows.FloatOf(row["latitude"]).None?
    ensures r == Fatal(CoordinateTypeError) ==>
      Rows.FloatOf(row["longitude"]).Some? && Rows.FloatOf(row["latitude"]).Some?
      && !Rows.FloatIsZero(row["longitude"]) && !Rows.FloatIsZero(row["latitude"])
  {
    if "longitude" !in row || "latitude" !in row then SkipRecord
    else
      var lon, lat := row["longitude"], row["latitude"];
      if Rows.IsMissing(lon) || Rows.IsMissing(lat) then SkipRecord
      else if Rows.FloatOf(lon).None? then Fatal(CoordinateValueError)
      else if Rows.FloatIsZero(lon) then SkipRecord
      else if Rows.FloatOf(lat).None? then Fatal(CoordinateValueError)
      else if Rows.FloatIsZero(lat) then SkipRecord
      else if lon.Text? then Fatal(CoordinateTypeError)
      else if lon.NaN? then SkipRecord
      else if lat.Text? then Fatal(CoordinateTypeError)
      else if lat.NaN? then SkipRecord
      else if ranges && (lat.x > 90.0 || lat.x < -90.0) then SkipRecord
      else if ranges && (lon.x > 720.0 || lon.x < -720.0) then SkipRecord
      else Pass(row)
  }

  /** A zero latitude skips the row before any text longitude that
      `float()` reads is given to `isnan`. */
  lemma ZeroLatitudeSkips(row: Rows.Row, ranges: bool)
    requires "longitude" in row && "latitude" in row
    requires Rows.FloatOf(row["longitude"]).Some? && row["latitude"] == Rows.Num(0.0)
    ensures CheckCoordinates(row, ranges) == SkipRecord
  {
  }

  /** A NaN longitude skips the row before the latitude is given to
      `isnan`, so a text latitude that `float()` reads does not stop the
      load. */
  lemma NaNLongitudeSkips(row: Rows.Row, ranges: bool)
    requires "longitude" in row && "latitude" in row
    requires row["longitude"] == Rows.NaN && Rows.FloatOf(row["latitude"]).Some?
    ensures CheckCoordinates(row, ranges) == SkipRecord
  {
  }

  /** A longitude given as text that `float()` reads as a non-zero number,
      with a latitude that is not the missing value and that it also reads
      as non-zero, passes the zero tests and
      then stops the load with TypeError at `math.isnan()`. */
  lemma TextLongitudeFails(row: Rows.Row, ranges: bool)
    requires "longitude" in row && "latitude" in row && row["longitude"].Text?
    requires Rows.FloatOf(row["longitude"]).Some? && !Rows.FloatIsZero(row["longitude"])
    requires Rows.FloatOf(row["latitude"]).Some? && !Rows.FloatIsZero(row["latitude"])
    requires !Rows.IsMissing(row["latitude"])
    ensures CheckCoordinates(row, ranges) == Fatal(CoordinateTypeError)
  {
  }

  /** For example, a longitude of '1.5' with a latitude of 1.0. */
  lemma TextLongitudeTypeError(s: string, ranges: bool)
    requires Floats.Parse(s).Some? && Floats.Parse(s) != Some(Floats.Finite(0.0))
    ensures CheckCoordinates(map["longitude" := Rows.Text(s), "latitude" := Rows.Num(1.0)], ranges)
      == Fatal(CoordinateTypeError)
  {
    var row := map["longitude" := Rows.Text(s), "latitude" := Rows.Num(1.0)];
    assert "longitude" != "latitude";
    assert row["longitude"] == Rows.Text(s);
    TextLongitudeFails(row, ranges);
  }

  /** A longitude `float()` refuses, such as 'null' (`Floats.ParseNull`),
      stops the load at `float()`. */
  lemma UnreadableLongitudeFails(s: string, ranges: bool)
    requires Floats.Parse(s).None?
    ensures CheckCoordinates(map["longitude" := Rows.Text(s), "latitude" := Rows.Num(1.0)], ranges)
      == Fatal(CoordinateValueError)
  {
    var row := map["longitude" := Rows.Text(s), "latitude" := Rows.Num(1.0)];
    assert "longitude" != "latitude";
    assert row["longitude"] == Rows.Text(s);
  }

  /** A longitude given as text `float()` reads, such as '1.5'
      (`Floats.ParseFraction`), is skipped when the latitude is 0.0. */
  lemma TextLongitudeSkips(s: string, ranges: bool)
    requires Floats.Parse(s).Some?
    ensures CheckCoordinates(map["longitude" := Rows.Text(s), "latitude" := Rows.Num(0.0)], ranges)
      == SkipRecord
  {
    var row := map["longitude" := Rows.Text(s), "latitude" := Rows.Num(0.0)];
    assert "longitude" != "latitude";
    assert row["longitude"] == Rows.Text(s);
    ZeroLatitudeSkips(row, ranges);
  }

  /** A latitude given as text `float()` reads, such as '1.5', is skipped
      when the longitude is NaN. */
  lemma TextLatitudeAfterNaN(s: string, ranges: bool)
    requires Floats.Parse(s).Some?
    ensures CheckCoordinates(map["longitude" := Rows.NaN, "latitude" := Rows.Text(s)], ranges)
      == SkipRecord
  {
    var row := map["longitude" := Rows.NaN, "latitude" := Rows.Text(s)];
    assert "longitude" != "latitude";
    assert row["latitude"] == Rows.Text(s);
    NaNLongitudeSkips(row, ranges);
  }

  /** `STOQS_Loader.preProcessParams(row)`: the row unchanged when its
      coordinates pass, with the range checks. */
  function PreProcessParams(row: Rows.Row): (r: Checked<Rows.Row>)
    ensures r.Pass? <==> GoodCoordinates(row, true)
    ensures r.Pass? ==> r.value == row
  {
    CheckCoordinates(row, true)
  }

  // ---------------------------------------------------------------------
  // checkForValidData

  /** A dataset variable as the precheck sees it: which of its values are
      NaN, or a variable whose read raises ValueError. */
  datatype DsVar = Readable(isNaN: seq<bool>) | Unreadable

  /** The variable exists, reads, and has a value that is not NaN. */
  predicate HasData(ds: map<string, DsVar>, v: string)
  {
    v in ds && ds[v].Readable? && exists i :: 0 <= i < |ds[v].isNaN| && !ds[v].isNaN[i]
  }

  /** The included names that have data, each once, in first-seen order,
      leaving out those in `seen`. */
  function WithData(names: seq<string>, ds: map<string, DsVar>, seen: set<string>): (r: seq<string>)
    ensures forall v :: v in r <==> v in names && v !in seen && HasData(ds, v)
    ensures forall i, j :: 0 <= i < j < |r| ==> r[i] != r[j]
    decreases |names|
  {
    if |names| == 0 then []
    else
      var v := names[0];
      var rest := WithData(names[1..], ds, seen + {v});
      assert forall w :: w in names <==> w == v || w in names[1..];
      if v !in seen && HasData(ds, v) then [v] + rest else rest
  }

  /** `checkForValidData()`: whether some included variable has a value
      that is not NaN; those variables are appended to `varsLoaded`.
      Absent and unreadable variables are passed over. */
  function CheckForValidData(st: State, ds: map<string, DsVar>): (r: (State, bool))
    ensures r.1 <==> exists v :: v in st.includeNames && HasData(ds, v)
    ensures r.0 == st.(varsLoaded := r.0.varsLoaded)
    ensures |st.varsLoaded| <= |r.0.varsLoaded| && r.0.varsLoaded[..|st.varsLoaded|] == st.varsLoaded
    ensures forall v :: v in r.0.varsLoaded[|st.varsLoaded|..] <==> v in st.includeNames && HasData(ds, v)
  {
    var added := WithData(st.includeNames, ds, {});
    var vl := st.varsLoaded + added;
    assert vl[|st.varsLoaded|..] == added;
    assert |added| > 0 ==> added[0] in added;
    (st.(varsLoaded := vl), |added| > 0)
  }

  // ---------------------------------------------------------------------
  // updateActivityParameterStats

  /** The statistics stored for a parameter's values, computed on the
      sorted values: count, least, greatest, mean, median, mode and the
      2.5/97.5 percentiles, and with `tails` the 1/99 percentiles too.
      None for no values. */
  function Summarize(xs: seq<real>, tails: bool): (s: Option<ParameterStats>)
    ensures s.None? <==> |xs| == 0
    ensures s.Some? ==> s.value.number == |xs| && s.value.min == Stats.Min(xs) && s.value.max == Stats.Max(xs)
    ensures s.Some? ==> s.value.min <= s.value.p025 <= s.value.median <= s.value.p975 <= s.value.max
    ensures s.Some? ==> s.value.min <= s.value.mean <= s.value.max && s.value.min <= s.value.mode <= s.value.max
    ensures s.Some? ==> (s.value.p010.Some? <==> tails) && (s.value.p990.Some? <==> tails)
    ensures s.Some? && tails ==> s.value.min <= s.value.p010.value <= s.value.p025 && s.value.p975 <= s.value.p990.value <= s.value.max
  {
    if |xs| == 0 then None
    else
      var v := Stats.Sort(xs);
      Stats.MinMaxPermutation(xs, v);
      Stats.PercentileMonotone(v, 0.010, 0.025);
      Stats.PercentileMonotone(v, 0.025, 0.5);
      Stats.PercentileMonotone(v, 0.5, 0.975);
      Stats.PercentileMonotone(v, 0.975, 0.990);
      Some(ParameterStats(
        |v|, Stats.Min(v), Stats.Max(v), Stats.Mean(v), Stats.Median(v).value, Stats.Mode(v).value,
        Stats.Percentile(v, 0.025).value, Stats.Percentile(v, 0.975).value,
        if tails then Some(Stats.Percentile(v, 0.010).value) else None,
        if tails then Some(Stats.Percentile(v, 0.990).value) else None))
  }

  /** What the model needs of `numpy.histogram(xs, n)`: `n` counts and
      `n + 1` bin edges. */
  ghost predicate HistogramLike(hist: (seq<real>, nat) -> (seq<nat>, seq<real>))
  {
    forall xs, n: nat :: |hist(xs, n).0| == n && |hist(xs, n).1| == n + 1
  }

  /** The bins the source stores: 10 for sampled parameters, 100 for
      measured ones. */
  function BinCount(sampled: bool): nat
  {
    if sampled then 10 else 100
  }

  /** The histogram row for bin `i`. */
  function Bin(ap: nat, counts: seq<nat>, edges: seq<real>, i: nat): Histogram
    requires i < |counts| && |edges| == |counts| + 1
  {
    Histogram(ap, edges[i], edges[i + 1], counts[i])
  }

  /** Only the histogram table differs, and it only grew. */
  predicate HistogramsGrew(db: Db, db2: Db)
  {
    db2 == db.(histograms := db2.histograms) && db.histograms <= db2.histograms
  }

  /** `get_or_create` of `bins[i..]` in turn on the histogram table. */
  function AddBins(hs: seq<Histogram>, bins: seq<Histogram>, i: nat): (r: Result<seq<Histogram>, DbError>)
    requires i <= |bins|
    ensures r.Success? ==> hs <= r.value
    ensures r.Success? ==> forall j :: i <= j < |bins| ==> bins[j] in r.value
    ensures r.Success? ==> forall h :: h in r.value ==> h in hs || h in bins
    ensures r.Failure? ==> r.error == MultipleObjectsReturned
    decreases |bins| - i
  {
    if i == |bins| then Success(hs)
    else
      match GetOrCreate(hs, Self, bins[i])
      case Failure(e) => Failure(e)
      case Success(o) =>
        assert bins[i] in o.rows;
        match AddBins(o.rows, bins, i + 1)
        case Failure(e) => Failure(e)
        case Success(t) =>
          PrefixMember(o.rows, t, bins[i]);
          Success(t)
  }

  /** The `get_or_create` of one row per count, with the bin's lower and
      upper edge. */
  function StoreHistogram(db: Db, ap: nat, counts: seq<nat>, edges: seq<real>): (r: Result<Db, DbError>)
    requires Valid(db) && ap < |db.activityParameters| && |edges| == |counts| + 1
    ensures r.Success? ==> Valid(r.value) && HistogramsGrew(db, r.value)
    ensures r.Success? ==> forall j :: 0 <= j < |counts| ==> Bin(ap, counts, edges, j) in r.value.histograms
    ensures r.Failure? ==> r.error == MultipleObjectsReturned
  {
    var bins := seq(|counts|, j requires 0 <= j < |counts| => Bin(ap, counts, edges, j));
    match AddBins(db.histograms, bins, 0)
    case Failure(e) => Failure(e)
    case Success(hs) =>
      BinsLinked(db.histograms, bins, hs, |db.activityParameters|);
      assert forall j :: 0 <= j < |counts| ==> bins[j] == Bin(ap, counts, edges, j);
      Success(WithHistograms(db, hs))
  }

  /** Histogram rows drawn from rows and bins that all refer below `n`
      refer below `n` too. */
  lemma BinsLinked(hs0: seq<Histogram>, bins: seq<Histogram>, hs: seq<Histogram>, n: nat)
    requires RefsBelow(hs0, HistogramAp, n)
    requires forall j :: 0 <= j < |bins| ==> bins[j].activityparameter < n
    requires forall h :: h in hs ==> h in hs0 || h in bins
    ensures forall k :: 0 <= k < |hs| ==> hs[k].activityparameter < n
  {
    forall k | 0 <= k < |hs| ensures hs[k].activityparameter < n {
      assert hs[k] in hs;
      if hs[k] in hs0 {
        var m :| 0 <= m < |hs0| && hs0[m] == hs[k];
        assert HistogramAp(hs0[m]) < n;
      } else {
        var m :| 0 <= m < |bins| && bins[m] == hs[k];
      }
    }
  }

  /** What a sequence holds, any sequence it prefixes holds too. */
  lemma PrefixMember<T>(s: seq<T>, t: seq<T>, x: T)
    requires s <= t && x in s
    ensures x in t
  {
    var k :| 0 <= k < |s| && s[k] == x;
    assert t[k] == x;
  }

  /** The values `updateActivityParameterStats` reads for parameter `p` of
      activity `a`: sampled or measured. */
  function ValuesFor(db: Db, a: nat, p: nat, sampled: bool): seq<real>
  {
    if sampled then SampledValues(db.samples, db.instantPoints, db.sampledParameters, p, a)
    else MeasuredValues(db.measurements, db.instantPoints, db.measuredParameters, p, Some(a))
  }

  /** The ActivityParameter row for (a, p) holds statistics `s`. */
  predicate StatsStored(db: Db, a: nat, p: nat, s: ParameterStats)
  {
    exists i :: 0 <= i < |db.activityParameters| && db.activityParameters[i] == ActivityParameter(a, p, Some(s))
  }

  /** The row for (a, p) holds the statistics of its current values, with
      the 1/99 percentiles when `tails`. */
  predicate Current(db: Db, a: nat, p: nat, sampled: bool, tails: bool)
  {
    var s := Summarize(ValuesFor(db, a, p, sampled), tails);
    s.Some? && StatsStored(db, a, p, s.value)
  }

  /** Only the ActivityParameter and histogram tables differ. */
  predicate SameData(db: Db, db2: Db)
  {
    db2 == db.(activityParameters := db2.activityParameters, histograms := db2.histograms)
  }

  /** `ap.save()` with the statistics `s` and the histogram rows for the
      ActivityParameter of (a, p): the row is found or created, updated,
      and every bin stored. */
  function StoreStats(db: Db, a: nat, p: nat, s: ParameterStats, counts: seq<nat>, edges: seq<real>): (r: Result<(Db, nat), DbError>)
    requires Valid(db) && a < |db.activities| && p < |db.parameters| && |edges| == |counts| + 1
    ensures r.Success? ==> Valid(r.value.0) && SameData(db, r.value.0)
    ensures r.Success? ==> r.value.1 < |r.value.0.activityParameters| && r.value.0.activityParameters[r.value.1] == ActivityParameter(a, p, Some(s))
    ensures r.Success? ==> |db.activityParameters| <= |r.value.0.activityParameters|
    ensures r.Success? ==> forall i :: 0 <= i < |db.activityParameters| && i != r.value.1 ==> r.value.0.activityParameters[i] == db.activityParameters[i]
    ensures r.Success? && r.value.1 < |db.activityParameters| ==> ActivityParameterKey(db.activityParameters[r.value.1]) == (a, p)
    ensures r.Success? ==> forall j :: 0 <= j < |counts| ==> Bin(r.value.1, counts, edges, j) in r.value.0.histograms
    ensures r.Failure? ==> r.error == MultipleObjectsReturned
  {
    var g := GetOrCreateActivityParameter(db, a, p);
    var db1 := SetStats(g.db, g.id, s);
    assert db1.activityParameters == g.db.activityParameters[g.id := ActivityParameter(a, p, Some(s))];
    assert g.db.activityParameters == db.activityParameters || g.id == |db.activityParameters|;
    match StoreHistogram(db1, g.id, counts, edges)
    case Failure(e) => Failure(e)
    case Success(db2) =>
      assert db2.activityParameters == db1.activityParameters;
      Success((db2, g.id))
  }

  /** Writing statistics to the row for (a, p) leaves every other
      parameter's current statistics in place. */
  lemma KeepsCurrent(db: Db, db2: Db, a: nat, p: nat, sampled: bool, tails: bool, id: nat, s: ParameterStats)
    requires SameData(db, db2)
    requires |db.activityParameters| <= |db2.activityParameters| && id < |db2.activityParameters|
    requires forall i :: 0 <= i < |db.activityParameters| && i != id ==> db2.activityParameters[i] == db.activityParameters[i]
    requires db2.activityParameters[id] == ActivityParameter(a, p, Some(s))
    requires id < |db.activityParameters| ==> ActivityParameterKey(db.activityParameters[id]) == (a, p)
    requires Summarize(ValuesFor(db, a, p, sampled), tails) == Some(s)
    ensures StillCurrent(db, db2, a, sampled, tails)
  {
    forall p' | Current(db, a, p', sampled, tails) ensures Current(db2, a, p', sampled, tails) {
      var s' := Summarize(ValuesFor(db, a, p', sampled), tails).value;
      assert ValuesFor(db2, a, p', sampled) == ValuesFor(db, a, p', sampled);
      var i :| 0 <= i < |db.activityParameters| && db.activityParameters[i] == ActivityParameter(a, p', Some(s'));
      if i == id {
        assert p' == p;
        assert db2.activityParameters[id] == ActivityParameter(a, p', Some(s'));
      } else {
        assert db2.activityParameters[i] == ActivityParameter(a, p', Some(s'));
      }
    }
  }

  /** Every parameter whose statistics are current in `db` is current in
      `db2`. */
  ghost predicate StillCurrent(db: Db, db2: Db, a: nat, sampled: bool, tails: bool)
  {
    forall p :: Current(db, a, p, sampled, tails) ==> Current(db2, a, p, sampled, tails)
  }

  /** Every parameter `params[j]`, `j >= i`, that has values in `src` is
      current in `db`. */
  predicate CurrentFrom(src: Db, db: Db, a: nat, params: seq<nat>, sampled: bool, tails: bool, i: nat)
  {
    forall j :: i <= j < |params| && |ValuesFor(src, a, params[j], sampled)| > 0 ==> Current(db, a, params[j], sampled, tails)
  }

  /** The statistics and histogram of one parameter; nothing for a
      parameter without values. */
  function UpdateOne(db: Db, a: nat, p: nat, sampled: bool, tails: bool, hist: (seq<real>, nat) -> (seq<nat>, seq<real>)): (r: Result<Db, DbError>)
    requires Valid(db) && a < |db.activities| && p < |db.parameters| && HistogramLike(hist)
    ensures r.Success? ==> Valid(r.value) && SameData(db, r.value)
    ensures r.Success? && |ValuesFor(db, a, p, sampled)| > 0 ==> Current(r.value, a, p, sampled, tails)
    ensures r.Success? ==> StillCurrent(db, r.value, a, sampled, tails)
    ensures r.Failure? ==> r.error == MultipleObjectsReturned
  {
    var xs := ValuesFor(db, a, p, sampled);
    match Summarize(xs, tails)
    case None => Success(db)
    case Some(s) =>
      var h := hist(Stats.Sort(xs), BinCount(sampled));
      match StoreStats(db, a, p, s, h.0, h.1)
      case Failure(e) => Failure(e)
      case Success((db2, id)) =>
        KeepsCurrent(db, db2, a, p, sampled, tails, id, s);
        assert ValuesFor(db2, a, p, sampled) == xs;
        Success(db2)
  }

  /** Tables that differ only in statistics hold the same values. */
  lemma SameValues(db: Db, db2: Db, a: nat, sampled: bool)
    requires SameData(db, db2)
    ensures forall p :: ValuesFor(db2, a, p, sampled) == ValuesFor(db, a, p, sampled)
  {
  }

  /** The statistics of `params[i..]` in order; stops at the first
      exception. */
  function UpdateFrom(db: Db, a: nat, params: seq<nat>, sampled: bool, tails: bool, hist: (seq<real>, nat) -> (seq<nat>, seq<real>), i: nat): (r: Result<Db, DbError>)
    requires Valid(db) && a < |db.activities| && HistogramLike(hist) && i <= |params|
    requires forall j :: 0 <= j < |params| ==> params[j] < |db.parameters|
    ensures r.Success? ==> Valid(r.value) && SameData(db, r.value)
    ensures r.Success? ==> CurrentFrom(db, r.value, a, params, sampled, tails, i)
    ensures r.Success? ==> StillCurrent(db, r.value, a, sampled, tails)
    ensures r.Failure? ==> r.error == MultipleObjectsReturned
    decreases |params| - i, 1
  {
    if i == |params| then
      UpdateNone(db, a, params, sampled, tails);
      Success(db)
    else
      match UpdateOne(db, a, params[i], sampled, tails, hist)
      case Failure(e) => Failure(e)
      case Success(db1) => UpdateRest(db, db1, a, params, sampled, tails, hist, i)
  }

  /** Past the last parameter nothing is left to update. */
  lemma UpdateNone(db: Db, a: nat, params: seq<nat>, sampled: bool, tails: bool)
    ensures SameData(db, db)
    ensures CurrentFrom(db, db, a, params, sampled, tails, |params|)
    ensures StillCurrent(db, db, a, sampled, tails)
  {
  }

  /** The rest of `UpdateFrom` once `params[i]` has been updated in `db1`. */
  function UpdateRest(db: Db, db1: Db, a: nat, params: seq<nat>, sampled: bool, tails: bool, hist: (seq<real>, nat) -> (seq<nat>, seq<real>), i: nat): (r: Result<Db, DbError>)
    requires Valid(db1) && SameData(db, db1) && a < |db.activities| && HistogramLike(hist) && i < |params|
    requires forall j :: 0 <= j < |params| ==> params[j] < |db.parameters|
    requires |ValuesFor(db, a, params[i], sampled)| > 0 ==> Current(db1, a, params[i], sampled, tails)
    requires StillCurrent(db, db1, a, sampled, tails)
    ensures r.Success? ==> Valid(r.value) && SameData(db, r.value)
    ensures r.Success? ==> CurrentFrom(db, r.value, a, params, sampled, tails, i)
    ensures r.Success? ==> StillCurrent(db, r.value, a, sampled, tails)
    ensures r.Failure? ==> r.error == MultipleObjectsReturned
    decreases |params| - i, 0
  {
    match UpdateFrom(db1, a, params, sampled, tails, hist, i + 1)
    case Failure(e) => Failure(e)
    case Success(db2) =>
      UpdateChain(db, db1, db2, a, params, sampled, tails, i);
      Success(db2)
  }

  /** One parameter's update followed by the rest's keeps both. */
  lemma UpdateChain(db: Db, db1: Db, db2: Db, a: nat, params: seq<nat>, sampled: bool, tails: bool, i: nat)
    requires i < |params| && SameData(db, db1) && SameData(db1, db2)
    requires |ValuesFor(db, a, params[i], sampled)| > 0 ==> Current(db1, a, params[i], sampled, tails)
    requires StillCurrent(db, db1, a, sampled, tails)
    requires CurrentFrom(db1, db2, a, params, sampled, tails, i + 1)
    requires StillCurrent(db1, db2, a, sampled, tails)
    ensures SameData(db, db2)
    ensures CurrentFrom(db, db2, a, params, sampled, tails, i)
    ensures StillCurrent(db, db2, a, sampled, tails)
  {
    SameValues(db, db1, a, sampled);
  }

  /** `updateActivityParameterStats(parameterCounts, sampledFlag)`: raises
      without an activity; otherwise, for every parameter with values in
      the activity, the ActivityParameter row holds the statistics of those
      values and the histogram rows are stored. A parameter without values
      is passed over. */
  function UpdateActivityParameterStats(st: State, params: seq<nat>, sampled: bool, hist: (seq<real>, nat) -> (seq<nat>, seq<real>)): (r: Result<State, LoadError>)
    requires Good(st) && HistogramLike(hist)
    requires forall j :: 0 <= j < |params| ==> params[j] < |st.db.parameters|
    ensures st.activity.None? ==> r == Failure(NoActivity)
    ensures r.Failure? ==> r.error == NoActivity || r.error == DatabaseError(MultipleObjectsReturned)
    ensures r.Success? ==> Good(r.value) && r.value == st.(db := r.value.db) && SameData(st.db, r.value.db)
    ensures r.Success? ==> forall j :: 0 <= j < |params| && |ValuesFor(st.db, st.activity.value, params[j], sampled)| > 0 ==>
      Current(r.value.db, st.activity.value, params[j], sampled, true)
  {
    if st.activity.None? then Failure(NoActivity)
    else
      match UpdateFrom(st.db, st.activity.value, params, sampled, true, hist, 0)
      case Failure(e) => Failure(DatabaseError(e))
      case Success(db) => Success(st.(db := db))
  }
  // ---------------------------------------------------------------------
  // insertSimpleDepthTimeSeries / insertSimpleBottomDepthTimeSeries

  /** One point of the series handed to `simplify_points`, with the row it
      was read from and that row's instant point (the parallel `pklookup`
      list). */
  datatype Sourced = Sourced(pt: Simplify.Point, row: nat, instantpoint: nat)

  /** Milliseconds since 1970 of an instant point. */
  function EpochMillis(ip: InstantPoint): real
  {
    1000.0 * ip.timevalue
  }

  /** The measurements of activity `a` in table order, each as (time in
      milliseconds, depth). */
  function DepthLine(ms: seq<Measurement>, ips: seq<InstantPoint>, a: nat): (line: seq<Sourced>)
    ensures |line| <= |ms|
    ensures forall j :: 0 <= j < |line| ==> line[j].row < |ms| && line[j].instantpoint == ms[line[j].row].instantpoint
    ensures forall j :: 0 <= j < |line| ==> line[j].instantpoint < |ips| && ips[line[j].instantpoint].activity == a
    ensures forall j :: 0 <= j < |line| ==> line[j].pt == Simplify.Point(EpochMillis(ips[line[j].instantpoint]), ms[line[j].row].depth)
    ensures forall j, l :: 0 <= j < l < |line| ==> line[j].row < line[l].row
  {
    if |ms| == 0 then []
    else
      var m := |ms| - 1;
      var init := DepthLine(ms[..m], ips, a);
      if MeasurementActivity(ms, ips, m) == Some(a) then
        init + [Sourced(Simplify.Point(EpochMillis(ips[ms[m].instantpoint]), ms[m].depth), m, ms[m].instantpoint)]
      else init
  }

  /** The standard name of the altitude parameter. */
  const HeightAboveSeaFloor := "height_above_sea_floor"

  /** A value of an altitude parameter in activity `a`. */
  predicate AltitudeIn(db: Db, mp: MeasuredParameter, a: nat)
  {
    mp.parameter < |db.parameters| && db.parameters[mp.parameter].standardName == Some(HeightAboveSeaFloor)
    && MeasurementActivity(db.measurements, db.instantPoints, mp.measurement) == Some(a)
  }

  /** The altitude values of activity `a` in table order, each as (time in
      milliseconds, depth of its measurement plus the altitude). */
  function BottomLine(db: Db, mps: seq<MeasuredParameter>, a: nat): (line: seq<Sourced>)
    ensures |line| <= |mps|
    ensures forall j :: 0 <= j < |line| ==> line[j].row < |mps| && AltitudeIn(db, mps[line[j].row], a)
    ensures forall j :: 0 <= j < |line| ==> mps[line[j].row].measurement < |db.measurements|
    ensures forall j :: 0 <= j < |line| ==> db.measurements[mps[line[j].row].measurement].instantpoint < |db.instantPoints|
    ensures forall j :: 0 <= j < |line| ==>
      var m := db.measurements[mps[line[j].row].measurement];
      line[j].instantpoint == m.instantpoint
      && line[j].pt == Simplify.Point(EpochMillis(db.instantPoints[m.instantpoint]), m.depth + mps[line[j].row].datavalue)
    ensures forall j, l :: 0 <= j < l < |line| ==> line[j].row < line[l].row
  {
    if |mps| == 0 then []
    else
      var k := |mps| - 1;
      var init := BottomLine(db, mps[..k], a);
      if AltitudeIn(db, mps[k], a) then
        var m := db.measurements[mps[k].measurement];
        init + [Sourced(Simplify.Point(EpochMillis(db.instantPoints[m.instantpoint]), m.depth + mps[k].datavalue), k, m.instantpoint)]
      else init
  }

  /** The points of a series. */
  function Points(line: seq<Sourced>): (pts: seq<Simplify.Point>)
    ensures |pts| == |line| && forall j :: 0 <= j < |line| ==> pts[j] == line[j].pt
  {
    seq(|line|, j requires 0 <= j < |line| => line[j].pt)
  }

  /** The tolerance both methods pass to `simplify_points`. */
  const Crit: real := 10.0

  /** `kept` lists indices of a series of `n` points in increasing order,
      none when the series is empty, otherwise starting with the first point
      and ending with the last. */
  predicate KeptFrom(n: nat, kept: seq<nat>)
  {
    (forall j :: 0 <= j < |kept| ==> kept[j] < n)
    && (forall j, l :: 0 <= j < l < |kept| ==> kept[j] < kept[l])
    && (n == 0 <==> |kept| == 0)
    && (n > 0 ==> kept[0] == 0 && kept[|kept| - 1] == n - 1)
  }

  /** `simplify_points(line, 10)` with IndexError taken as no points: the
      indices of the kept points, in increasing order, with the first and
      last point of a non-empty series, and exactly the reference set. */
  method Simplified(line: seq<Sourced>, sqrt: real -> real, v: Variant) returns (kept: seq<nat>)
    requires Simplify.SqrtLike(sqrt)
    ensures KeptFrom(|line|, kept)
    ensures |line| > 0 ==> (set j | 0 <= j < |kept| :: kept[j]) == Simplify.Keep(Points(line), 0, |line| - 1, Crit, sqrt, v)
  {
    var r := Simplify.SimplifyPoints(Points(line), Crit, sqrt, v);
    if r.Failure? {
      return [];
    }
    kept := IndexList(r.value);
    IndexListKept(r.value, |line|);
  }

  /** The indices of a list of indexed points, in the same order. */
  function IndexList(ps: seq<Simplify.IndexedPoint>): (ks: seq<nat>)
    ensures |ks| == |ps|
    ensures forall j :: 0 <= j < |ps| ==> ks[j] == ps[j].index
    ensures (set j | 0 <= j < |ks| :: ks[j]) == Simplify.Indices(ps)
  {
    var ks := seq(|ps|, j requires 0 <= j < |ps| => ps[j].index);
    assert (set j | 0 <= j < |ks| :: ks[j]) == Simplify.Indices(ps) by {
      forall x | x in Simplify.Indices(ps) ensures x in (set j | 0 <= j < |ks| :: ks[j]) {
        var j :| 0 <= j < |ps| && ps[j].index == x;
        assert ks[j] == x;
      }
    }
    ks
  }

  /** The indices of a non-empty, strictly increasing list of points of a
      series of `n`, from the first to the last, are kept from it. */
  lemma IndexListKept(ps: seq<Simplify.IndexedPoint>, n: nat)
    requires n > 0 && |ps| > 0 && ps[0].index == 0 && ps[|ps| - 1].index == n - 1
    requires forall k :: 0 <= k < |ps| ==> ps[k].index < n
    requires forall k, l :: 0 <= k < l < |ps| ==> ps[k].index < ps[l].index
    ensures KeptFrom(n, IndexList(ps))
  {
  }

  /** The SimpleDepthTime row of each kept point: the point's time and depth
      against the instant point of the row it came from. */
  function DepthRows(a: nat, line: seq<Sourced>, kept: seq<nat>): (rows: seq<SimpleDepthTime>)
    requires forall j :: 0 <= j < |kept| ==> kept[j] < |line|
    ensures |rows| == |kept|
    ensures forall j :: 0 <= j < |kept| ==>
      rows[j] == SimpleDepthTime(a, line[kept[j]].instantpoint, line[kept[j]].pt.x, line[kept[j]].pt.y)
  {
    seq(|kept|, j requires 0 <= j < |kept| =>
      SimpleDepthTime(a, line[kept[j]].instantpoint, line[kept[j]].pt.x, line[kept[j]].pt.y))
  }

  /** The SimpleBottomDepthTime row of each kept point. */
  function BottomRows(a: nat, line: seq<Sourced>, kept: seq<nat>): (rows: seq<SimpleBottomDepthTime>)
    requires forall j :: 0 <= j < |kept| ==> kept[j] < |line|
    ensures |rows| == |kept|
    ensures forall j :: 0 <= j < |kept| ==>
      rows[j] == SimpleBottomDepthTime(a, line[kept[j]].instantpoint, line[kept[j]].pt.x, line[kept[j]].pt.y)
  {
    seq(|kept|, j requires 0 <= j < |kept| =>
      SimpleBottomDepthTime(a, line[kept[j]].instantpoint, line[kept[j]].pt.x, line[kept[j]].pt.y))
  }

  /** Every point of the series comes from an instant point of the database. */
  predicate FromInstants(line: seq<Sourced>, db: Db)
  {
    forall i :: 0 <= i < |line| ==> line[i].instantpoint < |db.instantPoints|
  }

  /** The `create` of the SimpleDepthTime rows of the kept points. */
  function SaveDepthRows(st: State, line: seq<Sourced>, kept: seq<nat>): (r: State)
    requires Good(st) && st.activity.Some? && FromInstants(line, st.db) && KeptFrom(|line|, kept)
    ensures Good(r) && r == st.(db := st.db.(simpleDepthTimes := st.db.simpleDepthTimes + DepthRows(st.activity.value, line, kept)))
  {
    var rows := DepthRows(st.activity.value, line, kept);
    assert forall j :: 0 <= j < |rows| ==> rows[j].instantpoint == line[kept[j]].instantpoint;
    WithDb(st, CreateSimpleDepthTimes(st.db, rows))
  }

  /** The `create` of the SimpleBottomDepthTime rows of the kept points. */
  function SaveBottomRows(st: State, line: seq<Sourced>, kept: seq<nat>): (r: State)
    requires Good(st) && st.activity.Some? && FromInstants(line, st.db) && KeptFrom(|line|, kept)
    ensures Good(r) && r == st.(db := st.db.(simpleBottomDepthTimes := st.db.simpleBottomDepthTimes + BottomRows(st.activity.value, line, kept)))
  {
    var rows := BottomRows(st.activity.value, line, kept);
    assert forall j :: 0 <= j < |rows| ==> rows[j].instantpoint == line[kept[j]].instantpoint;
    WithDb(st, CreateSimpleBottomDepthTimes(st.db, rows))
  }

  /** `insertSimpleDepthTimeSeries()`: the depth series of the activity is
      simplified and one SimpleDepthTime row stored per kept point, each
      against the instant point of the measurement the point came from.
      Without an activity the series is empty and nothing is stored. */
  method InsertSimpleDepthTimeSeries(st: State, sqrt: real -> real, v: Variant) returns (r: State, kept: seq<nat>)
    requires Good(st) && Simplify.SqrtLike(sqrt)
    ensures st.activity.None? ==> r == st && kept == []
    ensures st.activity.Some? ==>
      var line := DepthLine(st.db.measurements, st.db.instantPoints, st.activity.value);
      KeptFrom(|line|, kept) && r == SaveDepthRows(st, line, kept)
  {
    if st.activity.None? {
      return st, [];
    }
    var line := DepthLine(st.db.measurements, st.db.instantPoints, st.activity.value);
    kept := Simplified(line, sqrt, v);
    r := SaveDepthRows(st, line, kept);
  }

  /** `insertSimpleBottomDepthTimeSeries()`: the same over the bottom depth,
      the measurement's depth plus the altitude. */
  method InsertSimpleBottomDepthTimeSeries(st: State, sqrt: real -> real, v: Variant) returns (r: State, kept: seq<nat>)
    requires Good(st) && Simplify.SqrtLike(sqrt)
    ensures st.activity.None? ==> r == st && kept == []
    ensures st.activity.Some? ==>
      var line := BottomLine(st.db, st.db.measuredParameters, st.activity.value);
      KeptFrom(|line|, kept) && r == SaveBottomRows(st, line, kept)
  {
    if st.activity.None? {
      return st, [];
    }
    var line := BottomLine(st.db, st.db.measuredParameters, st.activity.value);
    kept := Simplified(line, sqrt, v);
    r := SaveBottomRows(st, line, kept);
  }

  /** Every stored bottom-depth row is the depth of a measurement of the
      activity plus an altitude value measured with it. */
  lemma BottomDepthIsDepthPlusAltitude(db: Db, a: nat, kept: seq<nat>, j: nat)
    requires var line := BottomLine(db, db.measuredParameters, a);
      (forall i :: 0 <= i < |kept| ==> kept[i] < |line|) && j < |kept|
    ensures var line := BottomLine(db, db.measuredParameters, a);
      var row := BottomRows(a, line, kept)[j];
      exists k :: 0 <= k < |db.measuredParameters| && AltitudeIn(db, db.measuredParameters[k], a)
        && row.bottomdepth == db.measurements[db.measuredParameters[k].measurement].depth + db.measuredParameters[k].datavalue
        && row.instantpoint == db.measurements[db.measuredParameters[k].measurement].instantpoint
  {
    var line := BottomLine(db, db.measuredParameters, a);
    var k := line[kept[j]].row;
    assert AltitudeIn(db, db.measuredParameters[k], a);
  }
}

=== FILE: monitor.dfy ===
/** The LRAUV realtime monitor (`monitorLrauv.py`): it walks the crawled
    shore-side log files in sorted order, converts those that end after the
    previous one, and asks the loader to load each converted file as an
    activity named after the vehicle and the file's start time. The
    dataset reads, the converter and the loader are parameters. */
module Monitor {
  import opened Wrappers
  import opened Strs
  import opened Order
  import opened Findings
  import Clock

  // ---------------------------------------------------------------------
  // Units and file names

  const EpochUnits: string := "seconds since 1970-01-01 00:00:00"
  const ZuluUnits: string := "seconds since 1970-01-01T00:00:00Z"
  const SlashUnits: string := "seconds since 1970/01/01 00:00:00Z"

  /** `getNcStartEnd` rewrites the two UTC spellings of the epoch into the
      one the units library accepts and leaves every other text alone. */
  function Units(u: string): (r: string)
    ensures r == u || r == EpochUnits
    ensures r == EpochUnits <==> u == ZuluUnits || u == SlashUnits || u == EpochUnits
  {
    if u == ZuluUnits || u == SlashUnits then EpochUnits else u
  }

  /** Normalised units stay as they are. */
  lemma UnitsIdempotent(u: string)
    ensures Units(Units(u)) == Units(u)
  {
  }

  /** The last `/`-part of the URL up to its first `.`. */
  function Stem(url: string): (r: string)
    ensures !Contains(r, "/") && !Contains(r, ".")
  {
    var last := SplitLast(url, "/");
    var r := SplitFirst(last, ".");
    PrefixKeepsOut(last, r, "/");
    r
  }

  /** A prefix of a string without `sub` has no `sub` either. */
  lemma PrefixKeepsOut(s: string, r: string, sub: string)
    requires |r| <= |s| && s[..|r|] == r && !Contains(s, sub)
    ensures !Contains(r, sub)
  {
    forall i | OccursAt(r, sub, i) ensures false {
      assert r[i..i + |sub|] == s[i..i + |sub|];
      assert OccursAt(s, sub, i);
    }
  }

  /** `processDecimated`'s `outFile_i`. */
  function OutFile(outDir: string, url: string): string
  {
    PathJoin(outDir, Stem(url) + "_i.nc")
  }

  /** The file is written into `outDir` under the URL's file name less
      every extension, with `_i.nc` added, and that name holds no `/`. */
  lemma OutFileName(outDir: string, url: string)
    ensures var f := OutFile(outDir, url); var stem := Stem(url);
      StartsWith(f, outDir) && EndsWith(f, stem + "_i.nc")
      && !Contains(stem, "/") && !Contains(stem, ".")
      && StartsWith(SplitLast(url, "/"), stem) && EndsWith(url, SplitLast(url, "/"))
  {
    var last := SplitLast(url, "/");
    assert last[..|Stem(url)|] == Stem(url);
    assert "_i.nc"[0..1] == "_";
    RelativeName(Stem(url), "_i.nc");
  }

  /** A name without `/` followed by text that does not start with one is
      a relative path. */
  lemma RelativeName(stem: string, ext: string)
    requires !Contains(stem, "/") && !StartsWith(ext, "/")
    ensures !StartsWith(stem + ext, "/")
  {
    if |stem| > 0 {
      assert (stem + ext)[0..1] == stem[0..1];
      assert !OccursAt(stem, "/", 0);
    } else {
      assert stem + ext == ext;
    }
  }

  // ---------------------------------------------------------------------
  // One file

  /** What `processDecimated` returns, with the file it writes. */
  datatype Decimated = Decimated(outFile: string, urlI: Option<string>, start: Clock.Stamp, end: Clock.Stamp)

  /** `processDecimated`: the file `url` spans `span`; `converts` says the
      converter ran without `TypeError`. The converted URL comes back only
      when the file ends after `last` and the conversion succeeded. */
  function ProcessDecimated(url: string, outDir: string, last: Clock.Stamp, span: (Clock.Stamp, Clock.Stamp), converts: bool): (d: Decimated)
    ensures d.start == span.0 && d.end == span.1 && d.outFile == OutFile(outDir, url)
    ensures d.urlI.Some? <==> Clock.Before(last, span.1) && converts
  {
    var urlI := if Clock.Before(last, span.1) && converts then Some(Replace(url, ".nc4", "_i.nc")) else None;
    Decimated(OutFile(outDir, url), urlI, span.0, span.1)
  }

  /** The gate compares instants: a file is converted only if its end is
      later in seconds since the epoch than `last`, and the converted URL
      is the file's with `.nc4` turned into `_i.nc`. */
  lemma GateByEpoch(url: string, outDir: string, last: Clock.Stamp, span: (Clock.Stamp, Clock.Stamp), converts: bool)
    requires Clock.Valid(last) && Clock.Valid(span.1)
    ensures var d := ProcessDecimated(url, outDir, last, span, converts);
      (d.urlI.Some? <==> Clock.Epoch(last) < Clock.Epoch(span.1) && converts)
      && (d.urlI.Some? ==> d.urlI.value == Replace(url, ".nc4", "_i.nc"))
  {
    Clock.EpochOrder(last, span.1);
  }

  // ---------------------------------------------------------------------
  // The vehicle

  datatype MonitorError = NoPlatform | NameError

  /** The first line, which is all `.*` can cross. */
  function FirstLine(s: string): string
  {
    SplitFirst(s, "\n")
  }

  /** `re.match('.*' + stem + last + '*', s)`: the trailing `*` lets the
      last letter be absent, so only the stem has to occur. */
  predicate Mentions(s: string, stem: string)
  {
    Contains(FirstLine(s), stem)
  }

  /** The vehicle named in the catalogue URL: `daphne` wins over `tethys`,
      and a URL naming neither is an error. */
  function PlatformOf(inUrl: string): (r: Result<string, MonitorError>)
    ensures r.Success? <==> Mentions(inUrl, "tethy") || Mentions(inUrl, "daphn")
    ensures r.Success? ==> r.value in Colors
    ensures r.Failure? ==> r.error == NoPlatform
  {
    var platform := if Mentions(inUrl, "tethy") then Some("tethys") else None;
    var platform := if Mentions(inUrl, "daphn") then Some("daphne") else platform;
    if platform.None? then Failure(NoPlatform) else Success(platform.value)
  }

  const Colors: map<string, string> := map["tethys" := "fed976", "daphne" := "feb24c"]

  lemma NoNewline(s: string)
    requires '\n' !in s
    ensures FirstLine(s) == s
  {
    var r := FirstLine(s);
    assert |r| < |s| ==> s[|r|..|r| + 1] == [s[|r|]] && s[|r|] != '\n';
  }

  lemma ContainsLonger(s: string, w: string, k: nat)
    requires Contains(s, w) && k <= |w|
    ensures Contains(s, w[..k])
  {
    var i :| 0 <= i <= |s| && OccursAt(s, w, i);
    assert s[i..i + k] == w[..k];
    assert OccursAt(s, w[..k], i);
  }

  /** On a one-line URL: one naming `daphne` is daphne's, one naming
      `tethys` and not `daphn` is tethys's, and the two names are
      recognised wherever they stand in the URL. */
  lemma PlatformOfUrl(inUrl: string)
    requires '\n' !in inUrl
    ensures Contains(inUrl, "daphne") ==> PlatformOf(inUrl) == Success("daphne")
    ensures Contains(inUrl, "tethys") && !Contains(inUrl, "daphn") ==> PlatformOf(inUrl) == Success("tethys")
    ensures !Contains(inUrl, "tethy") && !Contains(inUrl, "daphn") ==> PlatformOf(inUrl) == Failure(NoPlatform)
  {
    NoNewline(inUrl);
    var daphne, tethys := "daphne", "tethys";
    if Contains(inUrl, daphne) {
      ContainsLonger(inUrl, daphne, 5);
      assert daphne[..5] == "daphn";
    }
    if Contains(inUrl, tethys) {
      ContainsLonger(inUrl, tethys, 5);
      assert tethys[..5] == "tethy";
    }
  }

  // ---------------------------------------------------------------------
  // The loop

  /** What the script reads through other code: each file's start and end
      time, whether the converter accepts it, and the latest instant
      already loaded under an activity name. */
  datatype Env = Env(
    span: string -> (Clock.Stamp, Clock.Stamp),
    converts: string -> bool,
    lastLoaded: string -> Option<Clock.Stamp>)

  /** The files in the order given, each gated by the end of the one
      before it, the first by `last`. */
  function Steps(urls: seq<string>, outDir: string, last: Clock.Stamp, env: Env): (ds: seq<Decimated>)
    ensures |ds| == |urls|
    decreases |urls|
  {
    if |urls| == 0 then []
    else
      var d := ProcessDecimated(urls[0], outDir, last, env.span(urls[0]), env.converts(urls[0]));
      [d] + Steps(urls[1..], outDir, d.end, env)
  }

  /** The `lastDatetime` the file at `j` is compared with: the end of the
      previous file whether or not that one was loaded. */
  function Previous(urls: seq<string>, last: Clock.Stamp, env: Env, j: nat): Clock.Stamp
    requires j < |urls|
  {
    if j == 0 then last else env.span(urls[j - 1]).1
  }

  lemma {:induction false} StepAt(urls: seq<string>, outDir: string, last: Clock.Stamp, env: Env, j: nat)
    requires j < |urls|
    ensures Steps(urls, outDir, last, env)[j]
      == ProcessDecimated(urls[j], outDir, Previous(urls, last, env, j), env.span(urls[j]), env.converts(urls[j]))
    decreases j
  {
    if j > 0 {
      var end := env.span(urls[0]).1;
      var tail := urls[1..];
      StepAt(tail, outDir, end, env, j - 1);
      assert tail[j - 1] == urls[j];
      assert Previous(tail, end, env, j - 1) == Previous(urls, last, env, j);
      assert Steps(urls, outDir, last, env)[j] == Steps(tail, outDir, end, env)[j - 1];
    }
  }

  /** A file is converted exactly when it ends after the previous file
      ends (after `last` for the first) and the converter accepts it. */
  lemma StepsGate(urls: seq<string>, outDir: string, last: Clock.Stamp, env: Env, j: nat)
    requires j < |urls|
    ensures var d := Steps(urls, outDir, last, env)[j];
      (d.urlI.Some? <==> Clock.Before(Previous(urls, last, env, j), env.span(urls[j]).1) && env.converts(urls[j]))
      && d.start == env.span(urls[j]).0 && d.end == env.span(urls[j]).1
  {
    StepAt(urls, outDir, last, env, j);
  }

  /** In sorted order a file listed twice is converted at most once: every
      later copy follows an equal one and so cannot end after it. */
  lemma RepeatsSkipped(urls: seq<string>, outDir: string, last: Clock.Stamp, env: Env, i: nat, j: nat)
    requires Ordered(urls) && i < j < |urls| && urls[i] == urls[j]
    ensures Steps(urls, outDir, last, env)[j].urlI.None?
  {
    RepeatAdjacent(urls, i, j);
    StepsGate(urls, outDir, last, env, j);
  }

  // ---------------------------------------------------------------------
  // The script

  const Thredds: string := "http://elvis.shore.mbari.org/thredds/dodsC/LRAUV"
  const Hyrax: string := "http://dods.mbari.org/opendap/data/lrauv"

  /** One `runLrauvLoader` call. */
  datatype Call = Call(
    aName: string, platform: string, color: string, url: string,
    start: Clock.Stamp, dataStart: Option<Clock.Stamp>, end: Clock.Stamp, stride: nat)

  /** The calls made and, if the script stopped, why. */
  datatype Outcome = Outcome(calls: seq<Call>, failed: Option<MonitorError>)

  function ActivityName(platform: string, start: Clock.Stamp): string
  {
    platform + "_sbdlog_" + Clock.Compact(start)
  }

  function MakeCall(platform: string, d: Decimated, env: Env, append: bool): Call
    requires platform in Colors && d.urlI.Some?
  {
    var aName := ActivityName(platform, d.start);
    Call(aName, platform, Colors[platform], Replace(d.urlI.value, Thredds, Hyrax), d.start,
         if append then env.lastLoaded(aName) else None, d.end, 10)
  }

  /** The body of the loop for the converted files. As written, the
      `--append` branch queries `InstantPoint`, a name the script never
      imports (the models come in as `mod`), and would then read
      `self.dbAlias` at module level; the first converted file stops the
      script with `NameError`. Corrected, it asks the database the script
      loads into. */
  function Loads(v: Variant, platform: string, ds: seq<Decimated>, env: Env, append: bool): (o: Outcome)
    requires platform in Colors
    ensures |o.calls| <= |ds|
    decreases |ds|
  {
    if |ds| == 0 then Outcome([], None)
    else if ds[0].urlI.None? then Loads(v, platform, ds[1..], env, append)
    else if v == AsWritten && append then Outcome([], Some(NameError))
    else
      var rest := Loads(v, platform, ds[1..], env, append);
      Outcome([MakeCall(platform, ds[0], env, append)] + rest.calls, rest.failed)
  }

  /** The converted files, in order. */
  function Converted(ds: seq<Decimated>): (r: seq<Decimated>)
    ensures forall d :: d in r <==> d in ds && d.urlI.Some?
    decreases |ds|
  {
    if |ds| == 0 then []
    else
      assert ds == [ds[0]] + ds[1..];
      (if ds[0].urlI.Some? then [ds[0]] else []) + Converted(ds[1..])
  }

  /** `monitorLrauv.py` run on the catalogue `inUrl` whose crawl listed
      `urls`, starting from `since` (a week before now). */
  function Script(v: Variant, inUrl: string, outDir: string, urls: seq<string>, since: Clock.Stamp, env: Env, append: bool): (r: Result<Outcome, MonitorError>)
  {
    var platform :- PlatformOf(inUrl);
    Success(Loads(v, platform, Steps(SortSeq(urls), outDir, since, env), env, append))
  }

  /** One call per converted file, in order. */
  function CallsFor(platform: string, cs: seq<Decimated>, env: Env, append: bool): (calls: seq<Call>)
    requires platform in Colors && forall k :: 0 <= k < |cs| ==> cs[k].urlI.Some?
    ensures |calls| == |cs|
    decreases |cs|
  {
    if |cs| == 0 then [] else [MakeCall(platform, cs[0], env, append)] + CallsFor(platform, cs[1..], env, append)
  }

  /** The call at `k` is the one for the file at `k`. */
  lemma {:induction false} CallsForAt(platform: string, cs: seq<Decimated>, env: Env, append: bool, k: nat)
    requires platform in Colors && forall k :: 0 <= k < |cs| ==> cs[k].urlI.Some?
    requires k < |cs|
    ensures CallsFor(platform, cs, env, append)[k] == MakeCall(platform, cs[k], env, append)
    decreases k
  {
    if k > 0 {
      CallsForAt(platform, cs[1..], env, append, k - 1);
    }
  }

  /** Corrected, one call is made per converted file, in order, and the
      script never stops early. */
  lemma {:induction false} CorrectedLoads(platform: string, ds: seq<Decimated>, env: Env, append: bool)
    requires platform in Colors
    ensures forall k :: 0 <= k < |Converted(ds)| ==> Converted(ds)[k].urlI.Some?
    ensures var o := Loads(Corrected, platform, ds, env, append);
      o.failed.None? && o.calls == CallsFor(platform, Converted(ds), env, append)
    decreases |ds|
  {
    if |ds| > 0 {
      var rest := ds[1..];
      CorrectedLoads(platform, rest, env, append);
      if ds[0].urlI.Some? {
        var c := Converted(ds);
        assert c == [ds[0]] + Converted(rest);
        assert c[1..] == Converted(rest);
      } else {
        assert Converted(ds) == Converted(rest);
      }
    }
  }

  /** As written, a run without `--append` does the same; with it, the
      first converted file ends the script with `NameError` on the
      unimported `InstantPoint` before any load. */
  lemma {:induction false} AsWrittenLoads(platform: string, ds: seq<Decimated>, env: Env, append: bool)
    requires platform in Colors
    ensures !append ==> Loads(AsWritten, platform, ds, env, append) == Loads(Corrected, platform, ds, env, append)
    ensures append && |Converted(ds)| > 0 ==> Loads(AsWritten, platform, ds, env, append) == Outcome([], Some(NameError))
    decreases |ds|
  {
    if |ds| > 0 {
      AsWrittenLoads(platform, ds[1..], env, append);
    }
  }

  /** Every call names its activity `<vehicle>_sbdlog_<start>` with the
      start as `%Y%m%dT%H%M%S`, loads the vehicle with its colour at a
      stride of 10, and reads from the Hyrax server when the converted
      file was on the THREDDS server. */
  lemma CallNames(platform: string, d: Decimated, env: Env, append: bool)
    requires platform in Colors && d.urlI.Some? && Clock.Valid(d.start)
    ensures var c := MakeCall(platform, d, env, append);
      StartsWith(c.aName, platform + "_sbdlog_") && |c.aName| == |platform| + 23
      && c.color == Colors[platform] && c.stride == 10
      && (StartsWith(d.urlI.value, Thredds) ==> StartsWith(c.url, Hyrax))
      && (!append ==> c.dataStart.None?)
  {
    Clock.CompactLayout(d.start);
    var c := MakeCall(platform, d, env, append);
    assert c.aName[..|platform + "_sbdlog_"|] == platform + "_sbdlog_";
    if StartsWith(d.urlI.value, Thredds) {
      ReplaceAtStart(d.urlI.value, Thredds, Hyrax);
    }
  }

  /** In a run of the corrected script over a catalogue naming a vehicle,
      each listed file is converted at most once whatever the crawl
      repeats, and every call made is for a converted file. */
  lemma ScriptCalls(inUrl: string, outDir: string, urls: seq<string>, since: Clock.Stamp, env: Env, append: bool)
    requires PlatformOf(inUrl).Success?
    ensures var sorted := SortSeq(urls); var ds := Steps(sorted, outDir, since, env);
      var r := Script(Corrected, inUrl, outDir, urls, since, env, append);
      r.Success? && r.value.failed.None?
      && |r.value.calls| == |Converted(ds)|
      && multiset(sorted) == multiset(urls)
      && forall i, j :: 0 <= i < j < |sorted| && sorted[i] == sorted[j] ==> ds[j].urlI.None?
  {
    var sorted := SortSeq(urls);
    var ds := Steps(sorted, outDir, since, env);
    CorrectedLoads(PlatformOf(inUrl).value, ds, env, append);
    forall i, j | 0 <= i < j < |sorted| && sorted[i] == sorted[j] ensures ds[j].urlI.None? {
      RepeatsSkipped(sorted, outDir, since, env, i, j);
    }
  }
}

=== FILE: order.dfy ===
/** Python's ordering of strings (by code point, a proper prefix first)
    and `sorted` over a set of strings. */
module Order {

  /** `a < b` on Python strings. */
  predicate Less(a: string, b: string)
    decreases |a|
  {
    if |b| == 0 then false
    else if |a| == 0 then true
    else if a[0] != b[0] then a[0] < b[0]
    else Less(a[1..], b[1..])
  }

  lemma {:induction false} LessIrreflexive(a: string)
    ensures !Less(a, a)
    decreases |a|
  {
    if |a| > 0 {
      LessIrreflexive(a[1..]);
    }
  }

  lemma {:induction false} LessTransitive(a: string, b: string, c: string)
    requires Less(a, b) && Less(b, c)
    ensures Less(a, c)
    decreases |a|
  {
    if |a| > 0 && a[0] == b[0] && b[0] == c[0] {
      LessTransitive(a[1..], b[1..], c[1..]);
    }
  }

  /** Two different strings are ordered one way or the other. */
  lemma {:induction false} LessTotal(a: string, b: string)
    requires a != b
    ensures Less(a, b) || Less(b, a)
    decreases |a|
  {
    if |a| > 0 && |b| > 0 && a[0] == b[0] {
      assert a == [a[0]] + a[1..] && b == [b[0]] + b[1..];
      LessTotal(a[1..], b[1..]);
    }
  }

  predicate IsMin(m: string, s: set<string>)
  {
    m in s && forall x :: x in s && x != m ==> Less(m, x)
  }

  /** A non-empty finite set of strings has a least element. */
  lemma {:induction false} HasMin(s: set<string>)
    requires s != {}
    ensures exists m :: IsMin(m, s)
    decreases |s|
  {
    var y :| y in s;
    if s != {y} {
      HasMin(s - {y});
      var m :| IsMin(m, s - {y});
      LessTotal(y, m);
      if Less(y, m) {
        forall x | x in s && x != y ensures Less(y, x) {
          if x != m {
            LessTransitive(y, m, x);
          }
        }
        assert IsMin(y, s);
      } else {
        assert IsMin(m, s);
      }
    } else {
      assert IsMin(y, s);
    }
  }

  /** The least element is unique. */
  lemma MinUnique(s: set<string>)
    ensures forall m1, m2 :: IsMin(m1, s) && IsMin(m2, s) ==> m1 == m2
  {
    forall m1, m2 | IsMin(m1, s) && IsMin(m2, s) ensures m1 == m2 {
      if m1 != m2 {
        LessTransitive(m1, m2, m1);
        LessIrreflexive(m1);
      }
    }
  }

  predicate StrictlySorted(r: seq<string>)
  {
    forall i, j :: 0 <= i < j < |r| ==> Less(r[i], r[j])
  }

  /** `sorted(s)`: the elements of the set, each once, in increasing order. */
  function Sorted(s: set<string>): (r: seq<string>)
    ensures |r| == |s|
    ensures forall x :: x in r <==> x in s
    ensures StrictlySorted(r)
    decreases |s|
  {
    if s == {} then []
    else
      HasMin(s);
      MinUnique(s);
      var m :| IsMin(m, s);
      var rest := Sorted(s - {m});
      assert forall j :: 0 <= j < |rest| ==> Less(m, rest[j]) by {
        forall j | 0 <= j < |rest| ensures Less(m, rest[j]) {
          assert rest[j] in s - {m};
        }
      }
      [m] + rest
  }

  predicate LessEq(a: string, b: string)
  {
    a == b || Less(a, b)
  }

  /** Every element is at most each one after it. */
  predicate Ordered(r: seq<string>)
  {
    forall i, j :: 0 <= i < j < |r| ==> LessEq(r[i], r[j])
  }

  lemma LessEqTransitive(a: string, b: string, c: string)
    requires LessEq(a, b) && LessEq(b, c)
    ensures LessEq(a, c)
  {
    if a != b && b != c {
      LessTransitive(a, b, c);
    }
  }

  /** An element at most the first of an ordered sequence can go in front. */
  lemma InFront(x: string, r: seq<string>)
    requires Ordered(r) && |r| > 0 && LessEq(x, r[0])
    ensures Ordered([x] + r)
  {
    forall j | 0 <= j < |r| ensures LessEq(x, r[j]) {
      if j > 0 {
        LessEqTransitive(x, r[0], r[j]);
      }
    }
  }

  /** An element at most every element of an ordered sequence can go in
      front. */
  lemma Below(a: string, rest: seq<string>)
    requires Ordered(rest) && forall y :: y in multiset(rest) ==> LessEq(a, y)
    ensures Ordered([a] + rest)
  {
    forall j | 0 <= j < |rest| ensures LessEq(a, rest[j]) {
      assert rest[j] in multiset(rest);
    }
  }

  /** Insertion into an ordered sequence, after the elements it is not
      below. */
  function Insert(x: string, r: seq<string>): (t: seq<string>)
    requires Ordered(r)
    ensures multiset(t) == multiset(r) + multiset{x}
    ensures Ordered(t)
    decreases |r|
  {
    if |r| == 0 then [x]
    else if LessEq(x, r[0]) then
      InFront(x, r);
      [x] + r
    else
      LessTotal(x, r[0]);
      var rest := Insert(x, r[1..]);
      assert r == [r[0]] + r[1..];
      assert forall y :: y in multiset(r[1..]) ==> LessEq(r[0], y) by {
        forall y | y in multiset(r[1..]) ensures LessEq(r[0], y) {
          var k :| 0 <= k < |r[1..]| && r[1..][k] == y;
          assert r[k + 1] == y;
        }
      }
      Below(r[0], rest);
      [r[0]] + rest
  }

  /** `sorted(xs)` of a list of strings: the same elements, as often, in
      increasing order. */
  function SortSeq(s: seq<string>): (r: seq<string>)
    ensures multiset(r) == multiset(s)
    ensures Ordered(r)
    decreases |s|
  {
    if |s| == 0 then []
    else
      assert s == s[..|s| - 1] + [s[|s| - 1]];
      Insert(s[|s| - 1], SortSeq(s[..|s| - 1]))
  }

  /** In an ordered sequence, a repeated element sits right after an equal
      one. */
  lemma RepeatAdjacent(r: seq<string>, i: nat, j: nat)
    requires Ordered(r) && i < j < |r| && r[i] == r[j]
    ensures r[j - 1] == r[j]
  {
    if r[j - 1] != r[j] {
      assert LessEq(r[i], r[j - 1]) || i == j - 1;
      assert Less(r[j - 1], r[j]);
      if i < j - 1 && r[i] != r[j - 1] {
        LessTransitive(r[j], r[j - 1], r[j]);
      }
      LessIrreflexive(r[j]);
    }
  }
}

=== FILE: platforms.dfy ===
/** The `preProcessParams` of the platform loaders: each normalises the
    names of a row's coordinates or derives values from the row, then hands
    the row to the DAP loader's coordinate checks. The seawater library and
    the time-unit conversion are foreign and are parameters. */
module Platforms {
  import opened Wrappers
  import opened Rows
  import Loader
  import DapLoad
  import Floats
  import Strs

  /** `row.get(k)`: the value under `k`, if any. */
  function Get(row: Row, k: string): Option<Value>
  {
    if k in row then Some(row[k]) else None
  }

  /** The first of two lookups that found something. */
  function Or(a: Option<Value>, b: Option<Value>): Option<Value>
  {
    if a.Some? then a else b
  }

  /** The value of the first of `keys` the row holds, if any: the
      independent statement of what a sequence of renames leaves in a
      key. */
  function First(row: Row, keys: seq<string>): Option<Value>
  {
    if |keys| == 0 then None
    else if keys[0] in row then Some(row[keys[0]])
    else First(row, keys[1..])
  }

  /** `First` finds nothing exactly when the row holds none of the keys,
      and otherwise the value of one of them. */
  lemma {:induction false} FirstMeans(row: Row, keys: seq<string>)
    ensures First(row, keys).None? <==> forall i :: 0 <= i < |keys| ==> keys[i] !in row
    ensures First(row, keys).Some? ==>
      exists i :: 0 <= i < |keys| && keys[i] in row && First(row, keys).value == row[keys[i]]
  {
    if |keys| > 0 && keys[0] !in row {
      FirstMeans(row, keys[1..]);
      assert forall i :: 0 < i < |keys| ==> keys[i] == keys[1..][i - 1];
      if First(row, keys).Some? {
        var i :| 0 <= i < |keys[1..]| && keys[1..][i] in row && First(row, keys[1..]).value == row[keys[1..][i]];
        assert keys[i + 1] == keys[1..][i];
      }
    }
  }

  /** Unfolds `First` once. */
  lemma FirstCons(row: Row, k: string, rest: seq<string>)
    ensures First(row, [k] + rest) == Or(Get(row, k), First(row, rest))
  {
    assert ([k] + rest)[1..] == rest;
  }

  /** The first hit in `a + b` is the first in `a`, else the first in `b`. */
  lemma {:induction false} FirstAppend(row: Row, a: seq<string>, b: seq<string>)
    ensures First(row, a + b) == Or(First(row, a), First(row, b))
  {
    if |a| > 0 {
      assert a + b == [a[0]] + (a[1..] + b);
      assert a == [a[0]] + a[1..];
      FirstCons(row, a[0], a[1..] + b);
      FirstCons(row, a[0], a[1..]);
      FirstAppend(row, a[1..], b);
    } else {
      assert a + b == b;
    }
  }

  /** Rows that agree on every key of `keys` agree on the first hit. */
  lemma {:induction false} FirstAgrees(r1: Row, r2: Row, keys: seq<string>)
    requires forall i :: 0 <= i < |keys| ==> Get(r1, keys[i]) == Get(r2, keys[i])
    ensures First(r1, keys) == First(r2, keys)
  {
    if |keys| > 0 {
      assert keys == [keys[0]] + keys[1..];
      FirstCons(r1, keys[0], keys[1..]);
      FirstCons(r2, keys[0], keys[1..]);
      FirstAgrees(r1, r2, keys[1..]);
    }
  }

  /** After the renames, `r` holds under `k` the value of the first of
      `keys` that `row` held, and nothing when `row` held none of them. */
  predicate Collects(row: Row, r: Row, k: string, keys: seq<string>)
  {
    Get(r, k) == First(row, keys)
  }

  // ---------------------------------------------------------------------
  // Derived values

  /** `sw.dens(s, t, sw.pres(depth, latitude)) - 1000.0`: Python arithmetic
      on text raises, and NaN propagates through the seawater library. */
  function SigmaTOf(s: Value, t: Value, d: Value, lat: Value,
                    dens: (real, real, real) -> real, pres: (real, real) -> real): (r: Result<Value, Loader.LoadError>)
    ensures r.Failure? <==> s.Text? || t.Text? || d.Text? || lat.Text?
    ensures r.Failure? ==> r.error == Loader.DerivedValueError
    ensures r.Success? && s.Num? && t.Num? && d.Num? && lat.Num? ==>
      r.value == Num(dens(s.x, t.x, pres(d.x, lat.x)) - 1000.0)
    ensures r.Success? && (s.NaN? || t.NaN? || d.NaN? || lat.NaN?) ==> r.value == NaN
  {
    if s.Text? || t.Text? || d.Text? || lat.Text? then Failure(Loader.DerivedValueError)
    else if s.NaN? || t.NaN? || d.NaN? || lat.NaN? then Success(NaN)
    else Success(Num(dens(s.x, t.x, pres(d.x, lat.x)) - 1000.0))
  }

  const SigmaTName := "sea_water_sigma_t"

  /** `sea_water_sigma_t` is added exactly when salinity, temperature,
      depth and latitude are all in the row. */
  function WithSigmaT(row: Row, dens: (real, real, real) -> real, pres: (real, real) -> real): (r: Result<Row, Loader.LoadError>)
    ensures !("salinity" in row && "temperature" in row && "depth" in row && "latitude" in row) ==> r == Success(row)
    ensures ("salinity" in row && "temperature" in row && "depth" in row && "latitude" in row) ==>
      (r.Failure? <==> SigmaTOf(row["salinity"], row["temperature"], row["depth"], row["latitude"], dens, pres).Failure?)
    ensures ("salinity" in row && "temperature" in row && "depth" in row && "latitude" in row) && r.Success? ==>
      r.value == row[SigmaTName := SigmaTOf(row["salinity"], row["temperature"], row["depth"], row["latitude"], dens, pres).value]
    ensures r.Failure? ==> r.error == Loader.DerivedValueError
  {
    if "salinity" in row && "temperature" in row && "depth" in row && "latitude" in row then
      var v :- SigmaTOf(row["salinity"], row["temperature"], row["depth"], row["latitude"], dens, pres);
      Success(row[SigmaTName := v])
    else Success(row)
  }

  const ChlorophyllName := "mass_concentration_of_chlorophyll_in_sea_water"

  /** The October 2010 calibration: chlorophyll is 3.4431e+03 times
      `fl700_uncorr`. */
  const ChlorophyllFactor: real := 3443.1

  /** The chlorophyll of the Dorado loader, added exactly when
      `fl700_uncorr` is in the row. */
  function WithChlorophyll(row: Row): (r: Result<Row, Loader.LoadError>)
    ensures "fl700_uncorr" !in row ==> r == Success(row)
    ensures "fl700_uncorr" in row ==> (r.Failure? <==> row["fl700_uncorr"].Text?)
    ensures "fl700_uncorr" in row && row["fl700_uncorr"].Num? ==>
      r == Success(row[ChlorophyllName := Num(ChlorophyllFactor * row["fl700_uncorr"].x)])
    ensures "fl700_uncorr" in row && row["fl700_uncorr"].NaN? ==> r == Success(row[ChlorophyllName := NaN])
    ensures r.Failure? ==> r.error == Loader.DerivedValueError
  {
    if "fl700_uncorr" !in row then Success(row)
    else
      match row["fl700_uncorr"]
      case Num(x) => Success(row[ChlorophyllName := Num(ChlorophyllFactor * x)])
      case NaN => Success(row[ChlorophyllName := NaN])
      case Text(_) => Failure(Loader.DerivedValueError)
  }

  /** An exception of a derived value ends the load; otherwise the base
      class's checks decide. */
  function Then(r: Result<Row, Loader.LoadError>): (c: Loader.Checked<Row>)
    ensures r.Failure? ==> c == Loader.Fatal(r.error)
    ensures r.Success? ==> c == DapLoad.PreProcessParams(r.value)
  {
    match r
    case Failure(e) => Loader.Fatal(e)
    case Success(row) => DapLoad.PreProcessParams(row)
  }

  /** `Trajectory_Loader.preProcessParams`. */
  function Trajectory(row: Row, dens: (real, real, real) -> real, pres: (real, real) -> real): (r: Loader.Checked<Row>)
    ensures r.Pass? ==> WithSigmaT(row, dens, pres).Success? && r.value == WithSigmaT(row, dens, pres).value
    ensures r.Pass? ==> Loader.GoodCoordinates(row, false)
    ensures WithSigmaT(row, dens, pres).Success? ==> (r.Pass? <==> Loader.GoodCoordinates(row, false))
  {
    Then(WithSigmaT(row, dens, pres))
  }

  /** `Dorado_Loader.preProcessParams`: chlorophyll, then sigma-t. */
  function Dorado(row: Row, dens: (real, real, real) -> real, pres: (real, real) -> real): (r: Loader.Checked<Row>)
    ensures r.Pass? ==> Loader.GoodCoordinates(row, false)
    ensures r.Pass? && "fl700_uncorr" in row && row["fl700_uncorr"].Num? ==>
      ChlorophyllName in r.value && r.value[ChlorophyllName] == Num(ChlorophyllFactor * row["fl700_uncorr"].x)
    ensures "fl700_uncorr" in row && row["fl700_uncorr"].Text? ==> r == Loader.Fatal(Loader.DerivedValueError)
  {
    match WithChlorophyll(row)
    case Failure(e) => Loader.Fatal(e)
    case Success(row1) => Then(WithSigmaT(row1, dens, pres))
  }

  /** Adding derived values never changes the coordinates, so the
      derived-value loaders accept exactly the rows the base checks accept,
      unless a derived value raises. */
  lemma DerivedKeepsVerdict(row: Row, dens: (real, real, real) -> real, pres: (real, real) -> real)
    ensures WithSigmaT(row, dens, pres).Success? ==>
      (Trajectory(row, dens, pres).Pass? <==> DapLoad.PreProcessParams(row).Pass?)
    ensures WithChlorophyll(row).Success? && WithSigmaT(WithChlorophyll(row).value, dens, pres).Success? ==>
      (Dorado(row, dens, pres).Pass? <==> DapLoad.PreProcessParams(row).Pass?)
  {
  }

  // ---------------------------------------------------------------------
  // Key normalisation

  /** One `row[dst] = row.pop(src)` of a loader's renaming loop. */
  datatype Move = Move(src: string, dst: string)

  /** `for v in names: if row.has_key(v): row[v.lower()] = row.pop(v)`,
      each name paired with its lower case. */
  function RenameAll(row: Row, moves: seq<Move>): Row
    decreases |moves|
  {
    if |moves| == 0 then row else RenameAll(Rename(row, moves[0].src, moves[0].dst), moves[1..])
  }

  /** `if row.has_key(src) and not row.has_key(dst): row[dst] = row.pop(src)`. */
  function FillIfAbsent(row: Row, src: string, dst: string): Row
  {
    if src in row && dst !in row then Rename(row, src, dst) else row
  }

  /** What one rename leaves under any key: the source is gone, the
      destination holds the source's value if there was one, every other
      key is as it was. */
  lemma RenameGet(row: Row, src: string, dst: string, k: string)
    ensures Get(Rename(row, src, dst), k) ==
      if k == src && k != dst then None
      else if k == dst then Or(Get(row, src), Get(row, dst))
      else Get(row, k)
  {
  }

  /** What one fill leaves under any key: the destination keeps its
      value, else takes the source's; the source is gone only when it was
      used. */
  lemma FillGet(row: Row, src: string, dst: string, k: string)
    ensures Get(FillIfAbsent(row, src, dst), k) ==
      if k == src && k != dst && dst !in row then None
      else if k == dst then Or(Get(row, dst), Get(row, src))
      else Get(row, k)
  {
  }

  /** The fills of the Mooring loader, one after the other. */
  function FillAll(row: Row, fills: seq<Move>): Row
    decreases |fills|
  {
    if |fills| == 0 then row else FillAll(FillIfAbsent(row, fills[0].src, fills[0].dst), fills[1..])
  }

  /** No move reads a key another move touches: the sources are distinct
      and none is the destination of another move. A move from a key to
      itself is allowed. */
  predicate Chainless(moves: seq<Move>)
  {
    forall i, j :: 0 <= i < |moves| && 0 <= j < |moves| && i != j ==>
      moves[i].src != moves[j].src && moves[i].src != moves[j].dst
  }

  /** `m` touches no key the moves of `rest` read, and reads none they touch. */
  predicate Fresh(m: Move, rest: seq<Move>)
  {
    forall j :: 0 <= j < |rest| ==> m.src != rest[j].src && m.src != rest[j].dst && rest[j].src != m.dst
  }

  lemma ChainlessCons(m: Move, rest: seq<Move>)
    requires Chainless(rest) && Fresh(m, rest)
    ensures Chainless([m] + rest)
  {
    var ms := [m] + rest;
    forall i, j | 0 <= i < |ms| && 0 <= j < |ms| && i != j
      ensures ms[i].src != ms[j].src && ms[i].src != ms[j].dst
    {
      if i > 0 && j > 0 {
        assert ms[i] == rest[i - 1] && ms[j] == rest[j - 1];
      } else if i == 0 {
        assert ms[j] == rest[j - 1];
      } else {
        assert ms[i] == rest[i - 1];
      }
    }
  }

  /** Some move takes `k` away to another key. */
  predicate Moves(moves: seq<Move>, k: string)
  {
    exists i :: 0 <= i < |moves| && moves[i].src == k && moves[i].dst != k
  }

  lemma ChainlessTail(moves: seq<Move>)
    requires |moves| > 0 && Chainless(moves)
    ensures Chainless(moves[1..])
    ensures forall s :: Moves(moves[1..], s) ==> s != moves[0].src && s != moves[0].dst
    ensures forall i :: 0 <= i < |moves[1..]| ==> moves[1..][i].src != moves[0].src && moves[1..][i].dst != moves[0].src
  {
    assert forall i :: 0 <= i < |moves[1..]| ==> moves[1..][i] == moves[i + 1];
  }

  /** The keys renamed into `k`, the last rename first: a later
      `row[k] = row.pop(v)` overwrites an earlier one. */
  function Into(moves: seq<Move>, k: string): seq<string>
    decreases |moves|
  {
    if |moves| == 0 then []
    else Into(moves[1..], k) + (if moves[0].dst == k && moves[0].src != k then [moves[0].src] else [])
  }

  /** The keys filled into `k`, the first fill first: a fill only acts
      while `k` is absent. */
  function Fallbacks(fills: seq<Move>, k: string): seq<string>
    decreases |fills|
  {
    if |fills| == 0 then []
    else (if fills[0].dst == k && fills[0].src != k then [fills[0].src] else []) + Fallbacks(fills[1..], k)
  }

  /** Every key renamed or filled into `k` is one some move takes away,
      and there is none when no move writes `k`. */
  lemma {:induction false} SourcesMoved(moves: seq<Move>, k: string)
    ensures forall j :: 0 <= j < |Into(moves, k)| ==> Into(moves, k)[j] != k && Moves(moves, Into(moves, k)[j])
    ensures forall j :: 0 <= j < |Fallbacks(moves, k)| ==> Fallbacks(moves, k)[j] != k && Moves(moves, Fallbacks(moves, k)[j])
    ensures (forall i :: 0 <= i < |moves| && moves[i].dst == k ==> moves[i].src == k) ==>
      Into(moves, k) == [] && Fallbacks(moves, k) == []
    decreases |moves|
  {
    if |moves| > 0 {
      SourcesMoved(moves[1..], k);
      assert forall i :: 0 < i < |moves| ==> moves[i] == moves[1..][i - 1];
      forall s | Moves(moves[1..], s) ensures Moves(moves, s) {
        var i :| 0 <= i < |moves[1..]| && moves[1..][i].src == s && moves[1..][i].dst != s;
        assert moves[i + 1] == moves[1..][i];
      }
    }
  }

  /** After chainless renames a key that is not renamed away holds the
      value of the last key renamed into it, else its own. */
  lemma {:induction false} RenameAllGet(row: Row, moves: seq<Move>, k: string)
    requires Chainless(moves) && !Moves(moves, k)
    ensures Get(RenameAll(row, moves), k) == First(row, Into(moves, k) + [k])
    decreases |moves|
  {
    if |moves| == 0 {
      FirstCons(row, k, []);
    } else {
      var m := moves[0];
      var rest := moves[1..];
      var row1 := Rename(row, m.src, m.dst);
      ChainlessTail(moves);
      assert !Moves(rest, k) by {
        assert forall i :: 0 <= i < |rest| ==> rest[i] == moves[i + 1];
      }
      RenameAllGet(row1, rest, k);
      var I := Into(rest, k);
      assert First(row1, I) == First(row, I) by {
        SourcesMoved(rest, k);
        forall j | 0 <= j < |I| ensures Get(row1, I[j]) == Get(row, I[j]) {
          assert Moves(rest, I[j]);
          RenameGet(row, m.src, m.dst, I[j]);
        }
        FirstAgrees(row1, row, I);
      }
      RenameGet(row, m.src, m.dst, k);
      FirstAppend(row1, I, [k]);
      FirstCons(row1, k, []);
      if m.dst == k && m.src != k {
        assert Into(moves, k) + [k] == I + [m.src, k];
        FirstAppend(row, I, [m.src, k]);
        FirstCons(row, m.src, [k]);
        FirstCons(row, k, []);
      } else {
        assert Into(moves, k) == I;
        FirstAppend(row, I, [k]);
        FirstCons(row, k, []);
      }
    }
  }

  /** A key that a chainless rename takes away is gone afterwards. */
  lemma {:induction false} RenameAllRemoves(row: Row, moves: seq<Move>, k: string)
    requires Chainless(moves) && Moves(moves, k)
    ensures Get(RenameAll(row, moves), k) == None
    decreases |moves|
  {
    var m := moves[0];
    var rest := moves[1..];
    var row1 := Rename(row, m.src, m.dst);
    ChainlessTail(moves);
    RenameGet(row, m.src, m.dst, k);
    if m.src == k && m.dst != k {
      assert !Moves(rest, k);
      RenameAllGet(row1, rest, k);
      SourcesMoved(rest, k);
      FirstCons(row1, k, []);
    } else {
      var i :| 0 <= i < |moves| && moves[i].src == k && moves[i].dst != k;
      assert rest[i - 1] == moves[i];
      RenameAllRemoves(row1, rest, k);
    }
  }

  /** After chainless fills a key that is not moved away holds its own
      value, else the value of the first key filled into it. */
  lemma {:induction false} FillAllGet(row: Row, fills: seq<Move>, k: string)
    requires Chainless(fills) && !Moves(fills, k)
    ensures Get(FillAll(row, fills), k) == First(row, [k] + Fallbacks(fills, k))
    decreases |fills|
  {
    if |fills| == 0 {
      FirstCons(row, k, []);
    } else {
      var m := fills[0];
      var rest := fills[1..];
      var row1 := FillIfAbsent(row, m.src, m.dst);
      ChainlessTail(fills);
      assert !Moves(rest, k) by {
        assert forall i :: 0 <= i < |rest| ==> rest[i] == fills[i + 1];
      }
      FillAllGet(row1, rest, k);
      SourcesMoved(rest, k);
      var F := Fallbacks(rest, k);
      forall j | 0 <= j < |F| ensures Get(row1, F[j]) == Get(row, F[j]) {
        assert Moves(rest, F[j]);
        FillGet(row, m.src, m.dst, F[j]);
      }
      FillGet(row, m.src, m.dst, k);
      FirstAgrees(row1, row, F);
      FirstCons(row1, k, F);
      if m.dst == k && m.src != k {
        assert [k] + Fallbacks(fills, k) == [k] + ([m.src] + F);
        FirstCons(row, k, [m.src] + F);
        FirstCons(row, m.src, F);
      } else {
        assert Fallbacks(fills, k) == F;
        FirstCons(row, k, F);
      }
    }
  }

  /** No move reads or writes `k`. */
  predicate Untouched(moves: seq<Move>, k: string)
  {
    forall i :: 0 <= i < |moves| ==> moves[i].src != k && moves[i].dst != k
  }

  lemma UntouchedKept(moves: seq<Move>, k: string)
    requires Untouched(moves, k)
    ensures !Moves(moves, k) && Into(moves, k) == [] && Fallbacks(moves, k) == []
  {
    SourcesMoved(moves, k);
  }

  /** Renames, then fills: a key that the renames fill from the keys `a`
      and the fills from the keys `f`, which the renames leave alone,
      holds the first of `a + f`. */
  lemma Compose(row: Row, r1: Row, r2: Row, k: string, a: seq<string>, f: seq<string>)
    requires Get(r1, k) == First(row, a)
    requires Get(r2, k) == First(r1, [k] + f)
    requires forall i :: 0 <= i < |f| ==> Get(r1, f[i]) == Get(row, f[i])
    ensures Get(r2, k) == First(row, a + f)
  {
    FirstCons(r1, k, f);
    FirstAgrees(r1, row, f);
    FirstAppend(row, a, f);
  }

  /** `Compose` for one fallback key `g`. */
  lemma ComposeOne(row: Row, r1: Row, r2: Row, k: string, a: seq<string>, g: string)
    requires Get(r1, k) == First(row, a)
    requires Get(r2, k) == First(r1, [k, g])
    requires Get(r1, g) == Get(row, g)
    ensures Get(r2, k) == First(row, a + [g])
  {
    assert [k, g] == [k] + [g];
    Compose(row, r1, r2, k, a, [g]);
  }

  /** `Compose` for two fallback keys `g` and `h`. */
  lemma ComposeTwo(row: Row, r1: Row, r2: Row, k: string, a: seq<string>, g: string, h: string)
    requires Get(r1, k) == First(row, a)
    requires Get(r2, k) == First(r1, [k, g, h])
    requires Get(r1, g) == Get(row, g) && Get(r1, h) == Get(row, h)
    ensures Get(r2, k) == First(row, a + [g, h])
  {
    assert [k, g, h] == [k] + [g, h];
    Compose(row, r1, r2, k, a, [g, h]);
  }

  // ---------------------------------------------------------------------
  // LRAUV

  /** The names `Lrauv_Loader.preProcessParams` lowers, in loop order. */
  const LrauvRenames := [Move("Time", "time"), Move("TIME", "time"), Move("latitude", "latitude"),
    Move("longitude", "longitude"), Move("depth", "depth")]

  function LrauvKeys(row: Row): Row
  {
    RenameAll(row, LrauvRenames)
  }

  /** `Lrauv_Loader.preProcessParams`. */
  function Lrauv(row: Row): (r: Loader.Checked<Row>)
    ensures r == DapLoad.PreProcessParams(LrauvKeys(row))
  {
    DapLoad.PreProcessParams(LrauvKeys(row))
  }

  lemma LrauvChainless()
    ensures Chainless(LrauvRenames)
  {
    var m0 := Move("Time", "time");
    var m1 := Move("TIME", "time");
    var m2 := Move("latitude", "latitude");
    var m3 := Move("longitude", "longitude");
    var m4 := Move("depth", "depth");
    assert Fresh(m3, [m4]);
    ChainlessCons(m3, [m4]);
    assert Fresh(m2, [m3, m4]);
    assert [m3] + [m4] == [m3, m4];
    ChainlessCons(m2, [m3, m4]);
    assert Fresh(m1, [m2, m3, m4]);
    assert [m2] + [m3, m4] == [m2, m3, m4];
    ChainlessCons(m1, [m2, m3, m4]);
    assert Fresh(m0, [m1, m2, m3, m4]);
    assert [m1] + [m2, m3, m4] == [m1, m2, m3, m4];
    ChainlessCons(m0, [m1, m2, m3, m4]);
    assert [m0] + [m1, m2, m3, m4] == LrauvRenames;
  }

  /** The time is TIME's, else Time's, else time's; Time and TIME are
      gone. */
  lemma LrauvCollects(row: Row)
    ensures Collects(row, LrauvKeys(row), "time", ["TIME", "Time", "time"])
    ensures Get(LrauvKeys(row), "Time") == None && Get(LrauvKeys(row), "TIME") == None
  {
    LrauvChainless();
    assert !Moves(LrauvRenames, "time");
    assert Into(LrauvRenames, "time") == ["TIME", "Time"];
    RenameAllGet(row, LrauvRenames, "time");
    assert ["TIME", "Time"] + ["time"] == ["TIME", "Time", "time"];
    assert LrauvRenames[0].src == "Time" && LrauvRenames[1].src == "TIME";
    RenameAllRemoves(row, LrauvRenames, "Time");
    RenameAllRemoves(row, LrauvRenames, "TIME");
  }

  /** Every other key, the coordinates included, keeps its value. */
  lemma LrauvKeepsOthers(row: Row, k: string)
    requires k != "Time" && k != "TIME" && k != "time"
    ensures Get(LrauvKeys(row), k) == Get(row, k)
  {
    LrauvChainless();
    assert !Moves(LrauvRenames, k);
    SourcesMoved(LrauvRenames, k);
    RenameAllGet(row, LrauvRenames, k);
    FirstCons(row, k, []);
  }

  // ---------------------------------------------------------------------
  // Mooring

  /** The names `Mooring_Loader.preProcessParams` lowers, in loop order. */
  const MooringRenames := [Move("Time", "time"), Move("TIME", "time"), Move("LATITUDE", "latitude"),
    Move("LONGITUDE", "longitude"), Move("DEPTH", "depth"), Move("Longitude", "longitude"),
    Move("Latitude", "latitude"), Move("NominalDepth", "nominaldepth")]

  /** Its fills, in order: the high-rate GPS coordinates, the nominal
      depth, the ADCP time, `esecs` and the ADCP depth. */
  const MooringFills := [Move("GPS_LONGITUDE_HR", "longitude"), Move("GPS_LATITUDE_HR", "latitude"),
    Move("nominaldepth", "depth"), Move("hr_time_adcp", "time"), Move("esecs", "time"),
    Move("HR_DEPTH_adcp", "depth")]

  function MooringKeys(row: Row): Row
  {
    FillAll(RenameAll(row, MooringRenames), MooringFills)
  }

  /** `Mooring_Loader.preProcessParams`. */
  function Mooring(row: Row): (r: Loader.Checked<Row>)
    ensures r == DapLoad.PreProcessParams(MooringKeys(row))
  {
    DapLoad.PreProcessParams(MooringKeys(row))
  }

  lemma MooringRenamesFresh0()
    ensures Fresh(Move("Time", "time"), MooringRenames[1..])
  {
  }

  lemma MooringRenamesFresh1()
    ensures Fresh(Move("TIME", "time"), MooringRenames[2..])
  {
  }

  lemma MooringRenamesFresh2()
    ensures Fresh(Move("LATITUDE", "latitude"), MooringRenames[3..])
  {
  }

  lemma MooringRenamesFresh3()
    ensures Fresh(Move("LONGITUDE", "longitude"), MooringRenames[4..])
  {
  }

  lemma MooringRenamesFresh4()
    ensures Fresh(Move("DEPTH", "depth"), MooringRenames[5..])
    ensures Fresh(Move("Longitude", "longitude"), MooringRenames[6..])
    ensures Fresh(Move("Latitude", "latitude"), MooringRenames[7..])
  {
  }

  lemma MooringRenamesChainless()
    ensures Chainless(MooringRenames)
  {
    MooringRenamesFresh0(); MooringRenamesFresh1(); MooringRenamesFresh2();
    MooringRenamesFresh3(); MooringRenamesFresh4();
    var ms := MooringRenames;
    assert Chainless(ms[7..]);
    assert ms[6..] == [ms[6]] + ms[7..];
    ChainlessCons(ms[6], ms[7..]);
    assert ms[5..] == [ms[5]] + ms[6..];
    ChainlessCons(ms[5], ms[6..]);
    assert ms[4..] == [ms[4]] + ms[5..];
    ChainlessCons(ms[4], ms[5..]);
    assert ms[3..] == [ms[3]] + ms[4..];
    ChainlessCons(ms[3], ms[4..]);
    assert ms[2..] == [ms[2]] + ms[3..];
    ChainlessCons(ms[2], ms[3..]);
    assert ms[1..] == [ms[1]] + ms[2..];
    ChainlessCons(ms[1], ms[2..]);
    assert ms == [ms[0]] + ms[1..];
    ChainlessCons(ms[0], ms[1..]);
  }

  lemma MooringFillsFresh()
    ensures Fresh(Move("GPS_LONGITUDE_HR", "longitude"), MooringFills[1..])
    ensures Fresh(Move("GPS_LATITUDE_HR", "latitude"), MooringFills[2..])
    ensures Fresh(Move("nominaldepth", "depth"), MooringFills[3..])
    ensures Fresh(Move("hr_time_adcp", "time"), MooringFills[4..])
    ensures Fresh(Move("esecs", "time"), MooringFills[5..])
  {
  }

  lemma MooringFillsChainless()
    ensures Chainless(MooringFills)
  {
    MooringFillsFresh();
    var ms := MooringFills;
    assert Chainless(ms[5..]);
    assert ms[4..] == [ms[4]] + ms[5..];
    ChainlessCons(ms[4], ms[5..]);
    assert ms[3..] == [ms[3]] + ms[4..];
    ChainlessCons(ms[3], ms[4..]);
    assert ms[2..] == [ms[2]] + ms[3..];
    ChainlessCons(ms[2], ms[3..]);
    assert ms[1..] == [ms[1]] + ms[2..];
    ChainlessCons(ms[1], ms[2..]);
    assert ms == [ms[0]] + ms[1..];
    ChainlessCons(ms[0], ms[1..]);
  }

  /** The Mooring renames, for a key they do not take away. */
  lemma MooringRenamed(row: Row, k: string)
    requires !Moves(MooringRenames, k)
    ensures Get(RenameAll(row, MooringRenames), k) == First(row, Into(MooringRenames, k) + [k])
  {
    MooringRenamesChainless();
    RenameAllGet(row, MooringRenames, k);
  }

  /** The Mooring renames, for a key nothing reads or writes. */
  lemma MooringRenamesKeep(row: Row, k: string)
    requires Untouched(MooringRenames, k)
    ensures Get(RenameAll(row, MooringRenames), k) == Get(row, k)
  {
    UntouchedKept(MooringRenames, k);
    MooringRenamed(row, k);
    FirstCons(row, k, []);
  }

  /** The Mooring fills, for a key they do not take away. */
  lemma MooringFilled(row: Row, k: string)
    requires !Moves(MooringFills, k)
    ensures Get(FillAll(row, MooringFills), k) == First(row, [k] + Fallbacks(MooringFills, k))
  {
    MooringFillsChainless();
    FillAllGet(row, MooringFills, k);
  }

  /** An upper- or mixed-case name the renames take away, and the fills
      do not touch, is gone from the result. */
  lemma MooringRemoves(row: Row, k: string)
    requires Moves(MooringRenames, k) && Untouched(MooringFills, k)
    ensures k !in MooringKeys(row)
  {
    var r1 := RenameAll(row, MooringRenames);
    MooringRenamesChainless();
    RenameAllRemoves(row, MooringRenames, k);
    UntouchedKept(MooringFills, k);
    MooringFilled(r1, k);
    FirstCons(r1, k, []);
  }

  const MooringTimes := ["TIME", "Time", "time", "hr_time_adcp", "esecs"]
  const MooringLongitudes := ["Longitude", "LONGITUDE", "longitude", "GPS_LONGITUDE_HR"]
  const MooringLatitudes := ["Latitude", "LATITUDE", "latitude", "GPS_LATITUDE_HR"]
  const MooringDepths := ["DEPTH", "depth", "NominalDepth", "nominaldepth", "HR_DEPTH_adcp"]

  lemma MooringTimeStays()
    ensures !Moves(MooringRenames, "time") && !Moves(MooringFills, "time")
  {
  }

  lemma MooringTimeInto()
    ensures Into(MooringRenames, "time") == ["TIME", "Time"]
  {
  }

  lemma MooringTimeFallbacks()
    ensures Fallbacks(MooringFills, "time") == ["hr_time_adcp", "esecs"]
  {
  }

  lemma MooringTimeSources(row: Row)
    ensures Get(RenameAll(row, MooringRenames), "hr_time_adcp") == Get(row, "hr_time_adcp")
    ensures Get(RenameAll(row, MooringRenames), "esecs") == Get(row, "esecs")
  {
    assert Untouched(MooringRenames, "hr_time_adcp");
    assert Untouched(MooringRenames, "esecs");
    MooringRenamesKeep(row, "hr_time_adcp");
    MooringRenamesKeep(row, "esecs");
  }

  lemma MooringTimeRenamed(row: Row)
    ensures Get(RenameAll(row, MooringRenames), "time") == First(row, ["TIME", "Time", "time"])
  {
    MooringTimeStays();
    MooringTimeInto();
    MooringRenamed(row, "time");
    assert ["TIME", "Time"] + ["time"] == ["TIME", "Time", "time"];
  }

  lemma MooringTimeFilled(r: Row)
    ensures Get(FillAll(r, MooringFills), "time") == First(r, ["time", "hr_time_adcp", "esecs"])
  {
    MooringTimeStays();
    MooringTimeFallbacks();
    MooringFilled(r, "time");
  }

  /** The time is the first of TIME, Time, time, hr_time_adcp and esecs. */
  lemma MooringTime(row: Row)
    ensures Collects(row, MooringKeys(row), "time", MooringTimes)
  {
    var r1 := RenameAll(row, MooringRenames);
    MooringTimeRenamed(row);
    MooringTimeFilled(r1);
    MooringTimeSources(row);
    ComposeTwo(row, r1, MooringKeys(row), "time", ["TIME", "Time", "time"], "hr_time_adcp", "esecs");
    MooringTimesSplit();
  }

  lemma MooringTimesSplit()
    ensures ["TIME", "Time", "time"] + ["hr_time_adcp", "esecs"] == MooringTimes
  {
  }

  lemma MooringLongitudeStays()
    ensures !Moves(MooringRenames, "longitude") && !Moves(MooringFills, "longitude")
  {
  }

  lemma MooringLongitudeInto()
    ensures Into(MooringRenames, "longitude") == ["Longitude", "LONGITUDE"]
  {
  }

  lemma MooringLongitudeFallbacks()
    ensures Fallbacks(MooringFills, "longitude") == ["GPS_LONGITUDE_HR"]
  {
  }

  lemma MooringLongitudeRenamed(row: Row)
    ensures Get(RenameAll(row, MooringRenames), "longitude") == First(row, ["Longitude", "LONGITUDE", "longitude"])
  {
    MooringLongitudeStays();
    MooringLongitudeInto();
    MooringRenamed(row, "longitude");
    assert ["Longitude", "LONGITUDE"] + ["longitude"] == ["Longitude", "LONGITUDE", "longitude"];
  }

  lemma MooringGpsUntouched()
    ensures Untouched(MooringRenames, "GPS_LONGITUDE_HR") && Untouched(MooringRenames, "GPS_LATITUDE_HR")
  {
  }

  /** The renames leave the GPS coordinates alone. */
  lemma MooringGpsKept(row: Row)
    ensures Get(RenameAll(row, MooringRenames), "GPS_LONGITUDE_HR") == Get(row, "GPS_LONGITUDE_HR")
    ensures Get(RenameAll(row, MooringRenames), "GPS_LATITUDE_HR") == Get(row, "GPS_LATITUDE_HR")
  {
    MooringGpsUntouched();
    MooringRenamesKeep(row, "GPS_LONGITUDE_HR");
    MooringRenamesKeep(row, "GPS_LATITUDE_HR");
  }

  lemma MooringLongitudeFilled(r: Row)
    ensures Get(FillAll(r, MooringFills), "longitude") == First(r, ["longitude", "GPS_LONGITUDE_HR"])
  {
    MooringLongitudeStays();
    MooringLongitudeFallbacks();
    MooringFilled(r, "longitude");
  }

  /** The longitude is the first of Longitude, LONGITUDE, longitude and
      GPS_LONGITUDE_HR. */
  lemma MooringLongitude(row: Row)
    ensures Collects(row, MooringKeys(row), "longitude", MooringLongitudes)
  {
    var r1 := RenameAll(row, MooringRenames);
    MooringLongitudeRenamed(row);
    MooringLongitudeFilled(r1);
    MooringGpsKept(row);
    ComposeOne(row, r1, MooringKeys(row), "longitude", ["Longitude", "LONGITUDE", "longitude"], "GPS_LONGITUDE_HR");
    MooringLongitudesSplit();
  }

  lemma MooringLongitudesSplit()
    ensures ["Longitude", "LONGITUDE", "longitude"] + ["GPS_LONGITUDE_HR"] == MooringLongitudes
  {
  }


  lemma MooringLatitudeStays()
    ensures !Moves(MooringRenames, "latitude") && !Moves(MooringFills, "latitude")
  {
  }

  lemma MooringLatitudeInto()
    ensures Into(MooringRenames, "latitude") == ["Latitude", "LATITUDE"]
  {
  }

  lemma MooringLatitudeFallbacks()
    ensures Fallbacks(MooringFills, "latitude") == ["GPS_LATITUDE_HR"]
  {
  }

  lemma MooringLatitudeRenamed(row: Row)
    ensures Get(RenameAll(row, MooringRenames), "latitude") == First(row, ["Latitude", "LATITUDE", "latitude"])
  {
    MooringLatitudeStays();
    MooringLatitudeInto();
    MooringRenamed(row, "latitude");
    assert ["Latitude", "LATITUDE"] + ["latitude"] == ["Latitude", "LATITUDE", "latitude"];
  }

  lemma MooringLatitudeFilled(r: Row)
    ensures Get(FillAll(r, MooringFills), "latitude") == First(r, ["latitude", "GPS_LATITUDE_HR"])
  {
    MooringLatitudeStays();
    MooringLatitudeFallbacks();
    MooringFilled(r, "latitude");
  }

  /** The latitude is the first of Latitude, LATITUDE, latitude and
      GPS_LATITUDE_HR. */
  lemma MooringLatitude(row: Row)
    ensures Collects(row, MooringKeys(row), "latitude", MooringLatitudes)
  {
    var r1 := RenameAll(row, MooringRenames);
    MooringLatitudeRenamed(row);
    MooringLatitudeFilled(r1);
    MooringGpsKept(row);
    ComposeOne(row, r1, MooringKeys(row), "latitude", ["Latitude", "LATITUDE", "latitude"], "GPS_LATITUDE_HR");
    MooringLatitudesSplit();
  }

  lemma MooringLatitudesSplit()
    ensures ["Latitude", "LATITUDE", "latitude"] + ["GPS_LATITUDE_HR"] == MooringLatitudes
  {
  }


  lemma MooringDepthStays()
    ensures !Moves(MooringRenames, "depth") && !Moves(MooringFills, "depth")
  {
  }

  lemma MooringNominalDepthStays()
    ensures !Moves(MooringRenames, "nominaldepth")
  {
  }

  lemma MooringDepthInto()
    ensures Into(MooringRenames, "depth") == ["DEPTH"]
  {
  }

  lemma MooringNominalDepthInto()
    ensures Into(MooringRenames, "nominaldepth") == ["NominalDepth"]
  {
  }

  lemma MooringDepthFallbacks()
    ensures Fallbacks(MooringFills, "depth") == ["nominaldepth", "HR_DEPTH_adcp"]
  {
  }

  lemma MooringDepthRenamed(row: Row)
    ensures Get(RenameAll(row, MooringRenames), "depth") == First(row, ["DEPTH", "depth"])
  {
    MooringDepthStays();
    MooringDepthInto();
    MooringRenamed(row, "depth");
    assert ["DEPTH"] + ["depth"] == ["DEPTH", "depth"];
  }

  lemma MooringNominalDepthRenamed(row: Row)
    ensures Get(RenameAll(row, MooringRenames), "nominaldepth") == First(row, ["NominalDepth", "nominaldepth"])
  {
    MooringNominalDepthStays();
    MooringNominalDepthInto();
    MooringRenamed(row, "nominaldepth");
    assert ["NominalDepth"] + ["nominaldepth"] == ["NominalDepth", "nominaldepth"];
  }

  lemma MooringAdcpDepthRenamed(row: Row)
    ensures Get(RenameAll(row, MooringRenames), "HR_DEPTH_adcp") == Get(row, "HR_DEPTH_adcp")
  {
    assert Untouched(MooringRenames, "HR_DEPTH_adcp");
    MooringRenamesKeep(row, "HR_DEPTH_adcp");
  }

  lemma MooringDepthFilled(r: Row)
    ensures Get(FillAll(r, MooringFills), "depth") == First(r, ["depth", "nominaldepth", "HR_DEPTH_adcp"])
  {
    MooringDepthStays();
    MooringDepthFallbacks();
    MooringFilled(r, "depth");
  }

  /** The depth's fallbacks after the renames, read from the row before
      them. */
  lemma MooringDepthChain(row: Row)
    ensures First(RenameAll(row, MooringRenames), ["depth", "nominaldepth", "HR_DEPTH_adcp"]) == First(row, MooringDepths)
  {
    var r1 := RenameAll(row, MooringRenames);
    MooringDepthRenamed(row);
    MooringNominalDepthRenamed(row);
    MooringAdcpDepthRenamed(row);
    FirstCons(r1, "depth", ["nominaldepth", "HR_DEPTH_adcp"]);
    FirstCons(r1, "nominaldepth", ["HR_DEPTH_adcp"]);
    FirstCons(r1, "HR_DEPTH_adcp", []);
    FirstCons(row, "HR_DEPTH_adcp", []);
    FirstAppend(row, ["DEPTH", "depth"], ["NominalDepth", "nominaldepth", "HR_DEPTH_adcp"]);
    FirstAppend(row, ["NominalDepth", "nominaldepth"], ["HR_DEPTH_adcp"]);
    assert ["NominalDepth", "nominaldepth"] + ["HR_DEPTH_adcp"] == ["NominalDepth", "nominaldepth", "HR_DEPTH_adcp"];
    assert ["DEPTH", "depth"] + ["NominalDepth", "nominaldepth", "HR_DEPTH_adcp"] == MooringDepths;
  }

  /** The depth is the first of DEPTH, depth, NominalDepth, nominaldepth
      and HR_DEPTH_adcp. */
  lemma MooringDepth(row: Row)
    ensures Collects(row, MooringKeys(row), "depth", MooringDepths)
  {
    MooringDepthFilled(RenameAll(row, MooringRenames));
    MooringDepthChain(row);
  }

  /** The names the Mooring loader lowers. */
  const MooringRaisedNames := ["Time", "TIME", "LATITUDE", "LONGITUDE", "DEPTH", "Longitude", "Latitude", "NominalDepth"]

  lemma MooringRaisedMoved(i: nat)
    requires i < |MooringRaisedNames|
    ensures Moves(MooringRenames, MooringRaisedNames[i])
  {
    assert MooringRenames[i].src == MooringRaisedNames[i];
  }

  lemma MooringRaisedUntouched(i: nat)
    requires i < |MooringRaisedNames|
    ensures Untouched(MooringFills, MooringRaisedNames[i])
  {
  }

  /** No upper- or mixed-case coordinate name is left. */
  lemma MooringLowersNames(row: Row)
    ensures forall i :: 0 <= i < |MooringRaisedNames| ==> MooringRaisedNames[i] !in MooringKeys(row)
  {
    forall i | 0 <= i < |MooringRaisedNames|
      ensures MooringRaisedNames[i] !in MooringKeys(row)
    {
      MooringRaisedMoved(i);
      MooringRaisedUntouched(i);
      MooringRemoves(row, MooringRaisedNames[i]);
    }
  }

  // ---------------------------------------------------------------------
  // Glider

  /** The names `Glider_Loader.preProcessParams` lowers, in loop order. */
  const GliderRenames := [Move("TIME", "time"), Move("LONGITUDE", "longitude"), Move("LATITUDE", "latitude"),
    Move("DEPTH", "depth")]

  function GliderKeys(row: Row): Row
  {
    RenameAll(row, GliderRenames)
  }

  /** `Glider_Loader.preProcessParams`: after the renames a time is read
      by `float()`, then converted from the dataset's time units to seconds
      since 1970 by `toEpoch` (the coards conversion, foreign). Text
      `float()` refuses raises ValueError; so does the conversion of NaN or
      an infinity, which builds a `timedelta`. */
  function Glider(row: Row, toEpoch: real -> real): (r: Loader.Checked<Row>)
    ensures "time" !in GliderKeys(row) ==> r == DapLoad.PreProcessParams(GliderKeys(row))
    ensures "time" in GliderKeys(row) && FloatIsFinite(GliderKeys(row)["time"]) ==>
      r == DapLoad.PreProcessParams(GliderKeys(row)["time" := Num(toEpoch(FloatOf(GliderKeys(row)["time"]).value.x))])
    ensures "time" in GliderKeys(row) && !FloatIsFinite(GliderKeys(row)["time"]) ==>
      r == Loader.Fatal(Loader.DerivedValueError)
  {
    var r1 := GliderKeys(row);
    if "time" !in r1 then DapLoad.PreProcessParams(r1)
    else
      if FloatIsFinite(r1["time"]) then DapLoad.PreProcessParams(r1["time" := Num(toEpoch(FloatOf(r1["time"]).value.x))])
      else Loader.Fatal(Loader.DerivedValueError)
  }

  /** A time the dataset gives as the text of a whole number is converted
      like that number. */
  lemma GliderTextTime(row: Row, toEpoch: real -> real, n: nat)
    requires "time" in GliderKeys(row) && GliderKeys(row)["time"] == Text(Strs.NatToString(n))
    ensures Glider(row, toEpoch) == DapLoad.PreProcessParams(GliderKeys(row)["time" := Num(toEpoch(n as real))])
  {
    Floats.ParseFormatted(n);
  }

  lemma GliderChainless()
    ensures Chainless(GliderRenames)
  {
    var ms := GliderRenames;
    assert Fresh(ms[0], ms[1..]) && Fresh(ms[1], ms[2..]) && Fresh(ms[2], ms[3..]);
    assert Chainless(ms[3..]);
    assert ms[2..] == [ms[2]] + ms[3..];
    ChainlessCons(ms[2], ms[3..]);
    assert ms[1..] == [ms[1]] + ms[2..];
    ChainlessCons(ms[1], ms[2..]);
    assert ms == [ms[0]] + ms[1..];
    ChainlessCons(ms[0], ms[1..]);
  }

  /** Each lower-case coordinate holds its upper-case name's value, else
      its own. */
  lemma GliderRenamed(row: Row, i: nat)
    requires i < |GliderRenames|
    ensures Collects(row, GliderKeys(row), GliderRenames[i].dst, [GliderRenames[i].src, GliderRenames[i].dst])
  {
    var m := GliderRenames[i];
    GliderChainless();
    assert !Moves(GliderRenames, m.dst);
    assert Into(GliderRenames, m.dst) == [m.src];
    RenameAllGet(row, GliderRenames, m.dst);
    assert [m.src] + [m.dst] == [m.src, m.dst];
  }

  /** The time converted is TIME's, else time's. */
  lemma GliderTime(row: Row)
    ensures Collects(row, GliderKeys(row), "time", ["TIME", "time"])
  {
    GliderRenamed(row, 0);
  }

  /** The coordinates are LONGITUDE's, LATITUDE's and DEPTH's over their
      lower-case forms. */
  lemma GliderCoordinates(row: Row)
    ensures Collects(row, GliderKeys(row), "longitude", ["LONGITUDE", "longitude"])
    ensures Collects(row, GliderKeys(row), "latitude", ["LATITUDE", "latitude"])
    ensures Collects(row, GliderKeys(row), "depth", ["DEPTH", "depth"])
  {
    GliderRenamed(row, 1);
    GliderRenamed(row, 2);
    GliderRenamed(row, 3);
  }
}

=== FILE: postgresify.dfy ===
/** `postgresifySQL` in `utils/utils.py`: rewrites the SQL text Django
    prints for a queryset into text PostgreSQL accepts. Double quotes go,
    geometry/id columns get aliases, `name = x` and timestamps get quoted,
    and the string items of `IN (...)` lists get quoted. The three regular
    expressions are modelled as the left-to-right scanners `re.sub` and
    `re.findall` run. */
module Postgresify {
  import opened Wrappers
  import opened Strs
  import opened Findings

  // ---------------------------------------------------------------------
  // Column aliases

  /** The `replace` chain ahead of the regular expressions: strip double
      quotes, alias the id and geometry columns of the activity (or, with
      `sampleFlag`, the sample) table, and with `translateGeom` split the
      measurement geometry into longitude and latitude. */
  function Aliases(q: string, pointFlag: bool, translateGeom: bool, sampleFlag: bool): string
  {
    var q1 := Replace(q, "\"", "");
    var q2 := if !sampleFlag then ActivityAliases(q1, pointFlag) else SampleAliases(q1);
    if translateGeom then GeomColumns(q2) else q2
  }

  /** The first `stoqs_activity.id` becomes `... as gid` unless it is the
      right-hand side of a join; the track (or, with `pointFlag`, the point)
      column becomes `geom`. */
  function ActivityAliases(q: string, pointFlag: bool): string
  {
    var a := ReplaceN(q, "stoqs_activity.id", "stoqs_activity.id as gid", 1);
    var b := ReplaceN(a, "= stoqs_activity.id as gid", "= stoqs_activity.id", 1);
    if pointFlag then Replace(b, "stoqs_activity.mappoint", "stoqs_activity.mappoint as geom")
    else Replace(b, "stoqs_activity.maptrack", "stoqs_activity.maptrack as geom")
  }

  function SampleAliases(q: string): string
  {
    var a := ReplaceN(q, "stoqs_sample.id", "stoqs_sample.id as gid", 1);
    Replace(a, "stoqs_sample.geom", "stoqs_sample.geom as geom")
  }

  const GeomPair: string :=
    "ST_X(stoqs_measurement.geom)" + " as longitude, " + "ST_Y(stoqs_measurement.geom)" + " as latitude"

  function GeomColumns(q: string): string
  {
    Replace(q, "stoqs_measurement.geom", GeomPair)
  }

  lemma ActivityAliasesKeepsOut(q: string, pointFlag: bool)
    requires '"' !in q
    ensures '"' !in ActivityAliases(q, pointFlag)
  {
    var a := ReplaceN(q, "stoqs_activity.id", "stoqs_activity.id as gid", 1);
    ReplaceOnceKeepsOut(q, "stoqs_activity.id", "stoqs_activity.id as gid", '"');
    var b := ReplaceN(a, "= stoqs_activity.id as gid", "= stoqs_activity.id", 1);
    ReplaceOnceKeepsOut(a, "= stoqs_activity.id as gid", "= stoqs_activity.id", '"');
    if pointFlag {
      ReplaceKeepsOut(b, "stoqs_activity.mappoint", "stoqs_activity.mappoint as geom", '"');
    } else {
      ReplaceKeepsOut(b, "stoqs_activity.maptrack", "stoqs_activity.maptrack as geom", '"');
    }
  }

  lemma SampleAliasesKeepsOut(q: string)
    requires '"' !in q
    ensures '"' !in SampleAliases(q)
  {
    var a := ReplaceN(q, "stoqs_sample.id", "stoqs_sample.id as gid", 1);
    ReplaceOnceKeepsOut(q, "stoqs_sample.id", "stoqs_sample.id as gid", '"');
    ReplaceKeepsOut(a, "stoqs_sample.geom", "stoqs_sample.geom as geom", '"');
  }

  /** No double quote survives the alias rewrites. */
  lemma AliasesUnquoted(q: string, pointFlag: bool, translateGeom: bool, sampleFlag: bool)
    ensures '"' !in Aliases(q, pointFlag, translateGeom, sampleFlag)
  {
    var q1 := Replace(q, "\"", "");
    assert "\"" == ['"'];
    ReplaceRemovesChar(q, '"');
    var q2 := if !sampleFlag then ActivityAliases(q1, pointFlag) else SampleAliases(q1);
    if !sampleFlag {
      ActivityAliasesKeepsOut(q1, pointFlag);
    } else {
      SampleAliasesKeepsOut(q1);
    }
    if translateGeom {
      GeomColumnsKeepsOut(q2);
    }
  }

  lemma GeomColumnsKeepsOut(q: string)
    requires '"' !in q
    ensures '"' !in GeomColumns(q)
  {
    GeomPairUnquoted();
    ReplaceKeepsOut(q, "stoqs_measurement.geom", GeomPair, '"');
  }

  lemma GeomPairUnquoted()
    ensures '"' !in GeomPair
  {
    assert '"' !in "ST_X(stoqs_measurement.geom)";
    assert '"' !in " as longitude, ";
    assert '"' !in "ST_Y(stoqs_measurement.geom)";
    assert '"' !in " as latitude";
  }

  /** The column references the alias rewrites look for. */
  predicate MentionsNoAliasedColumn(q: string)
  {
    !Contains(q, "stoqs_activity.id") && !Contains(q, "stoqs_activity.mappoint")
    && !Contains(q, "stoqs_activity.maptrack") && !Contains(q, "stoqs_sample.id")
    && !Contains(q, "stoqs_sample.geom") && !Contains(q, "stoqs_measurement.geom")
  }

  /** Once double quotes are gone, text that mentions none of the aliased
      columns passes the alias rewrites untouched. */
  lemma AliasesOnlyTouchColumns(q: string, pointFlag: bool, translateGeom: bool, sampleFlag: bool)
    requires MentionsNoAliasedColumn(Replace(q, "\"", ""))
    ensures Aliases(q, pointFlag, translateGeom, sampleFlag) == Replace(q, "\"", "")
  {
    var q1 := Replace(q, "\"", "");
    if !sampleFlag {
      ActivityAliasesAbsent(q1, pointFlag);
    } else {
      SampleAliasesAbsent(q1);
    }
    ReplaceAbsent(q1, "stoqs_measurement.geom", GeomPair, 1);
  }

  lemma ActivityAliasesAbsent(q: string, pointFlag: bool)
    requires MentionsNoAliasedColumn(q)
    ensures ActivityAliases(q, pointFlag) == q
  {
    ReplaceAbsent(q, "stoqs_activity.id", "stoqs_activity.id as gid", 1);
    NoJoinAlias(q);
    ReplaceAbsent(q, "= stoqs_activity.id as gid", "= stoqs_activity.id", 1);
    ReplaceAbsent(q, "stoqs_activity.mappoint", "stoqs_activity.mappoint as geom", 1);
    ReplaceAbsent(q, "stoqs_activity.maptrack", "stoqs_activity.maptrack as geom", 1);
  }

  lemma NoJoinAlias(q: string)
    requires !Contains(q, "stoqs_activity.id")
    ensures !Contains(q, "= stoqs_activity.id as gid")
  {
    var pat := "= stoqs_activity.id as gid";
    var sub := "stoqs_activity.id";
    if Contains(q, pat) {
      var i :| 0 <= i <= |q| && OccursAt(q, pat, i);
      assert pat == "= " + sub + " as gid";
      assert pat[2..2 + |sub|] == sub;
      forall k | 0 <= k < |sub| ensures q[i + 2 + k] == sub[k] {
        assert q[i..i + |pat|][2 + k] == pat[2 + k];
      }
      assert q[i + 2..i + 2 + |sub|] == sub;
      assert OccursAt(q, sub, i + 2);
    }
  }

  lemma SampleAliasesAbsent(q: string)
    requires MentionsNoAliasedColumn(q)
    ensures SampleAliases(q) == q
  {
    ReplaceAbsent(q, "stoqs_sample.id", "stoqs_sample.id as gid", 1);
    ReplaceAbsent(q, "stoqs_sample.geom", "stoqs_sample.geom as geom", 1);
  }

  // ---------------------------------------------------------------------
  // What the quoting rewrites leave alone

  predicate IsQuote(c: char) { c == '\'' }

  /** The characters that matter once whitespace and single quotes are
      disregarded. */
  function Squeeze(s: string): (r: string)
    ensures |r| <= |s|
  {
    if |s| == 0 then ""
    else (if IsSpace(s[0]) || IsQuote(s[0]) then "" else [s[0]]) + Squeeze(s[1..])
  }

  lemma {:induction false} SqueezeAppend(a: string, b: string)
    ensures Squeeze(a + b) == Squeeze(a) + Squeeze(b)
    decreases |a|
  {
    if |a| == 0 {
      assert a + b == b;
    } else {
      var h := if IsSpace(a[0]) || IsQuote(a[0]) then "" else [a[0]];
      assert (a + b)[0] == a[0];
      assert (a + b)[1..] == a[1..] + b;
      SqueezeAppend(a[1..], b);
      calc {
        Squeeze(a + b);
        h + Squeeze(a[1..] + b);
        h + (Squeeze(a[1..]) + Squeeze(b));
        (h + Squeeze(a[1..])) + Squeeze(b);
        Squeeze(a) + Squeeze(b);
      }
    }
  }

  lemma {:induction false} SqueezeWord(s: string)
    requires forall k :: 0 <= k < |s| ==> !IsSpace(s[k]) && !IsQuote(s[k])
    ensures Squeeze(s) == s
    decreases |s|
  {
    if |s| > 0 {
      SqueezeWord(s[1..]);
    }
  }

  lemma {:induction false} SqueezeBlank(s: string)
    requires forall k :: 0 <= k < |s| ==> IsSpace(s[k]) || IsQuote(s[k])
    ensures Squeeze(s) == ""
    decreases |s|
  {
    if |s| > 0 {
      SqueezeBlank(s[1..]);
    }
  }

  // ---------------------------------------------------------------------
  // QUOTE_DATES: `(\d\d\d\d-\d\d-\d\d \d\d:\d\d:\d\d)` -> `'\1'`

  /** The shape of a timestamp: `d` stands for any decimal digit. */
  const DateTemplate: string := "dddd-dd-dd dd:dd:dd"

  predicate FitsTemplate(s: string, t: string)
  {
    |s| == |t| && forall k :: 0 <= k < |t| ==> if t[k] == 'd' then IsDigit(s[k]) else s[k] == t[k]
  }

  predicate DateAtStart(q: string)
  {
    |q| >= |DateTemplate| && FitsTemplate(q[..|DateTemplate|], DateTemplate)
  }

  /** `QUOTE_DATES.sub(r"'\1'", q)`: every timestamp found scanning left to
      right is wrapped in single quotes; the scan resumes after it. */
  function QuoteDates(q: string): (r: string)
    decreases |q|
  {
    if |q| == 0 then q
    else if DateAtStart(q) then "'" + q[..19] + "'" + QuoteDates(q[19..])
    else [q[0]] + QuoteDates(q[1..])
  }

  /** Quoting timestamps only inserts quotes: drop whitespace and quotes
      and the text is what it was. */
  lemma {:induction false} QuoteDatesOnlyQuotes(q: string)
    ensures Squeeze(QuoteDates(q)) == Squeeze(q)
    decreases |q|
  {
    if |q| > 0 {
      if DateAtStart(q) {
        var rest := q[19..];
        QuoteDatesOnlyQuotes(rest);
        SqueezeAppend("'" + q[..19] + "'", QuoteDates(rest));
        SqueezeAppend("'" + q[..19], "'");
        SqueezeAppend("'", q[..19]);
        SqueezeAppend(q[..19], rest);
        assert q == q[..19] + rest;
      } else {
        QuoteDatesOnlyQuotes(q[1..]);
        SqueezeAppend([q[0]], QuoteDates(q[1..]));
      }
    }
  }

  /** A character other than the single quote appears in the result only
      if it appears in the query. */
  lemma {:induction false} QuoteDatesKeepsOut(q: string, c: char)
    requires c !in q && c != '\''
    ensures c !in QuoteDates(q)
    decreases |q|
  {
    if |q| > 0 {
      if DateAtStart(q) {
        QuoteDatesKeepsOut(q[19..], c);
        assert c !in q[..19];
      } else {
        QuoteDatesKeepsOut(q[1..], c);
      }
    }
  }

  lemma NoDateAtStart(q: string)
    requires |q| > 0 && !IsDigit(q[0])
    ensures !DateAtStart(q)
  {
    if |q| >= 19 {
      assert q[..19][0] == q[0];
      assert DateTemplate[0] == 'd';
    }
  }

  /** The first timestamp of a query is quoted. */
  lemma QuoteDatesExample(date: string)
    requires date == "2013-09-20 00:00:00"
    ensures QuoteDates(date) == "'2013-09-20 00:00:00'"
  {
    DateFits();
    assert date[..19] == date && date[19..] == "";
  }

  /** Text without a timestamp is left as it is. */
  lemma {:induction false} QuoteDatesAbsent(q: string)
    requires forall k :: 0 <= k <= |q| ==> !DateAtStart(q[k..])
    ensures QuoteDates(q) == q
    decreases |q|
  {
    if |q| > 0 {
      assert q[0..] == q;
      forall k | 0 <= k <= |q[1..]| ensures !DateAtStart(q[1..][k..]) {
        assert q[1..][k..] == q[k + 1..];
      }
      QuoteDatesAbsent(q[1..]);
    }
  }

  lemma DateFits()
    ensures DateAtStart("2013-09-20 00:00:00")
  {
    var date := "2013-09-20 00:00:00";
    assert date[..19] == date;
    forall k | 0 <= k < 19
      ensures if DateTemplate[k] == 'd' then IsDigit(date[k]) else date[k] == DateTemplate[k]
    {
    }
  }

  // ---------------------------------------------------------------------
  // QUOTE_NAMEEQUALS: `name\s+=\s+(\S+)` -> `name = '\1'`

  /** The length of the run of whitespace (`inWord == false`) or of
      non-whitespace (`inWord == true`) starting at `i`; the regular
      expression's `\s+` and `\S+` are greedy and take all of it. */
  function Run(q: string, i: nat, inWord: bool): (n: nat)
    requires i <= |q|
    ensures i + n <= |q|
    ensures forall k :: i <= k < i + n ==> IsSpace(q[k]) != inWord
    ensures i + n == |q| || IsSpace(q[i + n]) == inWord
    decreases |q| - i
  {
    if i < |q| && IsSpace(q[i]) != inWord then 1 + Run(q, i + 1, inWord) else 0
  }

  /** A `name\s+=\s+\S+` match at the start of `q`: the bounds of the
      captured argument. */
  function NameEqualsAtStart(q: string): (r: Option<(nat, nat)>)
    ensures r.Some? ==> 6 <= r.value.0 < r.value.1 <= |q|
  {
    if !StartsWith(q, "name") then None
    else
      var w1 := Run(q, 4, false);
      if w1 == 0 || 4 + w1 >= |q| || q[4 + w1] != '=' then None
      else
        var w2 := Run(q, 5 + w1, false);
        var a := 5 + w1 + w2;
        var n := Run(q, a, true);
        if w2 == 0 || n == 0 then None else Some((a, a + n))
  }

  /** `QUOTE_NAMEEQUALS.sub(r"name = '\1'", q)`. */
  function QuoteNameEquals(q: string): (r: string)
    decreases |q|
  {
    if |q| == 0 then q
    else match NameEqualsAtStart(q)
      case Some((a, e)) => "name = '" + q[a..e] + "'" + QuoteNameEquals(q[e..])
      case None => [q[0]] + QuoteNameEquals(q[1..])
  }

  /** Inside one match only whitespace changes and quotes are added. */
  lemma NameEqualsMatchSqueeze(q: string, a: nat, e: nat)
    requires NameEqualsAtStart(q) == Some((a, e))
    ensures Squeeze("name = '" + q[a..e] + "'") == Squeeze(q[..e])
  {
    MatchedSqueeze(q, a, e);
    ReplacementSqueeze(q[a..e]);
  }

  /** What a match consists of: `name`, blanks, `=`, blanks, the argument. */
  lemma NameEqualsShape(q: string, a: nat, e: nat) returns (w1: nat)
    requires NameEqualsAtStart(q) == Some((a, e))
    ensures 4 + w1 < a < e <= |q| && q[..4] == "name" && q[4 + w1] == '='
    ensures forall k :: 4 <= k < 4 + w1 ==> IsSpace(q[k])
    ensures forall k :: 5 + w1 <= k < a ==> IsSpace(q[k])
  {
    w1 := Run(q, 4, false);
  }

  lemma MatchedSqueeze(q: string, a: nat, e: nat)
    requires NameEqualsAtStart(q) == Some((a, e))
    ensures Squeeze(q[..e]) == "name=" + Squeeze(q[a..e])
  {
    var w1 := NameEqualsShape(q, a, e);
    var s1, s2, arg := q[4..4 + w1], q[5 + w1..a], q[a..e];
    assert q[..e] == q[..4] + s1 + [q[4 + w1]] + s2 + arg;
    SqueezeBlank(s1);
    SqueezeBlank(s2);
    SplitSqueeze(s1, s2, arg);
  }

  lemma SplitSqueeze(s1: string, s2: string, arg: string)
    requires Squeeze(s1) == "" && Squeeze(s2) == ""
    ensures Squeeze("name" + s1 + "=" + s2 + arg) == "name=" + Squeeze(arg)
  {
    SqueezeLiterals();
    SqueezeAppend("name" + s1 + "=" + s2, arg);
    SqueezeAppend("name" + s1 + "=", s2);
    SqueezeAppend("name" + s1, "=");
    SqueezeAppend("name", s1);
  }

  lemma SqueezeLiterals()
    ensures Squeeze("name") == "name" && Squeeze("=") == "="
    ensures Squeeze(" ") == "" && Squeeze(" '") == "" && Squeeze("'") == ""
  {
    SqueezeName();
    SqueezeWord("=");
    SqueezeBlank(" ");
    SqueezeBlank(" '");
    SqueezeBlank("'");
  }

  lemma SqueezeName()
    ensures Squeeze("name") == "name"
  {
    var n := "name";
    assert !IsSpace(n[0]) && !IsQuote(n[0]) && !IsSpace(n[1]) && !IsQuote(n[1]);
    assert !IsSpace(n[2]) && !IsQuote(n[2]) && !IsSpace(n[3]) && !IsQuote(n[3]);
    SqueezeWord(n);
  }

  lemma ReplacementSqueeze(arg: string)
    ensures Squeeze("name = '" + arg + "'") == "name=" + Squeeze(arg)
  {
    PrefixSqueeze();
    QuotedSqueeze("name = '", arg);
  }

  lemma QuotedSqueeze(pre: string, arg: string)
    ensures Squeeze(pre + arg + "'") == Squeeze(pre) + Squeeze(arg)
  {
    SqueezeLiterals();
    SqueezeAppend(pre + arg, "'");
    SqueezeAppend(pre, arg);
  }

  lemma PrefixSqueeze()
    ensures Squeeze("name = '") == "name="
  {
    SqueezeLiterals();
    var p := "name = '";
    assert p == "name" + " " + "=" + " '";
    SqueezeAppend("name" + " " + "=", " '");
    SqueezeAppend("name" + " ", "=");
    SqueezeAppend("name", " ");
  }

  /** Quoting `name = x` only normalises whitespace and inserts quotes. */
  lemma {:induction false} QuoteNameEqualsOnlyQuotes(q: string)
    ensures Squeeze(QuoteNameEquals(q)) == Squeeze(q)
    decreases |q|
  {
    if |q| > 0 {
      match NameEqualsAtStart(q)
      case Some((a, e)) =>
        QuoteNameEqualsOnlyQuotes(q[e..]);
        MatchStepSqueeze(q, a, e);
      case None =>
        QuoteNameEqualsOnlyQuotes(q[1..]);
        SqueezeAppend([q[0]], QuoteNameEquals(q[1..]));
        SqueezeAppend([q[0]], q[1..]);
        assert q == [q[0]] + q[1..];
    }
  }

  /** A match followed by text whose rewrite keeps its squeezed form. */
  lemma MatchStepSqueeze(q: string, a: nat, e: nat)
    requires NameEqualsAtStart(q) == Some((a, e))
    requires Squeeze(QuoteNameEquals(q[e..])) == Squeeze(q[e..])
    ensures Squeeze(QuoteNameEquals(q)) == Squeeze(q)
  {
    QuoteNameEqualsStep(q, a, e);
    NameEqualsMatchSqueeze(q, a, e);
    ConcatSqueeze("name = '" + q[a..e] + "'", QuoteNameEquals(q[e..]), q[..e], q[e..]);
    assert q == q[..e] + q[e..];
  }

  lemma QuoteNameEqualsStep(q: string, a: nat, e: nat)
    requires NameEqualsAtStart(q) == Some((a, e))
    ensures QuoteNameEquals(q) == "name = '" + q[a..e] + "'" + QuoteNameEquals(q[e..])
  {
  }

  lemma ConcatSqueeze(h: string, t: string, p: string, r: string)
    requires Squeeze(h) == Squeeze(p) && Squeeze(t) == Squeeze(r)
    ensures Squeeze(h + t) == Squeeze(p + r)
  {
    SqueezeAppend(h, t);
    SqueezeAppend(p, r);
  }

  lemma {:induction false} QuoteNameEqualsKeepsOut(q: string, c: char)
    requires c !in q && c !in "name = '"
    ensures c !in QuoteNameEquals(q)
    decreases |q|
  {
    if |q| > 0 {
      match NameEqualsAtStart(q)
      case Some((a, e)) =>
        QuoteNameEqualsKeepsOut(q[e..], c);
        assert c !in q[a..e];
      case None =>
        QuoteNameEqualsKeepsOut(q[1..], c);
    }
  }

  /** Extra blanks around `=` collapse and the argument is quoted. */
  lemma QuoteNameEqualsExample()
    ensures QuoteNameEquals("name  =\tdorado") == "name = 'dorado'"
  {
    var q := "name  =\tdorado";
    NameEqualsExampleMatch();
    QuoteNameEqualsWhole(q, 8, 14);
    ExampleArgument();
    ExampleRewriteText();
  }

  lemma ExampleArgument()
    ensures "name  =\tdorado"[8..14] == "dorado"
  {
  }

  lemma ExampleRewriteText()
    ensures "name = '" + "dorado" + "'" == "name = 'dorado'"
  {
  }

  /** A match running to the end of the text is its whole rewrite. */
  lemma QuoteNameEqualsWhole(q: string, a: nat, e: nat)
    requires NameEqualsAtStart(q) == Some((a, e)) && e == |q|
    ensures QuoteNameEquals(q) == "name = '" + q[a..e] + "'"
  {
    assert q[e..] == "";
  }

  /** Text without `name` is left as it is. */
  lemma {:induction false} QuoteNameEqualsAbsent(q: string)
    requires !Contains(q, "name")
    ensures QuoteNameEquals(q) == q
    decreases |q|
  {
    if |q| > 0 {
      assert !OccursAt(q, "name", 0);
      assert !Contains(q[1..], "name") by {
        if Contains(q[1..], "name") {
          var j :| 0 <= j <= |q[1..]| && OccursAt(q[1..], "name", j);
          assert q[1..][j..j + 4] == q[j + 1..j + 5];
          assert OccursAt(q, "name", j + 1);
        }
      }
      QuoteNameEqualsAbsent(q[1..]);
    }
  }

  lemma NameEqualsExampleMatch()
    ensures NameEqualsAtStart("name  =\tdorado") == Some((8, 14))
  {
    var q := "name  =\tdorado";
    assert StartsWith(q, "name") by { assert q[..4] == "name"; }
    RunExampleBlanks();
    RunExampleWord();
  }

  lemma RunExampleBlanks()
    ensures Run("name  =\tdorado", 4, false) == 2
    ensures "name  =\tdorado"[6] == '='
    ensures Run("name  =\tdorado", 7, false) == 1
  {
    var q := "name  =\tdorado";
    assert Run(q, 6, false) == 0;
    assert Run(q, 8, false) == 0;
  }

  lemma RunExampleWord()
    ensures Run("name  =\tdorado", 8, true) == 6
  {
    var q := "name  =\tdorado";
    assert Run(q, 14, true) == 0;
    assert Run(q, 13, true) == 1;
    assert Run(q, 12, true) == 2;
    assert Run(q, 11, true) == 3;
    assert Run(q, 10, true) == 4;
    assert Run(q, 9, true) == 5;
  }

  // ---------------------------------------------------------------------
  // FIND_INS: `\sIN\s[^\)]+\)`, and FIND_ITEMS: `\(([^'\)]+)\)`

  /** A match of `\sIN\s[^\)]+\)` starting at `i`: its end. `[^\)]+` is
      greedy, so it runs to the first `)` after the blank, which must not
      immediately follow it. */
  function InClauseAt(q: string, i: nat): (r: Option<nat>)
    ensures r.Some? ==> i + 6 <= r.value <= |q|
  {
    if i + 4 <= |q| && IsSpace(q[i]) && q[i + 1] == 'I' && q[i + 2] == 'N' && IsSpace(q[i + 3]) then
      match FindFrom(q, ")", i + 4)
      case Some(j) => if j > i + 4 then Some(j + 1) else None
      case None => None
    else None
  }

  /** The shape of every `IN` clause `findall` returns. */
  predicate IsInClause(m: string)
  {
    |m| >= 6 && IsSpace(m[0]) && m[1..3] == "IN" && IsSpace(m[3])
    && m[|m| - 1] == ')' && forall k :: 0 <= k < |m| - 1 ==> m[k] != ')'
  }

  /** `FIND_INS.findall(q)` from position `i`: the non-overlapping matches,
      left to right. */
  function FindIns(q: string, i: nat): (ms: seq<string>)
    ensures forall k :: 0 <= k < |ms| ==> IsInClause(ms[k])
    decreases |q| - i
  {
    if i >= |q| then []
    else match InClauseAt(q, i)
      case Some(e) =>
        var m := q[i..e];
        assert IsInClause(m) by {
          var j := e - 1;
          FindFromFirst(q, ")", i + 4);
          assert OccursAt(q, ")", j);
          forall k | 4 <= k < |m| - 1 ensures m[k] != ')' {
            assert !OccursAt(q, ")", i + k);
            assert q[i + k..i + k + 1] == [q[i + k]];
          }
        }
        [m] + FindIns(q, e)
      case None => FindIns(q, i + 1)
  }

  /** Text without `IN` has no `IN` clause. */
  lemma {:induction false} FindInsAbsent(q: string, i: nat)
    requires !Contains(q, "IN")
    ensures FindIns(q, i) == []
    decreases |q| - i
  {
    if i < |q| {
      assert InClauseAt(q, i).None? by {
        if i + 4 <= |q| && q[i + 1] == 'I' && q[i + 2] == 'N' {
          assert q[i + 1..i + 3] == "IN";
          assert OccursAt(q, "IN", i + 1);
        }
      }
      FindInsAbsent(q, i + 1);
    }
  }

  lemma {:induction false} FindInsKeepsOut(q: string, i: nat, c: char)
    requires c !in q
    ensures forall k :: 0 <= k < |FindIns(q, i)| ==> c !in FindIns(q, i)[k]
    decreases |q| - i
  {
    if i < |q| {
      match InClauseAt(q, i)
      case Some(e) =>
        FindInsKeepsOut(q, e, c);
        assert c !in q[i..e];
        assert FindIns(q, i) == [q[i..e]] + FindIns(q, e);
      case None =>
        FindInsKeepsOut(q, i + 1, c);
    }
  }

  /** A match of `\(([^'\)]+)\)` starting at `p`: the captured items. */
  function ItemsAt(m: string, p: nat): (r: Option<string>)
    ensures r.Some? ==> OccursAt(m, "(" + r.value + ")", p)
    ensures r.Some? ==> |r.value| > 0 && '\'' !in r.value && ')' !in r.value
  {
    if p < |m| && m[p] == '(' then
      var n := ItemRun(m, p + 1);
      if n > 0 && p + 1 + n < |m| && m[p + 1 + n] == ')' then
        var items := m[p + 1..p + 1 + n];
        assert m[p..p + 1 + n + 1] == "(" + items + ")";
        Some(items)
      else None
    else None
  }

  /** The greedy `[^'\)]+` run starting at `i`. */
  function ItemRun(m: string, i: nat): (n: nat)
    requires i <= |m|
    ensures i + n <= |m|
    ensures forall k :: i <= k < i + n ==> m[k] != '\'' && m[k] != ')'
    decreases |m| - i
  {
    if i < |m| && m[i] != '\'' && m[i] != ')' then 1 + ItemRun(m, i + 1) else 0
  }

  /** `FIND_ITEMS.search(m).groups()[0]` from position `p`; `None` is the
      exception the loop catches and skips over. */
  function FindItems(m: string, p: nat): (r: Option<string>)
    ensures r.Some? ==> |r.value| > 0 && '\'' !in r.value && ')' !in r.value
    ensures r.Some? ==> Contains(m, "(" + r.value + ")")
    ensures r.None? ==> forall k :: p <= k < |m| ==> ItemsAt(m, k).None?
    decreases |m| - p
  {
    if p >= |m| then None
    else match ItemsAt(m, p)
      case Some(items) =>
        assert OccursAt(m, "(" + items + ")", p);
        Some(items)
      case None => FindItems(m, p + 1)
  }

  lemma {:induction false} FindItemsKeepsOut(m: string, p: nat, c: char)
    requires c !in m
    ensures FindItems(m, p).Some? ==> c !in FindItems(m, p).value
    decreases |m| - p
  {
    if p < |m| {
      match ItemsAt(m, p)
      case Some(items) =>
        var n := |items|;
        assert m[p..p + n + 2] == "(" + items + ")";
        assert items == m[p..p + n + 2][1..n + 1];
        assert c !in m[p..p + n + 2];
      case None =>
        FindItemsKeepsOut(m, p + 1, c);
    }
  }

  // ---------------------------------------------------------------------
  // Quoting the items of one IN list

  /** One item of the list: left bare if it is a number, quoted otherwise.
      As written the digit test looks at the item before stripping it, so
      any item after a `, ` fails it; `Corrected` tests the stripped item. */
  function ItemText(item: string, v: Variant): string
  {
    var number := if v == AsWritten then IsDigitString(item) else IsDigitString(Strip(item));
    if number then Strip(item) else "'" + Strip(item) + "'"
  }

  /** The loop building `new_items`: each item's text followed by `, `. */
  function Accumulate(items: seq<string>, v: Variant): string
  {
    if |items| == 0 then "" else ItemText(items[0], v) + ", " + Accumulate(items[1..], v)
  }

  function ItemTexts(items: seq<string>, v: Variant): (r: seq<string>)
    ensures |r| == |items|
    ensures forall k :: 0 <= k < |items| ==> r[k] == ItemText(items[k], v)
  {
    seq(|items|, k requires 0 <= k < |items| => ItemText(items[k], v))
  }

  /** `new_items[:-2]` after the loop over `items.split(',')`. */
  function QuoteItems(items: string, v: Variant): string
  {
    var acc := Accumulate(Split(items, ","), v);
    if |acc| < 2 then "" else acc[..|acc| - 2]
  }

  lemma {:induction false} AccumulateJoin(items: seq<string>, v: Variant)
    requires |items| > 0
    ensures Accumulate(items, v) == Join(ItemTexts(items, v), ", ") + ", "
    decreases |items|
  {
    if |items| > 1 {
      AccumulateJoin(items[1..], v);
      assert ItemTexts(items, v)[1..] == ItemTexts(items[1..], v);
    }
  }

  /** Dropping the final `, ` of the loop's output leaves exactly the item
      texts joined by `, `: one text per comma-separated item, in order. */
  lemma QuoteItemsIsJoin(items: string, v: Variant)
    ensures QuoteItems(items, v) == Join(ItemTexts(Split(items, ","), v), ", ")
  {
    var parts := Split(items, ",");
    AccumulateJoin(parts, v);
    var acc := Accumulate(parts, v);
    assert |acc| >= 2;
    assert acc[..|acc| - 2] == Join(ItemTexts(parts, v), ", ");
  }

  lemma ItemTextKeepsOut(item: string, v: Variant, c: char)
    requires c !in item && c != '\''
    ensures c !in ItemText(item, v)
  {
    StripKeepsOut(item, c);
  }

  lemma {:induction false} AccumulateKeepsOut(items: seq<string>, v: Variant, c: char)
    requires forall k :: 0 <= k < |items| ==> c !in items[k]
    requires c != '\'' && c != ',' && c != ' '
    ensures c !in Accumulate(items, v)
    decreases |items|
  {
    if |items| > 0 {
      ItemTextKeepsOut(items[0], v, c);
      AccumulateKeepsOut(items[1..], v, c);
    }
  }

  lemma QuoteItemsKeepsOut(items: string, v: Variant, c: char)
    requires c !in items && c != '\'' && c != ',' && c != ' '
    ensures c !in QuoteItems(items, v)
  {
    var parts := Split(items, ",");
    SplitKeepsOut(items, ",", c);
    AccumulateKeepsOut(parts, v, c);
    var acc := Accumulate(parts, v);
    if |acc| >= 2 {
      assert forall k :: 0 <= k < |acc| - 2 ==> acc[..|acc| - 2][k] == acc[k];
    }
  }

  /** A digit string has no blanks to strip. */
  lemma StripDigits(s: string)
    requires IsDigitString(s)
    ensures Strip(s) == s
  {
    assert StripLeft(s) == s;
    assert StripRight(s) == s;
  }

  /** The loop emits at least one item, so `if new_items:` always holds. */
  lemma QuoteItemsNonEmpty(items: string, v: Variant)
    ensures |QuoteItems(items, v)| > 0
  {
    var parts := Split(items, ",");
    var text := ItemText(parts[0], v);
    assert Accumulate(parts, v) == text + ", " + Accumulate(parts[1..], v);
    if v == AsWritten && IsDigitString(parts[0]) {
      StripDigits(parts[0]);
    }
    assert |text| > 0;
  }

  /** In the corrected loop an item is left unquoted exactly when its
      stripped text is a number. */
  lemma CorrectedQuotesExactlyNonNumbers(item: string)
    ensures ItemText(item, Corrected) == Strip(item) <==> IsDigitString(Strip(item))
  {
  }

  /** As written, `IN (1, 2)` quotes the second number, because the item
      ` 2` is not a digit string until stripped; corrected, both stay bare. */
  lemma AsWrittenQuotesSpacedNumbers()
    ensures QuoteItems("1, 2", AsWritten) == "1, '2'"
  {
    SplitExample();
    QuoteItemsIsJoin("1, 2", AsWritten);
    ItemTextsExample();
    var t := ItemTexts(Split("1, 2", ","), AsWritten);
    assert t == ["1", "'2'"];
    JoinTwo("1", "'2'", ", ");
    assert Join(t, ", ") == "1" + ", " + "'2'";
    assert "1" + ", " + "'2'" == "1, '2'" by {
      ExampleListText();
    }
  }

  lemma ExampleListText()
    ensures "1" + ", " + "'2'" == "1, '2'"
  {
  }

  lemma ItemTextsExample()
    ensures ItemTexts(["1", " 2"], AsWritten) == ["1", "'2'"]
  {
    ItemTextsTwo("1", " 2", AsWritten);
    ItemTextExample();
  }

  lemma ItemTextsTwo(a: string, b: string, v: Variant)
    ensures ItemTexts([a, b], v) == [ItemText(a, v), ItemText(b, v)]
  {
    var t := ItemTexts([a, b], v);
    assert t[0] == ItemText(a, v) && t[1] == ItemText(b, v);
  }

  lemma JoinTwo(a: string, b: string, sep: string)
    ensures Join([a, b], sep) == a + sep + b
  {
    assert [a, b][1..] == [b];
  }

  lemma SplitExample()
    ensures Split("1, 2", ",") == ["1", " 2"]
  {
    var items := "1, 2";
    FindExample();
    SplitTailExample();
    assert items[..1] == "1" && items[2..] == " 2";
  }

  lemma FindExample()
    ensures Find("1, 2", ",") == Some(1)
  {
    var items := "1, 2";
    assert items[1..2] == ",";
    assert items[0] == '1';
    assert items[0..1] != ",";
  }

  lemma SplitTailExample()
    ensures Split(" 2", ",") == [" 2"]
  {
    assert FindFrom(" 2", ",", 2) == None;
    assert " 2"[1] == '2';
    assert " 2"[1..2] != ",";
    assert " 2"[0] == ' ';
    assert " 2"[0..1] != ",";
  }

  lemma StripExample()
    ensures Strip("1") == "1" && Strip(" 2") == "2"
  {
    assert IsDigitString("1") && IsDigitString("2");
    StripDigits("1");
    StripDigits("2");
    StripLeadingSpace(" 2");
    assert " 2"[1..] == "2";
  }

  lemma StripLeadingSpace(s: string)
    requires |s| > 0 && IsSpace(s[0])
    ensures Strip(s) == Strip(s[1..])
  {
  }

  lemma ItemTextExample()
    ensures ItemText("1", AsWritten) == "1" && ItemText("1", Corrected) == "1"
    ensures ItemText(" 2", AsWritten) == "'2'" && ItemText(" 2", Corrected) == "2"
  {
    StripExample();
    SpacedTwoIsNotDigits();
    assert IsDigitString("1") && IsDigitString("2");
  }

  lemma SpacedTwoIsNotDigits()
    ensures !IsDigitString(" 2")
  {
    assert !IsDigit(" 2"[0]);
  }

  // ---------------------------------------------------------------------
  // The whole rewrite

  /** One pass of the loop over the `IN` clauses found: a clause with a
      subquery is left alone, one without a capturable list is skipped, and
      otherwise every ` IN (items` in the query gets the quoted list. */
  function QuoteInClause(q: string, m: string, v: Variant): string
  {
    if Contains(m, "SELECT") then q
    else match FindItems(m, 0)
      case None => q
      case Some(items) =>
        var newItems := QuoteItems(items, v);
        if |newItems| > 0 then Replace(q, " IN (" + items, " IN (" + newItems) else q
  }

  /** The loop over all the clauses, in the order they were found. */
  function QuoteInClauses(q: string, ms: seq<string>, v: Variant): string
    decreases |ms|
  {
    if |ms| == 0 then q else QuoteInClauses(QuoteInClause(q, ms[0], v), ms[1..], v)
  }

  function PostgresifySQL(q: string, pointFlag: bool, translateGeom: bool, sampleFlag: bool, v: Variant): string
  {
    var a := Aliases(q, pointFlag, translateGeom, sampleFlag);
    var b := QuoteDates(QuoteNameEquals(a));
    QuoteInClauses(b, FindIns(b, 0), v)
  }

  lemma QuoteInClauseKeepsOut(q: string, m: string, v: Variant, c: char)
    requires c !in q && c !in m
    requires c != '\'' && c != ',' && c != ' ' && c != 'I' && c != 'N' && c != '('
    ensures c !in QuoteInClause(q, m, v)
  {
    if !Contains(m, "SELECT") {
      match FindItems(m, 0)
      case None =>
      case Some(items) =>
        FindItemsKeepsOut(m, 0, c);
        ListReplaceKeepsOut(q, items, v, c);
    }
  }

  lemma ListReplaceKeepsOut(q: string, items: string, v: Variant, c: char)
    requires c !in q && c !in items
    requires c != '\'' && c != ',' && c != ' ' && c != 'I' && c != 'N' && c != '('
    ensures |QuoteItems(items, v)| > 0 ==>
      c !in Replace(q, " IN (" + items, " IN (" + QuoteItems(items, v))
  {
    var newItems := QuoteItems(items, v);
    QuoteItemsKeepsOut(items, v, c);
    if |newItems| > 0 {
      assert c !in " IN (";
      ReplaceKeepsOut(q, " IN (" + items, " IN (" + newItems, c);
    }
  }

  lemma {:induction false} QuoteInClausesKeepsOut(q: string, ms: seq<string>, v: Variant, c: char)
    requires c !in q && c != '\'' && c != ',' && c != ' ' && c != 'I' && c != 'N' && c != '('
    requires forall k :: 0 <= k < |ms| ==> c !in ms[k]
    ensures c !in QuoteInClauses(q, ms, v)
    decreases |ms|
  {
    if |ms| > 0 {
      QuoteInClauseKeepsOut(q, ms[0], v, c);
      QuoteInClausesKeepsOut(QuoteInClause(q, ms[0], v), ms[1..], v, c);
    }
  }

  /** Whatever the flags, the rewritten query contains no double quote:
      the first step removes them and no later step writes one. */
  lemma PostgresifyUnquoted(q: string, pointFlag: bool, translateGeom: bool, sampleFlag: bool, v: Variant)
    ensures '"' !in PostgresifySQL(q, pointFlag, translateGeom, sampleFlag, v)
  {
    var a := Aliases(q, pointFlag, translateGeom, sampleFlag);
    AliasesUnquoted(q, pointFlag, translateGeom, sampleFlag);
    QuoteNameEqualsKeepsOut(a, '"');
    var b := QuoteDates(QuoteNameEquals(a));
    QuoteDatesKeepsOut(QuoteNameEquals(a), '"');
    FindInsKeepsOut(b, 0, '"');
    QuoteInClausesKeepsOut(b, FindIns(b, 0), v, '"');
  }

  /** Without `IN` lists, `name =` comparisons or timestamps, and with no
      aliased column mentioned, the rewrite only removes double quotes. */
  lemma PlainQueryOnlyDequoted(q: string, pointFlag: bool, translateGeom: bool, sampleFlag: bool, v: Variant)
    requires MentionsNoAliasedColumn(Replace(q, "\"", ""))
    requires !Contains(Replace(q, "\"", ""), "name")
    requires !Contains(Replace(q, "\"", ""), "IN")
    requires forall k :: 0 <= k <= |Replace(q, "\"", "")| ==> !DateAtStart(Replace(q, "\"", "")[k..])
    ensures PostgresifySQL(q, pointFlag, translateGeom, sampleFlag, v) == Replace(q, "\"", "")
  {
    var d := Replace(q, "\"", "");
    AliasesOnlyTouchColumns(q, pointFlag, translateGeom, sampleFlag);
    QuoteNameEqualsAbsent(d);
    QuoteDatesAbsent(d);
    FindInsAbsent(d, 0);
  }
}

=== FILE: query.dfy ===
/** The query page's request handling: the site URI shown to the page, the
    mapping from the query string to the query manager's arguments, and
    the classification of platforms into map-file layers. */
module Query {
  import opened Wrappers
  import opened Strs
  import opened Findings
  import opened Views

  /** Python's `s[:-1]`. */
  function DropLast(s: string): (r: string)
    ensures |s| > 0 ==> r == s[..|s| - 1]
    ensures |s| == 0 ==> r == ""
  {
    if |s| == 0 then "" else s[..|s| - 1]
  }

  /** `get_http_site_uri`: the absolute URI of '/' without its final
      character, with every 'https' turned into 'http'. */
  function HttpSiteUri(absolute: string): (r: string)
  {
    Replace(DropLast(absolute), "https", "http")
  }

  /** A URI without 'https' only loses its final character; a secure root
      URI becomes the plain one. */
  lemma HttpSiteUriMeans(absolute: string, host: string)
    requires !Contains(absolute, "https")
    requires '/' !in host && 's' !in host
    ensures HttpSiteUri(absolute) == DropLast(absolute)
    ensures HttpSiteUri("https://" + host + "/") == "http://" + host
  {
    assert !Contains(DropLast(absolute), "https") by {
      if Contains(DropLast(absolute), "https") {
        var i :| 0 <= i <= |DropLast(absolute)| && OccursAt(DropLast(absolute), "https", i);
        assert absolute[i..i + 5] == DropLast(absolute)[i..i + 5];
        assert OccursAt(absolute, "https", i);
      }
    }
    ReplaceAbsent(DropLast(absolute), "https", "http", 1);
    SecureRoot(host);
  }

  lemma SecureRoot(host: string)
    requires '/' !in host && 's' !in host
    ensures HttpSiteUri("https://" + host + "/") == "http://" + host
  {
    var u := "https://" + host + "/";
    assert DropLast(u) == "https://" + host;
    var rest := "://" + host;
    assert DropLast(u) == "https" + rest;
    assert OccursAt(DropLast(u), "https", 0);
    FindFirst(DropLast(u), "https");
    assert Find(DropLast(u), "https") == Some(0);
    assert DropLast(u)[5..] == rest;
    assert !Contains(rest, "https") by {
      if Contains(rest, "https") {
        SubChars(rest, "https", 's');
      }
    }
    ReplaceAbsent(rest, "https", "http", 1);
  }

  /** Every character of a contained text occurs in the text around it. */
  lemma SubChars(s: string, sub: string, c: char)
    requires Contains(s, sub) && c in sub
    ensures c in s
  {
    var i :| 0 <= i <= |s| && OccursAt(s, sub, i);
    var k :| 0 <= k < |sub| && sub[k] == c;
    assert s[i..i + |sub|][k] == s[i + k];
  }

  // ---------------------------------------------------------------------
  // Request parameters

  /** How a query-manager argument is read: the whole list of its own key,
      or the last value of each of several keys. */
  datatype Spec = Plain | Picks(names: seq<string>)

  /** An argument: a list of values, or one optional value per picked key. */
  datatype Arg = Got(list: seq<string>) | Each(picks: seq<Option<string>>)

  const QueryParms: map<string, Spec> := map[
    "sampledparametersgroup" := Plain, "measuredparametersgroup" := Plain,
    "parameterstandardname" := Plain, "parameterminmax" := Plain,
    "time" := Picks(["start_time", "end_time"]), "depth" := Picks(["min_depth", "max_depth"]),
    "simpledepthtime" := Picks([]), "platforms" := Plain, "parametervalues" := Picks([]),
    "parameterparameter" := Picks(["px", "py", "pz", "pc", "xlog", "ylog", "zlog", "clog"]),
    "get_actual_count" := Plain, "showsigmatparametervalues" := Plain,
    "showstandardnameparametervalues" := Plain, "showallparametervalues" := Plain,
    "showparameterplatformdata" := Plain, "parameterplot" := Picks(["parameterplotid", "platformplotname"]),
    "parametertimeplotid" := Plain, "showgeox3ddata" := Plain, "showdataas" := Plain, "only" := Plain,
    "parametertab" := Plain, "secondsperpixel" := Plain, "x3dterrains" := Plain]

  function Picked(q: QueryDict, names: seq<string>): (r: seq<Option<string>>)
    ensures |r| == |names|
    ensures forall i :: 0 <= i < |names| ==> r[i] == GetLast(q, names[i])
  {
    seq(|names|, i requires 0 <= i < |names| => GetLast(q, names[i]))
  }

  /** The first loop of `queryData`/`queryMap`. */
  function MapParams(specs: map<string, Spec>, q: QueryDict): map<string, Arg>
  {
    map key | key in specs :: match specs[key] case Plain => Got(GetList(q, key)) case Picks(ns) => Each(Picked(q, ns))
  }

  /** Every spec yields exactly one argument: a plain key all the values it
      was given (none when absent), a tuple key the last value of each
      sub-key in order, `None` for one that is absent. */
  lemma MapParamsMeans(specs: map<string, Spec>, q: QueryDict, key: string)
    ensures key in MapParams(specs, q) <==> key in specs
    ensures key in specs && specs[key].Plain? ==> MapParams(specs, q)[key] == Got(GetList(q, key))
    ensures key in specs && specs[key].Picks? ==>
      var a := MapParams(specs, q)[key]; var ns := specs[key].names;
      a.Each? && |a.picks| == |ns|
      && (forall i :: 0 <= i < |ns| ==> (a.picks[i].Some? <==> ns[i] in q.lists && |q.lists[ns[i]]| > 0))
      && (forall i :: 0 <= i < |ns| && a.picks[i].Some? ==> a.picks[i].value == q.lists[ns[i]][|q.lists[ns[i]]| - 1])
  {
  }

  /** The time window is read from `start_time` and `end_time`. */
  lemma TimeSpec()
    ensures "time" in QueryParms && QueryParms["time"] == Picks(["start_time", "end_time"])
  {
  }

  /** The parameter-value list starts empty; the `_MIN` loop appends to it. */
  lemma ParameterValuesSpec()
    ensures "parametervalues" in QueryParms && QueryParms["parametervalues"] == Picks([])
  {
  }

  /** One `{name: (min, max)}` entry of `parametervalues`. */
  datatype MinMax = MinMax(name: string, min: string, max: string)

  /** The name a `_MIN` key stands for (see `Views.NameOf`). */
  function MinName(v: Variant, key: string): string
    requires EndsWith(key, "_MIN")
  {
    NameOf(v, key, "_MIN")
  }

  /** The second loop of `queryData`, over the keys in order. As written,
      a key whose bounds cannot be read leaves `pminmax` as it was and it
      is appended anyway: the previous entry once more, or an
      UnboundLocalError before any entry exists. Corrected, such a key is
      skipped. */
  function MinMaxFrom(v: Variant, q: QueryDict, keys: seq<string>, last: Option<MinMax>): (r: Result<seq<MinMax>, string>)
    decreases |keys|
  {
    if |keys| == 0 then Success([])
    else if !EndsWith(keys[0], "_MIN") then MinMaxFrom(v, q, keys[1..], last)
    else
      var name := MinName(v, keys[0]);
      var lo, hi := GetFirst(q, name + "_MIN"), GetFirst(q, name + "_MAX");
      var read := if lo.Some? && hi.Some? then Some(MinMax(name, lo.value, hi.value)) else None;
      match v
      case Corrected =>
        var rest :- MinMaxFrom(v, q, keys[1..], last);
        Success(if read.Some? then [read.value] + rest else rest)
      case AsWritten =>
        var current := if read.Some? then read else last;
        if current.None? then Failure("UnboundLocalError")
        else
          var rest :- MinMaxFrom(v, q, keys[1..], current);
          Success([current.value] + rest)
  }

  /** The arguments `queryData` hands to the query manager, with the
      `parametervalues` list kept apart from the others. */
  datatype QueryArgs = QueryArgs(args: map<string, Arg>, parameterValues: seq<MinMax>)

  function QueryData(v: Variant, q: QueryDict): Result<QueryArgs, string>
  {
    var pv :- MinMaxFrom(v, q, q.order, None);
    Success(QueryArgs(MapParams(QueryParms, q), pv))
  }

  /** Entry `e` is what key `key` reads: the key ends in `_MIN`, the name is
      the key without that suffix, and the bounds are the first values of
      `name_MIN` and `name_MAX`. */
  predicate ReadFrom(q: QueryDict, key: string, e: MinMax)
  {
    EndsWith(key, "_MIN") && e.name == key[..|key| - 4]
    && GetFirst(q, e.name + "_MIN") == Some(e.min) && GetFirst(q, e.name + "_MAX") == Some(e.max)
  }

  /** Corrected, the loop never fails, and its entries are exactly the keys
      ending in `_MIN` whose name has both bounds, in key order, each with
      the first value of `name_MIN` and of `name_MAX`. */
  lemma {:induction false} CorrectedMinMax(q: QueryDict, keys: seq<string>, last: Option<MinMax>)
    ensures MinMaxFrom(Corrected, q, keys, last).Success?
    ensures var r := MinMaxFrom(Corrected, q, keys, last).value;
      |r| <= |keys|
      && (forall e :: e in r ==> exists i :: 0 <= i < |keys| && ReadFrom(q, keys[i], e))
      && (forall i :: 0 <= i < |keys| && EndsWith(keys[i], "_MIN") ==>
            var name := keys[i][..|keys[i]| - 4];
            GetFirst(q, name + "_MIN").Some? && GetFirst(q, name + "_MAX").Some? ==>
            MinMax(name, GetFirst(q, name + "_MIN").value, GetFirst(q, name + "_MAX").value) in r)
    decreases |keys|
  {
    if |keys| > 0 {
      CorrectedMinMax(q, keys[1..], last);
      var rest := MinMaxFrom(Corrected, q, keys[1..], last).value;
      var r := MinMaxFrom(Corrected, q, keys, last).value;
      forall e | e in r ensures exists i :: 0 <= i < |keys| && ReadFrom(q, keys[i], e) {
        if e in rest {
          var i :| 0 <= i < |keys[1..]| && ReadFrom(q, keys[1..][i], e);
          assert keys[1..][i] == keys[i + 1];
        } else {
          assert ReadFrom(q, keys[0], e);
        }
      }
      forall i | 0 <= i < |keys| && EndsWith(keys[i], "_MIN")
        ensures var name := keys[i][..|keys[i]| - 4];
          GetFirst(q, name + "_MIN").Some? && GetFirst(q, name + "_MAX").Some? ==>
          MinMax(name, GetFirst(q, name + "_MIN").value, GetFirst(q, name + "_MAX").value) in r
      {
        if i > 0 {
          assert keys[1..][i - 1] == keys[i];
        }
      }
    }
  }

  /** `T_MIN=1` with no `T_MAX`, and `T_MIN=1&T_MAX=2&U_MIN=3`. */
  const HalfRequest := QueryDict(["T_MIN"], map["T_MIN" := ["1"]])

  /** As written, a `_MIN` key without its `_MAX` partner fails the whole
      request with an UnboundLocalError instead of being skipped. */
  lemma AsWrittenUnbound()
    ensures QueryData(AsWritten, HalfRequest).Failure?
  {
    assert "T_MIN"[1..] == "_MIN";
    assert EndsWith("T_MIN", "_MIN");
    assert MinName(AsWritten, "T_MIN") == "T" by {
      assert OccursAt("T_MIN", "_MIN", 1);
      assert !OccursAt("T_MIN", "_MIN", 0) by {
        assert "T_MIN"[0..4][0] == 'T';
      }
      SplitFirstAt("T_MIN", "_MIN", 1);
    }
    assert "T" + "_MAX" !in HalfRequest.lists by {
      assert ("T" + "_MAX")[2] == 'M' && ("T" + "_MAX")[3] == 'A';
    }
  }


  const StaleRequest := QueryDict(["T_MIN", "T_MAX", "U_MIN"], map["T_MIN" := ["1"], "T_MAX" := ["2"], "U_MIN" := ["3"]])

  /** Corrected, a `_MIN` key without its `_MAX` partner is skipped. */
  lemma CorrectedSkipsHalf()
    ensures MinMaxFrom(Corrected, HalfRequest, HalfRequest.order, None) == Success([])
  {
    assert "T_MIN"[..1] == "T";
    assert EndsWith("T_MIN", "_MIN");
    assert "T" + "_MAX" !in HalfRequest.lists by {
      assert ("T" + "_MAX")[3] == 'A';
    }
  }

  /** Corrected, `T_MIN=1&T_MAX=2&U_MIN=3` yields `T` once and skips `U`
      (compare `AsWrittenStale`). */
  lemma CorrectedNoStale()
    ensures MinMaxFrom(Corrected, StaleRequest, StaleRequest.order, None) == Success([MinMax("T", "1", "2")])
  {
    var q := StaleRequest;
    assert "T_MIN"[..1] == "T";
    assert EndsWith("T_MIN", "_MIN");
    assert "T" + "_MIN" == "T_MIN" && "T" + "_MAX" == "T_MAX";
    assert GetFirst(q, "T_MIN") == Some("1") && GetFirst(q, "T_MAX") == Some("2");
    assert q.order[1..] == ["T_MAX", "U_MIN"];
    StaleTail();
    assert [MinMax("T", "1", "2")] + [] == [MinMax("T", "1", "2")];
  }

  lemma StaleTail()
    ensures MinMaxFrom(Corrected, StaleRequest, ["T_MAX", "U_MIN"], None) == Success([])
  {
    assert !EndsWith("T_MAX", "_MIN") by {
      assert "T_MAX"[1..][2] == 'A';
    }
    assert ["T_MAX", "U_MIN"][1..] == ["U_MIN"];
    StaleLast();
  }

  lemma StaleLast()
    ensures MinMaxFrom(Corrected, StaleRequest, ["U_MIN"], None) == Success([])
  {
    assert "U_MIN"[..1] == "U";
    assert EndsWith("U_MIN", "_MIN");
    assert "U" + "_MAX" !in StaleRequest.lists by {
      assert ("U" + "_MAX")[0] == 'U' && ("U" + "_MAX")[3] == 'A';
    }
  }

  /** As written, `T_MIN=1&T_MAX=2&U_MIN=3` appends `T` a second time for
      `U_MIN`, whose bounds cannot be read. */
  lemma AsWrittenStale()
    ensures MinMaxFrom(AsWritten, StaleRequest, StaleRequest.order, None)
         == Success([MinMax("T", "1", "2"), MinMax("T", "1", "2")])
  {
    var q := StaleRequest;
    assert "T_MIN"[1..] == "_MIN";
    assert EndsWith("T_MIN", "_MIN");
    assert MinName(AsWritten, "T_MIN") == "T" by {
      assert OccursAt("T_MIN", "_MIN", 1);
      assert !OccursAt("T_MIN", "_MIN", 0) by {
        assert "T_MIN"[0..4][0] == 'T';
      }
      SplitFirstAt("T_MIN", "_MIN", 1);
    }
    assert "T" + "_MIN" == "T_MIN" && "T" + "_MAX" == "T_MAX";
    assert GetFirst(q, "T_MIN") == Some("1") && GetFirst(q, "T_MAX") == Some("2");
    assert q.order[1..] == ["T_MAX", "U_MIN"];
    AsWrittenStaleTail();
    assert [MinMax("T", "1", "2")] + [MinMax("T", "1", "2")] == [MinMax("T", "1", "2"), MinMax("T", "1", "2")];
  }

  lemma AsWrittenStaleTail()
    ensures MinMaxFrom(AsWritten, StaleRequest, ["T_MAX", "U_MIN"], Some(MinMax("T", "1", "2")))
         == Success([MinMax("T", "1", "2")])
  {
    assert !EndsWith("T_MAX", "_MIN") by {
      assert "T_MAX"[1..][2] == 'A';
    }
    assert ["T_MAX", "U_MIN"][1..] == ["U_MIN"];
    AsWrittenStaleLast();
  }

  lemma AsWrittenStaleLast()
    ensures MinMaxFrom(AsWritten, StaleRequest, ["U_MIN"], Some(MinMax("T", "1", "2")))
         == Success([MinMax("T", "1", "2")])
  {
    assert "U_MIN"[1..] == "_MIN";
    assert EndsWith("U_MIN", "_MIN");
    assert MinName(AsWritten, "U_MIN") == "U" by {
      assert OccursAt("U_MIN", "_MIN", 1);
      assert !OccursAt("U_MIN", "_MIN", 0) by {
        assert "U_MIN"[0..4][0] == 'U';
      }
      SplitFirstAt("U_MIN", "_MIN", 1);
    }
    assert "U" + "_MAX" !in StaleRequest.lists by {
      assert ("U" + "_MAX")[0] == 'U' && ("U" + "_MAX")[3] == 'A';
    }
    assert ["U_MIN"][1..] == [];
    assert MinMaxFrom(AsWritten, StaleRequest, [], Some(MinMax("T", "1", "2"))) == Success([]);
    assert [MinMax("T", "1", "2")] + [] == [MinMax("T", "1", "2")];
  }

  // ---------------------------------------------------------------------
  // Map-file layers

  /** A platform as the options JSON lists it: name, id, colour and type. */
  datatype Platform = Platform(name: string, id: string, color: string, kind: string)

  datatype Shape = Line | Point

  /** One map-file layer. */
  datatype Item = Item(id: string, name: string, color: string, shape: Shape, extraStyle: string, geoQuery: string)

  datatype MapFile = MapFile(items: seq<Item>, trajectoryUnion: string, stationUnion: string)

  const TrajectoryKinds: set<string> := {"trajectory"}

  const StationKinds: set<string> := {"timeseries", "timeseriesprofile"}

  const StationStyle := "SYMBOL \"circle\"\n        SIZE 7.0\n        OUTLINECOLOR 1 1 1"

  const SampleStyle := "SYMBOL \"circle\"\n        SIZE 7.0\n        OUTLINECOLOR 0 0 0 "

  /** The platforms of all groups, group after group. */
  function Flatten(groups: seq<seq<Platform>>): seq<Platform>
    decreases |groups|
  {
    if |groups| == 0 then [] else groups[0] + Flatten(groups[1..])
  }

  /** The platforms whose lower-cased type is one of `kinds`, in order. */
  function OfKind(ps: seq<Platform>, kinds: set<string>): seq<Platform>
    decreases |ps|
  {
    if |ps| == 0 then []
    else (if Lower(ps[0].kind) in kinds then [ps[0]] else []) + OfKind(ps[1..], kinds)
  }

  lemma {:induction false} OfKindMeans(ps: seq<Platform>, kinds: set<string>, p: Platform)
    ensures p in OfKind(ps, kinds) <==> p in ps && Lower(p.kind) in kinds
    ensures |OfKind(ps, kinds)| <= |ps|
    decreases |ps|
  {
    if |ps| > 0 {
      OfKindMeans(ps[1..], kinds, p);
      assert ps == [ps[0]] + ps[1..];
    }
  }

  /** One layer per platform, sharing a shape, style and geometry query. */
  function Layers(ps: seq<Platform>, shape: Shape, style: string, geo: string -> string): (r: seq<Item>)
    ensures |r| == |ps|
    ensures forall i :: 0 <= i < |ps| ==>
      r[i] == Item(ps[i].id, ps[i].name, "\"#" + ps[i].color + "\"", shape, style, geo(ps[i].name))
  {
    seq(|ps|, i requires 0 <= i < |ps| => Item(ps[i].id, ps[i].name, "\"#" + ps[i].color + "\"", shape, style, geo(ps[i].name)))
  }

  /** Each name followed by a comma. */
  function Commas(names: seq<string>): string
    decreases |names|
  {
    if |names| == 0 then "" else names[0] + "," + Commas(names[1..])
  }

  function NamesOf(ps: seq<Platform>): seq<string>
  {
    seq(|ps|, i requires 0 <= i < |ps| => ps[i].name)
  }

  /** Dropping the trailing comma gives the names joined by commas. */
  lemma {:induction false} CommasJoin(names: seq<string>)
    ensures DropLast(Commas(names)) == Join(names, ",")
    decreases |names|
  {
    if |names| > 1 {
      CommasJoin(names[1..]);
      var rest := Commas(names[1..]);
      assert |rest| > 0 by {
        assert rest == names[1] + "," + Commas(names[1..][1..]);
      }
      assert Commas(names) == names[0] + "," + rest;
      assert DropLast(Commas(names)) == names[0] + "," + DropLast(rest);
    } else if |names| == 1 {
      assert Commas(names) == names[0] + ",";
      assert DropLast(names[0] + ",") == names[0];
    }
  }

  /** `_buildMapFile`: nothing without 'platforms' in the options;
      otherwise a line layer per trajectory platform, then a point layer
      per time-series platform, then the sample layer when the sample
      query is not empty, with the union strings of the first two. */
  function BuildMapFile(platforms: Option<seq<seq<Platform>>>, lineQuery: string -> string,
                        pointQuery: string -> string, sampleQuery: string): Option<MapFile>
  {
    match platforms
    case None => None
    case Some(groups) =>
      var all := Flatten(groups);
      var lines, stations := OfKind(all, TrajectoryKinds), OfKind(all, StationKinds);
      var sample := if sampleQuery == "" then []
                    else [Item("sample_points", "sample_points", "255 255 255", Point, SampleStyle, sampleQuery)];
      Some(MapFile(Layers(lines, Line, "", lineQuery) + Layers(stations, Point, StationStyle, pointQuery) + sample,
                   DropLast(Commas(NamesOf(lines))), DropLast(Commas(NamesOf(stations)))))
  }

  /** The map file: trajectory platforms become line layers and time-series
      platforms point layers, no other platform becomes a layer, the sample
      layer comes last and only with a sample query, and each union string
      joins the names of its own layers with commas, never the sample's. */
  lemma BuildMapFileMeans(groups: seq<seq<Platform>>, lineQuery: string -> string, pointQuery: string -> string,
                          sampleQuery: string)
    ensures BuildMapFile(None, lineQuery, pointQuery, sampleQuery).None?
    ensures var m := BuildMapFile(Some(groups), lineQuery, pointQuery, sampleQuery);
      var all := Flatten(groups); var lines, stations := OfKind(all, TrajectoryKinds), OfKind(all, StationKinds);
      m.Some?
      && |m.value.items| == |lines| + |stations| + (if sampleQuery == "" then 0 else 1)
      && (forall i :: 0 <= i < |lines| ==> m.value.items[i].shape == Line && m.value.items[i].name == lines[i].name)
      && (forall i :: 0 <= i < |stations| ==>
            m.value.items[|lines| + i].shape == Point && m.value.items[|lines| + i].name == stations[i].name)
      && (sampleQuery != "" ==> m.value.items[|m.value.items| - 1].id == "sample_points")
      && m.value.trajectoryUnion == Join(NamesOf(lines), ",")
      && m.value.stationUnion == Join(NamesOf(stations), ",")
  {
    var all := Flatten(groups);
    CommasJoin(NamesOf(OfKind(all, TrajectoryKinds)));
    CommasJoin(NamesOf(OfKind(all, StationKinds)));
  }

  /** A platform is a line layer exactly when its type is 'trajectory' in
      any case, and a point layer exactly when it is 'timeseries' or
      'timeseriesprofile'; any other platform is in neither. */
  lemma LayerKinds(groups: seq<seq<Platform>>, p: Platform)
    ensures var all := Flatten(groups);
      (p in OfKind(all, TrajectoryKinds) <==> p in all && Lower(p.kind) == "trajectory")
      && (p in OfKind(all, StationKinds) <==> p in all && (Lower(p.kind) == "timeseries" || Lower(p.kind) == "timeseriesprofile"))
  {
    OfKindMeans(Flatten(groups), TrajectoryKinds, p);
    OfKindMeans(Flatten(groups), StationKinds, p);
  }
}

=== FILE: router.dfy ===
/** The per-request database router: a middleware that takes the database
    alias out of the URL keyword arguments and keeps it in thread-local
    state for the duration of one request, and a router that sends every
    read and write to that alias when it names a configured database. */
module Router {
  import opened Wrappers
  import opened Strs

  /** The thread-local variables; `None`/`false` is "attribute not set". */
  datatype Locals = Locals(alias: Option<string>, admin: bool)

  /** A thread that has not served a request yet. */
  const Unset := Locals(None, false)

  datatype Request = Request(path: string, meta: map<string, string>)

  /** What the view function is called with. */
  datatype Call = Call(locals: Locals, request: Request, kwargs: map<string, string>)

  const AliasKey := "dbAlias"

  /** The project's own database is the Django alias 'default'; every
      other alias names its database. */
  function AliasFor(name: string): (a: string)
    ensures name == "stoqs" ==> a == "default"
    ensures name != "stoqs" ==> a == name
  {
    if name == "stoqs" then "default" else name
  }

  /** `process_view`: move the alias from the keyword arguments into the
      thread-local state and the request's META, and raise the admin
      flag for paths under /admin. */
  function ProcessView(locals: Locals, request: Request, kwargs: map<string, string>): (r: Call)
    ensures AliasKey !in r.kwargs
    ensures forall k :: k in kwargs && k != AliasKey ==> k in r.kwargs && r.kwargs[k] == kwargs[k]
    ensures forall k :: k in r.kwargs ==> k in kwargs
    ensures AliasKey in kwargs ==>
      r.locals.alias == Some(AliasFor(kwargs[AliasKey])) && AliasKey in r.request.meta
      && r.request.meta[AliasKey] == AliasFor(kwargs[AliasKey])
    ensures AliasKey !in kwargs ==> r.locals.alias == locals.alias && r.request == request
    ensures r.locals.admin <==> locals.admin || StartsWith(request.path, "/admin")
    ensures r.request.path == request.path
    ensures forall k :: k in request.meta && k != AliasKey ==> k in r.request.meta && r.request.meta[k] == request.meta[k]
  {
    var (alias, meta, args) :=
      if AliasKey in kwargs then
        var a := AliasFor(kwargs[AliasKey]);
        (Some(a), request.meta[AliasKey := a], kwargs - {AliasKey})
      else (locals.alias, request.meta, kwargs);
    var admin := if StartsWith(request.path, "/admin") then true else locals.admin;
    Call(Locals(alias, admin), Request(request.path, meta), args)
  }

  /** `process_response`: both thread-local variables are deleted. */
  function ProcessResponse(locals: Locals): (r: Locals)
    ensures r.alias.None? && !r.admin
  {
    Unset
  }

  /** `_default_db`: the stored alias when it is set and configured,
      'default' otherwise. */
  function DefaultDb(locals: Locals, databases: set<string>): (db: string)
    ensures db in databases || db == "default"
    ensures db != "default" ==> locals.alias == Some(db)
    ensures locals.alias.Some? && locals.alias.value in databases ==> db == locals.alias.value
    ensures locals.alias.None? ==> db == "default"
  {
    if locals.alias.Some? && locals.alias.value in databases then locals.alias.value else "default"
  }

  /** `db_for_read`: the reads go to the alias of the request when it names a
      configured database, to 'default' otherwise. */
  function DbForRead(locals: Locals, databases: set<string>): (db: string)
    ensures locals.alias.Some? && locals.alias.value in databases ==> db == locals.alias.value
    ensures !(locals.alias.Some? && locals.alias.value in databases) ==> db == "default"
  {
    DefaultDb(locals, databases)
  }

  /** `db_for_write`: the writes go to the alias of the request when it names a
      configured database, to 'default' otherwise. */
  function DbForWrite(locals: Locals, databases: set<string>): (db: string)
    ensures locals.alias.Some? && locals.alias.value in databases ==> db == locals.alias.value
    ensures !(locals.alias.Some? && locals.alias.value in databases) ==> db == "default"
  {
    DefaultDb(locals, databases)
  }

  /** `allow_relation`: `True` when either side belongs to the 'stoqs'
      application, no opinion (`None`) otherwise. */
  function AllowRelation(label1: string, label2: string): (r: Option<bool>)
    ensures r.Some? <==> label1 == "stoqs" || label2 == "stoqs"
    ensures r.Some? ==> r.value
  {
    if label1 == "stoqs" || label2 == "stoqs" then Some(true) else None
  }

  /** A request carrying an alias of a configured database sends its reads
      and writes there, and the view sees the same alias in META. */
  lemma RoutedToAlias(locals: Locals, request: Request, kwargs: map<string, string>, databases: set<string>)
    requires AliasKey in kwargs && AliasFor(kwargs[AliasKey]) in databases
    ensures var c := ProcessView(locals, request, kwargs);
      DbForRead(c.locals, databases) == DbForWrite(c.locals, databases) == c.request.meta[AliasKey]
      == AliasFor(kwargs[AliasKey])
  {
  }

  /** 'stoqs' in the URL routes to the 'default' database. */
  lemma StoqsIsDefault(locals: Locals, request: Request, kwargs: map<string, string>, databases: set<string>)
    requires AliasKey in kwargs && kwargs[AliasKey] == "stoqs"
    ensures DbForRead(ProcessView(locals, request, kwargs).locals, databases) == "default"
  {
  }

  /** An alias that is not configured falls back to 'default'. */
  lemma UnknownAliasIsDefault(locals: Locals, request: Request, kwargs: map<string, string>, databases: set<string>)
    requires AliasKey in kwargs && AliasFor(kwargs[AliasKey]) !in databases
    ensures DbForRead(ProcessView(locals, request, kwargs).locals, databases) == "default"
  {
  }

  /** A complete request leaves the thread as it found a fresh one: the
      next request without an alias is routed to 'default', whatever the
      previous one chose. */
  lemma LifecycleResets(locals: Locals, request: Request, kwargs: map<string, string>,
                        next: Request, nextArgs: map<string, string>, databases: set<string>)
    requires AliasKey !in nextArgs
    ensures ProcessResponse(ProcessView(locals, request, kwargs).locals) == Unset
    ensures var after := ProcessResponse(ProcessView(locals, request, kwargs).locals);
      DbForRead(ProcessView(after, next, nextArgs).locals, databases) == "default"
      && (ProcessView(after, next, nextArgs).locals.admin <==> StartsWith(next.path, "/admin"))
  {
  }
}

=== FILE: rows.dfy ===
/** The values and rows the OPeNDAP loaders pass around: one row is a
    dictionary from variable names to the values read for one time step. */
module Rows {
  import opened Wrappers
  import Floats

  /** A value read from the data source: a number, a floating-point NaN,
      or text (the loaders test for the text 'null'). */
  datatype Value = Num(x: real) | NaN | Text(s: string)

  type Row = map<string, Value>

  /** `missing_value` of the loaders: 1e-34. */
  const MissingValue: real := 0.0000000000000000000000000000000001

  /** `value == missing_value`. */
  predicate IsMissing(v: Value)
  {
    v == Num(MissingValue)
  }

  /** `float(v)`: a number as it is, NaN as NaN, and text as `float()`
      reads it (None for the ValueError). */
  function FloatOf(v: Value): Option<Floats.Float>
  {
    match v
    case Num(x) => Some(Floats.Finite(x))
    case NaN => Some(Floats.NotANumber)
    case Text(s) => Floats.Parse(s)
  }

  /** `float(v)` is a finite number. */
  predicate FloatIsFinite(v: Value)
  {
    FloatOf(v).Some? && FloatOf(v).value.Finite?
  }

  /** `float(v) == 0.0`. */
  predicate FloatIsZero(v: Value)
  {
    FloatOf(v) == Some(Floats.Finite(0.0))
  }

  /** `row.pop(k)`: the value and the row without `k`; KeyError (None)
      when `k` is absent. */
  function Pop(row: Row, k: string): (r: Option<(Value, Row)>)
    ensures r.None? <==> k !in row
    ensures r.Some? ==> r.value.0 == row[k] && k !in r.value.1
    ensures r.Some? ==> forall j :: j in row && j != k ==> j in r.value.1 && r.value.1[j] == row[j]
    ensures r.Some? ==> r.value.1.Keys == row.Keys - {k}
  {
    if k in row then Some((row[k], row - {k})) else None
  }

  /** `row[dst] = row.pop(src)` when `src` is present, otherwise the row
      unchanged. */
  function Rename(row: Row, src: string, dst: string): Row
  {
    if src in row then (row - {src})[dst := row[src]] else row
  }
}

=== FILE: simplify.dfy ===
/** The stack-based Douglas–Peucker line simplification of
    `utils/utils.py` (`simplify_points`), which returns the kept points with
    their original index appended.

    `Keep(a, b)` is a recursive reference definition of the indices the
    algorithm keeps for the interval `[a, b]`; `SimplifyPoints` is the
    source's explicit-stack loop, proved to keep exactly `Keep(0, n-1)`.

    The square root is a parameter: only its sign is used by the proofs. */
module Simplify {
  import opened Wrappers
  import opened Findings

  datatype Point = Point(x: real, y: real)

  /** `pts[i] + (i,)`: a kept point with its index in the input line. */
  datatype IndexedPoint = IndexedPoint(pt: Point, index: nat)

  /** The exception `simplify_points` lets escape. */
  datatype SimplifyError = IndexError

  /** What the proofs need of `math.sqrt`: it maps non-negative numbers to
      non-negative numbers and positive numbers to positive ones. */
  ghost predicate SqrtLike(sqrt: real -> real)
  {
    forall v {:trigger sqrt(v)} :: 0.0 <= v ==> 0.0 <= sqrt(v) && (0.0 < v ==> 0.0 < sqrt(v))
  }

  lemma SumSqPositive(dx: real, dy: real)
    requires dx != 0.0 || dy != 0.0
    ensures dx * dx + dy * dy > 0.0
  {
    SqNonneg(dx);
    SqNonneg(dy);
    if dx != 0.0 { SqPositive(dx); } else { SqPositive(dy); }
  }

  lemma SqNonneg(d: real)
    ensures 0.0 <= d * d
  {
    if d < 0.0 { assert d * d == (-d) * (-d); }
  }

  lemma SqPositive(d: real)
    requires d != 0.0
    ensures 0.0 < d * d
  {
    if d < 0.0 { assert d * d == (-d) * (-d); }
  }

  function Scaled(p: Point, l: real): Point
  {
    Point(p.x * l, p.y * l)
  }

  /** The unit vector from anchor to floater, or the zero vector when the
      two points coincide: scaled by the positive length of the segment, it
      is the step from anchor to floater. */
  function Direction(pa: Point, pf: Point, sqrt: real -> real): (u: Point)
    requires SqrtLike(sqrt)
    ensures pa == pf ==> u == Point(0.0, 0.0)
    ensures pa != pf ==> exists l :: 0.0 < l && Scaled(u, l) == Point(pf.x - pa.x, pf.y - pa.y)
  {
    if pf != pa then
      var dx, dy := pf.x - pa.x, pf.y - pa.y;
      SumSqPositive(dx, dy);
      var segLen := sqrt(dx * dx + dy * dy);
      assert Scaled(Point(dx / segLen, dy / segLen), segLen) == Point(dx, dy);
      Point(dx / segLen, dy / segLen)
    else Point(0.0, 0.0)
  }

  function Abs(v: real): real { if v < 0.0 then -v else v }

  /** The distance of point `i` from the segment `[a, f]` the inner loop
      computes. `None` is the branch that, as written, never reaches the
      comparison with the running maximum. */
  function Deviation(pts: seq<Point>, a: nat, f: nat, i: nat, sqrt: real -> real, v: Variant): (d: Option<real>)
    requires a < |pts| && f < |pts| && i < |pts| && SqrtLike(sqrt)
    ensures v == Corrected ==> d.Some?
    ensures d.Some? ==> 0.0 <= d.value
  {
    var u := Direction(pts[a], pts[f], sqrt);
    var vx, vy := pts[i].x - pts[a].x, pts[i].y - pts[a].y;
    var segLen := sqrt(vx * vx + vy * vy);
    var proj := vx * u.x + vy * u.y;
    if proj < 0.0 then
      (if v == AsWritten then None else Some(segLen))
    else
      var wx, wy := pts[i].x - pts[f].x, pts[i].y - pts[f].y;
      var segLen2 := sqrt(wx * wx + wy * wy);
      var proj2 := wx * (-u.x) + wy * (-u.y);
      if proj2 < 0.0 then Some(segLen2)
      else Some(sqrt(Abs(segLen2 * segLen2 - proj2 * proj2)))
  }

  /** The inner `for i in range(anchor + 1, floater)` loop from position
      `i` on, with running maximum `best` at index `far`. The result is the
      first index of a strictly largest deviation above the initial `best`,
      or the initial pair when no deviation exceeds it. */
  function Scan(pts: seq<Point>, a: nat, f: nat, i: nat, best: real, far: nat, sqrt: real -> real, v: Variant): (r: (real, nat))
    requires a < |pts| && f < |pts| && i <= f + 1 && SqrtLike(sqrt)
    ensures best <= r.0
    ensures r.0 == best ==> r.1 == far
    ensures best < r.0 ==> i <= r.1 < f && Deviation(pts, a, f, r.1, sqrt, v) == Some(r.0)
    ensures forall j :: i <= j < f && Deviation(pts, a, f, j, sqrt, v).Some? ==> Deviation(pts, a, f, j, sqrt, v).value <= r.0
    ensures best < r.0 ==> forall j :: i <= j < r.1 && Deviation(pts, a, f, j, sqrt, v).Some? ==> Deviation(pts, a, f, j, sqrt, v).value < r.0
    decreases f + 1 - i
  {
    if i >= f then (best, far)
    else
      match Deviation(pts, a, f, i, sqrt, v)
      case None => Scan(pts, a, f, i + 1, best, far, sqrt, v)
      case Some(d) =>
        if best < d then Scan(pts, a, f, i + 1, d, i, sqrt, v)
        else Scan(pts, a, f, i + 1, best, far, sqrt, v)
  }

  /** `max_dist` and `farthest` for the interval `[a, b]`. */
  function Farthest(pts: seq<Point>, a: nat, b: nat, sqrt: real -> real, v: Variant): (r: (real, nat))
    requires a <= b < |pts| && SqrtLike(sqrt)
    ensures 0.0 <= r.0
    ensures 0.0 < r.0 ==> a < r.1 < b && Deviation(pts, a, b, r.1, sqrt, v) == Some(r.0)
    ensures forall j :: a < j < b && Deviation(pts, a, b, j, sqrt, v).Some? ==> Deviation(pts, a, b, j, sqrt, v).value <= r.0
  {
    Scan(pts, a, b, a + 1, 0.0, a + 1, sqrt, v)
  }

  /** The indices kept for the interval `[a, b]`: both ends when the largest
      deviation is within tolerance, else the union over the two halves
      split at the farthest point. */
  function Keep(pts: seq<Point>, a: nat, b: nat, tol: real, sqrt: real -> real, v: Variant): (k: set<nat>)
    requires a <= b < |pts| && 0.0 <= tol && SqrtLike(sqrt)
    ensures a in k && b in k
    ensures forall i :: i in k ==> a <= i <= b
    decreases b - a
  {
    var (maxDist, far) := Farthest(pts, a, b, sqrt, v);
    if maxDist <= tol then {a, b}
    else Keep(pts, a, far, tol, sqrt, v) + Keep(pts, far, b, tol, sqrt, v)
  }

  // ---------------------------------------------------------------------
  // The explicit-stack algorithm

  ghost predicate ValidStack(stack: seq<(nat, nat)>, n: nat)
  {
    forall k :: 0 <= k < |stack| ==> stack[k].0 <= stack[k].1 < n
  }

  ghost function Pending(pts: seq<Point>, stack: seq<(nat, nat)>, tol: real, sqrt: real -> real, v: Variant): set<nat>
    requires ValidStack(stack, |pts|) && 0.0 <= tol && SqrtLike(sqrt)
  {
    if |stack| == 0 then {}
    else
      var (a, b) := stack[|stack| - 1];
      Pending(pts, stack[..|stack| - 1], tol, sqrt, v) + Keep(pts, a, b, tol, sqrt, v)
  }

  /** Interior points still to be examined: shrinks by one on every split. */
  function Work(stack: seq<(nat, nat)>): nat
  {
    if |stack| == 0 then 0
    else
      var (a, b) := stack[|stack| - 1];
      Work(stack[..|stack| - 1]) + (if a < b then b - a - 1 else 0)
  }

  /** The indices a listing carries. */
  ghost function Indices(r: seq<IndexedPoint>): set<nat>
  {
    set k | 0 <= k < |r| :: r[k].index
  }

  /** `[(pts[i] + (i,)) for i in sorted(keep)]`, restricted to indices `>= i`. */
  function Listed(pts: seq<Point>, keep: set<nat>, i: nat): (r: seq<IndexedPoint>)
    requires i <= |pts|
    ensures forall k :: 0 <= k < |r| ==> i <= r[k].index < |pts| && r[k].pt == pts[r[k].index]
    ensures forall k, l :: 0 <= k < l < |r| ==> r[k].index < r[l].index
    ensures Indices(r) == set j | j in keep && i <= j < |pts|
    decreases |pts| - i
  {
    if i == |pts| then []
    else
      var rest := Listed(pts, keep, i + 1);
      if i in keep then
        var r := [IndexedPoint(pts[i], i)] + rest;
        IndicesCons(IndexedPoint(pts[i], i), rest);
        r
      else rest
  }

  lemma IndicesCons(x: IndexedPoint, rest: seq<IndexedPoint>)
    ensures Indices([x] + rest) == {x.index} + Indices(rest)
  {
    var r := [x] + rest;
    forall j | j in Indices(r) ensures j in {x.index} + Indices(rest) {
      var k :| 0 <= k < |r| && r[k].index == j;
      if k > 0 { assert rest[k - 1].index == j; }
    }
    forall j | j in Indices(rest) ensures j in Indices(r) {
      var k :| 0 <= k < |rest| && rest[k].index == j;
      assert r[k + 1].index == j;
    }
    assert r[0].index == x.index;
  }

  /** One step of `Keep`, for use where the definition is not unfolded. */
  lemma KeepStep(pts: seq<Point>, a: nat, b: nat, tol: real, sqrt: real -> real, v: Variant)
    requires a <= b < |pts| && 0.0 <= tol && SqrtLike(sqrt)
    ensures Farthest(pts, a, b, sqrt, v).0 <= tol ==> Keep(pts, a, b, tol, sqrt, v) == {a, b}
    ensures Farthest(pts, a, b, sqrt, v).0 > tol ==>
      a < Farthest(pts, a, b, sqrt, v).1 < b
      && Keep(pts, a, b, tol, sqrt, v)
         == Keep(pts, a, Farthest(pts, a, b, sqrt, v).1, tol, sqrt, v) + Keep(pts, Farthest(pts, a, b, sqrt, v).1, b, tol, sqrt, v)
  {
  }

  lemma PendingPop(pts: seq<Point>, stack: seq<(nat, nat)>, tol: real, sqrt: real -> real, v: Variant)
    requires |stack| > 0 && ValidStack(stack, |pts|) && 0.0 <= tol && SqrtLike(sqrt)
    ensures ValidStack(stack[..|stack| - 1], |pts|)
    ensures Pending(pts, stack, tol, sqrt, v)
      == Pending(pts, stack[..|stack| - 1], tol, sqrt, v) + Keep(pts, stack[|stack| - 1].0, stack[|stack| - 1].1, tol, sqrt, v)
    ensures Work(stack) == Work(stack[..|stack| - 1])
      + (if stack[|stack| - 1].0 < stack[|stack| - 1].1 then stack[|stack| - 1].1 - stack[|stack| - 1].0 - 1 else 0)
  {
  }

  lemma PendingPush(pts: seq<Point>, stack: seq<(nat, nat)>, a: nat, f: nat, b: nat, tol: real, sqrt: real -> real, v: Variant)
    requires ValidStack(stack, |pts|) && a <= f <= b < |pts| && 0.0 <= tol && SqrtLike(sqrt)
    ensures ValidStack(stack + [(a, f), (f, b)], |pts|)
    ensures Pending(pts, stack + [(a, f), (f, b)], tol, sqrt, v)
      == Pending(pts, stack, tol, sqrt, v) + Keep(pts, a, f, tol, sqrt, v) + Keep(pts, f, b, tol, sqrt, v)
    ensures Work(stack + [(a, f), (f, b)]) == Work(stack) + (if a < f then f - a - 1 else 0) + (if f < b then b - f - 1 else 0)
  {
    var s1 := stack + [(a, f)];
    var s2 := stack + [(a, f), (f, b)];
    assert s2[..|s2| - 1] == s1;
    assert s1[..|s1| - 1] == stack;
  }

  lemma ListedAll(pts: seq<Point>, keep: set<nat>)
    requires forall i :: i in keep ==> i < |pts|
    ensures Indices(Listed(pts, keep, 0)) == keep
  {
    assert (set j | j in keep && 0 <= j < |pts|) == keep;
  }

  lemma ListedEnds(pts: seq<Point>, keep: set<nat>, r: seq<IndexedPoint>)
    requires |pts| > 0 && 0 in keep && |pts| - 1 in keep
    requires r == Listed(pts, keep, 0)
    ensures |r| > 0 && r[0].index == 0 && r[|r| - 1].index == |pts| - 1
  {
    assert 0 in Indices(r);
    assert |pts| - 1 in Indices(r);
    var k :| 0 <= k < |r| && r[k].index == |pts| - 1;
    assert r[k].index <= r[|r| - 1].index;
    var z :| 0 <= z < |r| && r[z].index == 0;
    assert r[0].index <= r[z].index;
  }

  /** The inner loop of `simplify_points`: the largest deviation from the
      segment `[a, b]` and the first index attaining it, `(0.0, a + 1)` when
      no point deviates. */
  method FarthestPoint(pts: seq<Point>, a: nat, b: nat, sqrt: real -> real, v: Variant) returns (maxDist: real, farthest: nat)
    requires a <= b < |pts| && SqrtLike(sqrt)
    ensures (maxDist, farthest) == Farthest(pts, a, b, sqrt, v)
  {
    maxDist := 0.0;
    farthest := a + 1;
    var i := a + 1;
    while i < b
      invariant a + 1 <= i <= b + 1
      invariant Scanning(pts, a, b, i, maxDist, farthest, sqrt, v)
    {
      var d := Deviation(pts, a, b, i, sqrt, v);
      ScanStep(pts, a, b, i, maxDist, farthest, sqrt, v, d);
      if d.Some? && maxDist < d.value {
        maxDist := d.value;
        farthest := i;
      }
      i := i + 1;
    }
    ScanDone(pts, a, b, i, maxDist, farthest, sqrt, v);
  }

  /** The inner loop, at position `i` with running maximum `best` at
      `far`, still ends with the interval's `Farthest`. */
  ghost predicate Scanning(pts: seq<Point>, a: nat, b: nat, i: nat, best: real, far: nat, sqrt: real -> real, v: Variant)
  {
    a <= b < |pts| && i <= b + 1 && SqrtLike(sqrt)
    && Scan(pts, a, b, i, best, far, sqrt, v) == Farthest(pts, a, b, sqrt, v)
  }

  /** One turn of the inner loop, given the deviation `d` of point `i`. */
  lemma ScanStep(pts: seq<Point>, a: nat, b: nat, i: nat, best: real, far: nat, sqrt: real -> real, v: Variant, d: Option<real>)
    requires i < b && Scanning(pts, a, b, i, best, far, sqrt, v)
    requires d == Deviation(pts, a, b, i, sqrt, v)
    ensures d.Some? && best < d.value ==> Scanning(pts, a, b, i + 1, d.value, i, sqrt, v)
    ensures !(d.Some? && best < d.value) ==> Scanning(pts, a, b, i + 1, best, far, sqrt, v)
  {
  }

  /** Past the last interior point the running maximum is the answer. */
  lemma ScanDone(pts: seq<Point>, a: nat, b: nat, i: nat, best: real, far: nat, sqrt: real -> real, v: Variant)
    requires b <= i && Scanning(pts, a, b, i, best, far, sqrt, v)
    ensures (best, far) == Farthest(pts, a, b, sqrt, v)
  {
  }

  /** One turn of the outer `while stack:` loop: pop an interval, then keep
      its ends when its largest deviation is within tolerance, else push its
      two halves split at the farthest point. The indices still owed to the
      result are unchanged, and the remaining work shrinks. */
  method PopInterval(pts: seq<Point>, stack: seq<(nat, nat)>, keep: set<nat>, tol: real, sqrt: real -> real, v: Variant, ghost whole: set<nat>)
    returns (stack': seq<(nat, nat)>, keep': set<nat>)
    requires |stack| > 0 && ValidStack(stack, |pts|) && 0.0 <= tol && SqrtLike(sqrt)
    requires keep + Pending(pts, stack, tol, sqrt, v) == whole
    ensures ValidStack(stack', |pts|)
    ensures keep' + Pending(pts, stack', tol, sqrt, v) == whole
    ensures Work(stack') < Work(stack) || (Work(stack') == Work(stack) && |stack'| < |stack|)
  {
    var (anchor, floater) := stack[|stack| - 1];
    PendingPop(pts, stack, tol, sqrt, v);
    stack' := stack[..|stack| - 1];
    var maxDist, farthest := FarthestPoint(pts, anchor, floater, sqrt, v);
    KeepStep(pts, anchor, floater, tol, sqrt, v);
    if maxDist <= tol {
      keep' := keep + {anchor, floater};
    } else {
      PendingPush(pts, stack', anchor, farthest, floater, tol, sqrt, v);
      stack' := stack' + [(anchor, farthest), (farthest, floater)];
      keep' := keep;
    }
  }

  /** `simplify_points(pts, tolerance)`. The empty line raises IndexError
      (`pts[-1]` on an empty list). Otherwise the result lists the kept
      points in increasing index order, each with its own index, always
      including the first and last point, and the kept set is exactly the
      reference `Keep(0, n-1)`. */
  method SimplifyPoints(pts: seq<Point>, tol: real, sqrt: real -> real, v: Variant) returns (r: Result<seq<IndexedPoint>, SimplifyError>)
    requires 0.0 <= tol && SqrtLike(sqrt)
    ensures r.Failure? <==> |pts| == 0
    ensures r.Success? ==> forall k :: 0 <= k < |r.value| ==> r.value[k].index < |pts| && r.value[k].pt == pts[r.value[k].index]
    ensures r.Success? ==> forall k, l :: 0 <= k < l < |r.value| ==> r.value[k].index < r.value[l].index
    ensures r.Success? ==> |r.value| > 0 && r.value[0].index == 0 && r.value[|r.value| - 1].index == |pts| - 1
    ensures r.Success? ==> Indices(r.value) == Keep(pts, 0, |pts| - 1, tol, sqrt, v)
  {
    if |pts| == 0 {
      return Failure(IndexError);
    }
    var n := |pts|;
    ghost var whole := Keep(pts, 0, n - 1, tol, sqrt, v);
    var stack: seq<(nat, nat)> := [(0, n - 1)];
    var keep: set<nat> := {};
    PendingWhole(pts, tol, sqrt, v);
    while |stack| > 0
      invariant ValidStack(stack, n)
      invariant keep + Pending(pts, stack, tol, sqrt, v) == whole
      decreases Work(stack), |stack|
    {
      stack, keep := PopInterval(pts, stack, keep, tol, sqrt, v, whole);
    }
    var listed := Listed(pts, keep, 0);
    ListedWhole(pts, tol, sqrt, v, keep, listed);
    return Success(listed);
  }

  /** The stack the loop starts from owes exactly the whole reference set. */
  lemma PendingWhole(pts: seq<Point>, tol: real, sqrt: real -> real, v: Variant)
    requires |pts| > 0 && 0.0 <= tol && SqrtLike(sqrt)
    ensures ValidStack([(0, |pts| - 1)], |pts|)
    ensures Pending(pts, [(0, |pts| - 1)], tol, sqrt, v) == Keep(pts, 0, |pts| - 1, tol, sqrt, v)
  {
    var stack := [(0, |pts| - 1)];
    assert stack[..0] == [];
  }

  /** The listing of the whole reference set has the promised shape. */
  lemma ListedWhole(pts: seq<Point>, tol: real, sqrt: real -> real, v: Variant, keep: set<nat>, listed: seq<IndexedPoint>)
    requires |pts| > 0 && 0.0 <= tol && SqrtLike(sqrt)
    requires keep + Pending(pts, [], tol, sqrt, v) == Keep(pts, 0, |pts| - 1, tol, sqrt, v)
    requires listed == Listed(pts, keep, 0)
    ensures |listed| > 0 && listed[0].index == 0 && listed[|listed| - 1].index == |pts| - 1
    ensures Indices(listed) == Keep(pts, 0, |pts| - 1, tol, sqrt, v)
  {
    ListedAll(pts, keep);
    ListedEnds(pts, keep, listed);
  }

  // ---------------------------------------------------------------------
  // The tolerance guarantee, and where the code as written misses it

  /** With the corrected inner loop, every dropped point lies strictly
      between two consecutive kept indices and deviates from the segment
      joining them by no more than the tolerance: the promise of a
      Douglas–Peucker simplification. */
  lemma {:induction false} WithinTolerance(pts: seq<Point>, a: nat, b: nat, tol: real, sqrt: real -> real, i: nat)
    returns (lo: nat, hi: nat)
    requires a <= b < |pts| && 0.0 <= tol && SqrtLike(sqrt)
    requires a < i < b && i !in Keep(pts, a, b, tol, sqrt, Corrected)
    ensures a <= lo < i < hi <= b
    ensures lo in Keep(pts, a, b, tol, sqrt, Corrected) && hi in Keep(pts, a, b, tol, sqrt, Corrected)
    ensures forall j :: lo < j < hi ==> j !in Keep(pts, a, b, tol, sqrt, Corrected)
    ensures Deviation(pts, lo, hi, i, sqrt, Corrected).value <= tol
    decreases b - a, 2
  {
    var (maxDist, far) := Farthest(pts, a, b, sqrt, Corrected);
    KeepStep(pts, a, b, tol, sqrt, Corrected);
    if maxDist <= tol {
      lo, hi := a, b;
      assert Deviation(pts, a, b, i, sqrt, Corrected).value <= maxDist;
    } else if i < far {
      lo, hi := WithinLeftHalf(pts, a, far, b, tol, sqrt, i);
    } else {
      lo, hi := WithinRightHalf(pts, a, far, b, tol, sqrt, i);
    }
  }

  /** The case where the interval is split at `far` and `i` lies in the
      left half: the witnesses come from that half, and no index of the
      right half lies strictly between them. */
  lemma {:induction false} WithinLeftHalf(pts: seq<Point>, a: nat, far: nat, b: nat, tol: real, sqrt: real -> real, i: nat)
    returns (lo: nat, hi: nat)
    requires a < far < b < |pts| && 0.0 <= tol && SqrtLike(sqrt)
    requires a < i < far && i !in Keep(pts, a, far, tol, sqrt, Corrected)
    ensures a <= lo < i < hi <= far
    ensures lo in Keep(pts, a, far, tol, sqrt, Corrected) && hi in Keep(pts, a, far, tol, sqrt, Corrected)
    ensures forall j :: lo < j < hi ==> j !in Keep(pts, a, far, tol, sqrt, Corrected) + Keep(pts, far, b, tol, sqrt, Corrected)
    ensures Deviation(pts, lo, hi, i, sqrt, Corrected).value <= tol
    decreases b - a, 1
  {
    lo, hi := WithinTolerance(pts, a, far, tol, sqrt, i);
    var right := Keep(pts, far, b, tol, sqrt, Corrected);
    assert forall j :: j in right ==> far <= j;
  }

  /** The mirror case: `i` lies in the right half. */
  lemma {:induction false} WithinRightHalf(pts: seq<Point>, a: nat, far: nat, b: nat, tol: real, sqrt: real -> real, i: nat)
    returns (lo: nat, hi: nat)
    requires a < far < b < |pts| && 0.0 <= tol && SqrtLike(sqrt)
    requires far < i < b && i !in Keep(pts, far, b, tol, sqrt, Corrected)
    ensures far <= lo < i < hi <= b
    ensures lo in Keep(pts, far, b, tol, sqrt, Corrected) && hi in Keep(pts, far, b, tol, sqrt, Corrected)
    ensures forall j :: lo < j < hi ==> j !in Keep(pts, a, far, tol, sqrt, Corrected) + Keep(pts, far, b, tol, sqrt, Corrected)
    ensures Deviation(pts, lo, hi, i, sqrt, Corrected).value <= tol
    decreases b - a, 1
  {
    lo, hi := WithinTolerance(pts, far, b, tol, sqrt, i);
    var left := Keep(pts, a, far, tol, sqrt, Corrected);
    assert forall j :: j in left ==> j <= far;
  }

  lemma FarPointDeviation(sqrt: real -> real)
    requires SqrtLike(sqrt) && sqrt(1.0) == 1.0 && sqrt(100.0) == 10.0
    ensures Deviation([Point(0.0, 0.0), Point(-10.0, 0.0), Point(1.0, 0.0)], 0, 2, 1, sqrt, AsWritten) == None
    ensures Deviation([Point(0.0, 0.0), Point(-10.0, 0.0), Point(1.0, 0.0)], 0, 2, 1, sqrt, Corrected) == Some(10.0)
  {
    var pts := [Point(0.0, 0.0), Point(-10.0, 0.0), Point(1.0, 0.0)];
    UnitDirection(sqrt);
    assert pts[0] == Point(0.0, 0.0) && pts[2] == Point(1.0, 0.0);
  }

  lemma UnitDirection(sqrt: real -> real)
    requires SqrtLike(sqrt) && sqrt(1.0) == 1.0
    ensures Direction(Point(0.0, 0.0), Point(1.0, 0.0), sqrt) == Point(1.0, 0.0)
  {
    assert 1.0 * 1.0 + 0.0 * 0.0 == 1.0;
  }

  /** The line `[(0,0), (-10,0), (1,0)]` with tolerance 1: the middle point
      lies behind the anchor, 10 away from the segment `[(0,0), (1,0)]`, yet
      the loop as written drops it, while the corrected loop keeps it. */
  lemma AsWrittenDropsFarPoint(sqrt: real -> real)
    requires SqrtLike(sqrt) && sqrt(1.0) == 1.0 && sqrt(100.0) == 10.0
    ensures Keep([Point(0.0, 0.0), Point(-10.0, 0.0), Point(1.0, 0.0)], 0, 2, 1.0, sqrt, AsWritten) == {0, 2}
    ensures Deviation([Point(0.0, 0.0), Point(-10.0, 0.0), Point(1.0, 0.0)], 0, 2, 1, sqrt, Corrected) == Some(10.0)
    ensures Keep([Point(0.0, 0.0), Point(-10.0, 0.0), Point(1.0, 0.0)], 0, 2, 1.0, sqrt, Corrected) == {0, 1, 2}
  {
    var pts := [Point(0.0, 0.0), Point(-10.0, 0.0), Point(1.0, 0.0)];
    FarPointDeviation(sqrt);
    assert Farthest(pts, 0, 2, sqrt, AsWritten) == (0.0, 1);
    assert Farthest(pts, 0, 2, sqrt, Corrected) == (10.0, 1);
    assert Keep(pts, 0, 1, 1.0, sqrt, Corrected) == {0, 1};
    assert Keep(pts, 1, 2, 1.0, sqrt, Corrected) == {1, 2};
  }
}

=== FILE: spice.dfy ===
/** Flament's (2002) spiciness polynomial at surface pressure, as computed
    by `spiciness(t, s)` in `utils/utils.py`: a 6 x 5 table of coefficients
    applied to powers of temperature and of salinity minus 35. */
module Spice {

  /** `B[1:7, 1:6]` row by row: row i multiplies t^i, column j
      multiplies (s - 35)^j. */
  const Table: seq<real> := [
    0.0, 7.7442e-001, -5.85e-003, -9.84e-004, -2.06e-004,
    5.1655e-002, 2.034e-003, -2.742e-004, -8.5e-006, 1.36e-005,
    6.64783e-003, -2.4681e-004, -1.428e-005, 3.337e-005, 7.894e-006,
    -5.4023e-005, 7.326e-006, 7.0036e-006, -3.0412e-006, -1.0853e-006,
    3.949e-007, -3.029e-008, -3.8209e-007, 1.0012e-007, 4.7133e-008,
    -6.36e-010, -1.309e-009, 6.048e-009, -1.1409e-009, -6.676e-010
  ]

  const Rows: nat := 6
  const Cols: nat := 5

  /** `B[i + 1, j + 1]` of a 6 x 5 table stored row by row. */
  function Coef(tab: seq<real>, i: nat, j: nat): real
    requires |tab| == 30 && i < Rows && j < Cols
  {
    tab[i * 5 + j]
  }

  function Pow(x: real, n: nat): real
  {
    if n == 0 then 1.0 else Pow(x, n - 1) * x
  }

  /** The term `B[i,j] * t^i * ss^j`. */
  function Term(tab: seq<real>, i: nat, j: nat, t: real, ss: real): real
    requires |tab| == 30 && i < Rows && j < Cols
  {
    Coef(tab, i, j) * Pow(t, i) * Pow(ss, j)
  }

  /** Sum of the first `j` terms of row `i`. */
  function RowSum(tab: seq<real>, i: nat, j: nat, t: real, ss: real): real
    requires |tab| == 30 && i < Rows && j <= Cols
  {
    if j == 0 then 0.0 else RowSum(tab, i, j - 1, t, ss) + Term(tab, i, j - 1, t, ss)
  }

  /** Sum of the first `i` complete rows. */
  function TableSum(tab: seq<real>, i: nat, t: real, ss: real): real
    requires |tab| == 30 && i <= Rows
  {
    if i == 0 then 0.0 else TableSum(tab, i - 1, t, ss) + RowSum(tab, i - 1, Cols, t, ss)
  }

  /** The polynomial `sum_ij B[i,j] * t^i * (s - 35)^j`. */
  function SpiceOf(t: real, s: real): real
  {
    TableSum(Table, Rows, t, s - 35.0)
  }

  /** `spiciness(t, s)`: the two nested loops accumulating
      `coefs[i,j] * bigT * bigS` with running powers of `t` and `s - 35`. */
  method Spiciness(t: real, s: real) returns (sp: real)
    ensures sp == SpiceOf(t, s)
  {
    sp := 0.0;
    var ss := s - 35.0;
    var bigT := 1.0;
    var i := 0;
    while i < Rows
      invariant 0 <= i <= Rows
      invariant bigT == Pow(t, i)
      invariant sp == TableSum(Table, i, t, ss)
    {
      sp := AddRow(Table, sp, i, t, ss, bigT);
      bigT := bigT * t;
      i := i + 1;
    }
  }

  /** The inner loop of `spiciness`: adds row `i` to the running sum, with
      `bigT` holding t^i. */
  method AddRow(tab: seq<real>, sp0: real, i: nat, t: real, ss: real, bigT: real) returns (sp: real)
    requires |tab| == 30 && i < Rows
    requires bigT == Pow(t, i)
    ensures sp == sp0 + RowSum(tab, i, Cols, t, ss)
  {
    sp := sp0;
    var bigS := 1.0;
    var j := 0;
    while j < Cols
      invariant 0 <= j <= Cols
      invariant bigS == Pow(ss, j)
      invariant sp == sp0 + RowSum(tab, i, j, t, ss)
    {
      RowStep(tab, i, j, t, ss, bigT, bigS);
      sp := sp + Coef(tab, i, j) * bigT * bigS;
      bigS := bigS * ss;
      j := j + 1;
    }
  }

  lemma RowStep(tab: seq<real>, i: nat, j: nat, t: real, ss: real, bigT: real, bigS: real)
    requires |tab| == 30 && i < Rows && j < Cols
    requires bigT == Pow(t, i) && bigS == Pow(ss, j)
    ensures RowSum(tab, i, j + 1, t, ss) == RowSum(tab, i, j, t, ss) + Coef(tab, i, j) * bigT * bigS
    ensures bigS * ss == Pow(ss, j + 1)
  {
  }

  /** Every term but the constant one carries a factor t or (s - 35), and
      the constant coefficient `B[1,1]` is 0: water at 0 degrees and salinity
      35 has zero spiciness. */
  lemma SpiceAtOrigin()
    ensures SpiceOf(0.0, 35.0) == 0.0
  {
    assert Table[0] == 0.0;
    TableAtOrigin(Table, Rows);
  }

  lemma {:induction false} PowZero(n: nat)
    requires n > 0
    ensures Pow(0.0, n) == 0.0
  {
  }

  lemma {:induction false} RowAtOrigin(tab: seq<real>, i: nat, j: nat)
    requires |tab| == 30 && tab[0] == 0.0 && i < Rows && j <= Cols
    ensures RowSum(tab, i, j, 0.0, 0.0) == 0.0
  {
    if j > 0 {
      RowAtOrigin(tab, i, j - 1);
      if i > 0 {
        PowZero(i);
      } else if j - 1 > 0 {
        PowZero(j - 1);
      }
    }
  }

  lemma {:induction false} TableAtOrigin(tab: seq<real>, i: nat)
    requires |tab| == 30 && tab[0] == 0.0 && i <= Rows
    ensures TableSum(tab, i, 0.0, 0.0) == 0.0
  {
    if i > 0 {
      TableAtOrigin(tab, i - 1);
      RowAtOrigin(tab, i - 1, Cols);
    }
  }

  /** The reference value quoted with the recipe: spice(T=15, S=33) is
      0.54458641375. */
  lemma SpiceReferenceValue()
    ensures SpiceOf(15.0, 33.0) == 0.54458641375
  {
    ReferenceRow0();
    ReferenceRow1();
    ReferenceRow2();
    ReferenceRow3();
    ReferenceRow4();
    ReferenceRow5();
    assert TableSum(Table, 1, 15.0, -2.0) == -1.567664;
    assert TableSum(Table, 2, 15.0, -2.0) == -0.8660270;
    assert TableSum(Table, 3, 15.0, -2.0) == 0.696299650;
    assert TableSum(Table, 4, 15.0, -2.0) == 0.5825763250;
    assert TableSum(Table, 5, 15.0, -2.0) == 0.525890905000;
    assert TableSum(Table, 6, 15.0, -2.0) == 0.5445864137500;
  }

  lemma ReferenceRow0()
    ensures RowSum(Table, 0, Cols, 15.0, -2.0) == -1.567664
  {
    ReferencePowers();
    assert RowSum(Table, 0, 1, 15.0, -2.0) == 0.0;
    assert RowSum(Table, 0, 2, 15.0, -2.0) == -1.54884;
    assert RowSum(Table, 0, 3, 15.0, -2.0) == -1.57224;
    assert RowSum(Table, 0, 4, 15.0, -2.0) == -1.564368;
    assert RowSum(Table, 0, 5, 15.0, -2.0) == -1.567664;
  }

  lemma ReferenceRow1()
    ensures RowSum(Table, 1, Cols, 15.0, -2.0) == 0.7016370
  {
    ReferencePowers();
    assert RowSum(Table, 1, 1, 15.0, -2.0) == 0.774825;
    assert RowSum(Table, 1, 2, 15.0, -2.0) == 0.713805;
    assert RowSum(Table, 1, 3, 15.0, -2.0) == 0.6973530;
    assert RowSum(Table, 1, 4, 15.0, -2.0) == 0.6983730;
    assert RowSum(Table, 1, 5, 15.0, -2.0) == 0.7016370;
  }

  lemma ReferenceRow2()
    ensures RowSum(Table, 2, Cols, 15.0, -2.0) == 1.562326650
  {
    ReferencePowers();
    assert RowSum(Table, 2, 1, 15.0, -2.0) == 1.49576175;
    assert RowSum(Table, 2, 2, 15.0, -2.0) == 1.60682625;
    assert RowSum(Table, 2, 3, 15.0, -2.0) == 1.59397425;
    assert RowSum(Table, 2, 4, 15.0, -2.0) == 1.53390825;
    assert RowSum(Table, 2, 5, 15.0, -2.0) == 1.562326650;
  }

  lemma ReferenceRow3()
    ensures RowSum(Table, 3, Cols, 15.0, -2.0) == -0.1137233250
  {
    ReferencePowers();
    assert RowSum(Table, 3, 1, 15.0, -2.0) == -0.182327625;
    assert RowSum(Table, 3, 2, 15.0, -2.0) == -0.231778125;
    assert RowSum(Table, 3, 3, 15.0, -2.0) == -0.1372295250;
    assert RowSum(Table, 3, 4, 15.0, -2.0) == -0.0551171250;
    assert RowSum(Table, 3, 5, 15.0, -2.0) == -0.1137233250;
  }

  lemma ReferenceRow4()
    ensures RowSum(Table, 4, Cols, 15.0, -2.0) == -0.056685420000
  {
    ReferencePowers();
    assert RowSum(Table, 4, 1, 15.0, -2.0) == 0.0199918125;
    assert RowSum(Table, 4, 2, 15.0, -2.0) == 0.02305867500;
    assert RowSum(Table, 4, 3, 15.0, -2.0) == -0.05431455000;
    assert RowSum(Table, 4, 4, 15.0, -2.0) == -0.09486315000;
    assert RowSum(Table, 4, 5, 15.0, -2.0) == -0.056685420000;
  }

  lemma ReferenceRow5()
    ensures RowSum(Table, 5, Cols, 15.0, -2.0) == 0.0186955087500
  {
    ReferencePowers();
    assert RowSum(Table, 5, 1, 15.0, -2.0) == -0.000482962500;
    assert RowSum(Table, 5, 2, 15.0, -2.0) == 0.001505081250;
    assert RowSum(Table, 5, 3, 15.0, -2.0) == 0.019875881250;
    assert RowSum(Table, 5, 4, 15.0, -2.0) == 0.0268068487500;
    assert RowSum(Table, 5, 5, 15.0, -2.0) == 0.0186955087500;
  }

  lemma ReferencePowers()
    ensures Pow(15.0, 1) == 15.0 && Pow(15.0, 2) == 225.0 && Pow(15.0, 3) == 3375.0
    ensures Pow(15.0, 4) == 50625.0 && Pow(15.0, 5) == 759375.0
    ensures Pow(-2.0, 1) == -2.0 && Pow(-2.0, 2) == 4.0 && Pow(-2.0, 3) == -8.0
    ensures Pow(-2.0, 4) == 16.0
  {
    assert Pow(15.0, 1) == 15.0 && Pow(-2.0, 1) == -2.0;
    assert Pow(15.0, 2) == 225.0 && Pow(-2.0, 2) == 4.0;
    assert Pow(15.0, 3) == 3375.0 && Pow(-2.0, 3) == -8.0;
    assert Pow(15.0, 4) == 50625.0;
  }
}

=== FILE: stats.dfy ===
/** The summary statistics of `utils/utils.py`: linearly interpolated
    percentiles, the median as the 50th percentile, and the histogram mode
    over 100 evenly spaced bin edges. Values are `real`; float rounding is
    not modelled. */
module Stats {
  import opened Wrappers

  predicate Sorted(xs: seq<real>)
  {
    forall i, j :: 0 <= i <= j < |xs| ==> xs[i] <= xs[j]
  }

  function Min(xs: seq<real>): (m: real)
    requires |xs| > 0
    ensures m in xs
    ensures forall i :: 0 <= i < |xs| ==> m <= xs[i]
  {
    if |xs| == 1 then xs[0]
    else var m := Min(xs[1..]); if xs[0] <= m then xs[0] else m
  }

  function Max(xs: seq<real>): (m: real)
    requires |xs| > 0
    ensures m in xs
    ensures forall i :: 0 <= i < |xs| ==> xs[i] <= m
  {
    if |xs| == 1 then xs[0]
    else var m := Max(xs[1..]); if xs[0] >= m then xs[0] else m
  }

  /** `x` put into sorted `xs` before the first larger element. */
  function InsertSorted(x: real, xs: seq<real>): (r: seq<real>)
    requires Sorted(xs)
    ensures Sorted(r)
    ensures multiset(r) == multiset(xs) + multiset{x}
    ensures forall v :: v in r ==> v == x || v in xs
  {
    if |xs| == 0 || x <= xs[0] then [x] + xs
    else
      var t := InsertSorted(x, xs[1..]);
      InsertBehind(x, xs, t);
      [xs[0]] + t
  }

  /** Putting the head of `xs` back in front of `x` inserted into the rest. */
  lemma InsertBehind(x: real, xs: seq<real>, t: seq<real>)
    requires Sorted(xs) && |xs| > 0 && xs[0] < x
    requires Sorted(t) && multiset(t) == multiset(xs[1..]) + multiset{x}
    requires forall v :: v in t ==> v == x || v in xs[1..]
    ensures Sorted([xs[0]] + t)
    ensures multiset([xs[0]] + t) == multiset(xs) + multiset{x}
    ensures forall v :: v in [xs[0]] + t ==> v == x || v in xs
  {
    forall i | 0 <= i < |t| ensures xs[0] <= t[i] {
      assert t[i] in t;
    }
    assert xs == [xs[0]] + xs[1..];
  }

  /** `numpy.sort`: the values in ascending order. */
  function Sort(xs: seq<real>): (r: seq<real>)
    ensures Sorted(r)
    ensures multiset(r) == multiset(xs)
    ensures |r| == |xs|
  {
    if |xs| == 0 then []
    else
      assert xs == [xs[0]] + xs[1..];
      InsertSorted(xs[0], Sort(xs[1..]))
  }

  /** Reordering the values keeps the least and the greatest. */
  lemma MinMaxPermutation(xs: seq<real>, ys: seq<real>)
    requires |xs| > 0 && multiset(xs) == multiset(ys)
    ensures |ys| > 0 && Min(xs) == Min(ys) && Max(xs) == Max(ys)
  {
    assert xs[0] in multiset(ys);
    assert Min(xs) in multiset(ys) && Min(ys) in multiset(xs);
    assert Max(xs) in multiset(ys) && Max(ys) in multiset(xs);
  }

  function Sum(xs: seq<real>): real
  {
    if |xs| == 0 then 0.0 else xs[0] + Sum(xs[1..])
  }

  /** A sum of values within [lo, hi] lies within n times those bounds. */
  lemma {:induction false} SumBounds(xs: seq<real>, lo: real, hi: real)
    requires forall i :: 0 <= i < |xs| ==> lo <= xs[i] <= hi
    ensures |xs| as real * lo <= Sum(xs) <= |xs| as real * hi
  {
    if |xs| > 0 {
      SumBounds(xs[1..], lo, hi);
    }
  }

  /** `numpy.mean`: the arithmetic mean, which lies between the least and
      the greatest value. */
  function Mean(xs: seq<real>): (r: real)
    requires |xs| > 0
    ensures Min(xs) <= r <= Max(xs)
  {
    MeanWithin(xs);
    Sum(xs) / |xs| as real
  }

  lemma MeanWithin(xs: seq<real>)
    requires |xs| > 0
    ensures Min(xs) <= Sum(xs) / |xs| as real <= Max(xs)
  {
    AverageBounds(xs, Min(xs), Max(xs));
  }

  /** The average of values within [lo, hi] lies within [lo, hi]. */
  lemma AverageBounds(xs: seq<real>, lo: real, hi: real)
    requires |xs| > 0 && forall i :: 0 <= i < |xs| ==> lo <= xs[i] <= hi
    ensures lo <= Sum(xs) / |xs| as real <= hi
  {
    SumBounds(xs, lo, hi);
    DivBounds(Sum(xs), |xs| as real, lo, hi);
  }

  lemma DivBounds(s: real, n: real, lo: real, hi: real)
    requires 0.0 < n && n * lo <= s <= n * hi
    ensures lo <= s / n <= hi
  {
    var q := s / n;
    assert q * n == s;
    if q < lo {
      MulPos(lo - q, n);
    }
    if hi < q {
      MulPos(q - hi, n);
    }
  }

  lemma MulPos(x: real, y: real)
    requires 0.0 < x && 0.0 < y
    ensures 0.0 < x * y
  {
  }

  /** The fractional rank `(len(N) - 1) * percent` the recipe interpolates at. */
  function Rank(n: nat, p: real): real
  {
    (n - 1) as real * p
  }

  lemma RankBounds(n: nat, p: real)
    requires n > 0 && 0.0 <= p <= 1.0
    ensures 0.0 <= Rank(n, p) <= (n - 1) as real
  {
    assert (n - 1) as real * p <= (n - 1) as real * 1.0;
  }

  predicate Integral(k: real)
  {
    k.Floor as real == k
  }

  /** A weighted mean of two values lies between them. */
  lemma Convex(a: real, b: real, w: real)
    requires 0.0 <= w <= 1.0
    ensures a <= b ==> a <= a * (1.0 - w) + b * w <= b
    ensures b <= a ==> b <= a * (1.0 - w) + b * w <= a
  {
    assert a * (1.0 - w) + b * w == a + (b - a) * w;
    if a <= b {
      MulNonneg(b - a, w);
      MulNonneg(b - a, 1.0 - w);
    } else {
      MulNonneg(a - b, w);
      MulNonneg(a - b, 1.0 - w);
    }
  }

  lemma MulNonneg(x: real, y: real)
    requires 0.0 <= x && 0.0 <= y
    ensures 0.0 <= x * y
  {
  }

  /** The value at fractional position `k`: the element itself at an
      integral position, else `N[f]*(c-k) + N[c]*(k-f)` with `f`/`c` the
      floor and ceiling of `k`. */
  function Interp(xs: seq<real>, k: real): (r: real)
    requires 0.0 <= k <= (|xs| - 1) as real
    ensures Integral(k) ==> r == xs[k.Floor]
    ensures !Integral(k) ==> k.Floor + 1 < |xs|
    ensures !Integral(k) && xs[k.Floor] <= xs[k.Floor + 1] ==> xs[k.Floor] <= r <= xs[k.Floor + 1]
    ensures !Integral(k) && xs[k.Floor + 1] <= xs[k.Floor] ==> xs[k.Floor + 1] <= r <= xs[k.Floor]
  {
    var f := k.Floor;
    if f as real == k then xs[f]
    else
      var c := f + 1;
      Convex(xs[f], xs[c], k - f as real);
      assert c as real - k == 1.0 - (k - f as real);
      xs[f] * (c as real - k) + xs[c] * (k - f as real)
  }

  /** `percentile(N, percent)`: `None` for an empty list, else the value
      interpolated at rank `(len(N)-1)*percent`. The result never leaves the
      range of the data, and on an integral rank it is that element. */
  function Percentile(xs: seq<real>, p: real): (r: Option<real>)
    requires 0.0 <= p <= 1.0
    ensures r.None? <==> |xs| == 0
    ensures |xs| > 0 ==> 0 <= Rank(|xs|, p).Floor < |xs|
    ensures |xs| > 0 && !Integral(Rank(|xs|, p)) ==> Rank(|xs|, p).Floor + 1 < |xs|
    ensures r.Some? ==> Min(xs) <= r.value <= Max(xs)
    ensures r.Some? && Integral(Rank(|xs|, p)) ==> r.value == xs[Rank(|xs|, p).Floor]
    ensures r.Some? && Sorted(xs) ==>
      xs[Rank(|xs|, p).Floor] <= r.value
      && (Integral(Rank(|xs|, p)) || r.value <= xs[Rank(|xs|, p).Floor + 1])
  {
    if |xs| == 0 then None
    else
      var k := Rank(|xs|, p);
      RankBounds(|xs|, p);
      var v := Interp(xs, k);
      Some(v)
  }

  /** `median`: the 50th percentile. */
  function Median(xs: seq<real>): (r: Option<real>)
    ensures r.None? <==> |xs| == 0
    ensures r.Some? ==> Min(xs) <= r.value <= Max(xs)
  {
    Percentile(xs, 0.5)
  }

  /** Percentile 0 is the first element and percentile 1 the last. */
  lemma PercentileEnds(xs: seq<real>)
    requires |xs| > 0
    ensures Percentile(xs, 0.0) == Some(xs[0])
    ensures Percentile(xs, 1.0) == Some(xs[|xs| - 1])
  {
    assert Rank(|xs|, 0.0) == 0.0;
    assert Rank(|xs|, 1.0) == (|xs| - 1) as real;
  }

  /** On sorted data the interpolated value never decreases with the rank. */
  lemma InterpMonotone(xs: seq<real>, k1: real, k2: real)
    requires Sorted(xs)
    requires 0.0 <= k1 <= k2 <= (|xs| - 1) as real
    ensures Interp(xs, k1) <= Interp(xs, k2)
  {
    var f1, f2 := k1.Floor, k2.Floor;
    if f1 == f2 && !Integral(k1) && !Integral(k2) {
      var a, b := xs[f1], xs[f1 + 1];
      var w1, w2 := k1 - f1 as real, k2 - f1 as real;
      assert Interp(xs, k1) == a + (b - a) * w1;
      assert Interp(xs, k2) == a + (b - a) * w2;
      MulNonneg(b - a, w2 - w1);
      assert (b - a) * w2 - (b - a) * w1 == (b - a) * (w2 - w1);
    } else if f1 == f2 {
      // one end is the integral point f1, which is the lower end of the segment
      if Integral(k2) {
        assert k1 == k2;
      }
    } else {
      // k1 lies in an earlier segment: its value is at most xs[f1 + 1] <= xs[f2]
      assert f1 < f2;
      if !Integral(k1) {
        assert Interp(xs, k1) <= xs[f1 + 1];
        assert xs[f1 + 1] <= xs[f2];
      } else {
        assert xs[f1] <= xs[f2];
      }
    }
  }

  /** On sorted data a larger percent never gives a smaller percentile. */
  lemma PercentileMonotone(xs: seq<real>, p1: real, p2: real)
    requires Sorted(xs) && |xs| > 0
    requires 0.0 <= p1 <= p2 <= 1.0
    ensures Percentile(xs, p1).value <= Percentile(xs, p2).value
  {
    RankBounds(|xs|, p1);
    RankBounds(|xs|, p2);
    assert Rank(|xs|, p1) <= Rank(|xs|, p2) by {
      assert (|xs| - 1) as real * (p2 - p1) >= 0.0;
    }
    InterpMonotone(xs, Rank(|xs|, p1), Rank(|xs|, p2));
  }

  /** The median of an odd list is its middle element; of an even list, the
      mean of its two middle elements. */
  lemma MedianExamples()
    ensures Median([1.0, 2.0, 3.0]) == Some(2.0)
    ensures Median([1.0, 2.0, 3.0, 4.0]) == Some(2.5)
  {
    MedianOdd();
    MedianEven();
  }

  lemma MedianOdd()
    ensures Median([1.0, 2.0, 3.0]) == Some(2.0)
  {
    assert Rank(3, 0.5) == 1.0;
  }

  lemma MedianEven()
    ensures Median([1.0, 2.0, 3.0, 4.0]) == Some(2.5)
  {
    var xs := [1.0, 2.0, 3.0, 4.0];
    assert Rank(4, 0.5) == 1.5;
    assert Interp(xs, 1.5) == 2.5 by {
      assert (1.5).Floor == 1;
      assert xs[1] * 0.5 + xs[2] * 0.5 == 2.5;
    }
  }

  // ---------------------------------------------------------------------
  // Histogram mode

  /** Number of edges `numpy.linspace(min, max, 100)` produces. */
  const NumEdges: nat := 100

  /** `numpy.linspace(lo, hi, 100)`: evenly spaced, both ends included. */
  function Edges(lo: real, hi: real): (e: seq<real>)
    ensures |e| == NumEdges
    ensures e[0] == lo && e[NumEdges - 1] == hi
  {
    seq(NumEdges, i requires 0 <= i < NumEdges => lo + i as real * (hi - lo) / (NumEdges - 1) as real)
  }

  lemma EdgeBounds(lo: real, hi: real, i: nat)
    requires lo <= hi && i < NumEdges
    ensures lo <= Edges(lo, hi)[i] <= hi
  {
    var step := (hi - lo) / 99.0;
    assert 0.0 <= step;
    assert Edges(lo, hi)[i] == lo + i as real * step;
    MulNonneg(i as real, step);
    MulNonneg((99 - i) as real, step);
    assert (99 - i) as real * step == 99.0 * step - i as real * step;
    assert 99.0 * step == hi - lo;
  }

  lemma EdgesIncrease(lo: real, hi: real, i: nat, j: nat)
    requires lo <= hi && i <= j < NumEdges
    ensures Edges(lo, hi)[i] <= Edges(lo, hi)[j]
  {
    var step := (hi - lo) / 99.0;
    assert 0.0 <= step;
    MulNonneg((j - i) as real, step);
    assert Edges(lo, hi)[j] - Edges(lo, hi)[i] == (j - i) as real * step;
  }

  /** The bin `numpy.histogram` counts `v` in: bin j is `[e[j], e[j+1])`,
      the last bin also holds its right edge, so `v` belongs to the highest
      bin whose left edge is at most `v`. */
  function BinOf(e: seq<real>, v: real, j: nat): (b: nat)
    requires j < |e|
    ensures b <= j
    ensures b > 0 ==> e[b] <= v
    ensures forall k :: b < k <= j ==> v < e[k]
  {
    if e[j] <= v || j == 0 then j else BinOf(e, v, j - 1)
  }

  /** Bins used for `histogram(var, linspace(min, max, 100))`: 99 of them. */
  function Bin(e: seq<real>, v: real): nat
    requires |e| == NumEdges
  {
    BinOf(e, v, NumEdges - 2)
  }

  /** `v` lies within the outer edges, where `numpy.histogram` counts it. */
  predicate Within(e: seq<real>, v: real)
    requires |e| == NumEdges
  {
    e[0] <= v <= e[NumEdges - 1]
  }

  /** The bins of the values within the outer edges, in order. */
  function Binned(xs: seq<real>, e: seq<real>): (bs: seq<nat>)
    requires |e| == NumEdges
    ensures |bs| <= |xs|
    ensures (forall i :: 0 <= i < |xs| ==> Within(e, xs[i])) ==> |bs| == |xs|
  {
    if |xs| == 0 then []
    else (if Within(e, xs[0]) then [Bin(e, xs[0])] else []) + Binned(xs[1..], e)
  }

  /** The count of bin `j`: how many values within the edges it holds. */
  function CountIn(xs: seq<real>, e: seq<real>, j: nat): (c: nat)
    requires |e| == NumEdges
    ensures c <= |xs|
    ensures c == multiset(Binned(xs, e))[j]
  {
    if |xs| == 0 then 0
    else (if Within(e, xs[0]) && Bin(e, xs[0]) == j then 1 else 0) + CountIn(xs[1..], e, j)
  }

  /** The 99 bin counts: bin `j` counts the values within the edges whose
      bin is `j`. */
  function Histogram(xs: seq<real>, e: seq<real>): (h: seq<nat>)
    requires |e| == NumEdges
    ensures |h| == NumEdges - 1
    ensures forall j :: 0 <= j < |h| ==> h[j] == multiset(Binned(xs, e))[j]
  {
    seq(NumEdges - 1, j requires 0 <= j < NumEdges - 1 => CountIn(xs, e, j))
  }

  function Total(h: seq<nat>): nat
  {
    if |h| == 0 then 0 else Total(h[..|h| - 1]) + h[|h| - 1]
  }

  /** Adding one to one entry adds one to the total. */
  lemma {:induction false} TotalBump(h: seq<nat>, g: seq<nat>, b: nat)
    requires |g| == |h| && b < |h| && g[b] == h[b] + 1
    requires forall j :: 0 <= j < |h| && j != b ==> g[j] == h[j]
    ensures Total(g) == Total(h) + 1
  {
    var n := |h| - 1;
    if b < n {
      TotalBump(h[..n], g[..n], b);
    } else {
      assert g[..n] == h[..n];
    }
  }

  lemma {:induction false} TotalZero(h: seq<nat>)
    requires forall j :: 0 <= j < |h| ==> h[j] == 0
    ensures Total(h) == 0
  {
    if |h| > 0 {
      TotalZero(h[..|h| - 1]);
    }
  }

  /** The counts add up to the number of values within the outer edges:
      each such value is counted in exactly one bin. */
  lemma {:induction false} HistogramTotal(xs: seq<real>, e: seq<real>)
    requires |e| == NumEdges
    ensures Total(Histogram(xs, e)) == |Binned(xs, e)|
  {
    if |xs| == 0 {
      TotalZero(Histogram(xs, e));
    } else {
      var h, g := Histogram(xs[1..], e), Histogram(xs, e);
      HistogramTotal(xs[1..], e);
      if Within(e, xs[0]) {
        TotalBump(h, g, Bin(e, xs[0]));
      } else {
        assert g == h;
      }
    }
  }

  /** With the edges `mode` builds from the data's minimum and maximum,
      every value is counted. */
  lemma HistogramCountsAll(xs: seq<real>)
    requires |xs| > 0
    ensures Total(Histogram(xs, Edges(Min(xs), Max(xs)))) == |xs|
  {
    var e := Edges(Min(xs), Max(xs));
    assert forall i :: 0 <= i < |xs| ==> Within(e, xs[i]);
    HistogramTotal(xs, e);
  }

  /** `numpy.argmax`: the first index of a largest entry. */
  function ArgMax(h: seq<nat>): (i: nat)
    requires |h| > 0
    ensures i < |h|
    ensures forall j :: 0 <= j < |h| ==> h[j] <= h[i]
    ensures forall j :: 0 <= j < i ==> h[j] < h[i]
  {
    if |h| == 1 then 0
    else
      var k := ArgMax(h[..|h| - 1]);
      if h[|h| - 1] > h[k] then |h| - 1 else k
  }

  /** `mode(N)`: the left edge of the fullest bin when it is the first bin,
      otherwise the midpoint between that bin's left edge and the edge before
      it. An empty list has no mode (numpy raises on `min()` of it). The
      result always lies within the range of the data. */
  function Mode(xs: seq<real>): (r: Option<real>)
    ensures r.None? <==> |xs| == 0
    ensures r.Some? ==> Min(xs) <= r.value <= Max(xs)
  {
    if |xs| == 0 then None
    else
      var lo, hi := Min(xs), Max(xs);
      var e := Edges(lo, hi);
      var index := ArgMax(Histogram(xs, e));
      EdgeBounds(lo, hi, index);
      if index == 0 then Some(e[index])
      else
        EdgeBounds(lo, hi, index - 1);
        Some((e[index] + e[index - 1]) / 2.0)
  }

  /** Every value in the data range is counted in the bin whose edges
      enclose it. */
  lemma BinEncloses(lo: real, hi: real, v: real)
    requires lo <= v <= hi
    ensures Edges(lo, hi)[Bin(Edges(lo, hi), v)] <= v
    ensures v <= Edges(lo, hi)[Bin(Edges(lo, hi), v) + 1]
  {
    var e := Edges(lo, hi);
    var b := Bin(e, v);
    if b == 0 {
      assert e[0] == lo;
    }
    if b + 1 == NumEdges - 1 {
      assert e[NumEdges - 1] == hi;
    } else {
      assert v < e[b + 1];
    }
  }

  /** When every value is the same, the mode is that value. */
  lemma ModeOfConstant(xs: seq<real>, a: real)
    requires |xs| > 0
    requires forall i :: 0 <= i < |xs| ==> xs[i] == a
    ensures Mode(xs) == Some(a)
  {
    assert Min(xs) == a && Max(xs) == a;
  }
}

=== FILE: store.dfy ===
/** The part of the STOQS schema (`stoqs/models.py`) the loaders write,
    as an immutable database value. Foreign keys are row ids (positions in
    the referenced table); `unique` and `unique_together` constraints and
    the foreign keys together make up `Valid`, which every operation here
    preserves. The operations are the `get`, `get_or_create` and `save`
    calls the loaders make, built on the generic ones of module Table. */
module Store {
  import opened Wrappers
  import opened Table
  import Strs

  // ---------------------------------------------------------------------
  // UUIDField

  /** `UUIDField.pre_save(instance, add)`: on insert a non-empty value is
      kept and an empty one is replaced by the text of a fresh uuid4 (passed
      in as `generated`) with its dashes removed; on update the stored value is
      returned as it is. */
  function PreSave(value: string, add: bool, generated: string): (r: string)
    ensures !add || value != "" ==> r == value
    ensures add && value == "" ==> '-' !in r && r == Strs.Without(generated, '-')
  {
    if add && value == "" then
      Strs.ReplaceRemovesChar(generated, '-');
      Strs.ReplaceCharIsWithout(generated, '-');
      Strs.Replace(generated, "-", "")
    else value
  }

  /** The default `max_length` of a UUIDField. */
  const UuidLength: nat := 32

  predicate IsHexDigit(c: char)
  {
    '0' <= c <= '9' || 'a' <= c <= 'f'
  }

  /** The five groups of a uuid's 32 hex digits: 8, 4, 4, 4 and 12. */
  function Groups(h: string): (g: seq<string>)
    requires |h| == UuidLength
    ensures |g| == 5
  {
    [h[..8], h[8..12], h[12..16], h[16..20], h[20..]]
  }

  /** `unicode(uuid)`: the groups joined by dashes. */
  function Hyphenated(h: string): string
    requires |h| == UuidLength
  {
    Strs.Join(Groups(h), "-")
  }

  function Concat(parts: seq<string>): string
  {
    if |parts| == 0 then "" else parts[0] + Concat(parts[1..])
  }

  /** Dropping the separator from parts joined by it concatenates the parts. */
  lemma {:induction false} WithoutJoin(parts: seq<string>, c: char)
    requires forall k :: 0 <= k < |parts| ==> c !in parts[k]
    ensures Strs.Without(Strs.Join(parts, [c]), c) == Concat(parts)
  {
    if |parts| == 1 {
      Strs.WithoutAbsent(parts[0], c);
      assert parts[0] + "" == parts[0];
    } else if |parts| > 1 {
      var p, rest := parts[0], parts[1..];
      WithoutJoin(rest, c);
      Strs.WithoutAbsent(p, c);
      assert Strs.Without([c], c) == [];
      Strs.WithoutConcat(p + [c], Strs.Join(rest, [c]), c);
      Strs.WithoutConcat(p, [c], c);
    }
  }

  /** A generated uuid fits the column: dropping the dashes of its 36
      character text gives back its 32 hex digits. */
  lemma PreSaveFresh(h: string)
    requires |h| == UuidLength && forall i :: 0 <= i < |h| ==> IsHexDigit(h[i])
    ensures PreSave("", true, Hyphenated(h)) == h
    ensures |PreSave("", true, Hyphenated(h))| == UuidLength
  {
    var g := Groups(h);
    assert '-' !in h;
    forall k | 0 <= k < 5 ensures '-' !in g[k] {
      Strs.SliceKeepsOut(h, if k == 0 then 0 else [0, 8, 12, 16, 20][k], if k == 4 then 32 else [8, 12, 16, 20][k], '-');
    }
    WithoutJoin(g, '-');
    assert Concat(g) == h by {
      assert Concat(g[4..]) == h[20..];
      assert Concat(g[3..]) == h[16..];
      assert Concat(g[2..]) == h[12..];
      assert Concat(g[1..]) == h[8..];
    }
  }

  // ---------------------------------------------------------------------
  // Rows

  /** The tables holding nothing but a unique `name`. */
  datatype Lookup = ResourceType | ActivityType | PlatformType | ParameterGroup
                  | SampleType | SamplePurpose | AnalysisMethod

  /** The association tables, each pairing two foreign keys with
      `unique_together` on the pair. */
  datatype Link = ParameterGroupParameter | CampaignResource | ActivityResource
                | ParameterResource | PlatformResource

  datatype Pair = Pair(left: nat, right: nat)

  datatype Platform = Platform(name: string, color: Option<string>, platformtype: nat)

  datatype Campaign = Campaign(name: string)

  datatype Resource = Resource(name: string, value: string, resourcetype: Option<nat>)

  /** An Activity with the columns the loaders fill in after a load. */
  datatype Activity = Activity(
    name: string, platform: nat, startdate: int, enddate: Option<int>,
    campaign: Option<nat>, activitytype: Option<nat>,
    mindepth: Option<real>, maxdepth: Option<real>, numMeasuredParameters: Option<nat>)

  datatype Parameter = Parameter(
    name: string, standardName: Option<string>, longName: Option<string>,
    units: Option<string>, kind: Option<string>, description: Option<string>,
    origin: Option<string>)

  /** Times are seconds since 1970-01-01 00:00:00 UTC, the value of a
      `DateTimeField` (to the microsecond in the database, exact here). */
  datatype InstantPoint = InstantPoint(activity: nat, timevalue: real)

  datatype NominalLocation = NominalLocation(activity: nat, depth: real, lon: real, lat: real)

  datatype Measurement = Measurement(
    instantpoint: nat, nominallocation: Option<nat>, depth: real, lon: real, lat: real)

  datatype MeasuredParameter = MeasuredParameter(measurement: nat, parameter: nat, datavalue: real)

  datatype Sample = Sample(name: string, instantpoint: nat)

  datatype SampledParameter = SampledParameter(sample: nat, parameter: nat, datavalue: real)

  /** The statistics `updateActivityParameterStats` stores. */
  datatype ParameterStats = ParameterStats(
    number: nat, min: real, max: real, mean: real, median: real, mode: real,
    p025: real, p975: real, p010: Option<real>, p990: Option<real>)

  datatype ActivityParameter = ActivityParameter(activity: nat, parameter: nat, stats: Option<ParameterStats>)

  datatype Histogram = Histogram(activityparameter: nat, binlo: real, binhi: real, bincount: nat)

  datatype SimpleDepthTime = SimpleDepthTime(activity: nat, instantpoint: nat, epochmilliseconds: real, depth: real)

  /** The simplified bottom-depth series. This table has no class in
      stoqs/models.py; the model gives it one of its own. */
  datatype SimpleBottomDepthTime = SimpleBottomDepthTime(
    activity: nat, instantpoint: nat, epochmilliseconds: real, bottomdepth: real)

  datatype Db = Db(
    lookups: map<Lookup, seq<string>>,
    links: map<Link, seq<Pair>>,
    platforms: seq<Platform>,
    campaigns: seq<Campaign>,
    resources: seq<Resource>,
    activities: seq<Activity>,
    parameters: seq<Parameter>,
    instantPoints: seq<InstantPoint>,
    nominalLocations: seq<NominalLocation>,
    measurements: seq<Measurement>,
    measuredParameters: seq<MeasuredParameter>,
    samples: seq<Sample>,
    sampledParameters: seq<SampledParameter>,
    activityParameters: seq<ActivityParameter>,
    histograms: seq<Histogram>,
    simpleDepthTimes: seq<SimpleDepthTime>,
    simpleBottomDepthTimes: seq<SimpleBottomDepthTime>)

  // ---------------------------------------------------------------------
  // Keys

  function Self<T>(x: T): T { x }

  function ParameterName(p: Parameter): string { p.name }

  function ParameterStandardName(p: Parameter): Option<string> { p.standardName }

  function ActivityParameterKey(ap: ActivityParameter): (nat, nat) { (ap.activity, ap.parameter) }

  function MeasuredParameterKey(mp: MeasuredParameter): (nat, nat) { (mp.measurement, mp.parameter) }

  function SampledParameterKey(sp: SampledParameter): (nat, nat) { (sp.sample, sp.parameter) }

  // ---------------------------------------------------------------------
  // Invariant

  /** Every lookup and link table is present. */
  predicate HasTables(db: Db)
  {
    (forall l: Lookup :: l in db.lookups) && (forall k: Link :: k in db.links)
  }

  /** The `unique` and `unique_together` constraints. */
  predicate Unique(db: Db)
    requires HasTables(db)
  {
    (forall l: Lookup :: UniqueBy(db.lookups[l], Self))
    && (forall k: Link :: UniqueBy(db.links[k], Self))
    && UniqueBy(db.parameters, ParameterName)
    && UniqueBy(db.activityParameters, ActivityParameterKey)
    && UniqueBy(db.measuredParameters, MeasuredParameterKey)
    && UniqueBy(db.sampledParameters, SampledParameterKey)
  }

  predicate OptRef(r: Option<nat>, n: nat) { r.None? || r.value < n }

  /** Every row of `rows` refers, through the foreign key `ref`, to one of
      `n` rows of another table. */
  predicate RefsBelow<R>(rows: seq<R>, ref: R -> nat, n: nat)
  {
    forall i :: 0 <= i < |rows| ==> ref(rows[i]) < n
  }

  /** The same for a nullable foreign key. */
  predicate OptRefsBelow<R>(rows: seq<R>, ref: R -> Option<nat>, n: nat)
  {
    forall i :: 0 <= i < |rows| ==> OptRef(ref(rows[i]), n)
  }

  /** The number of rows in the tables each side of link `k` refers to,
      given the sizes of the parameter group, parameter, campaign, resource,
      activity and platform tables. */
  function Sides(k: Link, groups: nat, parameters: nat, campaigns: nat, resources: nat, activities: nat, platforms: nat): (nat, nat)
  {
    match k
    case ParameterGroupParameter => (groups, parameters)
    case CampaignResource => (campaigns, resources)
    case ActivityResource => (activities, resources)
    case ParameterResource => (parameters, resources)
    case PlatformResource => (platforms, resources)
  }

  /** The number of rows in the table each side of a link refers to. */
  function LinkSides(db: Db, k: Link): (nat, nat)
    requires HasTables(db)
  {
    Sides(k, |db.lookups[ParameterGroup]|, |db.parameters|, |db.campaigns|, |db.resources|, |db.activities|, |db.platforms|)
  }

  /** Every pair of every link table refers to existing rows. */
  predicate LinksLinked(links: map<Link, seq<Pair>>, groups: nat, parameters: nat, campaigns: nat, resources: nat, activities: nat, platforms: nat)
  {
    forall k: Link, i :: k in links && 0 <= i < |links[k]| ==>
      links[k][i].left < Sides(k, groups, parameters, campaigns, resources, activities, platforms).0
      && links[k][i].right < Sides(k, groups, parameters, campaigns, resources, activities, platforms).1
  }

  function PlatformTypeOf(p: Platform): nat { p.platformtype }
  function ResourceTypeOf(r: Resource): Option<nat> { r.resourcetype }
  function ActivityPlatform(a: Activity): nat { a.platform }
  function ActivityCampaign(a: Activity): Option<nat> { a.campaign }
  function ActivityTypeOf(a: Activity): Option<nat> { a.activitytype }
  function InstantActivity(ip: InstantPoint): nat { ip.activity }
  function NominalActivity(nl: NominalLocation): nat { nl.activity }
  function MeasurementInstant(m: Measurement): nat { m.instantpoint }
  function MeasurementNominal(m: Measurement): Option<nat> { m.nominallocation }
  function MeasuredMeasurement(mp: MeasuredParameter): nat { mp.measurement }
  function MeasuredParameterOf(mp: MeasuredParameter): nat { mp.parameter }
  function SampleInstant(s: Sample): nat { s.instantpoint }
  function SampledSample(sp: SampledParameter): nat { sp.sample }
  function SampledParameterOf(sp: SampledParameter): nat { sp.parameter }
  function ApActivity(ap: ActivityParameter): nat { ap.activity }
  function ApParameter(ap: ActivityParameter): nat { ap.parameter }
  function HistogramAp(h: Histogram): nat { h.activityparameter }
  function DepthTimeActivity(d: SimpleDepthTime): nat { d.activity }
  function DepthTimeInstant(d: SimpleDepthTime): nat { d.instantpoint }
  function BottomTimeActivity(d: SimpleBottomDepthTime): nat { d.activity }
  function BottomTimeInstant(d: SimpleBottomDepthTime): nat { d.instantpoint }

  /** Every foreign key refers to an existing row. Each conjunct mentions
      only the tables it relates, so that changing one table leaves the
      others' conjuncts untouched. */
  predicate Linked(db: Db)
    requires HasTables(db)
  {
    LinksLinked(db.links, |db.lookups[ParameterGroup]|, |db.parameters|, |db.campaigns|, |db.resources|, |db.activities|, |db.platforms|)
    && RefsBelow(db.platforms, PlatformTypeOf, |db.lookups[PlatformType]|)
    && OptRefsBelow(db.resources, ResourceTypeOf, |db.lookups[ResourceType]|)
    && RefsBelow(db.activities, ActivityPlatform, |db.platforms|)
    && OptRefsBelow(db.activities, ActivityCampaign, |db.campaigns|)
    && OptRefsBelow(db.activities, ActivityTypeOf, |db.lookups[ActivityType]|)
    && RefsBelow(db.instantPoints, InstantActivity, |db.activities|)
    && RefsBelow(db.nominalLocations, NominalActivity, |db.activities|)
    && RefsBelow(db.measurements, MeasurementInstant, |db.instantPoints|)
    && OptRefsBelow(db.measurements, MeasurementNominal, |db.nominalLocations|)
    && RefsBelow(db.measuredParameters, MeasuredMeasurement, |db.measurements|)
    && RefsBelow(db.measuredParameters, MeasuredParameterOf, |db.parameters|)
    && RefsBelow(db.samples, SampleInstant, |db.instantPoints|)
    && RefsBelow(db.sampledParameters, SampledSample, |db.samples|)
    && RefsBelow(db.sampledParameters, SampledParameterOf, |db.parameters|)
    && RefsBelow(db.activityParameters, ApActivity, |db.activities|)
    && RefsBelow(db.activityParameters, ApParameter, |db.parameters|)
    && RefsBelow(db.histograms, HistogramAp, |db.activityParameters|)
    && RefsBelow(db.simpleDepthTimes, DepthTimeActivity, |db.activities|)
    && RefsBelow(db.simpleDepthTimes, DepthTimeInstant, |db.instantPoints|)
    && RefsBelow(db.simpleBottomDepthTimes, BottomTimeActivity, |db.activities|)
    && RefsBelow(db.simpleBottomDepthTimes, BottomTimeInstant, |db.instantPoints|)
  }

  predicate Valid(db: Db)
  {
    HasTables(db) && Unique(db) && Linked(db)
  }

  const NoLookups: map<Lookup, seq<string>> :=
    map[ResourceType := [], ActivityType := [], PlatformType := [], ParameterGroup := [],
        SampleType := [], SamplePurpose := [], AnalysisMethod := []]

  const NoLinks: map<Link, seq<Pair>> :=
    map[ParameterGroupParameter := [], CampaignResource := [], ActivityResource := [],
        ParameterResource := [], PlatformResource := []]

  lemma NoLookupRows(l: Lookup)
    ensures l in NoLookups && NoLookups[l] == []
  {
    if l.ResourceType? || l.ActivityType? || l.PlatformType? || l.ParameterGroup? {
    } else if l.SampleType? || l.SamplePurpose? || l.AnalysisMethod? {
    }
  }

  lemma NoLinkRows(k: Link)
    ensures k in NoLinks && NoLinks[k] == []
  {
    if k.ParameterGroupParameter? || k.CampaignResource? || k.ActivityResource? {
    } else if k.ParameterResource? || k.PlatformResource? {
    }
  }

  /** A freshly synced database. */
  function Empty(): (db: Db)
    ensures Valid(db)
  {
    forall l: Lookup ensures l in NoLookups && NoLookups[l] == [] {
      NoLookupRows(l);
    }
    forall k: Link ensures k in NoLinks && NoLinks[k] == [] {
      NoLinkRows(k);
    }
    Db(NoLookups, NoLinks, [], [], [], [], [], [], [], [], [], [], [], [], [], [], [])
  }

  /** The result of a `get_or_create` on the database. */
  datatype Got = Got(db: Db, id: nat, created: bool)

  // ---------------------------------------------------------------------
  // Operations

  /** `get_or_create(name=name)` on a lookup table. */
  function GetOrCreateLookup(db: Db, l: Lookup, name: string): (r: Got)
    requires Valid(db)
    ensures Valid(r.db)
    ensures r.id < |r.db.lookups[l]| && r.db.lookups[l][r.id] == name
    ensures r.created <==> name !in db.lookups[l]
    ensures r.db == db.(lookups := db.lookups[l := r.db.lookups[l]])
    ensures r.db.lookups[l] == if r.created then db.lookups[l] + [name] else db.lookups[l]
  {
    GetOrCreateKeepsUnique(db.lookups[l], Self, name);
    var o := GetOrCreate(db.lookups[l], Self, name).value;
    GrowLookup(db, l, o.rows);
    Got(db.(lookups := db.lookups[l := o.rows]), o.id, o.created)
  }

  /** Extending a lookup table with unique names keeps the database valid. */
  lemma GrowLookup(db: Db, l: Lookup, rows: seq<string>)
    requires Valid(db) && UniqueBy(rows, Self) && |db.lookups[l]| <= |rows|
    ensures Valid(db.(lookups := db.lookups[l := rows]))
  {
    var db' := db.(lookups := db.lookups[l := rows]);
    forall l' | l' != l ensures db'.lookups[l'] == db.lookups[l'] { }
    assert forall k: Link :: LinkSides(db, k).0 <= LinkSides(db', k).0 && LinkSides(db, k).1 == LinkSides(db', k).1;
  }

  /** `Platform.objects.get_or_create(name=, color=, platformtype=)`.
      Platform has no unique column, so a platform already stored twice
      with these values makes the lookup fail. */
  function GetOrCreatePlatform(db: Db, p: Platform): (r: Result<Got, DbError>)
    requires Valid(db) && p.platformtype < |db.lookups[PlatformType]|
    ensures r.Failure? <==> Ambiguous(db.platforms, Self, p)
    ensures r.Success? ==> Valid(r.value.db) && r.value.db == db.(platforms := r.value.db.platforms)
    ensures r.Success? ==> r.value.id < |r.value.db.platforms| && r.value.db.platforms[r.value.id] == p
    ensures r.Success? ==> (r.value.created <==> p !in db.platforms)
  {
    match Get(db.platforms, Self, p)
    case Success(id) => Success(Got(db, id, false))
    case Failure(e) =>
      if e == DoesNotExist then Success(Got(db.(platforms := db.platforms + [p]), |db.platforms|, true))
      else Failure(e)
  }

  /** `Parameter(**parms).save()`: IntegrityError when the name is taken. */
  function InsertParameter(db: Db, p: Parameter): (r: Result<Db, DbError>)
    requires Valid(db)
    ensures r.Failure? <==> Has(db.parameters, ParameterName, p.name)
    ensures r.Success? ==> Valid(r.value) && r.value == db.(parameters := db.parameters + [p])
  {
    match Insert(db.parameters, ParameterName, p)
    case Failure(e) => Failure(e)
    case Success(rows) =>
      InsertKeepsUnique(db.parameters, ParameterName, p);
      Success(db.(parameters := rows))
  }

  /** `InstantPoint.objects.get_or_create(activity=, timevalue=)`. */
  function GetOrCreateInstantPoint(db: Db, activity: nat, time: real): (r: Result<Got, DbError>)
    requires Valid(db) && activity < |db.activities|
    ensures r.Failure? <==> Ambiguous(db.instantPoints, Self, InstantPoint(activity, time))
    ensures r.Success? ==> Valid(r.value.db) && r.value.db == db.(instantPoints := r.value.db.instantPoints)
    ensures r.Success? ==>
      r.value.id < |r.value.db.instantPoints| && r.value.db.instantPoints[r.value.id] == InstantPoint(activity, time)
    ensures r.Success? ==> (r.value.created <==> InstantPoint(activity, time) !in db.instantPoints)
    ensures r.Success? ==> !Ambiguous(r.value.db.instantPoints, Self, InstantPoint(activity, time))
  {
    match Get(db.instantPoints, Self, InstantPoint(activity, time))
    case Success(id) => Success(Got(db, id, false))
    case Failure(e) =>
      if e == DoesNotExist then Success(CreateInstantPoint(db, activity, time)) else Failure(e)
  }

  /** `InstantPoint(activity=, timevalue=).save()`: always a new row. */
  function CreateInstantPoint(db: Db, activity: nat, time: real): (r: Got)
    requires Valid(db) && activity < |db.activities|
    ensures Valid(r.db) && r.created
    ensures r.db == db.(instantPoints := db.instantPoints + [InstantPoint(activity, time)])
    ensures r.id == |db.instantPoints|
  {
    Got(db.(instantPoints := db.instantPoints + [InstantPoint(activity, time)]), |db.instantPoints|, true)
  }

  /** `NominalLocation.objects.get_or_create(depth=, geom=, activity=)`. */
  function GetOrCreateNominalLocation(db: Db, nl: NominalLocation): (r: Result<Got, DbError>)
    requires Valid(db) && nl.activity < |db.activities|
    ensures r.Failure? <==> Ambiguous(db.nominalLocations, Self, nl)
    ensures r.Success? ==> Valid(r.value.db) && r.value.db == db.(nominalLocations := r.value.db.nominalLocations)
    ensures r.Success? ==> r.value.id < |r.value.db.nominalLocations| && r.value.db.nominalLocations[r.value.id] == nl
    ensures r.Success? ==> (r.value.created <==> nl !in db.nominalLocations)
    ensures r.Success? ==> !Ambiguous(r.value.db.nominalLocations, Self, nl)
  {
    match Get(db.nominalLocations, Self, nl)
    case Success(id) => Success(Got(db, id, false))
    case Failure(e) =>
      if e == DoesNotExist then Success(Got(db.(nominalLocations := db.nominalLocations + [nl]), |db.nominalLocations|, true))
      else Failure(e)
  }

  /** `Measurement.objects.get_or_create(instantpoint=, nominallocation=,
      depth=, geom=)`. */
  function GetOrCreateMeasurement(db: Db, m: Measurement): (r: Result<Got, DbError>)
    requires Valid(db) && m.instantpoint < |db.instantPoints| && OptRef(m.nominallocation, |db.nominalLocations|)
    ensures r.Failure? <==> Ambiguous(db.measurements, Self, m)
    ensures r.Success? ==> Valid(r.value.db) && r.value.db == db.(measurements := r.value.db.measurements)
    ensures r.Success? ==> r.value.id < |r.value.db.measurements| && r.value.db.measurements[r.value.id] == m
    ensures r.Success? ==> (r.value.created <==> m !in db.measurements)
    ensures r.Success? ==> !Ambiguous(r.value.db.measurements, Self, m)
  {
    match Get(db.measurements, Self, m)
    case Success(id) => Success(Got(db, id, false))
    case Failure(e) =>
      if e == DoesNotExist then Success(CreateMeasurement(db, m)) else Failure(e)
  }

  /** `Measurement(...).save()`: always a new row. */
  function CreateMeasurement(db: Db, m: Measurement): (r: Got)
    requires Valid(db) && m.instantpoint < |db.instantPoints| && OptRef(m.nominallocation, |db.nominalLocations|)
    ensures Valid(r.db) && r.created
    ensures r.db == db.(measurements := db.measurements + [m]) && r.id == |db.measurements|
  {
    Got(db.(measurements := db.measurements + [m]), |db.measurements|, true)
  }

  /** `MeasuredParameter(measurement=, parameter=, datavalue=).save()`:
      IntegrityError when the measurement already has a value for the
      parameter. */
  function InsertMeasuredParameter(db: Db, mp: MeasuredParameter): (r: Result<Db, DbError>)
    requires Valid(db) && mp.measurement < |db.measurements| && mp.parameter < |db.parameters|
    ensures r.Failure? <==> Has(db.measuredParameters, MeasuredParameterKey, MeasuredParameterKey(mp))
    ensures r.Success? ==> Valid(r.value) && r.value == db.(measuredParameters := db.measuredParameters + [mp])
  {
    match Insert(db.measuredParameters, MeasuredParameterKey, mp)
    case Failure(e) => Failure(e)
    case Success(rows) =>
      InsertKeepsUnique(db.measuredParameters, MeasuredParameterKey, mp);
      Success(db.(measuredParameters := rows))
  }

  /** `ActivityParameter.objects.get_or_create(activity=, parameter=)`:
      never fails, the pair being unique. */
  function GetOrCreateActivityParameter(db: Db, activity: nat, parameter: nat): (r: Got)
    requires Valid(db) && activity < |db.activities| && parameter < |db.parameters|
    ensures Valid(r.db) && r.db == db.(activityParameters := r.db.activityParameters)
    ensures r.id < |r.db.activityParameters|
    ensures ActivityParameterKey(r.db.activityParameters[r.id]) == (activity, parameter)
    ensures r.created <==> !Has(db.activityParameters, ActivityParameterKey, (activity, parameter))
    ensures r.created ==> r.db.activityParameters == db.activityParameters + [ActivityParameter(activity, parameter, None)]
    ensures !r.created ==> r.db == db
  {
    UniqueNotAmbiguous(db.activityParameters, ActivityParameterKey, (activity, parameter));
    match Get(db.activityParameters, ActivityParameterKey, (activity, parameter))
    case Success(id) => Got(db, id, false)
    case Failure(_) => CreateActivityParameter(db, ActivityParameter(activity, parameter, None))
  }

  /** The save of a new ActivityParameter for a pair that has none. */
  function CreateActivityParameter(db: Db, ap: ActivityParameter): (r: Got)
    requires Valid(db) && ap.activity < |db.activities| && ap.parameter < |db.parameters|
    requires !Has(db.activityParameters, ActivityParameterKey, ActivityParameterKey(ap))
    ensures Valid(r.db) && r.created && r.id == |db.activityParameters|
    ensures r.db == db.(activityParameters := db.activityParameters + [ap])
  {
    InsertKeepsUnique(db.activityParameters, ActivityParameterKey, ap);
    Got(db.(activityParameters := db.activityParameters + [ap]), |db.activityParameters|, true)
  }

  /** `ap.<stat> = ...; ap.save()` on an existing ActivityParameter. */
  function SetStats(db: Db, id: nat, stats: ParameterStats): (r: Db)
    requires Valid(db) && id < |db.activityParameters|
    ensures Valid(r)
    ensures r == db.(activityParameters := db.activityParameters[id := db.activityParameters[id].(stats := Some(stats))])
  {
    var ap := db.activityParameters[id].(stats := Some(stats));
    UpdateKeepsUnique(db.activityParameters, ActivityParameterKey, id, ap);
    db.(activityParameters := Update(db.activityParameters, id, ap))
  }

  /** `ActivityParameterHistogram.objects.get_or_create(activityparameter=,
      bincount=, binlo=, binhi=)`. */
  function GetOrCreateHistogram(db: Db, h: Histogram): (r: Result<Got, DbError>)
    requires Valid(db) && h.activityparameter < |db.activityParameters|
    ensures r.Failure? <==> Ambiguous(db.histograms, Self, h)
    ensures r.Success? ==> Valid(r.value.db) && r.value.db == db.(histograms := r.value.db.histograms)
    ensures r.Success? ==> r.value.id < |r.value.db.histograms| && r.value.db.histograms[r.value.id] == h
    ensures r.Success? ==> (r.value.created <==> h !in db.histograms)
    ensures r.Success? ==> !Ambiguous(r.value.db.histograms, Self, h)
    ensures r.Failure? ==> r.error == MultipleObjectsReturned
  {
    match Get(db.histograms, Self, h)
    case Success(id) => Success(Got(db, id, false))
    case Failure(e) =>
      if e == DoesNotExist then Success(Got(db.(histograms := db.histograms + [h]), |db.histograms|, true))
      else Failure(e)
  }

  /** The histogram table replaced by `hs`, every row of which refers to
      an existing ActivityParameter. */
  function WithHistograms(db: Db, hs: seq<Histogram>): (r: Db)
    requires Valid(db)
    requires forall k :: 0 <= k < |hs| ==> hs[k].activityparameter < |db.activityParameters|
    ensures Valid(r) && r == db.(histograms := hs)
  {
    db.(histograms := hs)
  }

  /** `SimpleDepthTime.objects.create(...)` of each row in turn. */
  function CreateSimpleDepthTimes(db: Db, rows: seq<SimpleDepthTime>): (r: Db)
    requires Valid(db)
    requires forall j :: 0 <= j < |rows| ==> rows[j].activity < |db.activities| && rows[j].instantpoint < |db.instantPoints|
    ensures Valid(r) && r == db.(simpleDepthTimes := db.simpleDepthTimes + rows)
  {
    db.(simpleDepthTimes := db.simpleDepthTimes + rows)
  }

  /** `SimpleBottomDepthTime.objects.create(...)` of each row in turn. */
  function CreateSimpleBottomDepthTimes(db: Db, rows: seq<SimpleBottomDepthTime>): (r: Db)
    requires Valid(db)
    requires forall j :: 0 <= j < |rows| ==> rows[j].activity < |db.activities| && rows[j].instantpoint < |db.instantPoints|
    ensures Valid(r) && r == db.(simpleBottomDepthTimes := db.simpleBottomDepthTimes + rows)
  {
    db.(simpleBottomDepthTimes := db.simpleBottomDepthTimes + rows)
  }

  /** `ActivityParameter.objects.get_or_create(activity=, parameter=,
      number=, min=, ...)` with every statistic in the lookup: the row is
      found only when its statistics are the same, and a row for the pair
      with other statistics makes the insert raise IntegrityError. */
  function GetOrCreateActivityParameterWith(db: Db, ap: ActivityParameter): (r: Result<Got, DbError>)
    requires Valid(db) && ap.activity < |db.activities| && ap.parameter < |db.parameters|
    ensures r.Failure? <==> ap !in db.activityParameters && Has(db.activityParameters, ActivityParameterKey, ActivityParameterKey(ap))
    ensures r.Failure? ==> r.error == IntegrityError
    ensures r.Success? ==> Valid(r.value.db) && r.value.db == db.(activityParameters := r.value.db.activityParameters)
    ensures r.Success? ==> r.value.id < |r.value.db.activityParameters| && r.value.db.activityParameters[r.value.id] == ap
    ensures r.Success? ==> (r.value.created <==> ap !in db.activityParameters)
    ensures r.Success? && r.value.created ==> r.value.db.activityParameters == db.activityParameters + [ap]
    ensures r.Success? && !r.value.created ==> r.value.db == db
  {
    var rows := db.activityParameters;
    UniqueNotAmbiguous(rows, ActivityParameterKey, ActivityParameterKey(ap));
    match Get(rows, Self, ap)
    case Success(id) => Success(Got(db, id, false))
    case Failure(_) =>
      if Has(rows, ActivityParameterKey, ActivityParameterKey(ap)) then Failure(IntegrityError)
      else Success(CreateActivityParameter(db, ap))
  }

  // ---------------------------------------------------------------------
  // Queries

  /** The activity of measurement `m`, through its instant point. */
  function MeasurementActivity(ms: seq<Measurement>, ips: seq<InstantPoint>, m: nat): (a: Option<nat>)
    ensures a.Some? <==> m < |ms| && ms[m].instantpoint < |ips|
    ensures a.Some? ==> a.value == ips[ms[m].instantpoint].activity
  {
    if m < |ms| && ms[m].instantpoint < |ips| then Some(ips[ms[m].instantpoint].activity) else None
  }

  /** The activity of sample `s`, through its instant point. */
  function SampleActivity(ss: seq<Sample>, ips: seq<InstantPoint>, s: nat): (a: Option<nat>)
    ensures a.Some? <==> s < |ss| && ss[s].instantpoint < |ips|
    ensures a.Some? ==> a.value == ips[ss[s].instantpoint].activity
  {
    if s < |ss| && ss[s].instantpoint < |ips| then Some(ips[ss[s].instantpoint].activity) else None
  }

  /** A measured value of parameter `p`, in activity `a` when `a` is given. */
  predicate MeasuredIn(ms: seq<Measurement>, ips: seq<InstantPoint>, mp: MeasuredParameter, p: nat, a: Option<nat>)
  {
    mp.parameter == p && (a.None? || MeasurementActivity(ms, ips, mp.measurement) == a)
  }

  /** A sampled value of parameter `p` in activity `a`. */
  predicate SampledIn(ss: seq<Sample>, ips: seq<InstantPoint>, sp: SampledParameter, p: nat, a: nat)
  {
    sp.parameter == p && SampleActivity(ss, ips, sp.sample) == Some(a)
  }

  /** The `datavalue`s of the rows of `mps` that `MeasuredIn` selects, in
      table order: `MeasuredParameter.objects.filter(parameter=p,
      measurement__instantpoint__activity=a)`, the activity filter dropped
      when `a` is None. */
  function MeasuredValues(ms: seq<Measurement>, ips: seq<InstantPoint>, mps: seq<MeasuredParameter>, p: nat, a: Option<nat>): (vs: seq<real>)
    ensures |vs| <= |mps|
    ensures (forall i :: 0 <= i < |mps| ==> !MeasuredIn(ms, ips, mps[i], p, a)) ==> vs == []
  {
    if |mps| == 0 then []
    else
      var last := mps[|mps| - 1];
      MeasuredValues(ms, ips, mps[..|mps| - 1], p, a) + if MeasuredIn(ms, ips, last, p, a) then [last.datavalue] else []
  }

  /** `SampledParameter.objects.filter(parameter=p,
      sample__instantpoint__activity=a)`'s `datavalue`s in table order. */
  function SampledValues(ss: seq<Sample>, ips: seq<InstantPoint>, sps: seq<SampledParameter>, p: nat, a: nat): (vs: seq<real>)
    ensures |vs| <= |sps|
    ensures (forall i :: 0 <= i < |sps| ==> !SampledIn(ss, ips, sps[i], p, a)) ==> vs == []
  {
    if |sps| == 0 then []
    else
      var last := sps[|sps| - 1];
      SampledValues(ss, ips, sps[..|sps| - 1], p, a) + if SampledIn(ss, ips, last, p, a) then [last.datavalue] else []
  }

  /** The activity filter can only drop values. */
  lemma {:induction false} ActivityFilterNarrows(ms: seq<Measurement>, ips: seq<InstantPoint>, mps: seq<MeasuredParameter>, p: nat, a: nat)
    ensures |MeasuredValues(ms, ips, mps, p, Some(a))| <= |MeasuredValues(ms, ips, mps, p, None)|
  {
    if |mps| > 0 {
      ActivityFilterNarrows(ms, ips, mps[..|mps| - 1], p, a);
    }
  }

  /** The activity filter drops nothing exactly when every value of the
      parameter belongs to the activity. */
  lemma {:induction false} ActivityFilterKeepsAll(ms: seq<Measurement>, ips: seq<InstantPoint>, mps: seq<MeasuredParameter>, p: nat, a: nat)
    ensures MeasuredValues(ms, ips, mps, p, Some(a)) == MeasuredValues(ms, ips, mps, p, None)
        <==> forall i :: 0 <= i < |mps| && mps[i].parameter == p ==> MeasurementActivity(ms, ips, mps[i].measurement) == Some(a)
  {
    if |mps| > 0 {
      var init := mps[..|mps| - 1];
      var last := mps[|mps| - 1];
      ActivityFilterKeepsAll(ms, ips, init, p, a);
      ActivityFilterNarrows(ms, ips, init, p, a);
      var u, w := MeasuredValues(ms, ips, init, p, Some(a)), MeasuredValues(ms, ips, init, p, None);
      if last.parameter == p && MeasurementActivity(ms, ips, last.measurement) != Some(a) {
        assert |MeasuredValues(ms, ips, mps, p, Some(a))| < |MeasuredValues(ms, ips, mps, p, None)|;
      } else {
        var tail := if MeasuredIn(ms, ips, last, p, None) then [last.datavalue] else [];
        assert MeasuredValues(ms, ips, mps, p, Some(a)) == u + tail;
        assert MeasuredValues(ms, ips, mps, p, None) == w + tail;
        AppendCancel(u, w, tail);
        assert forall i :: 0 <= i < |init| ==> mps[i] == init[i];
      }
    }
  }

  /** A value of the parameter from another activity makes the filtered
      list strictly shorter. */
  lemma {:induction false} ActivityFilterDrops(ms: seq<Measurement>, ips: seq<InstantPoint>, mps: seq<MeasuredParameter>, p: nat, a: nat, i: nat)
    requires i < |mps| && mps[i].parameter == p && MeasurementActivity(ms, ips, mps[i].measurement) != Some(a)
    ensures |MeasuredValues(ms, ips, mps, p, Some(a))| < |MeasuredValues(ms, ips, mps, p, None)|
  {
    var init := mps[..|mps| - 1];
    if i == |mps| - 1 {
      ActivityFilterNarrows(ms, ips, init, p, a);
    } else {
      assert init[i] == mps[i];
      ActivityFilterDrops(ms, ips, init, p, a, i);
    }
  }

  /** Sequences with the same tail are equal exactly when their heads are. */
  lemma AppendCancel<T>(u: seq<T>, w: seq<T>, tail: seq<T>)
    ensures u + tail == w + tail <==> u == w
  {
    if u + tail == w + tail {
      assert u == (u + tail)[..|u|];
      assert w == (w + tail)[..|w|];
    }
  }

  /** The `Activity.objects.filter(id=).update(...)` at the end of a load. */
  function UpdateActivityLoad(db: Db, a: nat, mindepth: real, maxdepth: real, loaded: nat): (r: Db)
    requires Valid(db) && a < |db.activities|
    ensures Valid(r) && |r.activities| == |db.activities|
    ensures r.activities[a].mindepth == Some(mindepth) && r.activities[a].maxdepth == Some(maxdepth)
    ensures r.activities[a].numMeasuredParameters == Some(loaded)
    ensures r.activities[a].name == db.activities[a].name && r.activities[a].platform == db.activities[a].platform
    ensures forall i :: 0 <= i < |db.activities| && i != a ==> r.activities[i] == db.activities[i]
    ensures r == db.(activities := r.activities)
  {
    var act := db.activities[a].(mindepth := Some(mindepth), maxdepth := Some(maxdepth), numMeasuredParameters := Some(loaded));
    db.(activities := Update(db.activities, a, act))
  }

  /** `get_or_create` of a pair in an association table. */
  function Associate(db: Db, k: Link, left: nat, right: nat): (r: Got)
    requires Valid(db) && left < LinkSides(db, k).0 && right < LinkSides(db, k).1
    ensures Valid(r.db)
    ensures r.id < |r.db.links[k]| && r.db.links[k][r.id] == Pair(left, right)
    ensures r.created <==> Pair(left, right) !in db.links[k]
    ensures r.db == db.(links := db.links[k := r.db.links[k]])
  {
    GetOrCreateKeepsUnique(db.links[k], Self, Pair(left, right));
    var o := GetOrCreate(db.links[k], Self, Pair(left, right)).value;
    GrowLink(db, k, o.rows);
    Got(db.(links := db.links[k := o.rows]), o.id, o.created)
  }

  /** Replacing a link table by unique pairs that refer to existing rows
      keeps the database valid. */
  lemma GrowLink(db: Db, k: Link, rows: seq<Pair>)
    requires Valid(db) && UniqueBy(rows, Self)
    requires forall i :: 0 <= i < |rows| ==> rows[i].left < LinkSides(db, k).0 && rows[i].right < LinkSides(db, k).1
    ensures Valid(db.(links := db.links[k := rows]))
  {
    var db' := db.(links := db.links[k := rows]);
    forall k' | k' != k ensures db'.links[k'] == db.links[k'] { }
    assert forall k': Link :: LinkSides(db, k') == LinkSides(db', k');
  }
}

=== FILE: strs.dfy ===
/** The handful of Python `str` operations the modelled code relies on,
    written over `seq<char>` with the semantics CPython gives them for
    ASCII text: `find`, `split`, `replace`, `lower`/`upper`, `strip`,
    `isdigit`, `join` and `%d`/`%0Nd` formatting. */
module Strs {
  import opened Wrappers

  predicate OccursAt(s: string, sub: string, i: int)
  {
    0 <= i && i + |sub| <= |s| && s[i..i + |sub|] == sub
  }

  predicate Contains(s: string, sub: string)
  {
    exists i :: 0 <= i <= |s| && OccursAt(s, sub, i)
  }

  predicate StartsWith(s: string, p: string)
  {
    OccursAt(s, p, 0)
  }

  predicate EndsWith(s: string, p: string)
  {
    |p| <= |s| && s[|s| - |p|..] == p
  }

  /** The position of the first `c` or `d` in `s`, or `|s|` when neither
      occurs. */
  function IndexOf(s: string, c: char, d: char): (k: nat)
    ensures k <= |s|
    ensures forall i :: 0 <= i < k ==> s[i] != c && s[i] != d
    ensures k < |s| ==> s[k] == c || s[k] == d
  {
    if |s| == 0 then 0
    else if s[0] == c || s[0] == d then 0
    else 1 + IndexOf(s[1..], c, d)
  }

  /** `os.path.join(a, b)`: `b` itself when it is absolute, otherwise `a`
      and `b` with one `/` between them unless `a` is empty or already
      ends in one. */
  function PathJoin(a: string, b: string): (r: string)
    ensures EndsWith(r, b)
    ensures StartsWith(b, "/") ==> r == b
    ensures !StartsWith(b, "/") ==> StartsWith(r, a)
  {
    var r := if StartsWith(b, "/") then b else if |a| == 0 || EndsWith(a, "/") then a + b else a + "/" + b;
    assert !StartsWith(b, "/") ==> r[..|a|] == a;
    assert r[|r| - |b|..] == b;
    r
  }

  /** Text added after a non-empty relative part lands at the end of the
      joined path. */
  lemma PathJoinAppend(a: string, b: string, c: string)
    requires |b| > 0
    ensures PathJoin(a, b + c) == PathJoin(a, b) + c
  {
    assert (b + c)[0] == b[0];
    assert StartsWith(b + c, "/") <==> StartsWith(b, "/");
  }

  /** A text without a one-character pattern does not hold the character. */
  lemma NoCharInside(s: string, c: char)
    requires !Contains(s, [c])
    ensures c !in s
  {
    forall i | 0 <= i < |s| ensures s[i] != c {
      assert !OccursAt(s, [c], i);
      assert s[i..i + 1] == [s[i]];
    }
  }

  /** `s.find(sub, i)`: the first occurrence of `sub` at or after `i`. */
  function FindFrom(s: string, sub: string, i: nat): (r: Option<nat>)
    ensures r.Some? ==> i <= r.value && OccursAt(s, sub, r.value)
    decreases |s| - i
  {
    if i + |sub| > |s| then None
    else if s[i..i + |sub|] == sub then Some(i)
    else FindFrom(s, sub, i + 1)
  }

  /** No occurrence between `i` and what `find` returns, and none at all
      after `i` when it finds nothing. */
  lemma {:induction false} FindFromFirst(s: string, sub: string, i: nat)
    ensures FindFrom(s, sub, i).Some? ==> forall j :: i <= j < FindFrom(s, sub, i).value ==> !OccursAt(s, sub, j)
    ensures FindFrom(s, sub, i).None? ==> forall j :: i <= j ==> !OccursAt(s, sub, j)
    decreases |s| - i
  {
    if i + |sub| <= |s| && s[i..i + |sub|] != sub {
      FindFromFirst(s, sub, i + 1);
    }
  }

  /** `s.find(sub)`, with `None` for Python's `-1`. */
  function Find(s: string, sub: string): (r: Option<nat>)
    ensures r.Some? ==> OccursAt(s, sub, r.value)
  {
    FindFrom(s, sub, 0)
  }

  /** `find` returns the first occurrence, and nothing exactly when there
      is none. */
  lemma FindFirst(s: string, sub: string)
    ensures Find(s, sub).Some? ==> forall j :: 0 <= j < Find(s, sub).value ==> !OccursAt(s, sub, j)
    ensures Find(s, sub).None? <==> !Contains(s, sub)
  {
    FindFromFirst(s, sub, 0);
  }

  /** `s.split(sep)` for a non-empty separator. */
  function Split(s: string, sep: string): (parts: seq<string>)
    requires |sep| > 0
    ensures |parts| >= 1
    ensures forall k :: 0 <= k < |parts| ==> !Contains(parts[k], sep)
    decreases |s|
  {
    FindFirst(s, sep);
    match Find(s, sep)
    case None => [s]
    case Some(i) =>
      var head := s[..i];
      assert !Contains(head, sep) by {
        forall j | OccursAt(head, sep, j) ensures false {
          assert head[j..j + |sep|] == s[j..j + |sep|];
          assert OccursAt(s, sep, j);
        }
      }
      var tail := s[i + |sep|..];
      [head] + Split(tail, sep)
  }

  /** One step of `split`: either no separator occurs and the text is the
      only part, or the first part ends at the first separator and the
      rest is split after it. */
  lemma SplitStep(s: string, sep: string) returns (found: bool, i: nat)
    requires |sep| > 0
    ensures !found ==> Split(s, sep) == [s]
    ensures found ==> OccursAt(s, sep, i)
    ensures found ==> Split(s, sep) == [s[..i]] + Split(s[i + |sep|..], sep)
  {
    found, i := false, 0;
    match Find(s, sep)
    case None =>
    case Some(j) => found, i := true, j;
  }

  /** A character missing from the text is missing from every part. */
  lemma {:induction false} SplitKeepsOut(s: string, sep: string, c: char)
    requires |sep| > 0 && c !in s
    ensures forall k :: 0 <= k < |Split(s, sep)| ==> c !in Split(s, sep)[k]
    decreases |s|
  {
    var found, i := SplitStep(s, sep);
    if found {
      var tail := s[i + |sep|..];
      SliceKeepsOut(s, 0, i, c);
      SliceKeepsOut(s, i + |sep|, |s|, c);
      SplitKeepsOut(tail, sep, c);
    }
  }

  /** `sep.join(parts)`. */
  function Join(parts: seq<string>, sep: string): string
  {
    if |parts| == 0 then ""
    else if |parts| == 1 then parts[0]
    else parts[0] + sep + Join(parts[1..], sep)
  }

  /** Joining what `split` produced gives back the original text. */
  lemma {:induction false} JoinSplit(s: string, sep: string)
    requires |sep| > 0
    ensures Join(Split(s, sep), sep) == s
    decreases |s|
  {
    var found, i := SplitStep(s, sep);
    if found {
      var rest := s[i + |sep|..];
      JoinCons(s[..i], Split(rest, sep), sep);
      JoinSplit(rest, sep);
      AroundOccurrence(s, sep, i);
    }
  }

  /** A part joined on in front of at least one other. */
  lemma JoinCons(p: string, rest: seq<string>, sep: string)
    requires |rest| > 0
    ensures Join([p] + rest, sep) == p + sep + Join(rest, sep)
  {
    assert ([p] + rest)[1..] == rest;
  }

  /** The text around an occurrence of `sep` at `i`. */
  lemma AroundOccurrence(s: string, sep: string, i: nat)
    requires OccursAt(s, sep, i)
    ensures s == s[..i] + sep + s[i + |sep|..]
  {
    assert s[i..i + |sep|] == sep;
    assert s == s[..i] + s[i..i + |sep|] + s[i + |sep|..];
  }

  /** `s.split(sep)[0]`: everything before the first `sep`. */
  function SplitFirst(s: string, sep: string): (r: string)
    requires |sep| > 0
    ensures |r| <= |s| && s[..|r|] == r
    ensures !Contains(r, sep)
    ensures r == s || OccursAt(s, sep, |r|)
  {
    Split(s, sep)[0]
  }

  /** `split(sep)[0]` ends where `sep` first occurs. */
  lemma SplitFirstAt(s: string, sep: string, i: nat)
    requires |sep| > 0 && OccursAt(s, sep, i)
    requires forall j :: 0 <= j < i ==> !OccursAt(s, sep, j)
    ensures SplitFirst(s, sep) == s[..i]
  {
    FindFirst(s, sep);
    assert Find(s, sep) == Some(i);
  }

  /** The last part is joined on after everything before it. */
  lemma {:induction false} JoinLast(parts: seq<string>, sep: string)
    requires |parts| > 1
    ensures Join(parts, sep) == Join(parts[..|parts| - 1], sep) + sep + parts[|parts| - 1]
    decreases |parts|
  {
    var n := |parts|;
    if n > 2 {
      JoinLast(parts[1..], sep);
      assert parts[1..][..n - 2] == parts[..n - 1][1..];
      assert Join(parts[..n - 1], sep) == parts[0] + sep + Join(parts[..n - 1][1..], sep);
    } else {
      assert parts[1..] == [parts[1]];
      assert parts[..1] == [parts[0]];
    }
  }

  /** `s.split(sep)[-1]`: everything after the last `sep`. */
  function SplitLast(s: string, sep: string): (r: string)
    requires |sep| > 0
    ensures !Contains(r, sep)
    ensures |r| <= |s| && s[|s| - |r|..] == r
    ensures r == s || EndsWith(s[..|s| - |r|], sep)
  {
    var parts := Split(s, sep);
    JoinSplit(s, sep);
    SplitLastSuffix(parts, sep);
    parts[|parts| - 1]
  }

  lemma SplitLastSuffix(parts: seq<string>, sep: string)
    requires |parts| >= 1
    ensures var r := parts[|parts| - 1]; var s := Join(parts, sep);
      |r| <= |s| && s[|s| - |r|..] == r && (r == s || EndsWith(s[..|s| - |r|], sep))
  {
    if |parts| > 1 {
      JoinLast(parts, sep);
      var r := parts[|parts| - 1];
      var pre := Join(parts[..|parts| - 1], sep) + sep;
      assert Join(parts, sep) == pre + r;
      assert (pre + r)[|pre|..] == r;
      assert (pre + r)[..|pre|] == pre;
    }
  }

  /** `s.replace(old, new)`: every non-overlapping occurrence, left to right. */
  function Replace(s: string, pat: string, repl: string): (r: string)
    requires |pat| > 0
    decreases |s|
  {
    match Find(s, pat)
    case None => s
    case Some(i) => s[..i] + repl + Replace(s[i + |pat|..], pat, repl)
  }

  /** `s.replace(old, new, count)`: at most `count` occurrences, left to right. */
  function ReplaceN(s: string, pat: string, repl: string, count: nat): (r: string)
    requires |pat| > 0
    decreases count
  {
    if count == 0 then s
    else match Find(s, pat)
      case None => s
      case Some(i) => s[..i] + repl + ReplaceN(s[i + |pat|..], pat, repl, count - 1)
  }

  /** Every `a` in `s` changed to `b`. */
  function Swap(s: string, a: char, b: char): (r: string)
    ensures |r| == |s|
  {
    seq(|s|, k requires 0 <= k < |s| => if s[k] == a then b else s[k])
  }

  /** Where `find` puts a single character. */
  lemma FindChar(s: string, a: char)
    ensures Find(s, [a]).None? ==> a !in s
    ensures Find(s, [a]).Some? ==> var i := Find(s, [a]).value; i < |s| && s[i] == a && a !in s[..i]
  {
    FindFirst(s, [a]);
    forall j | 0 <= j < |s| && s[j] == a ensures OccursAt(s, [a], j) {
    }
  }

  lemma SwapRemoves(s: string, a: char, b: char)
    requires a != b
    ensures a !in Swap(s, a, b)
  {
    forall k | 0 <= k < |s| ensures Swap(s, a, b)[k] != a {
    }
  }

  lemma SwapAbsent(s: string, a: char, b: char)
    requires a !in s
    ensures Swap(s, a, b) == s
  {
  }

  lemma SwapAt(s: string, a: char, b: char, i: nat)
    requires i < |s| && s[i] == a && a !in s[..i]
    ensures Swap(s, a, b) == s[..i] + [b] + Swap(s[i + 1..], a, b)
  {
    var r := s[..i] + [b] + Swap(s[i + 1..], a, b);
    forall k | 0 <= k < |s| ensures r[k] == Swap(s, a, b)[k] {
      if k < i {
        assert s[k] in s[..i];
      } else if k > i {
        assert r[k] == Swap(s[i + 1..], a, b)[k - i - 1];
      }
    }
  }

  /** With a count no smaller than the text, `replace` of one character by
      another changes every occurrence and nothing else. */
  lemma {:induction false} ReplaceNChar(s: string, a: char, b: char, n: nat)
    requires n >= |s|
    ensures ReplaceN(s, [a], [b], n) == Swap(s, a, b)
    decreases |s|
  {
    var pat: string := [a];
    FindChar(s, a);
    var f := Find(s, pat);
    if f.None? {
      SwapAbsent(s, a, b);
      assert ReplaceN(s, pat, [b], n) == s;
    } else {
      var i := f.value;
      assert n > 0;
      assert ReplaceN(s, pat, [b], n) == s[..i] + [b] + ReplaceN(s[i + 1..], pat, [b], n - 1);
      ReplaceNChar(s[i + 1..], a, b, n - 1);
      SwapAt(s, a, b, i);
    }
  }

  /** One step of `replace`: no occurrence, or the text before the first
      occurrence, the replacement, and the rest replaced in turn. */
  lemma ReplaceStep(s: string, pat: string, repl: string) returns (found: bool, i: nat)
    requires |pat| > 0
    ensures !found ==> Replace(s, pat, repl) == s && Find(s, pat).None?
    ensures found ==> OccursAt(s, pat, i) && Find(s, pat) == Some(i)
    ensures found ==> Replace(s, pat, repl) == s[..i] + repl + Replace(s[i + |pat|..], pat, repl)
  {
    found, i := false, 0;
    match Find(s, pat)
    case None =>
    case Some(j) => found, i := true, j;
  }

  /** One step of `replace` with a positive count. */
  lemma ReplaceOneStep(s: string, pat: string, repl: string, n: nat) returns (found: bool, i: nat)
    requires |pat| > 0 && n > 0
    ensures !found ==> ReplaceN(s, pat, repl, n) == s
    ensures found ==> OccursAt(s, pat, i)
    ensures found ==> ReplaceN(s, pat, repl, n) == s[..i] + repl + ReplaceN(s[i + |pat|..], pat, repl, n - 1)
  {
    found, i := false, 0;
    match Find(s, pat)
    case None =>
    case Some(j) => found, i := true, j;
  }

  /** Replacing in a text that starts with the pattern gives a text that
      starts with the replacement. */
  lemma ReplaceAtStart(s: string, pat: string, repl: string)
    requires |pat| > 0 && StartsWith(s, pat)
    ensures StartsWith(Replace(s, pat, repl), repl)
  {
    FindFirst(s, pat);
    assert Contains(s, pat) by {
      assert OccursAt(s, pat, 0);
    }
    assert Find(s, pat) == Some(0);
    var r := Replace(s, pat, repl);
    assert r == s[..0] + repl + Replace(s[|pat|..], pat, repl);
    assert r[..|repl|] == repl;
  }

  /** One step of removing a single character. */
  lemma RemoveCharStep(s: string, c: char) returns (found: bool, i: nat)
    ensures !found ==> Replace(s, [c], "") == s && c !in s
    ensures found ==> i < |s| && s[i] == c && c !in s[..i]
    ensures found ==> Replace(s, [c], "") == s[..i] + Replace(s[i + 1..], [c], "")
  {
    found, i := ReplaceStep(s, [c], "");
    FindFirst(s, [c]);
    if found {
      CharsBefore(s, c, i);
      assert s[..i] + "" == s[..i];
    } else {
      CharsBefore(s, c, |s|);
      assert s[..|s|] == s;
    }
  }

  /** No occurrence of `[c]` before `k` means no `c` before `k`. */
  lemma CharsBefore(s: string, c: char, k: nat)
    requires k <= |s| && forall j :: 0 <= j < k ==> !OccursAt(s, [c], j)
    ensures c !in s[..k]
  {
    forall j | 0 <= j < k ensures s[j] != c {
      assert !OccursAt(s, [c], j);
      assert s[j..j + 1] == [s[j]];
    }
  }

  /** Replacing text that does not occur changes nothing. */
  lemma ReplaceAbsent(s: string, pat: string, repl: string, count: nat)
    requires |pat| > 0 && !Contains(s, pat)
    ensures Replace(s, pat, repl) == s
    ensures ReplaceN(s, pat, repl, count) == s
  {
  }

  lemma SliceKeepsOut(s: string, i: nat, j: nat, c: char)
    requires i <= j <= |s| && c !in s
    ensures c !in s[i..j] && c !in s[..j] && c !in s[i..]
  {
  }

  lemma ConcatKeepsOut(a: string, b: string, d: string, c: char)
    requires c !in a && c !in b && c !in d
    ensures c !in a + b + d
  {
  }

  /** A character absent from the text and from the replacement is absent
      from the result. */
  lemma {:induction false} ReplaceKeepsOut(s: string, pat: string, repl: string, c: char)
    requires |pat| > 0 && c !in s && c !in repl
    ensures c !in Replace(s, pat, repl)
    decreases |s|
  {
    var found, i := ReplaceStep(s, pat, repl);
    if found {
      var rest := s[i + |pat|..];
      SliceKeepsOut(s, 0, i, c);
      SliceKeepsOut(s, i + |pat|, |s|, c);
      ReplaceKeepsOut(rest, pat, repl, c);
      ConcatKeepsOut(s[..i], repl, Replace(rest, pat, repl), c);
    }
  }

  /** `s.replace(old, new, 1)` replaces the first occurrence, if any. */
  lemma ReplaceOnce(s: string, pat: string, repl: string)
    requires |pat| > 0
    ensures Find(s, pat).None? ==> ReplaceN(s, pat, repl, 1) == s
    ensures Find(s, pat).Some? ==>
      var i := Find(s, pat).value;
      ReplaceN(s, pat, repl, 1) == s[..i] + repl + s[i + |pat|..]
  {
    match Find(s, pat)
    case None =>
    case Some(i) =>
      assert ReplaceN(s[i + |pat|..], pat, repl, 0) == s[i + |pat|..];
  }

  lemma ReplaceOnceKeepsOut(s: string, pat: string, repl: string, c: char)
    requires |pat| > 0 && c !in s && c !in repl
    ensures c !in ReplaceN(s, pat, repl, 1)
  {
    var found, i := ReplaceOneStep(s, pat, repl, 1);
    if found {
      var rest := s[i + |pat|..];
      assert ReplaceN(rest, pat, repl, 0) == rest;
      SliceKeepsOut(s, 0, i, c);
      SliceKeepsOut(s, i + |pat|, |s|, c);
      ConcatKeepsOut(s[..i], repl, rest, c);
    }
  }

  /** `s` with every `c` dropped: the reference for `s.replace(c, '')`. */
  function Without(s: string, c: char): (r: string)
    ensures |r| <= |s|
  {
    if |s| == 0 then [] else (if s[0] == c then [] else [s[0]]) + Without(s[1..], c)
  }

  lemma {:induction false} WithoutAbsent(s: string, c: char)
    requires c !in s
    ensures Without(s, c) == s
  {
    if |s| > 0 {
      WithoutAbsent(s[1..], c);
      assert s == [s[0]] + s[1..];
    }
  }

  lemma {:induction false} WithoutConcat(a: string, b: string, c: char)
    ensures Without(a + b, c) == Without(a, c) + Without(b, c)
  {
    if |a| > 0 {
      WithoutConcat(a[1..], b, c);
      assert (a + b)[1..] == a[1..] + b;
    } else {
      assert a + b == b;
    }
  }

  /** `s.replace(c, '')` is `s` with every `c` dropped. */
  lemma {:induction false} ReplaceCharIsWithout(s: string, c: char)
    ensures Replace(s, [c], "") == Without(s, c)
    decreases |s|
  {
    var found, i := RemoveCharStep(s, c);
    if found {
      ReplaceCharIsWithout(s[i + 1..], c);
      WithoutAt(s, c, i);
    } else {
      WithoutAbsent(s, c);
    }
  }

  /** Dropping `c` from text whose first `c` is at `i`. */
  lemma WithoutAt(s: string, c: char, i: nat)
    requires i < |s| && s[i] == c && c !in s[..i]
    ensures Without(s, c) == s[..i] + Without(s[i + 1..], c)
  {
    assert s == s[..i] + ([c] + s[i + 1..]);
    WithoutConcat(s[..i], [c] + s[i + 1..], c);
    WithoutAbsent(s[..i], c);
    assert ([c] + s[i + 1..])[1..] == s[i + 1..];
  }

  /** `s.replace(c, '')` leaves no `c` behind. */
  lemma {:induction false} ReplaceRemovesChar(s: string, c: char)
    ensures c !in Replace(s, [c], "")
    decreases |s|
  {
    var found, i := RemoveCharStep(s, c);
    if found {
      ReplaceRemovesChar(s[i + 1..], c);
      ConcatKeepsOut(s[..i], "", Replace(s[i + 1..], [c], ""), c);
      assert s[..i] + "" + Replace(s[i + 1..], [c], "") == Replace(s, [c], "");
    }
  }

  function LowerChar(c: char): char
  {
    if 'A' <= c <= 'Z' then (c as int + 32) as char else c
  }

  function UpperChar(c: char): char
  {
    if 'a' <= c <= 'z' then (c as int - 32) as char else c
  }

  /** `s.lower()` on ASCII letters. */
  function Lower(s: string): (r: string)
    ensures |r| == |s|
    ensures forall i :: 0 <= i < |s| ==> r[i] == LowerChar(s[i])
  {
    seq(|s|, i requires 0 <= i < |s| => LowerChar(s[i]))
  }

  /** `s.upper()` on ASCII letters. */
  function Upper(s: string): (r: string)
    ensures |r| == |s|
    ensures forall i :: 0 <= i < |s| ==> r[i] == UpperChar(s[i])
  {
    seq(|s|, i requires 0 <= i < |s| => UpperChar(s[i]))
  }

  /** Case-insensitive equality, as `a.lower() == b.lower()`. */
  predicate EqualsIgnoreCase(a: string, b: string)
  {
    Lower(a) == Lower(b)
  }

  /** Python 2's `\w` for byte strings: letters, digits and underscore. */
  predicate IsWordChar(c: char)
  {
    ('a' <= c <= 'z') || ('A' <= c <= 'Z') || ('0' <= c <= '9') || c == '_'
  }

  predicate IsDigit(c: char)
  {
    '0' <= c <= '9'
  }

  /** `s.isdigit()`: non-empty and nothing but decimal digits. */
  predicate IsDigitString(s: string)
  {
    |s| > 0 && forall i :: 0 <= i < |s| ==> IsDigit(s[i])
  }

  /** The characters `str.strip()` removes. */
  predicate IsSpace(c: char)
  {
    c == ' ' || c == '\t' || c == '\n' || c == '\r' || c == '\U{B}' || c == '\U{C}'
  }

  function StripLeft(s: string): (r: string)
    ensures |r| <= |s| && s[|s| - |r|..] == r
    ensures |r| > 0 ==> !IsSpace(r[0])
    ensures forall i :: 0 <= i < |s| - |r| ==> IsSpace(s[i])
  {
    if |s| > 0 && IsSpace(s[0]) then StripLeft(s[1..]) else s
  }

  function StripRight(s: string): (r: string)
    ensures |r| <= |s| && s[..|r|] == r
    ensures |r| > 0 ==> !IsSpace(r[|r| - 1])
    ensures forall i :: |r| <= i < |s| ==> IsSpace(s[i])
  {
    if |s| > 0 && IsSpace(s[|s| - 1]) then StripRight(s[..|s| - 1]) else s
  }

  lemma StripKeepsOut(s: string, c: char)
    requires c !in s
    ensures c !in Strip(s)
  {
    var l := StripLeft(s);
    assert c !in l by {
      assert s[|s| - |l|..] == l;
    }
    assert l[..|StripRight(l)|] == StripRight(l);
  }

  /** `s.strip()`. */
  function Strip(s: string): (r: string)
    ensures |r| <= |s|
    ensures |r| > 0 ==> !IsSpace(r[0]) && !IsSpace(r[|r| - 1])
  {
    StripRight(StripLeft(s))
  }

  function DigitChar(d: nat): (c: char)
    requires d < 10
    ensures IsDigit(c)
  {
    ('0' as int + d) as char
  }

  function DigitValue(c: char): (d: nat)
    requires IsDigit(c)
    ensures d < 10
  {
    c as int - '0' as int
  }

  /** `'%d' % n` for a natural number. */
  function NatToString(n: nat): (r: string)
    ensures IsDigitString(r)
    ensures |r| > 1 ==> r[0] != '0'
  {
    if n < 10 then [DigitChar(n)] else NatToString(n / 10) + [DigitChar(n % 10)]
  }

  /** `int(s)` on a string of decimal digits. */
  function ParseNat(s: string): nat
    requires forall i :: 0 <= i < |s| ==> IsDigit(s[i])
  {
    if |s| == 0 then 0 else ParseNat(s[..|s| - 1]) * 10 + DigitValue(s[|s| - 1])
  }

  /** Formatting a number and reading it back is the identity. */
  lemma {:induction false} ParseNatToString(n: nat)
    ensures ParseNat(NatToString(n)) == n
  {
    if n >= 10 {
      var r := NatToString(n);
      assert r[..|r| - 1] == NatToString(n / 10);
      ParseNatToString(n / 10);
    }
  }

  /** Leading zeros do not change the value that is read. */
  lemma {:induction false} ParseNatZeros(z: nat, s: string)
    requires forall i :: 0 <= i < |s| ==> IsDigit(s[i])
    ensures ParseNat(seq(z, _ => '0') + s) == ParseNat(s)
    decreases |s|
  {
    var t := seq(z, _ => '0') + s;
    if |s| == 0 {
      assert t == seq(z, _ => '0');
      ParseNatAllZeros(z);
    } else {
      assert t[..|t| - 1] == seq(z, _ => '0') + s[..|s| - 1];
      ParseNatZeros(z, s[..|s| - 1]);
    }
  }

  lemma {:induction false} ParseNatAllZeros(z: nat)
    ensures ParseNat(seq(z, _ => '0')) == 0
  {
    if z > 0 {
      assert seq(z, _ => '0')[..z - 1] == seq(z - 1, _ => '0');
      ParseNatAllZeros(z - 1);
    }
  }

  /** `'%d' % i` for any integer. */
  function IntToString(i: int): (r: string)
    ensures i >= 0 ==> r == NatToString(i)
    ensures i < 0 ==> r == "-" + NatToString(-i)
  {
    if i >= 0 then NatToString(i) else "-" + NatToString(-i)
  }

  /** `'%0Nd' % n`: the decimal digits left-padded with zeros to width N. */
  function ZeroPad(n: nat, width: nat): (r: string)
    ensures |r| == if |NatToString(n)| < width then width else |NatToString(n)|
    ensures forall i :: 0 <= i < |r| ==> IsDigit(r[i])
    ensures ParseNat(r) == n
  {
    var d := NatToString(n);
    var z := if |d| < width then width - |d| else 0;
    ParseNatToString(n);
    ParseNatZeros(z, d);
    seq(z, _ => '0') + d
  }
}

=== FILE: table.dfy ===
/** A database table as the loaders use it through Django's ORM: rows in
    insertion order, a row's id being its position. `get`, `get_or_create`
    and the `save` of a new row are modelled over such a table, with the
    lookup keyword arguments given as a key function on rows. */
module Table {
  import opened Wrappers

  /** The exceptions the ORM raises on the paths the loaders take. */
  datatype DbError = DoesNotExist | MultipleObjectsReturned | IntegrityError

  /** The ids of the rows whose key is `k`, in increasing order
      (`Model.objects.filter(**kwargs)`). */
  function Matches<R, K(==)>(rows: seq<R>, key: R -> K, k: K): (ids: seq<nat>)
    ensures forall j :: 0 <= j < |ids| ==> ids[j] < |rows| && key(rows[ids[j]]) == k
    ensures forall i :: 0 <= i < |rows| && key(rows[i]) == k ==> i in ids
    ensures forall j, l :: 0 <= j < l < |ids| ==> ids[j] < ids[l]
  {
    if |rows| == 0 then []
    else
      var m := Matches(rows[..|rows| - 1], key, k);
      if key(rows[|rows| - 1]) == k then m + [|rows| - 1] else m
  }

  /** No two rows share a key: a `unique` or `unique_together` constraint. */
  predicate UniqueBy<R, K(==)>(rows: seq<R>, key: R -> K)
  {
    forall i, j :: 0 <= i < |rows| && 0 <= j < |rows| && i != j ==> key(rows[i]) != key(rows[j])
  }

  /** Some row has key `k`. */
  predicate Has<R, K(==)>(rows: seq<R>, key: R -> K, k: K)
  {
    exists i :: 0 <= i < |rows| && key(rows[i]) == k
  }

  /** Two different rows have key `k`. */
  predicate Ambiguous<R, K(==)>(rows: seq<R>, key: R -> K, k: K)
  {
    exists i, j :: 0 <= i < j < |rows| && key(rows[i]) == k && key(rows[j]) == k
  }

  /** `Model.objects.get(**kwargs)`: the one row with key `k`. */
  function Get<R, K(==)>(rows: seq<R>, key: R -> K, k: K): (r: Result<nat, DbError>)
    ensures r == Failure(DoesNotExist) <==> !Has(rows, key, k)
    ensures r == Failure(MultipleObjectsReturned) <==> Ambiguous(rows, key, k)
    ensures r.Failure? ==> r.error != IntegrityError
    ensures r.Success? ==> r.value < |rows| && key(rows[r.value]) == k
    ensures r.Success? ==> forall i :: 0 <= i < |rows| && key(rows[i]) == k ==> i == r.value
  {
    var m := Matches(rows, key, k);
    if |m| == 0 then Failure(DoesNotExist)
    else if |m| == 1 then
      assert !Ambiguous(rows, key, k);
      Success(m[0])
    else
      assert key(rows[m[0]]) == k && key(rows[m[1]]) == k && m[0] < m[1];
      Failure(MultipleObjectsReturned)
  }

  /** The result of `get_or_create`: the table afterwards, the row's id and
      whether it was created. */
  datatype Outcome<R> = Outcome(rows: seq<R>, id: nat, created: bool)

  /** `Model.objects.get_or_create(**kwargs)`: the existing row whose key is
      `key(row)`, or `row` appended when there is none. Several matching
      rows raise MultipleObjectsReturned. */
  function GetOrCreate<R, K(==)>(rows: seq<R>, key: R -> K, row: R): (r: Result<Outcome<R>, DbError>)
    ensures r.Failure? <==> Ambiguous(rows, key, key(row))
    ensures r.Failure? ==> r.error == MultipleObjectsReturned
    ensures r.Success? ==> r.value.id < |r.value.rows| && key(r.value.rows[r.value.id]) == key(row)
    ensures r.Success? ==> (r.value.created <==> !Has(rows, key, key(row)))
    ensures r.Success? && r.value.created ==> r.value.rows == rows + [row] && r.value.id == |rows|
    ensures r.Success? && !r.value.created ==> r.value.rows == rows
  {
    match Get(rows, key, key(row))
    case Success(id) => Success(Outcome(rows, id, false))
    case Failure(e) =>
      if e == DoesNotExist then Success(Outcome(rows + [row], |rows|, true))
      else Failure(e)
  }

  /** `Model(**fields).save()` of a new row: IntegrityError when a row with
      the same unique key is already stored, otherwise the row is appended. */
  function Insert<R, U(==)>(rows: seq<R>, uniq: R -> U, row: R): (r: Result<seq<R>, DbError>)
    ensures r.Failure? <==> Has(rows, uniq, uniq(row))
    ensures r.Failure? ==> r.error == IntegrityError
    ensures r.Success? ==> r.value == rows + [row]
  {
    var m := Matches(rows, uniq, uniq(row));
    if |m| == 0 then Success(rows + [row])
    else
      assert uniq(rows[m[0]]) == uniq(row);
      Failure(IntegrityError)
  }

  /** Replaces row `id` (an `UPDATE` of an existing row). */
  function Update<R>(rows: seq<R>, id: nat, row: R): (r: seq<R>)
    requires id < |rows|
    ensures |r| == |rows| && r[id] == row
    ensures forall i :: 0 <= i < |rows| && i != id ==> r[i] == rows[i]
  {
    rows[id := row]
  }

  // ---------------------------------------------------------------------
  // Properties

  /** On a table that keeps its key unique, `get_or_create` never fails and
      keeps the key unique. */
  lemma GetOrCreateKeepsUnique<R, K>(rows: seq<R>, key: R -> K, row: R)
    requires UniqueBy(rows, key)
    ensures GetOrCreate(rows, key, row).Success?
    ensures UniqueBy(GetOrCreate(rows, key, row).value.rows, key)
  {
    var r := GetOrCreate(rows, key, row);
    if r.value.created {
      var t := r.value.rows;
      forall i, j | 0 <= i < |t| && 0 <= j < |t| && i != j ensures key(t[i]) != key(t[j]) {
        if i < |rows| && j < |rows| {
          assert t[i] == rows[i] && t[j] == rows[j];
        } else if i < |rows| {
          assert t[i] == rows[i];
        } else {
          assert t[j] == rows[j];
        }
      }
    }
  }

  /** Running `get_or_create` again with the same arguments finds the row
      the first call returned or created, and changes nothing. */
  lemma GetOrCreateIdempotent<R, K>(rows: seq<R>, key: R -> K, row: R)
    requires GetOrCreate(rows, key, row).Success?
    ensures var o := GetOrCreate(rows, key, row).value;
      GetOrCreate(o.rows, key, row) == Success(Outcome(o.rows, o.id, false))
  {
    var o := GetOrCreate(rows, key, row).value;
    var t := o.rows;
    assert !Ambiguous(t, key, key(row));
    assert Has(t, key, key(row));
  }

  /** A table unique by a key never holds two rows with the same key. */
  lemma UniqueNotAmbiguous<R, K>(rows: seq<R>, key: R -> K, k: K)
    requires UniqueBy(rows, key)
    ensures !Ambiguous(rows, key, k)
  {
  }

  /** `get` finds the one row holding a key that no two rows share. */
  lemma GetFinds<R, K>(rows: seq<R>, key: R -> K, id: nat)
    requires id < |rows| && !Ambiguous(rows, key, key(rows[id]))
    ensures Get(rows, key, key(rows[id])) == Success(id)
  {
    assert Has(rows, key, key(rows[id]));
  }

  /** A successful insert keeps the unique key unique. */
  lemma InsertKeepsUnique<R, U>(rows: seq<R>, uniq: R -> U, row: R)
    requires UniqueBy(rows, uniq) && Insert(rows, uniq, row).Success?
    ensures UniqueBy(Insert(rows, uniq, row).value, uniq)
  {
    var t := Insert(rows, uniq, row).value;
    forall i, j | 0 <= i < |t| && 0 <= j < |t| && i != j ensures uniq(t[i]) != uniq(t[j]) {
      if i < |rows| && j < |rows| {
        assert t[i] == rows[i] && t[j] == rows[j];
      } else if i < |rows| {
        assert t[i] == rows[i];
      } else {
        assert t[j] == rows[j];
      }
    }
  }

  /** Updating a row to one with the same unique key keeps the key unique. */
  lemma UpdateKeepsUnique<R, U>(rows: seq<R>, uniq: R -> U, id: nat, row: R)
    requires UniqueBy(rows, uniq) && id < |rows| && uniq(row) == uniq(rows[id])
    ensures UniqueBy(Update(rows, id, row), uniq)
  {
  }
}

=== FILE: views.dfy ===
/** The REST outputer shared by every STOQS object view: which fields a
    response carries, how Django field lookups are appended to them, how
    the query string becomes filter arguments and parameter-value
    constraints, and which response a format names. */
module Views {
  import opened Wrappers
  import opened Strs
  import opened Findings

  /** A Django `QueryDict`: every key with the list of values it was given,
      and the keys in iteration order. */
  datatype QueryDict = QueryDict(order: seq<string>, lists: map<string, seq<string>>)

  /** What a parsed query string always satisfies: each key once, the
      order lists exactly the keys, and no key has an empty list. */
  predicate Parsed(q: QueryDict)
  {
    (forall i, j :: 0 <= i < j < |q.order| ==> q.order[i] != q.order[j])
    && (forall k :: k in q.lists ==> k in q.order)
    && (forall i :: 0 <= i < |q.order| ==> q.order[i] in q.lists)
    && (forall k :: k in q.lists ==> |q.lists[k]| > 0)
  }

  /** `getlist(k)`: the values of `k`, empty when it is absent. */
  function GetList(q: QueryDict, k: string): seq<string>
  {
    if k in q.lists then q.lists[k] else []
  }

  /** `get(k)`: the last value of `k`, `None` when it has none. */
  function GetLast(q: QueryDict, k: string): Option<string>
  {
    var l := GetList(q, k);
    if |l| > 0 then Some(l[|l| - 1]) else None
  }

  /** `getlist(k)[0]`, `None` where that raises IndexError. */
  function GetFirst(q: QueryDict, k: string): Option<string>
  {
    var l := GetList(q, k);
    if |l| > 0 then Some(l[0]) else None
  }

  // ---------------------------------------------------------------------
  // Fields and their lookups

  const FieldLookups: seq<string> := ["exact", "iexact", "contains", "icontains", "in", "gt", "gte", "lt", "lte",
    "startswith", "istartswith", "endswith", "iendswith", "range", "year", "month", "day", "week_day",
    "isnull", "search", "regex", "iregex"]

  const DistanceLookups: seq<string> := ["distance_lt", "distance_lte", "distance_gt", "distance_gte", "dwithin"]

  const SpatialLookups: seq<string> := ["bbcontains", "bboverlaps", "contained", "contains", "contains_properly",
    "coveredby", "covers", "crosses", "disjoint", "distance_gt", "distance_gte", "distance_lt", "distance_lte",
    "dwithin", "equals", "exact", "intersects", "overlaps", "relate", "same_as", "touches", "within", "left",
    "right", "overlaps_left", "overlaps_right", "overlaps_above", "overlaps_below", "strictly_above",
    "strictly_below"]

  const GeomTypes: set<string> := {"GeometryField", "PointField", "LineStringField", "PolygonField",
    "MultiPointField", "MultiLineStringField", "MultiPolygonField", "GeometryCollectionField"}

  /** A model field as introspection reports it. */
  datatype Field = Field(name: string, internalType: string)

  /** The outputer's cached field lists (empty = not computed yet, or a
      preset list when a subclass declares one). */
  datatype Outputer = Outputer(fields: seq<string>, geomFields: seq<string>)

  function Names(meta: seq<Field>): (r: seq<string>)
  {
    seq(|meta|, i requires 0 <= i < |meta| => meta[i].name)
  }

  /** `getFields`: the preset or cached list when there is one, otherwise
      every model field name in declaration order, which is then cached. */
  function GetFields(o: Outputer, meta: seq<Field>): (r: (Outputer, seq<string>))
    ensures |o.fields| > 0 ==> r == (o, o.fields)
    ensures |o.fields| == 0 ==> |r.1| == |meta| && (forall i :: 0 <= i < |meta| ==> r.1[i] == meta[i].name)
    ensures r.0.fields == r.1 && r.0.geomFields == o.geomFields
  {
    if |o.fields| > 0 then (o, o.fields)
    else var names := Names(meta); (o.(fields := names), names)
  }

  /** Asking twice gives the same fields, and the second call leaves the
      outputer as the first left it. */
  lemma GetFieldsStable(o: Outputer, meta: seq<Field>)
    ensures var (o1, f1) := GetFields(o, meta); GetFields(o1, meta) == (o1, f1)
  {
  }

  predicate IsGeom(f: Field)
  {
    f.internalType in GeomTypes
  }

  /** The names of the geometry fields, in declaration order. */
  function GeomNames(meta: seq<Field>): seq<string>
    decreases |meta|
  {
    if |meta| == 0 then []
    else (if IsGeom(meta[0]) then [meta[0].name] else []) + GeomNames(meta[1..])
  }

  /** Exactly the geometry fields: every name kept is one of them, and
      every one of them is kept. */
  lemma {:induction false} GeomNamesMeans(meta: seq<Field>)
    ensures |GeomNames(meta)| <= |meta|
    ensures forall j :: 0 <= j < |GeomNames(meta)| ==>
      exists i :: 0 <= i < |meta| && GeomNames(meta)[j] == meta[i].name && IsGeom(meta[i])
    ensures forall i :: 0 <= i < |meta| && IsGeom(meta[i]) ==> meta[i].name in GeomNames(meta)
    ensures (forall i :: 0 <= i < |meta| ==> !IsGeom(meta[i])) ==> GeomNames(meta) == []
    decreases |meta|
  {
    if |meta| > 0 {
      GeomNamesMeans(meta[1..]);
      var head := if IsGeom(meta[0]) then [meta[0].name] else [];
      var rest := GeomNames(meta[1..]);
      assert GeomNames(meta) == head + rest;
      forall j | 0 <= j < |GeomNames(meta)|
        ensures exists i :: 0 <= i < |meta| && GeomNames(meta)[j] == meta[i].name && IsGeom(meta[i])
      {
        if j < |head| {
          assert GeomNames(meta)[j] == meta[0].name;
        } else {
          assert GeomNames(meta)[j] == rest[j - |head|];
          var i :| 0 <= i < |meta[1..]| && rest[j - |head|] == meta[1..][i].name && IsGeom(meta[1..][i]);
          assert meta[1..][i] == meta[i + 1];
        }
      }
      forall i | 0 <= i < |meta| && IsGeom(meta[i]) ensures meta[i].name in GeomNames(meta) {
        if i > 0 {
          assert meta[1..][i - 1] == meta[i];
        }
      }
    }
  }

  /** `getGeomFields`: the cached list when there is one, otherwise the
      geometry field names, cached once the model has any field at all. */
  function GetGeomFields(o: Outputer, meta: seq<Field>): (r: (Outputer, seq<string>))
    ensures |o.geomFields| > 0 ==> r == (o, o.geomFields)
    ensures |o.geomFields| == 0 ==> r.1 == GeomNames(meta)
    ensures r.0.fields == o.fields
    ensures r.0.geomFields == r.1 || (|meta| == 0 && r.0 == o)
  {
    if |o.geomFields| > 0 then (o, o.geomFields)
    else
      var g := GeomNames(meta);
      (if |meta| > 0 then o.(geomFields := g) else o, g)
  }

  /** Asking twice gives the same geometry fields. */
  lemma GetGeomFieldsStable(o: Outputer, meta: seq<Field>)
    ensures var (o1, g1) := GetGeomFields(o, meta); GetGeomFields(o1, meta).1 == g1
  {
  }

  /** Every field with one lookup appended: `f__a`. */
  function Suffixed(fs: seq<string>, a: string): (r: seq<string>)
    ensures |r| == |fs|
    ensures forall j :: 0 <= j < |fs| ==> r[j] == fs[j] + "__" + a
  {
    seq(|fs|, j requires 0 <= j < |fs| => fs[j] + "__" + a)
  }

  /** For each lookup in turn (outer loop), every field (inner loop). */
  function Lookups(adds: seq<string>, fs: seq<string>): seq<string>
    decreases |adds|
  {
    if |adds| == 0 then [] else Suffixed(fs, adds[0]) + Lookups(adds[1..], fs)
  }

  lemma {:induction false} LookupsLength(adds: seq<string>, fs: seq<string>)
    ensures |Lookups(adds, fs)| == |adds| * |fs|
    decreases |adds|
  {
    if |adds| > 0 {
      LookupsLength(adds[1..], fs);
      assert |adds| * |fs| == |fs| + (|adds| - 1) * |fs|;
    }
  }

  /** Lookup `i` of field `j` sits at `i·|fs| + j`. */
  lemma {:induction false} LookupsAt(adds: seq<string>, fs: seq<string>, i: nat, j: nat)
    requires i < |adds| && j < |fs|
    ensures i * |fs| + j < |Lookups(adds, fs)|
    ensures Lookups(adds, fs)[i * |fs| + j] == fs[j] + "__" + adds[i]
    decreases i
  {
    LookupsLength(adds, fs);
    var n := |fs|;
    if i > 0 {
      LookupsAt(adds[1..], fs, i - 1, j);
      assert i * n + j == n + ((i - 1) * n + j);
      assert adds[1..][i - 1] == adds[i];
    }
  }

  /** The amended list for given lookup tables: the fields, then the
      field lookups on every field, then the distance and the spatial
      lookups on every geometry field. */
  function AmmendWith(fields: seq<string>, geomFields: seq<string>, fl: seq<string>, dl: seq<string>, sl: seq<string>): seq<string>
  {
    fields + Lookups(fl, fields) + Lookups(dl, geomFields) + Lookups(sl, geomFields)
  }

  /** `ammendFields`, with Django's and GeoDjango's lookup tables. */
  function AmmendFields(fields: seq<string>, geomFields: seq<string>): seq<string>
  {
    AmmendWith(fields, geomFields, FieldLookups, DistanceLookups, SpatialLookups)
  }

  /** The amended list has the fields as an unchanged prefix and one entry
      per field for each of the 22 field lookups and one per geometry field
      for each of the 5 distance and 30 spatial lookups. */
  lemma AmmendLayout(fields: seq<string>, geomFields: seq<string>)
    ensures var r := AmmendFields(fields, geomFields);
      |r| == |fields| * 23 + |geomFields| * 35 && r[..|fields|] == fields
  {
    var n, g := |fields|, |geomFields|;
    FieldLookupsSize();
    DistanceLookupsSize();
    SpatialLookupsSize();
    AmmendWithSize(fields, geomFields, FieldLookups, DistanceLookups, SpatialLookups);
    assert |AmmendFields(fields, geomFields)| == n * (1 + 22) + g * (5 + 30);
  }

  lemma AmmendWithSize(fields: seq<string>, geomFields: seq<string>, fl: seq<string>, dl: seq<string>, sl: seq<string>)
    ensures var r := AmmendWith(fields, geomFields, fl, dl, sl);
      |r| == |fields| * (1 + |fl|) + |geomFields| * (|dl| + |sl|) && r[..|fields|] == fields
  {
    AmmendWithLayout(fields, geomFields, fl, dl, sl);
  }

  lemma AmmendWithLayout(fields: seq<string>, geomFields: seq<string>, fl: seq<string>, dl: seq<string>, sl: seq<string>)
    ensures var r := AmmendWith(fields, geomFields, fl, dl, sl); var n, g := |fields|, |geomFields|;
      var p, q := n + |fl| * n, n + |fl| * n + |dl| * g;
      |r| == q + |sl| * g && r[..n] == fields && r[n..p] == Lookups(fl, fields)
      && r[p..q] == Lookups(dl, geomFields) && r[q..] == Lookups(sl, geomFields)
  {
    var a, b, c := Lookups(fl, fields), Lookups(dl, geomFields), Lookups(sl, geomFields);
    LookupsLength(fl, fields);
    LookupsLength(dl, geomFields);
    LookupsLength(sl, geomFields);
    Sections(fields, a, b, c);
  }

  lemma Sections(w: seq<string>, x: seq<string>, y: seq<string>, z: seq<string>)
    ensures var r := w + x + y + z;
      r[..|w|] == w && r[|w|..|w| + |x|] == x && r[|w| + |x|..|w| + |x| + |y|] == y && r[|w| + |x| + |y|..] == z
  {
  }

  lemma FieldLookupsSize() ensures |FieldLookups| == 22 { }

  lemma DistanceLookupsSize() ensures |DistanceLookups| == 5 { }

  lemma SpatialLookupsSize() ensures |SpatialLookups| == 30 { }

  // ---------------------------------------------------------------------
  // Query string -> filter arguments

  /** A filter argument: one value, or a list for an `__in` lookup. */
  datatype Arg = One(value: string) | Many(values: seq<string>)

  /** Whether amended field `f` writes filter key `k`: a single value under
      `f` itself, several under `f__in`. */
  predicate Writes(q: QueryDict, f: string, k: string)
  {
    var l := GetList(q, f);
    (|l| == 1 && k == f) || (|l| > 1 && k == f + "__in")
  }

  function ArgOf(q: QueryDict, f: string): Arg
  {
    var l := GetList(q, f);
    if |l| == 1 then One(l[0]) else Many(l)
  }

  /** The loop of `applyQueryParams` over the amended fields. */
  function ApplyFrom(qp: map<string, Arg>, q: QueryDict, fs: seq<string>): map<string, Arg>
    decreases |fs|
  {
    if |fs| == 0 then qp
    else
      var l := GetList(q, fs[0]);
      var qp' := if |l| == 0 then qp else if |l| == 1 then qp[fs[0] := One(l[0])] else qp[fs[0] + "__in" := Many(l)];
      ApplyFrom(qp', q, fs[1..])
  }

  /** `applyQueryParams`: the filter arguments of the request. */
  function ApplyQueryParams(q: QueryDict, fields: seq<string>, geomFields: seq<string>): map<string, Arg>
  {
    ApplyFrom(map[], q, AmmendFields(fields, geomFields))
  }

  /** A key is written by the fold exactly when it was there before or
      some amended field writes it. */
  lemma {:induction false} ApplyFromKeys(qp: map<string, Arg>, q: QueryDict, fs: seq<string>, k: string)
    ensures k in ApplyFrom(qp, q, fs) <==> k in qp || exists i :: 0 <= i < |fs| && Writes(q, fs[i], k)
    decreases |fs|
  {
    if |fs| > 0 {
      var l := GetList(q, fs[0]);
      var qp' := if |l| == 0 then qp else if |l| == 1 then qp[fs[0] := One(l[0])] else qp[fs[0] + "__in" := Many(l)];
      ApplyFromKeys(qp', q, fs[1..], k);
      assert k in qp' <==> k in qp || Writes(q, fs[0], k);
      if exists i :: 0 <= i < |fs[1..]| && Writes(q, fs[1..][i], k) {
        var i :| 0 <= i < |fs[1..]| && Writes(q, fs[1..][i], k);
        assert fs[1..][i] == fs[i + 1];
      }
      if exists i :: 0 <= i < |fs| && Writes(q, fs[i], k) {
        var i :| 0 <= i < |fs| && Writes(q, fs[i], k);
        if i > 0 {
          assert fs[1..][i - 1] == fs[i];
        }
      }
    }
  }

  /** The last amended field that writes a key decides its value. */
  lemma {:induction false} ApplyFromLast(qp: map<string, Arg>, q: QueryDict, fs: seq<string>, k: string, i: nat)
    requires i < |fs| && Writes(q, fs[i], k)
    requires forall j :: i < j < |fs| ==> !Writes(q, fs[j], k)
    ensures k in ApplyFrom(qp, q, fs) && ApplyFrom(qp, q, fs)[k] == ArgOf(q, fs[i])
    decreases |fs|
  {
    var l := GetList(q, fs[0]);
    var qp' := if |l| == 0 then qp else if |l| == 1 then qp[fs[0] := One(l[0])] else qp[fs[0] + "__in" := Many(l)];
    if i > 0 {
      forall j | i - 1 < j < |fs[1..]| ensures !Writes(q, fs[1..][j], k) {
        assert fs[1..][j] == fs[j + 1];
      }
      ApplyFromLast(qp', q, fs[1..], k, i - 1);
    } else {
      assert k in qp' && qp'[k] == ArgOf(q, fs[0]);
      ApplyFromKept(qp', q, fs[1..], k);
    }
  }

  /** A key no later field writes keeps its value. */
  lemma {:induction false} ApplyFromKept(qp: map<string, Arg>, q: QueryDict, fs: seq<string>, k: string)
    requires k in qp
    requires forall j :: 0 <= j < |fs| ==> !Writes(q, fs[j], k)
    ensures k in ApplyFrom(qp, q, fs) && ApplyFrom(qp, q, fs)[k] == qp[k]
    decreases |fs|
  {
    if |fs| > 0 {
      var l := GetList(q, fs[0]);
      var qp' := if |l| == 0 then qp else if |l| == 1 then qp[fs[0] := One(l[0])] else qp[fs[0] + "__in" := Many(l)];
      assert !Writes(q, fs[0], k);
      forall j | 0 <= j < |fs[1..]| ensures !Writes(q, fs[1..][j], k) {
        assert fs[1..][j] == fs[j + 1];
      }
      ApplyFromKept(qp', q, fs[1..], k);
    }
  }

  /** The filter arguments of a request (`ApplyQueryParams` is this fold
      over the amended fields): a key is present exactly when an amended
      field writes it, one value under the field itself and several under
      `__in`, so a field absent from the query writes nothing; and the last
      field writing a key decides its value. */
  lemma ApplyFromMeans(q: QueryDict, fs: seq<string>, k: string)
    ensures k in ApplyFrom(map[], q, fs) <==> exists i :: 0 <= i < |fs| && Writes(q, fs[i], k)
    ensures forall i :: 0 <= i < |fs| && Writes(q, fs[i], k) && (forall j :: i < j < |fs| ==> !Writes(q, fs[j], k)) ==>
      k in ApplyFrom(map[], q, fs) && ApplyFrom(map[], q, fs)[k] == ArgOf(q, fs[i])
  {
    ApplyFromKeys(map[], q, fs, k);
    forall i | 0 <= i < |fs| && Writes(q, fs[i], k) && (forall j :: i < j < |fs| ==> !Writes(q, fs[j], k))
      ensures k in ApplyFrom(map[], q, fs) && ApplyFrom(map[], q, fs)[k] == ArgOf(q, fs[i])
    {
      ApplyFromLast(map[], q, fs, k, i);
    }
  }

  /** A field given once becomes `f = value` and one given several times
      `f__in = values`, unless a later entry of the list writes the same key. */
  lemma ApplyFromField(q: QueryDict, fs: seq<string>, j: nat)
    requires j < |fs| && |GetList(q, fs[j])| > 0
    requires var k := if |GetList(q, fs[j])| == 1 then fs[j] else fs[j] + "__in";
      forall i :: j < i < |fs| ==> !Writes(q, fs[i], k)
    ensures var l, r := GetList(q, fs[j]), ApplyFrom(map[], q, fs);
      (|l| == 1 ==> fs[j] in r && r[fs[j]] == One(l[0]))
      && (|l| > 1 ==> fs[j] + "__in" in r && r[fs[j] + "__in"] == Many(l))
  {
    var k := if |GetList(q, fs[j])| == 1 then fs[j] else fs[j] + "__in";
    ApplyFromLast(map[], q, fs, k, j);
  }

  // ---------------------------------------------------------------------
  // Parameter-value constraints

  /** The parameter name a `_MIN`/`_MAX` key stands for. As written it is
      `key.split(suffix)[0]`, everything before the FIRST occurrence of the
      suffix; the corrected reading strips the trailing suffix. */
  function NameOf(v: Variant, key: string, suffix: string): (name: string)
    requires |suffix| > 0 && EndsWith(key, suffix)
  {
    match v
    case AsWritten => SplitFirst(key, suffix)
    case Corrected => key[..|key| - |suffix|]
  }

  /** The names the keys ending in `suffix` yield. */
  function NamesFrom(v: Variant, q: QueryDict, suffix: string): set<string>
    requires |suffix| > 0
  {
    set k | k in q.lists && EndsWith(k, suffix) :: NameOf(v, k, suffix)
  }

  /** `pmin` or `pmax`: each name mapped to the first value of
      `name + suffix`, when that key has a value. */
  function Bounds(v: Variant, q: QueryDict, suffix: string): map<string, string>
    requires |suffix| > 0
  {
    map name | name in NamesFrom(v, q, suffix) && GetFirst(q, name + suffix).Some? :: GetFirst(q, name + suffix).value
  }

  function Lookup(m: map<string, string>, k: string): Option<string>
  {
    if k in m then Some(m[k]) else None
  }

  /** `parameterValueConstraints`: each constrained name that is the name of
      a Parameter, with its (min, max) bounds, either possibly `None`. The
      source returns them as a list of one-entry dictionaries in set
      iteration order; a map keyed by name is that list without its order. */
  function ValueConstraints(v: Variant, q: QueryDict, parameters: set<string>): map<string, (Option<string>, Option<string>)>
  {
    var pmin, pmax := Bounds(v, q, "_MIN"), Bounds(v, q, "_MAX");
    map name | name in (pmin.Keys + pmax.Keys) && name in parameters :: (Lookup(pmin, name), Lookup(pmax, name))
  }

  /** With the suffix stripped, a key `name + suffix` always yields `name`,
      so the bound of a name is exactly the first value of `name + suffix`. */
  lemma CorrectedBounds(q: QueryDict, suffix: string, name: string)
    requires |suffix| > 0
    ensures Lookup(Bounds(Corrected, q, suffix), name) == GetFirst(q, name + suffix)
  {
    var key := name + suffix;
    if GetFirst(q, key).Some? {
      assert EndsWith(key, suffix) && key[..|key| - |suffix|] == name;
      assert name in NamesFrom(Corrected, q, suffix);
    }
  }

  /** The constraints of a request: a Parameter's name is constrained
      exactly when `name_MIN` or `name_MAX` has a value, and its bounds are
      the first values of those keys, `None` for a missing one. */
  lemma ValueConstraintsMeans(q: QueryDict, parameters: set<string>, name: string)
    ensures var r := ValueConstraints(Corrected, q, parameters);
      (name in r <==> name in parameters && (GetFirst(q, name + "_MIN").Some? || GetFirst(q, name + "_MAX").Some?))
      && (name in r ==> r[name] == (GetFirst(q, name + "_MIN"), GetFirst(q, name + "_MAX")))
  {
    CorrectedBounds(q, "_MIN", name);
    CorrectedBounds(q, "_MAX", name);
  }

  /** As written, a name containing "_MIN" never receives a lower bound:
      splitting its key at the first "_MIN" yields a shorter name. */
  lemma AsWrittenLosesMinNames(q: QueryDict, name: string)
    requires Contains(name, "_MIN")
    ensures name !in Bounds(AsWritten, q, "_MIN")
  {
  }

  /** The request `T_MINUS_MIN=3`, with a Parameter named `T_MINUS`. */
  const MinusRequest := QueryDict(["T_MINUS_MIN"], map["T_MINUS_MIN" := ["3"]])

  /** As written, the constraint on `T_MINUS` is dropped: its key yields
      the name `T`. */
  lemma AsWrittenDropsConstraint()
    ensures "T_MINUS" !in ValueConstraints(AsWritten, MinusRequest, {"T_MINUS"})
  {
    var q := MinusRequest;
    assert OccursAt("T_MINUS", "_MIN", 1);
    AsWrittenLosesMinNames(q, "T_MINUS");
    assert !EndsWith("T_MINUS_MIN", "_MAX") by {
      assert "T_MINUS_MIN"[7..] == "_MIN";
    }
    assert NamesFrom(AsWritten, q, "_MAX") == {};
  }

  /** A single Parameter with only a lower bound is constrained by that
      bound alone. */
  lemma LowerBoundOnly(q: QueryDict, name: string, lo: string)
    requires GetFirst(q, name + "_MIN") == Some(lo) && GetFirst(q, name + "_MAX").None?
    ensures ValueConstraints(Corrected, q, {name}) == map[name := (Some(lo), None)]
  {
    ValueConstraintsMeans(q, {name}, name);
    var r := ValueConstraints(Corrected, q, {name});
    assert r.Keys == {name};
  }

  /** Corrected, `T_MINUS` is constrained to at least 3 with no upper bound. */
  lemma CorrectedKeepsConstraint()
    ensures ValueConstraints(Corrected, MinusRequest, {"T_MINUS"}) == map["T_MINUS" := (Some("3"), None)]
  {
    assert "T_MINUS" + "_MIN" == "T_MINUS_MIN";
    assert "T_MINUS" + "_MAX" != "T_MINUS_MIN" by {
      assert ("T_MINUS" + "_MAX")[9] == 'A';
    }
    assert GetFirst(MinusRequest, "T_MINUS" + "_MIN") == Some("3");
    LowerBoundOnly(MinusRequest, "T_MINUS", "3");
  }

  // ---------------------------------------------------------------------
  // Response formats

  datatype Response =
    | Delimited(delimiter: char, contentType: string, filename: string, header: seq<string>, rows: seq<seq<string>>)
    | Xml
    | Json
    | Kml(call: KmlCall)
    | Count(n: nat)
    | Help(fields: seq<string>, geomFields: seq<string>, spatial: bool)
    | Html(cols: seq<string>)

  /** How the KML writer is constructed: the number of positional
      arguments and the keyword flags. */
  datatype KmlCall = KmlCall(positional: nat, kwargs: map<string, bool>)

  /** The calls made for 'kml' (no keywords) and 'kmln' (every flag off).
      As written both pass the object name as an extra positional argument
      and 'kmln' spells the time-stamp flag `withTimeStamps`. */
  function KmlCallFor(v: Variant, lines: bool): (c: KmlCall)
    ensures c.positional == if v.AsWritten? then 4 else 3
    ensures lines ==> c.kwargs == map[]
    ensures !lines ==> "withLineStrings" in c.kwargs && "withFullIconURL" in c.kwargs
    ensures forall k :: k in c.kwargs ==> !c.kwargs[k]
  {
    var stamp := if v.AsWritten? then "withTimeStamps" else "withTimeStamp";
    KmlCall(if v.AsWritten? then 4 else 3,
            if lines then map[] else map[stamp := false, "withLineStrings" := false, "withFullIconURL" := false])
  }

  /** The values of `fields` in one object, in field order; `None` for the
      KeyError of a missing field. */
  function Cells(obj: map<string, string>, fields: seq<string>): (r: Option<seq<string>>)
    ensures r.Some? <==> forall j :: 0 <= j < |fields| ==> fields[j] in obj
    ensures r.Some? ==> |r.value| == |fields| && forall j :: 0 <= j < |fields| ==> r.value[j] == obj[fields[j]]
  {
    if forall j :: 0 <= j < |fields| ==> fields[j] in obj
    then Some(seq(|fields|, j requires 0 <= j < |fields| => obj[fields[j]]))
    else None
  }

  function TableRows(objs: seq<map<string, string>>, fields: seq<string>): (r: Option<seq<seq<string>>>)
    ensures r.Some? <==> forall i :: 0 <= i < |objs| ==> Cells(objs[i], fields).Some?
    ensures r.Some? ==> |r.value| == |objs| && forall i :: 0 <= i < |objs| ==> Some(r.value[i]) == Cells(objs[i], fields)
    decreases |objs|
  {
    if |objs| == 0 then Some([])
    else if Cells(objs[0], fields).None? then None
    else match TableRows(objs[1..], fields)
      case Some(rest) => Some([Cells(objs[0], fields).value] + rest)
      case None =>
        var i :| 0 <= i < |objs[1..]| && Cells(objs[1..][i], fields).None?;
        assert objs[1..][i] == objs[i + 1];
        None
  }

  /** The response `process_request` builds for a format. */
  function Respond(v: Variant, format: string, objectName: string, fields: seq<string>, geomFields: seq<string>,
                   objs: seq<map<string, string>>): (r: Result<Response, string>)
    ensures format == "csv" || format == "tsv" ==>
      (r.Success? <==> forall i, j :: 0 <= i < |objs| && 0 <= j < |fields| ==> fields[j] in objs[i])
    ensures r.Success? && (format == "csv" || format == "tsv") ==>
      r.value.Delimited? && r.value.header == fields && |r.value.rows| == |objs|
      && (forall i :: 0 <= i < |objs| ==> |r.value.rows[i]| == |fields|)
      && (forall i, j :: 0 <= i < |objs| && 0 <= j < |fields| ==> r.value.rows[i][j] == objs[i][fields[j]])
      && r.value.delimiter == (if format == "tsv" then '\t' else ',')
      && r.value.filename == objectName + "." + format
    ensures format != "csv" && format != "tsv" ==> r.Success?
    ensures format == "kml" || format == "kmln" ==> r == Success(Kml(KmlCallFor(v, format == "kml")))
    ensures format == "count" ==> r == Success(Count(|objs|))
    ensures format == "help" ==> r == Success(Help(fields, geomFields, |geomFields| > 0))
    ensures format !in {"csv", "tsv", "xml", "json", "kml", "kmln", "count", "help"} ==> r == Success(Html(fields))
  {
    if format == "csv" || format == "tsv" then
      match TableRows(objs, fields)
      case None =>
        assert exists i :: 0 <= i < |objs| && Cells(objs[i], fields).None?;
        Failure("KeyError")
      case Some(rows) =>
        var tsv := format == "tsv";
        assert forall i, j :: 0 <= i < |objs| && 0 <= j < |fields| ==> fields[j] in objs[i] by {
          forall i, j | 0 <= i < |objs| && 0 <= j < |fields| ensures fields[j] in objs[i] {
            assert Cells(objs[i], fields).Some?;
          }
        }
        Success(Delimited(if tsv then '\t' else ',', if tsv then "text/tab-separated-values" else "text/csv",
                          objectName + (if tsv then ".tsv" else ".csv"), fields, rows))
    else if format == "xml" then Success(Xml)
    else if format == "json" then Success(Json)
    else if format == "kml" || format == "kmln" then Success(Kml(KmlCallFor(v, format == "kml")))
    else if format == "count" then Success(Count(|objs|))
    else if format == "help" then Success(Help(fields, geomFields, |geomFields| > 0))
    else Success(Html(fields))
  }

  /** csv and tsv carry the same table; only the delimiter, the content
      type and the file extension differ. */
  lemma DelimitedAgree(v: Variant, objectName: string, fields: seq<string>, geomFields: seq<string>, objs: seq<map<string, string>>)
    ensures var c, t := Respond(v, "csv", objectName, fields, geomFields, objs), Respond(v, "tsv", objectName, fields, geomFields, objs);
      c.Success? == t.Success? && (c.Success? ==> c.value.header == t.value.header && c.value.rows == t.value.rows)
  {
  }
}

=== FILE: waveglider.dfy ===
/** `loaders/CANON/toNetCDF/wgToNetcdf.py`: the Liquid Robotics waveglider
    CSV files (the CTD/GPS file and the pCO2 file) turned into trajectory
    NetCDF variables. A record is what `csv.DictReader` yields, a map from
    header name to field text; storing a field in a `float64` variable
    parses it with `parse`, which stands for numpy's string-to-float
    conversion. */
module Waveglider {
  import opened Wrappers
  import opened Strs
  import opened Findings
  import Clock
  import Stats

  /** The exceptions the two writers can end in. */
  datatype NcError = KeyError | ValueError | NameError

  type Row = map<string, string>

  /** A record read by the loop: its timestamp and the fields it keeps, in
      column order. */
  datatype Rec = Rec(when: Clock.Stamp, fields: seq<string>)

  datatype Var = Var(name: string, longName: string, standardName: Option<string>, units: Option<string>, values: seq<real>)

  /** The global attributes `add_global_metadata` derives from the data. */
  datatype Meta = Meta(cdmDataType: string, featureType: string,
                       latMin: real, latMax: real, lonMin: real, lonMax: real,
                       verticalMin: real, verticalMax: real,
                       start: string, end: string)

  /** One written file: the `TIME` axis, the record variables, the
      metadata. */
  datatype NcFile = NcFile(time: seq<int>, vars: seq<Var>, meta: Meta)

  const TimeUnits: string := "seconds since 1970-01-01"

  // ---------------------------------------------------------------------
  // Reading

  /** `r[key]` for each key in turn; a missing header raises `KeyError`. */
  function Fields(r: Row, keys: seq<string>): (res: Result<seq<string>, NcError>)
    ensures res.Success? <==> forall k :: 0 <= k < |keys| ==> keys[k] in r
    ensures res.Success? ==> |res.value| == |keys| && forall k :: 0 <= k < |keys| ==> res.value[k] == r[keys[k]]
    ensures res.Failure? ==> res.error == KeyError
  {
    if |keys| == 0 then Success([])
    else if keys[0] !in r then Failure(KeyError)
    else
      var rest :- Fields(r, keys[1..]);
      assert forall k :: 1 <= k < |keys| ==> keys[k] == keys[1..][k - 1];
      Success([r[keys[0]]] + rest)
  }

  /** One pass of the reading loop: the timestamp through `strptime` and
      `datetime`, then each kept column. */
  function ReadRow(r: Row, timeKey: string, keys: seq<string>): (res: Result<Rec, NcError>)
    ensures res.Success? <==> timeKey in r && Clock.ParseIso(r[timeKey]).Some? && forall k :: 0 <= k < |keys| ==> keys[k] in r
    ensures res.Success? ==> res.value.when == Clock.ParseIso(r[timeKey]).value && Clock.Valid(res.value.when)
    ensures res.Success? ==> |res.value.fields| == |keys| && forall k :: 0 <= k < |keys| ==> res.value.fields[k] == r[keys[k]]
    ensures res.Failure? ==> (res.error == ValueError <==> timeKey in r && Clock.ParseIso(r[timeKey]).None?)
  {
    if timeKey !in r then Failure(KeyError)
    else match Clock.ParseIso(r[timeKey])
      case None => Failure(ValueError)
      case Some(t) =>
        var fs :- Fields(r, keys);
        Success(Rec(t, fs))
  }

  predicate Shaped(recs: seq<Rec>, width: nat)
  {
    forall i :: 0 <= i < |recs| ==> Clock.Valid(recs[i].when) && |recs[i].fields| == width
  }

  /** The loop over the reader: the first record that fails ends it. */
  function ReadRows(rows: seq<Row>, timeKey: string, keys: seq<string>): (res: Result<seq<Rec>, NcError>)
    ensures res.Success? ==> |res.value| == |rows| && Shaped(res.value, |keys|)
  {
    if |rows| == 0 then Success([])
    else
      var first :- ReadRow(rows[0], timeKey, keys);
      var rest :- ReadRows(rows[1..], timeKey, keys);
      Success([first] + rest)
  }

  /** The loop reads every record, or stops with the error of the first one
      that does not read. */
  lemma ReadRowsMeans(rows: seq<Row>, timeKey: string, keys: seq<string>)
    ensures ReadRows(rows, timeKey, keys).Success? <==> forall i :: 0 <= i < |rows| ==> ReadRow(rows[i], timeKey, keys).Success?
    ensures ReadRows(rows, timeKey, keys).Success? ==>
      forall i :: 0 <= i < |rows| ==> ReadRows(rows, timeKey, keys).value[i] == ReadRow(rows[i], timeKey, keys).value
    ensures ReadRows(rows, timeKey, keys).Failure? ==>
      exists i :: 0 <= i < |rows| && ReadRow(rows[i], timeKey, keys).Failure?
        && ReadRows(rows, timeKey, keys).error == ReadRow(rows[i], timeKey, keys).error
        && forall j :: 0 <= j < i ==> ReadRow(rows[j], timeKey, keys).Success?
  {
    ReadRowsValues(rows, timeKey, keys);
    ReadRowsFirstError(rows, timeKey, keys);
  }

  lemma {:induction false} ReadRowsValues(rows: seq<Row>, timeKey: string, keys: seq<string>)
    ensures ReadRows(rows, timeKey, keys).Success? <==> forall i :: 0 <= i < |rows| ==> ReadRow(rows[i], timeKey, keys).Success?
    ensures ReadRows(rows, timeKey, keys).Success? ==>
      forall i :: 0 <= i < |rows| ==> ReadRows(rows, timeKey, keys).value[i] == ReadRow(rows[i], timeKey, keys).value
  {
    if |rows| > 0 {
      ReadRowsValues(rows[1..], timeKey, keys);
      assert forall i :: 1 <= i < |rows| ==> rows[i] == rows[1..][i - 1];
    }
  }

  lemma {:induction false} ReadRowsFirstError(rows: seq<Row>, timeKey: string, keys: seq<string>)
    ensures ReadRows(rows, timeKey, keys).Failure? ==>
      exists i :: 0 <= i < |rows| && ReadRow(rows[i], timeKey, keys).Failure?
        && ReadRows(rows, timeKey, keys).error == ReadRow(rows[i], timeKey, keys).error
        && forall j :: 0 <= j < i ==> ReadRow(rows[j], timeKey, keys).Success?
  {
    if |rows| > 0 && ReadRow(rows[0], timeKey, keys).Success? && ReadRows(rows[1..], timeKey, keys).Failure? {
      ReadRowsFirstError(rows[1..], timeKey, keys);
      var i :| 0 <= i < |rows[1..]| && ReadRow(rows[1..][i], timeKey, keys).Failure?
        && ReadRows(rows[1..], timeKey, keys).error == ReadRow(rows[1..][i], timeKey, keys).error
        && forall j :: 0 <= j < i ==> ReadRow(rows[1..][j], timeKey, keys).Success?;
      assert rows[i + 1] == rows[1..][i];
      assert forall j :: 1 <= j < i + 1 ==> rows[j] == rows[1..][j - 1];
    }
  }

  /** Storing text fields in a `float64` variable: each one must parse,
      else `ValueError`. */
  function Convert(texts: seq<string>, parse: string -> Option<real>): (res: Result<seq<real>, NcError>)
    ensures res.Success? <==> forall i :: 0 <= i < |texts| ==> parse(texts[i]).Some?
    ensures res.Success? ==> |res.value| == |texts| && forall i :: 0 <= i < |texts| ==> res.value[i] == parse(texts[i]).value
    ensures res.Failure? ==> res.error == ValueError
  {
    if |texts| == 0 then Success([])
    else match parse(texts[0])
      case None => Failure(ValueError)
      case Some(x) =>
        var rest :- Convert(texts[1..], parse);
        assert forall i :: 1 <= i < |texts| ==> texts[i] == texts[1..][i - 1];
        Success([x] + rest)
  }

  /** The `c`-th kept field of every record. */
  function Column(recs: seq<Rec>, width: nat, c: nat): (col: seq<string>)
    requires Shaped(recs, width) && c < width
    ensures |col| == |recs| && forall i :: 0 <= i < |recs| ==> col[i] == recs[i].fields[c]
  {
    seq(|recs|, i requires 0 <= i < |recs| => recs[i].fields[c])
  }

  predicate Parses(recs: seq<Rec>, c: nat, width: nat, parse: string -> Option<real>)
    requires Shaped(recs, width)
  {
    forall i, k :: 0 <= i < |recs| && c <= k < width ==> parse(recs[i].fields[k]).Some?
  }

  /** `cols` holds the parsed fields of the columns from the `c`-th on. */
  predicate Holds(cols: seq<seq<real>>, recs: seq<Rec>, width: nat, c: nat, parse: string -> Option<real>)
    requires Shaped(recs, width) && c <= width
  {
    |cols| == width - c
    && forall k :: 0 <= k < |cols| ==>
         |cols[k]| == |recs| && forall i :: 0 <= i < |recs| ==> parse(recs[i].fields[c + k]) == Some(cols[k][i])
  }

  lemma ParsesStep(recs: seq<Rec>, width: nat, c: nat, parse: string -> Option<real>)
    requires Shaped(recs, width) && c < width
    ensures Parses(recs, c, width, parse) <==>
      (forall i :: 0 <= i < |recs| ==> parse(Column(recs, width, c)[i]).Some?) && Parses(recs, c + 1, width, parse)
  {
    if (forall i :: 0 <= i < |recs| ==> parse(Column(recs, width, c)[i]).Some?) && Parses(recs, c + 1, width, parse) {
      forall i, k | 0 <= i < |recs| && c <= k < width ensures parse(recs[i].fields[k]).Some? {
        if k == c {
          assert Column(recs, width, c)[i] == recs[i].fields[c];
        }
      }
    }
  }

  lemma HoldsCons(col: seq<real>, rest: seq<seq<real>>, recs: seq<Rec>, width: nat, c: nat, parse: string -> Option<real>)
    requires Shaped(recs, width) && c < width
    requires |col| == |recs| && forall i :: 0 <= i < |recs| ==> parse(recs[i].fields[c]) == Some(col[i])
    requires Holds(rest, recs, width, c + 1, parse)
    ensures Holds([col] + rest, recs, width, c, parse)
  {
    var cols := [col] + rest;
    forall k | 0 < k < |cols| ensures |cols[k]| == |recs| && forall i :: 0 <= i < |recs| ==> parse(recs[i].fields[c + k]) == Some(cols[k][i]) {
      assert cols[k] == rest[k - 1];
      assert c + k == (c + 1) + (k - 1);
    }
  }

  /** The columns from the `c`-th on, each stored in its variable in turn. */
  function Columns(recs: seq<Rec>, width: nat, c: nat, parse: string -> Option<real>): (res: Result<seq<seq<real>>, NcError>)
    requires Shaped(recs, width) && c <= width
    ensures res.Success? <==> Parses(recs, c, width, parse)
    ensures res.Success? ==> Holds(res.value, recs, width, c, parse)
    ensures res.Failure? ==> res.error == ValueError
    decreases width - c
  {
    if c == width then Success([])
    else
      var col := Convert(Column(recs, width, c), parse);
      var rest := Columns(recs, width, c + 1, parse);
      ParsesStep(recs, width, c, parse);
      if col.Failure? || rest.Failure? then Failure(ValueError)
      else
        HoldsCons(col.value, rest.value, recs, width, c, parse);
        Success([col.value] + rest.value)
  }

  function Whens(recs: seq<Rec>): (w: seq<Clock.Stamp>)
    ensures |w| == |recs| && forall i :: 0 <= i < |recs| ==> w[i] == recs[i].when
  {
    seq(|recs|, i requires 0 <= i < |recs| => recs[i].when)
  }

  /** `diff.days * 86400 + diff.seconds` of every record. */
  function Times(recs: seq<Rec>, width: nat): (t: seq<int>)
    requires Shaped(recs, width)
    ensures |t| == |recs| && forall i :: 0 <= i < |recs| ==> t[i] == Clock.Epoch(recs[i].when)
  {
    seq(|recs|, i requires 0 <= i < |recs| => Clock.Epoch(recs[i].when))
  }

  // ---------------------------------------------------------------------
  // Metadata

  /** `lo` and `hi` are the least and greatest of the values. */
  predicate Bounds(lo: real, hi: real, xs: seq<real>)
  {
    lo in xs && hi in xs && forall i :: 0 <= i < |xs| ==> lo <= xs[i] <= hi
  }

  /** `add_global_metadata`: a trajectory, the extent of the coordinate
      variables, and the first and last time in ISO form. `numpy.min` of an
      empty array raises `ValueError`. */
  function Metadata(whens: seq<Clock.Stamp>, lat: seq<real>, lon: seq<real>, depth: seq<real>): (res: Result<Meta, NcError>)
    requires |lat| == |whens| && |lon| == |whens| && |depth| == |whens|
    ensures res.Failure? <==> |whens| == 0
    ensures res.Failure? ==> res.error == ValueError
    ensures res.Success? ==> res.value.cdmDataType == "trajectory" && res.value.featureType == "trajectory"
    ensures res.Success? ==> Bounds(res.value.latMin, res.value.latMax, lat) && Bounds(res.value.lonMin, res.value.lonMax, lon)
    ensures res.Success? ==> Bounds(res.value.verticalMin, res.value.verticalMax, depth)
    ensures res.Success? ==> res.value.start == Clock.Isoformat(whens[0], 'T') && res.value.end == Clock.Isoformat(whens[|whens| - 1], 'T')
  {
    if |whens| == 0 then Failure(ValueError)
    else
      Success(Meta("trajectory", "trajectory",
                   Stats.Min(lat), Stats.Max(lat), Stats.Min(lon), Stats.Max(lon),
                   Stats.Min(depth), Stats.Max(depth),
                   Clock.Isoformat(whens[0], 'T'), Clock.Isoformat(whens[|whens| - 1], 'T')))
  }

  // ---------------------------------------------------------------------
  // write_gpctd

  const GpctdTime: string := "GPCTD Timestamp"

  /** The kept columns, in the order the variables are written. */
  const GpctdKeys: seq<string> := [" Latitude", " Longitude", " Pressure(decibars)",
                                   " Temperature(degrees C)", " Salinity(PSU)", " Dissolved Oxygen(mL/L)"]

  function GpctdVars(cols: seq<seq<real>>): (vs: seq<Var>)
    requires |cols| == 6
  {
    [Var("latitude", "LATITUDE", Some("latitude"), Some("degree_north"), cols[0]),
     Var("longitude", "LONGITUDE", Some("longitude"), Some("degree_east"), cols[1]),
     Var("depth", "DEPTH", Some("depth"), Some("m"), cols[2]),
     Var("TEMP", "Temperature", Some("sea_water_temperature"), Some("Celsius"), cols[3]),
     Var("PSAL", "Salinity", Some("sea_water_salinity"), None, cols[4]),
     Var("oxygen", "Dissolved Oxygen", None, Some("ml/l"), cols[5])]
  }

  /** `write_gpctd`: read every record, store the columns, add the
      metadata. */
  function WriteGpctd(rows: seq<Row>, parse: string -> Option<real>): (res: Result<NcFile, NcError>)
  {
    WriteCtd(rows, GpctdTime, GpctdKeys, parse)
  }

  /** The CTD writer for a given timestamp header and six kept headers. */
  function WriteCtd(rows: seq<Row>, timeKey: string, keys: seq<string>, parse: string -> Option<real>): (res: Result<NcFile, NcError>)
    requires |keys| == 6
  {
    var recs :- ReadRows(rows, timeKey, keys);
    var cols :- Columns(recs, 6, 0, parse);
    var meta :- Metadata(Whens(recs), cols[0], cols[1], cols[2]);
    Success(NcFile(Times(recs, 6), GpctdVars(cols), meta))
  }

  /** Every kept field of every record is present and parses. */
  predicate AllParse(rows: seq<Row>, keys: seq<string>, parse: string -> Option<real>)
  {
    forall i, k :: 0 <= i < |rows| && 0 <= k < |keys| ==> keys[k] in rows[i] && parse(rows[i][keys[k]]).Some?
  }

  predicate AllRead(rows: seq<Row>, timeKey: string, keys: seq<string>)
  {
    forall i :: 0 <= i < |rows| ==> ReadRow(rows[i], timeKey, keys).Success?
  }

  /** Once every record reads, the records hold the parsed timestamps and
      the kept fields, and storing the columns succeeds exactly when every
      field parses, giving each field's value. */
  lemma Stored(rows: seq<Row>, timeKey: string, keys: seq<string>, parse: string -> Option<real>)
    requires AllRead(rows, timeKey, keys)
    ensures ReadRows(rows, timeKey, keys).Success?
    ensures forall i, k :: 0 <= i < |rows| && 0 <= k < |keys| ==> keys[k] in rows[i]
    ensures var recs := ReadRows(rows, timeKey, keys).value;
      |recs| == |rows| && Shaped(recs, |keys|)
      && (forall i :: 0 <= i < |rows| ==> recs[i].when == Clock.ParseIso(rows[i][timeKey]).value)
      && (forall i, k :: 0 <= i < |rows| && 0 <= k < |keys| ==> recs[i].fields[k] == rows[i][keys[k]])
      && (Parses(recs, 0, |keys|, parse) <==> AllParse(rows, keys, parse))
  {
    ReadRowsMeans(rows, timeKey, keys);
    var recs := ReadRows(rows, timeKey, keys).value;
    assert forall i, k :: 0 <= i < |rows| && 0 <= k < |keys| ==> keys[k] in rows[i] && recs[i].fields[k] == rows[i][keys[k]];
  }

  /** Once every record reads, storing the columns succeeds exactly when
      every field parses, and then gives each field's value. */
  lemma StoredColumns(rows: seq<Row>, timeKey: string, keys: seq<string>, parse: string -> Option<real>)
    requires AllRead(rows, timeKey, keys)
    ensures ReadRows(rows, timeKey, keys).Success?
    ensures var recs := ReadRows(rows, timeKey, keys).value;
      Shaped(recs, |keys|)
      && (Columns(recs, |keys|, 0, parse).Success? <==> AllParse(rows, keys, parse))
      && (Columns(recs, |keys|, 0, parse).Success? ==>
            |Columns(recs, |keys|, 0, parse).value| == |keys|
            && forall k, i :: 0 <= k < |keys| && 0 <= i < |rows| ==>
              keys[k] in rows[i] && parse(rows[i][keys[k]]).Some?
              && |Columns(recs, |keys|, 0, parse).value[k]| == |rows|
              && Columns(recs, |keys|, 0, parse).value[k][i] == parse(rows[i][keys[k]]).value)
  {
    Stored(rows, timeKey, keys, parse);
    var recs := ReadRows(rows, timeKey, keys).value;
    var res := Columns(recs, |keys|, 0, parse);
    if res.Success? {
      forall k, i | 0 <= k < |keys| && 0 <= i < |rows|
        ensures |res.value[k]| == |rows| && res.value[k][i] == parse(rows[i][keys[k]]).value
      {
        assert parse(recs[i].fields[0 + k]) == Some(res.value[k][i]);
      }
    }
  }

  lemma GpctdVarsHold(cols: seq<seq<real>>)
    requires |cols| == 6
    ensures |GpctdVars(cols)| == 6 && forall k :: 0 <= k < 6 ==> GpctdVars(cols)[k].values == cols[k]
  {
  }

  lemma WriteCtdMeans(rows: seq<Row>, timeKey: string, keys: seq<string>, parse: string -> Option<real>)
    requires |keys| == 6
    ensures var res := WriteCtd(rows, timeKey, keys, parse);
      res.Success? <==> AllRead(rows, timeKey, keys) && AllParse(rows, keys, parse) && |rows| > 0
    ensures var res := WriteCtd(rows, timeKey, keys, parse);
      !AllRead(rows, timeKey, keys) ==>
        res.Failure? && ReadRows(rows, timeKey, keys).Failure? && res.error == ReadRows(rows, timeKey, keys).error
    ensures var res := WriteCtd(rows, timeKey, keys, parse);
      res.Failure? && AllRead(rows, timeKey, keys) ==> res.error == ValueError
  {
    ReadRowsMeans(rows, timeKey, keys);
    if AllRead(rows, timeKey, keys) {
      Stored(rows, timeKey, keys, parse);
    }
  }

  /** The record each written time comes from. */
  predicate TimesFrom(time: seq<int>, rows: seq<Row>, timeKey: string)
  {
    |time| == |rows|
    && forall i :: 0 <= i < |rows| ==>
         timeKey in rows[i] && Clock.ParseIso(rows[i][timeKey]).Some?
         && time[i] == Clock.Epoch(Clock.ParseIso(rows[i][timeKey]).value)
  }

  /** Variable k holds the k-th kept field of every record. */
  predicate ValuesFrom(vars: seq<Var>, rows: seq<Row>, keys: seq<string>, parse: string -> Option<real>)
  {
    |vars| >= |keys|
    && forall k, i :: 0 <= k < |keys| && 0 <= i < |rows| ==>
         keys[k] in rows[i] && parse(rows[i][keys[k]]).Some?
         && |vars[k].values| == |rows| && vars[k].values[i] == parse(rows[i][keys[k]]).value
  }

  /** The metadata starts at the first record, ends at the last, and
      spans the coordinate variables. */
  predicate MetaFrom(meta: Meta, rows: seq<Row>, timeKey: string, lat: seq<real>, lon: seq<real>, depth: seq<real>)
  {
    |rows| > 0 && timeKey in rows[0] && timeKey in rows[|rows| - 1]
    && Clock.ParseIso(rows[0][timeKey]).Some? && Clock.ParseIso(rows[|rows| - 1][timeKey]).Some?
    && meta.start == Clock.Isoformat(Clock.ParseIso(rows[0][timeKey]).value, 'T')
    && meta.end == Clock.Isoformat(Clock.ParseIso(rows[|rows| - 1][timeKey]).value, 'T')
    && meta.featureType == "trajectory"
    && Bounds(meta.latMin, meta.latMax, lat) && Bounds(meta.lonMin, meta.lonMax, lon)
    && Bounds(meta.verticalMin, meta.verticalMax, depth)
  }

  /** A written CTD file as the records and columns make it. */
  lemma CtdShape(rows: seq<Row>, timeKey: string, keys: seq<string>, parse: string -> Option<real>)
    requires |keys| == 6 && WriteCtd(rows, timeKey, keys, parse).Success?
    ensures AllRead(rows, timeKey, keys) && |rows| > 0
    ensures ReadRows(rows, timeKey, keys).Success?
    ensures var recs := ReadRows(rows, timeKey, keys).value;
      Columns(recs, 6, 0, parse).Success?
      && var cols := Columns(recs, 6, 0, parse).value;
      WriteCtd(rows, timeKey, keys, parse).value
        == NcFile(Times(recs, 6), GpctdVars(cols), Metadata(Whens(recs), cols[0], cols[1], cols[2]).value)
  {
    WriteCtdMeans(rows, timeKey, keys, parse);
  }

  lemma CtdTimes(rows: seq<Row>, timeKey: string, keys: seq<string>, parse: string -> Option<real>)
    requires |keys| == 6 && WriteCtd(rows, timeKey, keys, parse).Success?
    ensures TimesFrom(WriteCtd(rows, timeKey, keys, parse).value.time, rows, timeKey)
  {
    CtdShape(rows, timeKey, keys, parse);
    Stored(rows, timeKey, keys, parse);
    assert forall i :: 0 <= i < |rows| ==> ReadRow(rows[i], timeKey, keys).Success?;
  }

  lemma ValuesFromColumns(vars: seq<Var>, cols: seq<seq<real>>, rows: seq<Row>, keys: seq<string>, parse: string -> Option<real>)
    requires |vars| >= |keys| && |cols| == |keys| && forall k :: 0 <= k < |keys| ==> vars[k].values == cols[k]
    requires forall k, i :: 0 <= k < |keys| && 0 <= i < |rows| ==>
      keys[k] in rows[i] && parse(rows[i][keys[k]]).Some?
      && |cols[k]| == |rows| && cols[k][i] == parse(rows[i][keys[k]]).value
    ensures ValuesFrom(vars, rows, keys, parse)
  {
  }

  lemma CtdValues(rows: seq<Row>, timeKey: string, keys: seq<string>, parse: string -> Option<real>)
    requires |keys| == 6 && WriteCtd(rows, timeKey, keys, parse).Success?
    ensures ValuesFrom(WriteCtd(rows, timeKey, keys, parse).value.vars, rows, keys, parse)
  {
    CtdShape(rows, timeKey, keys, parse);
    StoredColumns(rows, timeKey, keys, parse);
    var recs := ReadRows(rows, timeKey, keys).value;
    var cols := Columns(recs, 6, 0, parse).value;
    GpctdVarsHold(cols);
    ValuesFromColumns(GpctdVars(cols), cols, rows, keys, parse);
  }

  lemma CtdMeta(rows: seq<Row>, timeKey: string, keys: seq<string>, parse: string -> Option<real>)
    requires |keys| == 6 && WriteCtd(rows, timeKey, keys, parse).Success?
    ensures var f := WriteCtd(rows, timeKey, keys, parse).value;
      |f.vars| == 6 && MetaFrom(f.meta, rows, timeKey, f.vars[0].values, f.vars[1].values, f.vars[2].values)
  {
    CtdShape(rows, timeKey, keys, parse);
    Stored(rows, timeKey, keys, parse);
    var recs := ReadRows(rows, timeKey, keys).value;
    GpctdVarsHold(Columns(recs, 6, 0, parse).value);
    assert ReadRow(rows[0], timeKey, keys).Success? && ReadRow(rows[|rows| - 1], timeKey, keys).Success?;
  }

  lemma WriteCtdContent(rows: seq<Row>, timeKey: string, keys: seq<string>, parse: string -> Option<real>)
    requires |keys| == 6 && WriteCtd(rows, timeKey, keys, parse).Success?
    ensures var f := WriteCtd(rows, timeKey, keys, parse).value;
      |f.vars| == 6 && TimesFrom(f.time, rows, timeKey) && ValuesFrom(f.vars, rows, keys, parse)
      && MetaFrom(f.meta, rows, timeKey, f.vars[0].values, f.vars[1].values, f.vars[2].values)
  {
    CtdTimes(rows, timeKey, keys, parse);
    CtdValues(rows, timeKey, keys, parse);
    CtdMeta(rows, timeKey, keys, parse);
  }

  /** The file is written exactly when every record reads, every field
      parses and there is at least one record. The error is that of the
      first record that fails to read, or a `ValueError`: from a field that
      does not parse, or from the extent of an empty file. */
  lemma WriteGpctdMeans(rows: seq<Row>, parse: string -> Option<real>)
    ensures var res := WriteGpctd(rows, parse);
      res.Success? <==> AllRead(rows, GpctdTime, GpctdKeys) && AllParse(rows, GpctdKeys, parse) && |rows| > 0
    ensures var res := WriteGpctd(rows, parse);
      !AllRead(rows, GpctdTime, GpctdKeys) ==>
        res.Failure? && ReadRows(rows, GpctdTime, GpctdKeys).Failure? && res.error == ReadRows(rows, GpctdTime, GpctdKeys).error
    ensures var res := WriteGpctd(rows, parse);
      res.Failure? && AllRead(rows, GpctdTime, GpctdKeys) ==> res.error == ValueError
  {
    WriteCtdMeans(rows, GpctdTime, GpctdKeys, parse);
  }

  /** A written file holds one time and one value per record in each
      variable, in record order, and its metadata spans them. */
  lemma WriteGpctdContent(rows: seq<Row>, parse: string -> Option<real>)
    requires WriteGpctd(rows, parse).Success?
    ensures var f := WriteGpctd(rows, parse).value;
      |f.vars| == 6 && TimesFrom(f.time, rows, GpctdTime) && ValuesFrom(f.vars, rows, GpctdKeys, parse)
      && MetaFrom(f.meta, rows, GpctdTime, f.vars[0].values, f.vars[1].values, f.vars[2].values)
  {
    WriteCtdContent(rows, GpctdTime, GpctdKeys, parse);
  }

  // ---------------------------------------------------------------------
  // write_pco2

  const Pco2Time: string := "PCO2 Timestamp"

  /** The header of the pCO2 file, less the timestamp. */
  const Pco2Vars: seq<string> := [
    "Latitude", "Longitude", "EquilPumpOn pco2", "EquilPumpOn Temp", "EquilPumpOn Pressure",
    "EquilPumpOff pco2", "EquilPumpOff Temp", "EquilPumpOff Pressure", "EquilPumpOff Humidity",
    "ZeroPumpOn pco2", "ZeroPumpOn Temp", "ZeroPumpOn Pressure", "ZeroPumpOff pco2", "ZeroPumpOff Temp",
    "ZeroPumpOff Pressure", "AirPumpOn pco2", "AirPumpOn Temp", "AirPumpOn Pressure", "AirPumpOff pco2",
    "AirPumpOff Temp", "AirPumpOff Pressure", "AirPumpOff Humidity", "StandardFlowOn Pressure",
    "StandardFlowOff pco2", "StandardFlowOff Temp", "StandardFlowOff Pressure",
    "StandardFlowOff pco2 Humidity", "Durafet pH 1", "Durafet pH 2", "Durafet pH 3", "Durafet pH 4",
    "Durafet pH 5", "Durafet pH 6", "Can Humidity"]

  /** The CSV header of each variable: `' ' + v`, the leading space the
      file has after each comma. */
  function KeysOf(names: seq<string>): (keys: seq<string>)
    ensures |keys| == |names| && forall k :: 0 <= k < |keys| ==> keys[k] == " " + names[k]
  {
    seq(|names|, k requires 0 <= k < |names| => " " + names[k])
  }

  /** `v.replace(' ', '_', 42)`. */
  function NcName(v: string): string
  {
    ReplaceN(v, " ", "_", 42)
  }

  /** Only the coordinates are upper case, to match the glider files. */
  function VarName(v: string): string
  {
    if v == "Latitude" || v == "Longitude" then Upper(NcName(v)) else NcName(v)
  }

  /** The instance attribute the variable is bound to. */
  function AttrName(v: string): string
  {
    Lower(NcName(v))
  }

  /** `np.zeros(n)`. */
  function Zeros(n: nat): (z: seq<real>)
    ensures |z| == n && forall i :: 0 <= i < n ==> z[i] == 0.0
  {
    seq(n, _ => 0.0)
  }

  /** One variable per header, named after it, then the zero `DEPTH`. */
  function NamedVars(names: seq<string>, cols: seq<seq<real>>, n: nat): (vs: seq<Var>)
    requires |cols| == |names|
    ensures |vs| == |names| + 1
    ensures forall k :: 0 <= k < |names| ==> vs[k] == Var(VarName(names[k]), names[k], None, None, cols[k])
    ensures vs[|names|] == Var("DEPTH", "Depth", Some("depth"), Some("m"), Zeros(n))
  {
    seq(|names|, k requires 0 <= k < |names| => Var(VarName(names[k]), names[k], None, None, cols[k]))
    + [Var("DEPTH", "Depth", Some("depth"), Some("m"), Zeros(n))]
  }

  lemma NamedVarsHold(names: seq<string>, cols: seq<seq<real>>, n: nat)
    requires |cols| == |names|
    ensures |NamedVars(names, cols, n)| >= |names|
    ensures forall k :: 0 <= k < |names| ==> NamedVars(names, cols, n)[k].values == cols[k]
  {
  }

  /** `write_pco2`: every column becomes a variable with the header as its
      long name, followed by a zero `DEPTH`. The per-column lists exist only
      once a record has been read, so an empty file ends in `NameError`. */
  function WritePco2(rows: seq<Row>, parse: string -> Option<real>): (res: Result<NcFile, NcError>)
  {
    WriteNamed(rows, Pco2Time, Pco2Vars, parse)
  }

  /** The pCO2 writer for a given timestamp header and variable headers,
      the first two being the coordinates. */
  function WriteNamed(rows: seq<Row>, timeKey: string, names: seq<string>, parse: string -> Option<real>): (res: Result<NcFile, NcError>)
    requires |names| >= 2
  {
    var recs :- ReadRows(rows, timeKey, KeysOf(names));
    if |recs| == 0 then Failure(NameError)
    else
      var cols :- Columns(recs, |names|, 0, parse);
      var meta := Metadata(Whens(recs), cols[0], cols[1], Zeros(|recs|)).value;
      Success(NcFile(Times(recs, |names|), NamedVars(names, cols, |recs|), meta))
  }

  lemma WriteNamedMeans(rows: seq<Row>, timeKey: string, names: seq<string>, parse: string -> Option<real>)
    requires |names| >= 2
    ensures var res := WriteNamed(rows, timeKey, names, parse);
      res.Success? <==> AllRead(rows, timeKey, KeysOf(names)) && AllParse(rows, KeysOf(names), parse) && |rows| > 0
    ensures var res := WriteNamed(rows, timeKey, names, parse);
      !AllRead(rows, timeKey, KeysOf(names)) ==>
        res.Failure? && ReadRows(rows, timeKey, KeysOf(names)).Failure? && res.error == ReadRows(rows, timeKey, KeysOf(names)).error
    ensures var res := WriteNamed(rows, timeKey, names, parse);
      res.Failure? && AllRead(rows, timeKey, KeysOf(names)) ==> res.error == (if |rows| == 0 then NameError else ValueError)
  {
    ReadRowsMeans(rows, timeKey, KeysOf(names));
    if AllRead(rows, timeKey, KeysOf(names)) {
      Stored(rows, timeKey, KeysOf(names), parse);
    }
  }

  lemma NamedShape(rows: seq<Row>, timeKey: string, names: seq<string>, parse: string -> Option<real>)
    requires |names| >= 2 && WriteNamed(rows, timeKey, names, parse).Success?
    ensures AllRead(rows, timeKey, KeysOf(names)) && |rows| > 0
    ensures ReadRows(rows, timeKey, KeysOf(names)).Success?
    ensures var recs := ReadRows(rows, timeKey, KeysOf(names)).value;
      |recs| == |rows| && Columns(recs, |names|, 0, parse).Success?
      && var cols := Columns(recs, |names|, 0, parse).value;
      WriteNamed(rows, timeKey, names, parse).value
        == NcFile(Times(recs, |names|), NamedVars(names, cols, |recs|), Metadata(Whens(recs), cols[0], cols[1], Zeros(|recs|)).value)
  {
    WriteNamedMeans(rows, timeKey, names, parse);
  }

  lemma NamedTimes(rows: seq<Row>, timeKey: string, names: seq<string>, parse: string -> Option<real>)
    requires |names| >= 2 && WriteNamed(rows, timeKey, names, parse).Success?
    ensures TimesFrom(WriteNamed(rows, timeKey, names, parse).value.time, rows, timeKey)
  {
    NamedShape(rows, timeKey, names, parse);
    Stored(rows, timeKey, KeysOf(names), parse);
    assert forall i :: 0 <= i < |rows| ==> ReadRow(rows[i], timeKey, KeysOf(names)).Success?;
  }

  lemma NamedValues(rows: seq<Row>, timeKey: string, names: seq<string>, parse: string -> Option<real>)
    requires |names| >= 2 && WriteNamed(rows, timeKey, names, parse).Success?
    ensures var f := WriteNamed(rows, timeKey, names, parse).value;
      |f.vars| == |names| + 1 && ValuesFrom(f.vars, rows, KeysOf(names), parse)
  {
    NamedShape(rows, timeKey, names, parse);
    StoredColumns(rows, timeKey, KeysOf(names), parse);
    var recs := ReadRows(rows, timeKey, KeysOf(names)).value;
    var cols := Columns(recs, |names|, 0, parse).value;
    var vars := NamedVars(names, cols, |recs|);
    assert WriteNamed(rows, timeKey, names, parse).value.vars == vars;
    NamedVarsHold(names, cols, |recs|);
    ValuesFromColumns(vars, cols, rows, KeysOf(names), parse);
  }

  lemma NamedLabels(rows: seq<Row>, timeKey: string, names: seq<string>, parse: string -> Option<real>)
    requires |names| >= 2 && WriteNamed(rows, timeKey, names, parse).Success?
    ensures var f := WriteNamed(rows, timeKey, names, parse).value;
      |f.vars| == |names| + 1
      && (forall k :: 0 <= k < |names| ==> f.vars[k].name == VarName(names[k]) && f.vars[k].longName == names[k])
      && f.vars[|names|].name == "DEPTH" && f.vars[|names|].values == Zeros(|rows|)
  {
    NamedShape(rows, timeKey, names, parse);
  }

  lemma NamedMeta(rows: seq<Row>, timeKey: string, names: seq<string>, parse: string -> Option<real>)
    requires |names| >= 2 && WriteNamed(rows, timeKey, names, parse).Success?
    ensures var f := WriteNamed(rows, timeKey, names, parse).value;
      |f.vars| == |names| + 1
      && MetaFrom(f.meta, rows, timeKey, f.vars[0].values, f.vars[1].values, Zeros(|rows|))
      && f.meta.verticalMin == 0.0 && f.meta.verticalMax == 0.0
  {
    NamedShape(rows, timeKey, names, parse);
    Stored(rows, timeKey, KeysOf(names), parse);
    assert ReadRow(rows[0], timeKey, KeysOf(names)).Success? && ReadRow(rows[|rows| - 1], timeKey, KeysOf(names)).Success?;
    var z := Zeros(|rows|);
    assert z[0] == 0.0;
  }

  /** The file is written exactly when every record reads, every field
      parses and there is at least one record. The error is that of the
      first record that fails to read; with no records, the `NameError` of
      the list that was never made; else the `ValueError` of a field that
      does not parse. */
  lemma WritePco2Means(rows: seq<Row>, parse: string -> Option<real>)
    ensures var res := WritePco2(rows, parse);
      res.Success? <==> AllRead(rows, Pco2Time, KeysOf(Pco2Vars)) && AllParse(rows, KeysOf(Pco2Vars), parse) && |rows| > 0
    ensures var res := WritePco2(rows, parse);
      !AllRead(rows, Pco2Time, KeysOf(Pco2Vars)) ==>
        res.Failure? && ReadRows(rows, Pco2Time, KeysOf(Pco2Vars)).Failure? && res.error == ReadRows(rows, Pco2Time, KeysOf(Pco2Vars)).error
    ensures var res := WritePco2(rows, parse);
      res.Failure? && AllRead(rows, Pco2Time, KeysOf(Pco2Vars)) ==> res.error == (if |rows| == 0 then NameError else ValueError)
  {
    WriteNamedMeans(rows, Pco2Time, Pco2Vars, parse);
  }

  /** Variable k holds column k under its derived name with the header as
      its long name; a zero `DEPTH` follows, and the file's times and
      metadata come from the records as for the CTD file, with a vertical
      extent of zero. */
  lemma WritePco2Content(rows: seq<Row>, parse: string -> Option<real>)
    requires WritePco2(rows, parse).Success?
    ensures var f := WritePco2(rows, parse).value;
      |f.vars| == |Pco2Vars| + 1
      && TimesFrom(f.time, rows, Pco2Time) && ValuesFrom(f.vars, rows, KeysOf(Pco2Vars), parse)
      && (forall k :: 0 <= k < |Pco2Vars| ==> f.vars[k].name == VarName(Pco2Vars[k]) && f.vars[k].longName == Pco2Vars[k])
      && f.vars[|Pco2Vars|].name == "DEPTH" && f.vars[|Pco2Vars|].values == Zeros(|rows|)
      && MetaFrom(f.meta, rows, Pco2Time, f.vars[0].values, f.vars[1].values, Zeros(|rows|))
      && f.meta.verticalMin == 0.0 && f.meta.verticalMax == 0.0
  {
    NamedTimes(rows, Pco2Time, Pco2Vars, parse);
    NamedValues(rows, Pco2Time, Pco2Vars, parse);
    NamedLabels(rows, Pco2Time, Pco2Vars, parse);
    NamedMeta(rows, Pco2Time, Pco2Vars, parse);
  }

  lemma NoSpace(v: string)
    requires ' ' !in v && |v| <= 42
    ensures NcName(v) == v
  {
    ReplaceNChar(v, ' ', '_', 42);
    SwapAbsent(v, ' ', '_');
  }

  /** The headers are short: the count of 42 covers every space. */
  lemma Pco2Lengths()
    ensures forall k :: 0 <= k < |Pco2Vars| ==> |Pco2Vars[k]| <= 42
    ensures forall k :: 2 <= k < |Pco2Vars| ==> |Pco2Vars[k]| >= 12
  {
  }

  /** `v.replace(' ', '_', 42)` of a header: the same length, no space. */
  lemma NcNameOf(v: string)
    requires |v| <= 42
    ensures ' ' !in NcName(v) && |NcName(v)| == |v|
  {
    ReplaceNChar(v, ' ', '_', 42);
    SwapRemoves(v, ' ', '_');
  }

  /** The coordinates keep their header as the NetCDF name, in upper case,
      and are bound to its lower-case spelling. */
  lemma CoordinateNames()
    ensures Pco2Vars[0] == "Latitude" && Pco2Vars[1] == "Longitude"
    ensures VarName(Pco2Vars[0]) == Upper(Pco2Vars[0]) && AttrName(Pco2Vars[0]) == Lower(Pco2Vars[0])
    ensures VarName(Pco2Vars[1]) == Upper(Pco2Vars[1]) && AttrName(Pco2Vars[1]) == Lower(Pco2Vars[1])
  {
    var lat, lon := Pco2Vars[0], Pco2Vars[1];
    NoSpace(lat);
    NoSpace(lon);
  }

  /** Headers of at most 42 characters lose every space and keep their
      length. */
  lemma NamesClean(names: seq<string>)
    requires forall k :: 0 <= k < |names| ==> |names[k]| <= 42
    ensures forall k :: 0 <= k < |names| ==> ' ' !in NcName(names[k]) && |NcName(names[k])| == |names[k]|
  {
    forall k | 0 <= k < |names| ensures ' ' !in NcName(names[k]) && |NcName(names[k])| == |names[k]| {
      NcNameOf(names[k]);
    }
  }

  /** Attribute names are as long as their headers. */
  lemma AttrLengths(names: seq<string>)
    requires forall k :: 0 <= k < |names| ==> |names[k]| <= 42
    ensures forall k :: 0 <= k < |names| ==> |AttrName(names[k])| == |names[k]|
  {
    NamesClean(names);
  }

  /** Headers short enough for the count of 42 to cover every space, the
      coordinates first and every later header longer than both. */
  predicate Headed(names: seq<string>)
  {
    |names| >= 2
    && (forall k :: 0 <= k < |names| ==> |names[k]| <= 42)
    && |"depth"| < |names[0]| < |names[1]|
    && forall k :: 2 <= k < |names| ==> |names[1]| < |names[k]|
  }

  /** For such headers every variable name is the header with its spaces
      turned into underscores, so no name holds a space; no column after
      the coordinates is bound to an attribute of the coordinates' length
      or to `depth` or `time`, so `self.latitude`, `self.longitude`,
      `self.depth` and `self.time` are the ones the metadata needs. */
  lemma HeadedNames(names: seq<string>)
    requires Headed(names)
    ensures forall k :: 0 <= k < |names| ==> ' ' !in NcName(names[k]) && |NcName(names[k])| == |names[k]|
    ensures forall k :: 2 <= k < |names| ==>
      |AttrName(names[k])| > |AttrName(names[1])| > |AttrName(names[0])| > |"depth"| > |"time"|
    ensures forall k :: 2 <= k < |names| ==>
      AttrName(names[k]) !in {AttrName(names[0]), AttrName(names[1]), "depth", "time"}
    ensures AttrName(names[0]) != AttrName(names[1])
  {
    NamesClean(names);
    AttrLengths(names);
  }

  /** The pCO2 headers are such headers. */
  lemma Pco2Headed()
    ensures Headed(Pco2Vars)
  {
    Pco2Lengths();
  }

  // ---------------------------------------------------------------------
  // The script

  const GpctdOut: string := "waveglider_gpctd_WG.nc"
  const Pco2Out: string := "waveglider_pco2_WG.nc"

  /** The two lines the script prints, after writing the CTD file and then
      the pCO2 file. */
  function Report(v: Variant): (r: seq<string>)
    ensures |r| == 2 && r[0] == "Wrote " + GpctdOut
    ensures v.Corrected? ==> r[1] == "Wrote " + Pco2Out
  {
    ["Wrote " + GpctdOut, "Wrote " + (if v.AsWritten? then GpctdOut else Pco2Out)]
  }

  /** As written, the second line repeats the first file's name and never
      names the pCO2 file. */
  lemma AsWrittenReportsCtdTwice()
    ensures Report(AsWritten)[1] == Report(AsWritten)[0]
    ensures forall k :: 0 <= k < 2 ==> Report(AsWritten)[k] != "Wrote " + Pco2Out
  {
    assert GpctdOut != Pco2Out by {
      assert GpctdOut[11] != Pco2Out[11];
    }
    assert "Wrote " + GpctdOut != "Wrote " + Pco2Out by {
      assert ("Wrote " + GpctdOut)[17] != ("Wrote " + Pco2Out)[17];
    }
  }
}

=== FILE: wrappers.dfy ===
/** Failure-compatible wrappers shared by every module of the model.
    `Option` stands for Python's `None`-or-value results, `Result` for a
    value or the exception the source would raise. */
module Wrappers {

  datatype Option<+T> = None | Some(value: T) {
    predicate IsFailure() { None? }

    function PropagateFailure<U>(): Option<U>
      requires None?
    {
      None
    }

    function Extract(): T
      requires Some?
    {
      value
    }

    function GetOr(default: T): (r: T)
      ensures Some? ==> r == value
      ensures None? ==> r == default
    {
      match this
      case Some(v) => v
      case None => default
    }
  }

  datatype Result<+R, +E> = Success(value: R) | Failure(error: E) {
    predicate IsFailure() { Failure? }

    function PropagateFailure<U>(): Result<U, E>
      requires Failure?
    {
      Failure(error)
    }

    function Extract(): R
      requires Success?
    {
      value
    }
  }
}
